=== FILE: README.md ===
# CivicLens core in Dafny

CivicLens lets citizens report local civic issues with a location and photos,
upvote and comment on them, and lets authorities publish civic updates
(events, hazards, projects, alerts, utility notices) for affected areas. This
project models the query-and-engagement core of its Express/MongoDB backend
and the pure rules of its React pages, and proves what they promise.

What is modelled:

- **The store.** The MongoDB collections become a `Db.Store` class holding
  sequences of issues, civic updates, contacts and users. Every service
  operation is a method that `modifies` the store. Each method is proved
  against a specification function of the old store and keeps the store's
  invariant (unique ids, valid documents).
- **The query language.** The subset of the Mongo query language that the
  services build is written out as data: conjunctions of equality,
  `$exists`, text search and regex disjunctions. `Query.Matches` gives its
  meaning. A dotted path on an array field (`comments.userId`,
  `affectedAreas.state`) matches when some element has the value. Separate
  dotted conditions may be met by different elements.
- **Sorting and paging.** Sorting is a stable insertion sort on the
  `field:dir` key, and paging is the `skip`/`limit` window.
- **Oracles.** `$text` search and regex matching are parameters
  (`Query.Oracles`), and so are:
  - JWT verification;
  - `JSON.parse`;
  - the ISO 8601 check and date parsing;
  - the image upload service;
  - the geocoding answer;
  - number-to-text and text-to-number conversion in the schema casts.
- **Errors.** `ApiError` and its six subclasses carry the status codes of
  RFC 9110 (sections 15.5 and 15.6). Any other thrown error is a `Crash`,
  which the error handler turns into a 500.
- **The route tables.** Route matching and the authentication and role
  gates are modelled, together with the express-validator chains in front
  of the handlers.
- **The frontend rules:**
  - the map page's filter, marker placement and list replacement;
  - the civic updates page's filter effect;
  - the authority dashboard's form helpers, payload sanitising, edit mapping
    and redirect;
  - the report page's location rules, image list and submit request;
  - the route guard.

Where the specification and the code disagree, the model follows the code:

- The HTTP list handler's default sort `-createdAt` has no `:dir` part. The
  service therefore sorts ascending on a field literally named `-createdAt`.
  No document has that field, so results come back in stored order, not
  newest first.
- The comment delete matches the comment id and the author on possibly
  different comments. A user who wrote some other comment on the issue gets
  the issue back unchanged, with no error.
- The authority dashboard redirects every role but `authority`, although the
  route guard also admits `admin`.

## Model

| member | source | states |
|---|---|---|
| ApiErrors.NewApiError | backend/src/utils/apiError.ts:3-21 | an ApiError keeps the given status code and message; isOperational defaults to true |
| ApiErrors.Raise | backend/src/utils/apiError.ts:24-58 | each subclass has its fixed status code (400, 404, 401, 403, 409, 500) and uses the given message or its default one |
| ApiErrors.SubclassesFollowRfc9110 | backend/src/utils/apiError.ts:24-58 | the five client subclasses give 4xx codes and InternalServerError a 5xx code; distinct subclasses have distinct codes; the default message is the RFC 9110 reason phrase |
| ApiErrors.HandleError | backend/src/middlewares/error.middleware.ts:12-30 | an ApiError yields its own status and message; any other error yields 500 "Internal Server Error"; success is always false |
| ApiErrors.CrashDetailsHidden | backend/src/middlewares/error.middleware.ts:27-30 | two non-ApiError failures give identical responses whatever their messages, and the status is a server error |
| ApiErrors.SubclassReachesClient | backend/src/middlewares/error.middleware.ts:12-19 | a raised subclass reaches the client with its class's status and the message it was raised with |
| Auth.ReplaceLeadingPrefix | backend/src/middlewares/auth.middleware.ts:22 | replacing the first occurrence of a prefix the header starts with removes exactly that prefix |
| Auth.BearerToken | backend/src/middlewares/auth.middleware.ts:18-22 | a missing header or one not starting with "Bearer " fails with Unauthorized "Authentication required"; otherwise the token is the rest of the header, trimmed |
| Auth.FindUser | backend/src/middlewares/auth.middleware.ts:33-36 | the user found is in the collection and has the id, compared as ObjectIds (any letter case); None exactly when no user has it |
| Auth.TokenUser | backend/src/middlewares/auth.middleware.ts:25-36 | a token that fails verification gives "Invalid or expired token"; a verified id succeeds exactly when a user has that ObjectId, and otherwise gives "User not found" |
| Auth.Authenticate | backend/src/middlewares/auth.middleware.ts:18-43 | the header check comes first and its failure is returned; otherwise the result is the token's user or the token's failure |
| Auth.Request.Auth | backend/src/middlewares/auth.middleware.ts:39-43 | req.user is set to the authenticated user only when every check passes, and left as it was on failure |
| Auth.Authorize | backend/src/middlewares/auth.middleware.ts:46-52 | passes exactly when there is a user whose role is in the list; otherwise Forbidden with the fixed message |
| JsNumbers.ParseInt | backend/src/controllers/issues.controller.ts:112-113 | parseInt of a missing value or of the empty string is NaN |
| JsNumbers.ParseIntDecimal | backend/src/controllers/issues.controller.ts:112-113 | parseInt reads the decimal digits of a natural number followed by any non-digit tail back as that number |
| JsNumbers.ParseIntNegativeDecimal | backend/src/controllers/issues.controller.ts:112-113 | with a leading minus sign it reads the negated number |
| JsNumbers.IntOr | backend/src/controllers/issues.controller.ts:112-113 | `parseInt(x) \|\| fallback` is the fallback when parsing gives NaN or 0, and the parsed number otherwise |
| Query.QueryConjunction | backend/src/services/issues.service.ts:88-129 | the empty query matches every document, and the query's keys are a conjunction: the concatenation matches exactly when both parts match |
| Query.ParseSortBy | backend/src/services/issues.service.ts:135-141 | with no sortBy, the service's default sort is used |
| Query.ParseSortByForms | backend/src/services/issues.service.ts:136-138 | "f:desc" sorts f descending; "f:x" with any other x, and a bare "f", sort f ascending |
| Query.PrecedesTotalPreorder | backend/src/services/issues.service.ts:147-148 | the sort order on BSON values is a total preorder in both directions |
| Query.SortDocsCorrect | backend/src/services/issues.service.ts:147-148 | the sorted documents are ordered by the key and are a permutation of the input |
| Query.NumberOr | backend/src/services/issues.service.ts:131-132 | `n \|\| fallback` keeps a given non-zero number and otherwise takes the fallback |
| Query.Paginate | backend/src/services/issues.service.ts:149-150 | a negative skip is an error; otherwise the page holds at most \|limit\| documents, each the one skip places further on |
| Query.PagingOf | backend/src/services/issues.service.ts:131-133 | limit defaults to 10 and page to 1, neither is zero, and skip = (page - 1) * limit |
| Query.FindPage | backend/src/services/issues.service.ts:146-155 | fails exactly on a negative skip; count is the number of matching documents, independent of skip and limit |
| Query.FindPageCorrect | backend/src/services/issues.service.ts:146-155 | every returned document is stored and matches; the page is sorted by the key and holds at most \|limit\| and at most count documents |
| IssueModel.CastString | backend/src/models/issues.model.ts:36-48 | the String cast: undefined and null stay unset, strings are kept, numbers and booleans become their text, an object with a string `_id` becomes the id, and other arrays and objects fail |
| IssueModel.RequiredString | backend/src/models/issues.model.ts:36-47 | a required string path holds exactly when the cast gives a non-empty string, and then holds that string |
| IssueModel.CastNumber | backend/src/models/issues.model.ts:32-35 | the Number cast of a coordinate: numbers kept, booleans 1 or 0, non-empty strings through `Number`, null, the empty string, arrays and objects no number |
| IssueModel.Numbers | backend/src/models/issues.model.ts:32-35 | an array casts exactly when every entry casts, and keeps the entries in order |
| IssueModel.CoordinatesOf | backend/src/models/issues.model.ts:32-35 | a missing value defaults to the empty array; a present one casts exactly when it is an array of castable entries |
| IssueModel.LocationOf | backend/src/models/issues.model.ts:31-49 | the location is stored exactly when the coordinates cast to numbers and are empty (stored without an index entry) or form a point the 2dsphere index accepts, state, district and pincode cast to non-empty strings, and the address casts; the stored fields are the cast values |
| IssueModel.EmptyCoordinatesStored | backend/src/models/issues.model.ts:32-35 | a location sent with `coordinates: []` and the required strings is stored, with empty coordinates |
| IssueModel.NumericPincodeStored | backend/src/models/issues.model.ts:44-47 | a pincode sent as a JSON number is stored as its text |
| IssueModel.NumericStringCoordinates | backend/src/models/issues.model.ts:32-35 | coordinates sent as numeric strings are stored as the numbers they denote |
| IssueModel.ShortPointRefused | backend/src/models/issues.model.ts:95 | a one-entry coordinate array is refused by the geospatial index, with a 500 |
| IssueModel.NewIssue | backend/src/models/issues.model.ts:6-92 | creation succeeds exactly when the trimmed title and description are non-empty, the category is one of six, any severity is one of four, the location casts and the reporter is an ObjectId; status defaults to reported, severity to medium, comments and upvotes start empty |
| IssueModel.IssueDoc | backend/src/models/issues.model.ts:96-102 | the document the queries see: each queried path holds the field's value, the comment paths hold every comment's id and author, the text index covers title, description, state, district and pincode but not the address, and a sort on any field sees the key SortKey gives |
| IssueModel.SortKeyIds | backend/src/services/issues.service.ts:135-138 | a sort on `_id`, reportedBy or assignedTo orders by ObjectId, an unassigned issue first; "-createdAt" is no field |
| IssueModel.SortKeyTexts | backend/src/services/issues.service.ts:135-138 | a sort on title, description, category, status, severity or createdAt orders by that field |
| IssueModel.SortKeyLocation | backend/src/services/issues.service.ts:135-138 | a sort on the location's state, district, pincode or address orders by it, a missing address first |
| Query.HexDigitsAscending | backend/src/models/issues.model.ts:54-61 | the hexadecimal digits in order of value are in character order, so the lower-case text of ObjectIds orders them as their bytes do |
| Query.CastId | backend/src/models/issues.model.ts:54-61 | the ObjectId cast keeps the length, maps an ObjectId string to one and nothing else to one, and prints an ObjectId in lower-case hexadecimal |
| Query.CastIdPrinted | backend/src/models/issues.model.ts:54-61 | casting the printed form of an id gives it back |
| Query.CastOptionalId | backend/src/services/issues.service.ts:116-117 | a filter value on an ObjectId path is present exactly when given, and is the cast of the given value |
| CivicUpdateModel.AreaOf | backend/src/models/civicUpdates.model.ts:22-32 | an affected area is valid exactly when its state is given and non-empty |
| CivicUpdateModel.AreasOf | backend/src/models/civicUpdates.model.ts:22-32 | the areas are cast one by one, in order |
| CivicUpdateModel.OptionalDate | backend/src/models/civicUpdates.model.ts:37 | a missing endDate stays missing; a given one must parse as a date |
| CivicUpdateModel.NewCivicUpdate | backend/src/models/civicUpdates.model.ts:7-56 | creation succeeds exactly when type, status and source are in their enums, the trimmed title and description are non-empty, every area has a state, startDate parses, any endDate parses and any severity is in its enum; an empty area list is allowed; no order between the dates is required |
| CivicUpdateModel.ApplyPatch | backend/src/services/civicUpdates.service.ts:21-25 | exactly the fields present in the patch are overwritten, title and description trimmed by their setters; id and createdAt are kept |
| CivicUpdateModel.PatchKeepsValid | backend/src/services/civicUpdates.service.ts:21-25 | a valid update stays valid under a patch whose own fields are valid |
| CivicUpdateModel.BlankPatchTextRefused | backend/src/models/civicUpdates.model.ts:12-21 | a patch whose title or description is blank once trimmed fails the update validators |
| CivicUpdateModel.AreaValues | backend/src/services/civicUpdates.service.ts:65-79 | a dotted area path holds a value exactly when some area has it in that field |
| CivicUpdateModel.UpdateDoc | backend/src/models/civicUpdates.model.ts:61-68 | each queried path holds the field's value, the area paths hold the values of all areas, the text index covers the indexed fields, and a sort on any field sees the key SortKey gives |
| CivicUpdateModel.SortKeyTexts | backend/src/services/civicUpdates.service.ts:89-92 | a sort on `_id` orders by ObjectId; on type, title, description or contactInfo by that field, a missing contact first |
| CivicUpdateModel.SortKeyStates | backend/src/services/civicUpdates.service.ts:89-92 | a sort on status, source, severity, startDate, endDate or createdAt orders by that field, a missing severity or end date first |
| ContactModel.ContactDoc | backend/src/services/contact.service.ts:22-36 | the contact paths that the queries read hold the contact's fields, and a sort on any field sees the key SortKey gives |
| ContactModel.SortKeyFields | backend/src/services/contact.service.ts:42-45 | a sort on `_id` orders by ObjectId, and on any other field of the contact by that field |
| ContactModel.ApplyContactPatch | backend/src/services/contact.service.ts:68-74 | exactly the fields present in the patch are overwritten, name, email and message trimmed by their setters; id and createdAt are kept |
| ContactModel.PatchedTextsTrimmed | backend/src/models/contact.model.ts:6-26 | patched name, email and message are stored trimmed, and a blank one is stored empty since no validator runs |
| IssuesService.UploadAll | backend/src/services/issues.service.ts:12-17 | the uploads succeed exactly when every file uploads, and the URLs are in file order; otherwise the upload failure is raised |
| IssuesService.UploadImages | backend/src/services/issues.service.ts:12-17 | the upload loop computes UploadAll |
| IssuesService.AwardPoints | backend/src/services/issues.service.ts:30 | the user whose ObjectId is the reporter's (in any letter case) gains exactly 10 points and every other user is unchanged; an unknown reporter changes nothing |
| IssuesService.CreateIssue | backend/src/services/issues.service.ts:9-33 | the issue is appended only after every upload succeeds and the schema accepts it, and only then does the reporter get 10 points; on failure nothing changes |
| IssuesService.FindIssue | backend/src/services/issues.service.ts:35-46 | for a well-formed id, succeeds exactly when an issue has that ObjectId, whatever the letter case of the request, and returns that issue; otherwise NotFound "Issue not found" |
| IssuesService.FindIssueAnyCase | backend/src/services/issues.service.ts:35-46 | with unique ids, any spelling of a stored issue's id that casts to the same ObjectId finds exactly that issue |
| IssuesService.DeleteIssue | backend/src/services/issues.service.ts:75-81 | removes exactly the issue with that ObjectId (any letter case), leaving the others in order and none with it; an unknown id raises NotFound and changes nothing |
| IssuesService.ApplyIssueUpdate | backend/src/services/issues.service.ts:55-69 | status and assignedTo are set only when truthy; a comment by the user is appended only when both comment and user id are present; every other field is unchanged |
| IssuesService.UpdateValidation | backend/src/services/issues.service.ts:55-71 | the saved document validates exactly when any new status is in the enum, any assignee is an ObjectId and any commenter is an ObjectId |
| IssuesService.UpdateIssue | backend/src/services/issues.service.ts:48-73 | an id matching no stored ObjectId raises NotFound; the stored issue with that ObjectId, in any letter case, becomes ApplyIssueUpdate of the old one, at its own position; nothing else changes |
| IssuesService.IndexOf | backend/src/services/issues.service.ts:175 | indexOf gives the first position holding the id, or -1 exactly when it is absent |
| IssuesService.ToggleCounts | backend/src/services/issues.service.ts:175-182 | a present id loses one occurrence and an absent one is appended at the end; no other id's count changes |
| IssuesService.ToggleKeepsOthers | backend/src/services/issues.service.ts:175-182 | the other ids keep their order |
| IssuesService.ToggleKeepsNoDuplicates | backend/src/services/issues.service.ts:175-182 | a duplicate-free upvote list stays duplicate-free |
| IssuesService.ToggleTwiceAbsent | backend/src/services/issues.service.ts:175-182 | toggling an absent id twice restores the list |
| IssuesService.ToggleTwicePresent | backend/src/services/issues.service.ts:175-182 | toggling a present id twice moves it to the end |
| IssuesService.ToggleTwice | backend/src/services/issues.service.ts:175-182 | two toggles restore membership and the multiset, and leave the other ids in order |
| IssuesService.UpvoteIssue | backend/src/services/issues.service.ts:171-186 | an id matching no stored ObjectId raises NotFound; otherwise the upvote list of the issue with that ObjectId (any letter case) is toggled for the user and only that issue changes, at its position |
| IssuesService.WithComment | backend/src/services/issues.service.ts:195 | $push appends exactly one comment at the end and keeps the earlier ones |
| IssuesService.AddComment | backend/src/services/issues.service.ts:188-203 | succeeds exactly when an issue has that ObjectId (any letter case), and stores that issue with the comment appended; otherwise NotFound and no change |
| IssuesService.PullComment | backend/src/services/issues.service.ts:212 | $pull never lengthens the comment list |
| IssuesService.PullCommentMembers | backend/src/services/issues.service.ts:212 | $pull removes exactly the comments with both that id and that author, and keeps the others in order |
| IssuesService.DeleteCommentResult | backend/src/services/issues.service.ts:205-218 | succeeds exactly when the issue with that ObjectId has a comment with the comment's ObjectId and a comment, possibly another, by the user, all compared as ObjectIds; otherwise NotFound "Comment not found or not authorized"; the result is the issue after the $pull |
| IssuesService.DeleteOthersComment | backend/src/services/issues.service.ts:207-212 | a user who wrote some other comment, asking to delete a comment they did not write, gets the issue back unchanged and no error |
| IssuesService.DeleteUndoesAdd | backend/src/services/issues.service.ts:188-218 | deleting a comment just added, by its author, restores the comment list |
| IssuesService.DeleteComment | backend/src/services/issues.service.ts:205-218 | the store method computes DeleteCommentResult and replaces only that issue |
| IssuesService.PulledStillValid | backend/src/services/issues.service.ts:212 | pulling comments keeps a valid issue valid |
| Query.EqualityTerm | backend/src/services/issues.service.ts:92-118 | a filter key adds one conjunct exactly when its value is truthy |
| IssuesService.EqualityTermMeaning | backend/src/services/issues.service.ts:92-118 | the conjunct holds exactly when the field equals the filter value |
| IssuesService.IssueQuery | backend/src/services/issues.service.ts:92-129 | the query is never empty; with no terms it is the match-all `$or` on `$exists` |
| IssuesService.BuildIssueQuery | backend/src/services/issues.service.ts:88-129 | filling the query key by key gives IssueQuery |
| IssuesService.IssueQueryMeaning | backend/src/services/issues.service.ts:92-129 | an issue matches exactly when it satisfies each truthy filter (category, status, severity, state, district, pincode, text search, and the reporter compared as an ObjectId); with no terms every issue matches |
| IssuesService.IssuesPage | backend/src/services/issues.service.ts:83-169 | fails exactly on a malformed userId filter (a cast crash), a negative skip, or a sort key that is no field path (empty, `$`-prefixed other than `$natural`, or with an empty dotted name); every failure is a crash, answered 500; count is the number of matching issues; the page holds no more than count issues |
| Query.SortedFind | backend/src/services/issues.service.ts:134-155 | a sorted, paged find fails exactly on a negative skip or a sort key that is no field path, always as a crash, and otherwise is the page of the selected items |
| Query.FieldPathNames | backend/src/services/issues.service.ts:136-138 | a sort key is a field path exactly when every dot-separated name is non-empty and does not start with `$` |
| Query.RefusedSortKeys | backend/src/services/issues.service.ts:136-138 | the keys "", "$x", "a." and "a..b" are refused |
| Query.AcceptedSortKeys | backend/src/services/issues.service.ts:136-138 | the keys "createdAt", "-createdAt" and "location.state" are accepted |
| IssuesService.GetIssues | backend/src/services/issues.service.ts:83-169 | the service method computes IssuesPage over the stored issues |
| IssuesService.IssuesPageCorrect | backend/src/services/issues.service.ts:146-155 | every listed issue is stored and matches, the page is sorted by the requested key, and with no terms count is the number of issues |
| IssuesService.ServiceDefaultNewestFirst | backend/src/services/issues.service.ts:139-141 | with no sortBy the service lists newest first |
| IssuesService.DashSortSpec | backend/src/services/issues.service.ts:136-138 | "-createdAt" parses as an ascending sort on a field named "-createdAt" |
| IssuesService.DashCreatedAtKeepsStoredOrder | backend/src/services/issues.service.ts:136-150 | sorting by "-createdAt" leaves the matching issues in stored order, windowed by skip and limit |
| IssuesController.FileError | backend/src/controllers/issues.controller.ts:19 | a file is accepted exactly when it comes in field `images`, within the first five, is an image and is within the size limit |
| IssuesController.AcceptFrom | backend/src/controllers/issues.controller.ts:19 | the files pass exactly when each does, and the first refused file's error is raised |
| IssuesController.AcceptedFiles | backend/src/controllers/issues.controller.ts:19 | accepted uploads are at most five images from field `images` |
| IssuesController.SixthFileRefused | backend/src/controllers/issues.controller.ts:19 | more than five files are refused |
| IssuesController.NormalizeLocation | backend/src/controllers/issues.controller.ts:30-43 | an unparseable location string gives 400 "Invalid location format"; no location at all crashes; falsy coordinates become [0, 0]; every other field is kept |
| IssuesController.CreateIssueHandler | backend/src/controllers/issues.controller.ts:18-58 | file and location errors come first; then the issue is created for the caller as CreateIssue would, with the points award; on failure nothing changes |
| IssuesController.HttpListOptions | backend/src/controllers/issues.controller.ts:111-115 | limit is parseInt(limit) or 100, page is parseInt(page) or 1, and sortBy is the given one or "-createdAt" |
| IssuesController.HttpListFallbacks | backend/src/controllers/issues.controller.ts:112-113 | a missing, empty, non-numeric or zero limit gives 100 and the same page gives 1; neither is ever 0 |
| IssuesController.HttpListDecimal | backend/src/controllers/issues.controller.ts:112-113 | a positive decimal limit or page is used as sent |
| IssuesController.HttpDefaultSortIsStoredOrder | backend/src/controllers/issues.controller.ts:114 | with no sortBy the HTTP list is in stored order, not newest first |
| IssuesController.GetIssuesHandler | backend/src/controllers/issues.controller.ts:108-133 | the handler returns the service's page for the HTTP defaults |
| IssuesController.UpdateIssueHandler | backend/src/controllers/issues.controller.ts:75-91 | the update is applied with the caller's id, so a comment in the body is always attributed to the caller |
| IssuesController.AddCommentHandler | backend/src/controllers/issues.controller.ts:150-174 | missing or empty text gives 400 "Comment text is required" before the store is touched; whitespace-only text is accepted; the comment's author is the caller and its time is set here |
| Routing.Dispatch | backend/src/routes/issues.routes.ts:19-43 | the first route, in registration order, whose verb and path pattern match handles the request; none when no route matches |
| Routing.DispatchFirst | backend/src/routes/issues.routes.ts:19-43 | a matching route with no matching route before it is the one dispatched |
| Routing.Gate | backend/src/routes/civicUpdates.routes.ts:17-20 | an open route passes; otherwise authentication must pass, and a role-gated route then needs the role in its list, else Forbidden |
| Routing.IssueRouteGates | backend/src/routes/issues.routes.ts:19-43 | listing and fetching one issue are the GET routes and need no authentication; every other issue route, PATCH and DELETE included, needs authentication only |
| Routing.IssueCollectionDispatch | backend/src/routes/issues.routes.ts:19-21 | GET and POST on the collection reach the list and create handlers |
| Routing.IssueByIdDispatch | backend/src/routes/issues.routes.ts:23-40 | GET, PATCH and DELETE on an id reach their handlers |
| Routing.IssueActionDispatch | backend/src/routes/issues.routes.ts:41-43 | the upvote, comment and comment-delete paths reach their handlers |
| Routing.IssuePatchErrors | backend/src/routes/issues.routes.ts:29-34 | the PATCH body passes exactly when any status is one of the five, any assignedTo is a Mongo id and any comment is non-empty once trimmed |
| Routing.Validate | backend/src/middlewares/validate.middleware.ts:6-14 | no errors passes the sanitised body on; otherwise a 400 with the messages joined |
| Routing.SanitizedIssuePatch | backend/src/routes/issues.routes.ts:29-34 | the comment is trimmed and status and assignedTo pass unchanged |
| Routing.IssuePatchPipeline | backend/src/routes/issues.routes.ts:25-38 | authentication comes first, then validation; the handler gets the caller and the sanitised body |
| Routing.ValidatedIssuePatchSaves | backend/src/routes/issues.routes.ts:25-38 | a PATCH that passes the validators always saves a valid issue |
| Routing.SearchBeforeId | backend/src/routes/civicUpdates.routes.ts:41-45 | GET /search reaches the search handler, never the by-id one; GET on any other id reaches the by-id handler |
| Routing.UpdateRouteGates | backend/src/routes/civicUpdates.routes.ts:17-68 | the GET routes are open; POST, PATCH and DELETE need an authenticated admin or authority |
| Routing.AreaStateErrors | backend/src/routes/civicUpdates.routes.ts:28 | no error exactly when every area has a state that is non-empty once trimmed |
| Routing.UpdateCreateErrors | backend/src/routes/civicUpdates.routes.ts:22-35 | the POST body passes exactly when the type, status and source enums hold, the trimmed title and description are non-empty, there is at least one area, each with a state, and startDate is ISO 8601 |
| Routing.SanitizedCreate | backend/src/routes/civicUpdates.routes.ts:25-28 | title, description and the area states are trimmed and nothing else changes |
| Routing.UpdateCreatePipeline | backend/src/routes/civicUpdates.routes.ts:17-39 | the role gate comes first, then the validators; the handler gets the sanitised body |
| Routing.ValidatedCreateSaves | backend/src/routes/civicUpdates.routes.ts:17-39 | after the validators, creation can fail only on date parsing or severity |
| Routing.UpdatePatchErrors | backend/src/routes/civicUpdates.routes.ts:51-63 | the PATCH body passes exactly when the optional title and description are non-blank and the optional status, endDate and severity are valid |
| Routing.UpdatePatchUnchecked | backend/src/routes/civicUpdates.routes.ts:51-63 | fields other than those five, affectedAreas among them, do not affect validation |
| Routing.SanitizedPatch | backend/src/routes/civicUpdates.routes.ts:52-53 | only title and description are trimmed |
| Routing.UpdatePatchPipeline | backend/src/routes/civicUpdates.routes.ts:47-66 | the role gate comes first, then the validators; the handler gets the sanitised body |
| CivicUpdatesService.CreateCivicUpdate | backend/src/services/civicUpdates.service.ts:7-9 | the update is appended exactly when the schema accepts it; nothing else changes |
| CivicUpdatesService.FindUpdate | backend/src/services/civicUpdates.service.ts:11-19 | for a well-formed id, succeeds exactly when an update has that ObjectId, whatever the letter case of the request, and otherwise raises NotFound |
| CivicUpdatesService.FindUpdateAnyCase | backend/src/services/civicUpdates.service.ts:11-19 | with unique ids, any spelling of a stored update's id that casts to the same ObjectId finds exactly that update |
| CivicUpdatesService.PatchResult | backend/src/services/civicUpdates.service.ts:21-32 | a malformed id or a patch the update validators refuse (a title or description blank once trimmed among them) is a crash; an id matching no stored ObjectId is NotFound; otherwise the result is the update with that ObjectId, patched |
| CivicUpdatesService.PatchCivicUpdate | backend/src/services/civicUpdates.service.ts:21-32 | the store method computes PatchResult and replaces only that update, at its position |
| CivicUpdatesService.EmptyPatchIsRead | backend/src/services/civicUpdates.service.ts:21-32 | an empty patch behaves as a read by id |
| CivicUpdatesService.DeleteCivicUpdate | backend/src/services/civicUpdates.service.ts:34-40 | removes exactly the update with that ObjectId (any letter case), leaving none with it; an unknown id raises NotFound and changes nothing |
| CivicUpdatesService.SearchTerm | backend/src/services/civicUpdates.service.ts:81-83 | a text-search term is added exactly when search is truthy |
| CivicUpdatesService.UpdateQuery | backend/src/services/civicUpdates.service.ts:49-83 | with no filter the query is empty, so it matches everything; it has at most nine terms |
| CivicUpdatesService.ScalarQuery | backend/src/services/civicUpdates.service.ts:49-63 | the type, status, severity and source conjuncts, at most four |
| CivicUpdatesService.AreaQuery | backend/src/services/civicUpdates.service.ts:65-83 | the area conjuncts and the search, at most five |
| CivicUpdatesService.BuildUpdateQuery | backend/src/services/civicUpdates.service.ts:47-83 | filling the query key by key gives UpdateQuery |
| CivicUpdatesService.ConjunctMeaning | backend/src/services/civicUpdates.service.ts:49-79 | a conjunct holds exactly when the path holds the filter value |
| CivicUpdatesService.SearchTermMeaning | backend/src/services/civicUpdates.service.ts:81-83 | the search term holds exactly when the text oracle accepts the indexed fields |
| CivicUpdatesService.ScalarQueryMeaning | backend/src/services/civicUpdates.service.ts:49-63 | the scalar conjuncts hold exactly when each truthy filter equals its field |
| CivicUpdatesService.AreaValuesMeaning | backend/src/services/civicUpdates.service.ts:65-79 | an area path holds a value exactly when some area has it |
| CivicUpdatesService.AreaQueryMeaning | backend/src/services/civicUpdates.service.ts:65-83 | each truthy area filter is met by some area, each on its own, and the search holds |
| CivicUpdatesService.UpdateQueryMeaning | backend/src/services/civicUpdates.service.ts:49-83 | an update matches exactly when it satisfies every truthy filter; with no filter every update matches |
| CivicUpdatesService.AreaConditionsIndependent | backend/src/services/civicUpdates.service.ts:65-79 | a state filter met by one area and a district filter met by another select the update, though no single area meets both |
| CivicUpdatesService.UpdatesPage | backend/src/services/civicUpdates.service.ts:85-102 | fails exactly on a negative skip or a sort key that is no field path (empty, `$`-prefixed other than `$natural`, or with an empty dotted name); every failure is a crash, answered 500; count is the number of matching updates |
| CivicUpdatesService.GetCivicUpdates | backend/src/services/civicUpdates.service.ts:42-105 | the service method computes UpdatesPage over the stored updates |
| CivicUpdatesService.UpdatesPageCorrect | backend/src/services/civicUpdates.service.ts:97-102 | every listed update is stored and matches, the page is sorted by the requested key and is no longer than count, and with no filter count is the number of updates |
| CivicUpdatesService.UpdatesDefaultLatestStartFirst | backend/src/services/civicUpdates.service.ts:89-95 | with no sortBy, updates are listed by startDate, latest first |
| CivicUpdatesService.StateTerm | backend/src/services/civicUpdates.service.ts:113-115 | the location search always constrains the area state path |
| CivicUpdatesService.LocationQueryOf | backend/src/services/civicUpdates.service.ts:113-127 | the state term comes first and district, pincode and area name add at most three more |
| CivicUpdatesService.BuildLocationQuery | backend/src/services/civicUpdates.service.ts:113-127 | filling the query key by key gives LocationQueryOf |
| CivicUpdatesService.StateTermMeaning | backend/src/services/civicUpdates.service.ts:113-115 | a given state must be some area's state; a missing state matches only updates with no areas |
| CivicUpdatesService.LocationQueryMeaning | backend/src/services/civicUpdates.service.ts:107-127 | an update matches exactly when it meets the state term and each truthy district, pincode and area name term |
| CivicUpdatesService.LocationResults | backend/src/services/civicUpdates.service.ts:107-130 | as many results as matching updates |
| CivicUpdatesService.SearchByLocation | backend/src/services/civicUpdates.service.ts:107-130 | the service method computes LocationResults |
| CivicUpdatesService.LocationResultsCorrect | backend/src/services/civicUpdates.service.ts:107-130 | the results are exactly the matching updates, latest startDate first |
| CivicUpdatesService.SearchWithoutState | backend/src/services/civicUpdates.service.ts:113-115 | without a state, only updates with no affected areas are found |
| CivicUpdatesController.UpdateListOptions | backend/src/controllers/civicUpdates.controller.ts:78-80 | limit is parseInt(limit) or 10, page is parseInt(page) or 1, and sortBy passes through |
| CivicUpdatesController.GetCivicUpdatesHandler | backend/src/controllers/civicUpdates.controller.ts:74-98 | the handler returns the service's page, and meta echoes page and limit and reports the unpaginated count as total |
| CivicUpdatesController.UpdateListDefaults | backend/src/controllers/civicUpdates.controller.ts:78-80 | a non-numeric or zero limit gives 10 and the same page gives 1; with no sortBy the list is latest startDate first |
| CivicUpdatesController.UpdateListPaging | backend/src/controllers/civicUpdates.controller.ts:78-79 | with a positive page and limit the list succeeds exactly when the sort key is accepted; a negative page fails |
| CivicUpdatesController.EmptySortKeyRefused | backend/src/services/civicUpdates.service.ts:90-102 | `sortBy=:desc` sorts on the empty key, which fails and is answered 500 |
| CivicUpdatesController.SearchByLocationHandler | backend/src/controllers/civicUpdates.controller.ts:100-118 | the query parameters are forwarded verbatim, a missing state included |
| CivicUpdatesController.PostCivicUpdate | backend/src/controllers/civicUpdates.controller.ts:14-27 | the role gate and validators come first; the sanitised body is passed unchanged to creation and appended on success |
| CivicUpdatesController.PatchCivicUpdateRequest | backend/src/controllers/civicUpdates.controller.ts:44-58 | the role gate and validators come first; the sanitised patch is applied as PatchResult |
| CivicUpdatesController.UncheckedAreasRefusedLate | backend/src/routes/civicUpdates.routes.ts:51-63 | a PATCH whose area has an empty state passes the validators but fails in the schema with a 500 |
| DashboardService.ResolutionRate | backend/src/services/dashboard.service.ts:32 | the rate is resolved/total * 100 when total > 0, and 0 otherwise |
| DashboardService.RateIsPercentage | backend/src/services/dashboard.service.ts:32 | the rate is between 0 and 100; it is 100 exactly when all are resolved and 0 exactly when none are |
| DashboardService.TopN | backend/src/services/dashboard.service.ts:11-18 | the top list has min(n, size) entries |
| DashboardService.TopNCorrect | backend/src/services/dashboard.service.ts:11-18 | the top list is a sub-multiset sorted by the key descending, and nothing left out ranks above anything kept |
| DashboardService.GroupByCorrect | backend/src/services/dashboard.service.ts:20-26 | one row per distinct value, each with its exact count, every value present, and the counts sum to the number of issues |
| DashboardService.DashboardStats | backend/src/services/dashboard.service.ts:6-38 | the two top lists hold at most five entries |
| DashboardService.StatsCounts | backend/src/services/dashboard.service.ts:7-9 | total is the number of issues, resolved counts status "resolved", and total = resolved + unresolved |
| DashboardService.StatsRate | backend/src/services/dashboard.service.ts:32 | the reported rate is ResolutionRate of the counts, between 0 and 100 |
| DashboardService.ResolvedSplit | backend/src/services/dashboard.service.ts:7-9 | every issue is resolved or unresolved, not both |
| DashboardService.StatsTopContributors | backend/src/services/dashboard.service.ts:11-14 | at most five users, points non-increasing, each a real user, and no user left out has more points than one listed |
| DashboardService.StatsRecentUpdates | backend/src/services/dashboard.service.ts:16-18 | at most five updates, newest createdAt first, and none left out is newer than one listed |
| DashboardService.StatsGroups | backend/src/services/dashboard.service.ts:20-26 | the category and status groups each sum to the number of issues, with one exact row per value |
| DashboardService.Corner | backend/src/services/dashboard.service.ts:46-54 | a corner is usable exactly when it is an array of two entries that both pass the Number cast (numbers, booleans, numeric strings), and is then the pair of cast numbers |
| DashboardService.StringCornerCast | backend/src/services/dashboard.service.ts:46-54 | a corner of two numeric strings is the pair of numbers they denote |
| DashboardService.MapDataUnbounded | backend/src/services/dashboard.service.ts:40-59 | without bounds every issue is projected, in order |
| DashboardService.MapDataBounded | backend/src/services/dashboard.service.ts:46-58 | with corners that cast to numbers exactly the issues inside the box the corners span, in either order, are projected, in order |
| DashboardService.InBoxCornerOrder | backend/src/services/dashboard.service.ts:46-53 | box membership does not depend on which corner is sw and which ne: each coordinate lies between the two corner values |
| DashboardService.MapDataBadCorners | backend/src/services/dashboard.service.ts:46-54 | a corner that is not a pair, or has an entry the Number cast refuses, makes the query fail with a 500 |
| DashboardController.ParseBounds | backend/src/controllers/dashboard.controller.ts:31-48 | bounds are kept only from a non-empty string that parses and, when truthy, has ne and sw arrays of length two; anything else becomes undefined |
| DashboardController.UnusableBoundsListAll | backend/src/controllers/dashboard.controller.ts:31-51 | a missing, non-string, unparseable, null or badly shaped bounds lists every issue |
| DashboardController.NumericBoundsFilter | backend/src/controllers/dashboard.controller.ts:38-51 | corners that cast to numbers filter the issues to the box they span, whichever corner is sent as ne |
| DashboardController.TextCornersPassShapeCheck | backend/src/controllers/dashboard.controller.ts:38-43 | corners ["a","b"] and ["c","d"] pass the shape check; when `Number` makes NaN of them the query fails with a 500 |
| DashboardController.StringCornersFilter | backend/src/controllers/dashboard.controller.ts:38-51 | corners sent as numeric strings pass the shape check, are cast, and filter the issues to the box they span, in either order |
| DashboardController.SwappedCornersListed | backend/src/controllers/dashboard.controller.ts:38-51 | `{"ne":[0,0],"sw":[10,10]}` lists an issue at [5, 5] |
| ContactService.SearchTerm | backend/src/services/contact.service.ts:30-36 | the regex disjunction is added exactly when search is truthy |
| ContactService.BuildContactQuery | backend/src/services/contact.service.ts:20-36 | filling the query key by key gives the contact query |
| ContactService.SearchTermMeaning | backend/src/services/contact.service.ts:30-36 | the search holds exactly when the pattern matches the name, email or message, case-insensitively |
| ContactService.ContactQueryMeaning | backend/src/services/contact.service.ts:22-36 | a contact matches exactly when the truthy status and subject are equal and the search holds; with no filter the query is empty |
| ContactService.ContactsPage | backend/src/services/contact.service.ts:38-55 | fails exactly on a negative skip or a sort key that is no field path (empty, `$`-prefixed other than `$natural`, or with an empty dotted name); every failure is a crash, answered 500; count is the number of matching contacts |
| ContactService.GetContacts | backend/src/services/contact.service.ts:11-58 | the service method computes ContactsPage |
| ContactService.ContactsPageCorrect | backend/src/services/contact.service.ts:38-55 | every listed contact is stored and matches, the page is sorted and bounded by limit and count, and with no filter count is the number of contacts |
| ContactService.ContactsDefaults | backend/src/services/contact.service.ts:38-48 | by default at most ten contacts, newest first |
| ContactService.FindContact | backend/src/services/contact.service.ts:60-66 | for a well-formed id, succeeds exactly when a contact has that ObjectId, whatever the letter case, else NotFound; a malformed id is a cast crash |
| ContactService.FindContactUnique | backend/src/services/contact.service.ts:60-66 | with unique ids, any spelling of a stored contact's id that casts to the same ObjectId finds exactly that contact |
| ContactService.ContactPatchResult | backend/src/services/contact.service.ts:68-74 | an id matching no stored ObjectId raises NotFound; otherwise the contact with that ObjectId (any letter case) with the patch applied |
| ContactService.UpdateContact | backend/src/services/contact.service.ts:68-74 | the store method computes ContactPatchResult and replaces only that contact |
| ContactService.DeleteContact | backend/src/services/contact.service.ts:76-78 | an unknown id succeeds silently and changes nothing; the contact with that ObjectId, in any letter case, is removed and none with it remains; only a malformed id fails |
| MapView.FilterIssuesCorrect | frontend/src/pages/MapView.tsx:76-92 | the filtered issues are an order-preserving subsequence, exactly those that every non-empty filter accepts, and all issues when every filter is empty |
| MapView.FiltersCompose | frontend/src/pages/MapView.tsx:77-90 | the four filters are a conjunction: applying them one at a time gives the same list |
| MapView.MarkerPlaceOf | frontend/src/pages/MapView.tsx:141-151 | [0, 0] is geocoded from the address; any other [lng, lat, ...] is placed at [lat, lng]; fewer than two entries give no place, and a stored location is unplaced exactly when its coordinates are empty |
| MapView.GeocodedAddress | frontend/src/pages/MapView.tsx:142-143 | the geocoded text is the address, or "district, state, pincode" without one |
| MapView.ReplaceById | frontend/src/pages/MapView.tsx:212-213 | only entries with the id are replaced, all others kept in place |
| MapView.ReplaceByIdIsSlotUpdate | frontend/src/pages/MapView.tsx:212-213 | with distinct ids, replacing by id is replacing at that issue's position |
| MapView.ReplaceAbsentId | frontend/src/pages/MapView.tsx:212-213 | an id not in the list changes nothing |
| MapView.UpvoteStep | frontend/src/pages/MapView.tsx:204-218 | signed out goes to /login; a failed request changes nothing; otherwise both lists replace that issue and the selection follows when it is that issue |
| MapView.CommentRequest | frontend/src/pages/MapView.tsx:220-224 | a comment is sent exactly when signed in, an issue is selected and the trimmed text is non-empty; the untrimmed text is sent |
| MapView.BlankCommentNotSent | frontend/src/pages/MapView.tsx:221 | whitespace-only text is never sent |
| MapView.AfterComment | frontend/src/pages/MapView.tsx:225-228 | after a comment is added, the returned issue replaces the selected one in both lists, becomes the selection, and the comment box is cleared |
| MapView.DeleteCommentStep | frontend/src/pages/MapView.tsx:235-247 | signed out, nothing selected or a failed request changes nothing; otherwise the returned issue replaces the selected one in both lists and becomes the selection; the comment box is never touched |
| MapView.DeleteKeepsCommentBox | frontend/src/pages/MapView.tsx:225-242 | a deletion updates the lists and selection as an added comment does, but keeps the text being typed |
| MapView.UpvoteMirrorsStore | frontend/src/pages/MapView.tsx:212-213 | after an upvote the page's list equals the server's list with the same issue replaced |
| MapView.CommentMirrorsStore | frontend/src/pages/MapView.tsx:225-242 | when the page holds the server's list with printed ids, both after a comment is added and after one is deleted the page's list equals the server's list with the selected issue replaced |
| MapView.DeleteButtonOwnerOnly | frontend/src/pages/MapView.tsx:524-527 | the button shows exactly for the signed-in author, whether the author id is populated or raw |
| CivicUpdatesPage.ApplyFilters | frontend/src/pages/CivicUpdates.tsx:64-118 | the running result after the six filters is the updates that every switched-on filter keeps, in order |
| CivicUpdatesPage.FilteredUpdatesCorrect | frontend/src/pages/CivicUpdates.tsx:64-118 | the result is an order-preserving subsequence, exactly the updates all filters keep, and everything when all filters are empty |
| CivicUpdatesPage.AreasMatchSeparately | frontend/src/pages/CivicUpdates.tsx:83-96 | a state filter and a district filter may be met by different areas |
| CivicUpdatesPage.PincodeCaseSensitive | frontend/src/pages/CivicUpdates.tsx:97-103 | the pincode filter is case-sensitive while the search box is not |
| AuthorityDashboard.SetAreaField | frontend/src/pages/AuthorityDashboard.tsx:125-129 | only the named field of the area changes |
| AuthorityDashboard.AreaInputOf | frontend/src/pages/AuthorityDashboard.tsx:167-172 | every field of a form area is sent |
| AuthorityDashboard.PayloadAreas | frontend/src/pages/AuthorityDashboard.tsx:169 | exactly the areas with a non-blank state are sent, in order |
| AuthorityDashboard.PayloadLinks | frontend/src/pages/AuthorityDashboard.tsx:170 | exactly the non-blank links are sent, in order |
| AuthorityDashboard.PayloadFields | frontend/src/pages/AuthorityDashboard.tsx:167-172 | an empty endDate becomes undefined; the other fields are sent as entered |
| AuthorityDashboard.PayloadAreasPassStateCheck | frontend/src/pages/AuthorityDashboard.tsx:167-172 | the areas sent always pass the server's state check |
| AuthorityDashboard.BlankAreasRefused | frontend/src/pages/AuthorityDashboard.tsx:167-172 | a form with no area state sends no areas, which the server refuses |
| AuthorityDashboard.SaveRequestOf | frontend/src/pages/AuthorityDashboard.tsx:174-180 | editing sends a PATCH to that id; otherwise a POST; the body is the payload |
| AuthorityDashboard.FormAreaOf | frontend/src/pages/AuthorityDashboard.tsx:218-223 | the area's state is kept |
| AuthorityDashboard.DatePart | frontend/src/pages/AuthorityDashboard.tsx:224-225 | a date is cut at its first "T" |
| AuthorityDashboard.EditForm | frontend/src/pages/AuthorityDashboard.tsx:212-233 | missing area fields become "", severity "medium", contact "", links [""], and dates are cut at "T" |
| AuthorityDashboard.EditThenSave | frontend/src/pages/AuthorityDashboard.tsx:212-233 | saving straight after editing sends the areas, the non-blank links, the date part and the severity default |
| AuthorityDashboard.UpdateForm.constructor | frontend/src/pages/AuthorityDashboard.tsx:72-84 | the form starts blank with one empty area and one empty link |
| AuthorityDashboard.UpdateForm.HandleAreaChange | frontend/src/pages/AuthorityDashboard.tsx:125-129 | only the named field of the area at the index changes |
| AuthorityDashboard.UpdateForm.AddArea | frontend/src/pages/AuthorityDashboard.tsx:131-136 | one blank area is appended |
| AuthorityDashboard.UpdateForm.RemoveArea | frontend/src/pages/AuthorityDashboard.tsx:138-142 | exactly the area at the index is removed, order kept |
| AuthorityDashboard.UpdateForm.HandleLinkChange | frontend/src/pages/AuthorityDashboard.tsx:144-148 | only the link at the index changes |
| AuthorityDashboard.UpdateForm.AddLink | frontend/src/pages/AuthorityDashboard.tsx:150-155 | one empty link is appended |
| AuthorityDashboard.UpdateForm.RemoveLink | frontend/src/pages/AuthorityDashboard.tsx:157-161 | exactly the link at the index is removed, order kept |
| AuthorityDashboard.UpdateForm.HandleEdit | frontend/src/pages/AuthorityDashboard.tsx:212-233 | the form holds EditForm of the update and records its id |
| AuthorityDashboard.UpdateForm.Saved | frontend/src/pages/AuthorityDashboard.tsx:196-210 | the form is reset to the initial one |
| AuthorityDashboard.AreaRowsSent | frontend/src/pages/AuthorityDashboard.tsx:131-136 | adding a blank area row does not change the payload |
| AuthorityDashboard.LinkRowsSent | frontend/src/pages/AuthorityDashboard.tsx:150-155 | adding an empty link row does not change the payload |
| AuthorityDashboard.DropDeletedCorrect | frontend/src/pages/AuthorityDashboard.tsx:241 | the list drops exactly the deleted id, keeps the rest in order, and is unchanged for an unknown id |
| AuthorityDashboard.DropDeletedAt | frontend/src/pages/AuthorityDashboard.tsx:241 | with distinct ids, dropping by id removes that one position |
| AuthorityDashboard.PageRedirect | frontend/src/pages/AuthorityDashboard.tsx:87-95 | signed out goes to /login; the page stays exactly for a loaded authority user |
| AuthorityDashboard.AdministratorsSentHome | frontend/src/pages/AuthorityDashboard.tsx:91-94 | an admin passes the route guard but the page sends them home |
| ReportIssue.SaveManualLocation | frontend/src/pages/ReportIssue.tsx:97-119 | refused exactly when state, district or pincode is empty; a saved location is at [0, 0] with address defaulting to "district, state" |
| ReportIssue.GpsLocation | frontend/src/pages/ReportIssue.tsx:149-159 | no address gives the fallback; otherwise [longitude, latitude] with "Unknown"/"000000" for missing names |
| ReportIssue.ApproximateLocation | frontend/src/pages/ReportIssue.tsx:175-183 | the fallback keeps the coordinates, names nothing and writes them into the address |
| ReportIssue.LocationsComplete | frontend/src/pages/ReportIssue.tsx:97-183 | every way of setting a location leaves state, district and pincode non-empty |
| ReportIssue.AddImages | frontend/src/pages/ReportIssue.tsx:78-83 | the chosen files are appended after the existing ones |
| ReportIssue.RemoveImageIsRemoveAt | frontend/src/pages/ReportIssue.tsx:85-90 | removing image i removes exactly position i, order kept |
| ReportIssue.Submit | frontend/src/pages/ReportIssue.tsx:198-228 | signed out goes to login; no location sends nothing and shows the error; otherwise the form is sent with the address falling back to "district, state" |
| ReportIssue.SentLocationCast | frontend/src/services/issues.ts:4-12 | the server accepts the sent location exactly when state, district and pincode are non-empty and the coordinates are empty or a point the geospatial index accepts, and keeps every field |
| ReportIssue.SentLocationShown | frontend/src/pages/ReportIssue.tsx:214-226 | every location the page can hold at a position on the globe is stored by the server and shown on the map: hand-entered ones by geocoding the address, located ones at their latitude and longitude |
| RouteGuard.Guard | frontend/src/components/AuthorizedRoute.tsx:13-25 | placeholder while loading, /login when signed out, / for a loaded user with a role not allowed, the outlet otherwise, including while the user is not yet loaded |
| RouteGuard.AuthorityRouteAdmits | frontend/src/App.tsx:53-54 | the authority route admits admins and sends citizens home |

## Left out

- Query.SortableField: a `$natural` sort keeps the stored order either way; Mongo returns reverse insertion order for a descending `$natural`. Sort keys naming DBRef fields (`$id`, `$ref`, `$db`) or holding NUL characters are not modelled.
- Mongo internals are out of scope:
  - `populate` and `lean` are left out; ids stay ids.
  - The `updatedAt` timestamp and the `aiAnalysis` field are not modelled.
  - The defaults that `getIssues` fills into returned issues (missing location, images, upvotes) are not modelled. Stored issues always have them.
  - Ties in a sort keep stored order. Mongo does not promise that order.
  - `$group` output is in first-appearance order. Mongo gives no order.
- Sorts on array paths (`upvotes`, `images`, `comments.*`, `affectedAreas.*`, `relatedLinks`) and on whole sub-documents (`location`, `comments`) see null here. Mongo sorts an array by its least or greatest element.
- IssueModel.CastNumber: a null or empty-string coordinate is refused wherever it sits. Mongo stores it as null when it comes after the first two entries.
- IssueModel.LocationOf: empty coordinates are stored without an index entry, since the 2dsphere index is sparse. The 2dsphere index rule is modelled as "at least two numbers, longitude within [-180, 180], latitude within [-90, 90]". Mongo's other geometry checks are not modelled.
- `String(n)` of a number and `Number(s)` of a string are parameters (`IssueModel.Conversions`).
- `$text` search and `$regex` matching are oracle parameters. The model does not capture stemming, stop words or regex syntax.
- `$box` inclusion is the closed box spanned by the two corners, in either order. This is an assumption about `$geoWithin`.
- DashboardService.Corner: a corner entry that is an object or array is refused, as the source refuses it with a cast error.
- Coordinates are exact reals, not floating point.
- A filter value of `undefined` (the location search without a state) is modelled as Mongo's null match. It finds only updates with no affected areas. This is an assumption.
- The ObjectId format check is a predicate on strings, and an ObjectId is its lower-case hexadecimal text (`Query.CastId`). A malformed id reaching the store is a cast crash (500).
- ObjectId fields written from requests (assignedTo, a comment's user id, an upvoter's id) are stored as sent. Mongo stores the cast value. Every match compares cast values, so this shows only in the stored text.
- IssuesService.UpvoteIssue: `upvotes.indexOf` compares the raw user id text. The controller passes the authenticated user's id as Mongo prints it.
- The model is sequential: one operation runs at a time. It leaves out:
  - the read-modify-write races in upvote and update;
  - the parallel page and count reads.
- JWT verification, `JSON.parse`, the ISO 8601 check, date parsing and the image upload are parameters. Crypto, bcrypt and user accounts beyond id, name, role and points are left out.
- `createContact` and the contact controller are not part of this model. The contact routes are never mounted.
- The dashboard stats handler is not modelled; it only forwards the service result.
- Express path splitting, CORS, rate limiting and logging are left out.
- JsNumbers.ParseInt: `parseInt` is modelled for the decimal and hex forms that matter here. Numbers beyond 2^53 keep full precision instead of rounding.
- Common.ToLower: `toLowerCase` is modelled for ASCII letters only.
- ReportIssue.GpsLocation: the geolocation API and the Nominatim request are browser and network I/O. Their answers are parameters, and `toFixed(4)` is a formatting parameter.
- The network requests the pages send, and their failures, are left out. Responses are parameters, and a failed request is `None`.
- React rendering, the Leaflet marker effect, toasts and `AuthContext` are left out.
- AuthorityDashboard.UpdateForm: `handleInputChange`, which sets one scalar form field by name, is not modelled. Only the area and link helpers, edit and reset are modelled.
- MapView.AfterComment: the guard of `handleAddComment` is `MapView.CommentRequest`; AfterComment starts from the server's answer.

=== FILE: api_error.dfy ===
/** The error taxonomy of the backend (utils/apiError.ts) and the error
    handler that turns a thrown error into an HTTP response
    (middlewares/error.middleware.ts). Status codes follow RFC 9110:
    section 15.5 for client errors and section 15.6 for server errors. */
module ApiErrors {
  import opened Common

  /** An operational error carrying its own HTTP status. */
  datatype ApiError = ApiError(statusCode: int, message: string, isOperational: bool)

  /** Anything an operation can throw: an ApiError, or any other Error
      (a Mongoose validation or cast error, a TypeError, an upload-middleware
      error), of which only the message is kept. */
  datatype Failure = Api(error: ApiError) | Crash(message: string)

  /** The outcome of an operation that may throw. */
  datatype Result<T> = Ok(value: T) | Err(failure: Failure)

  /** RFC 9110 section 15.5: client error status codes. */
  predicate IsClientError(code: int) {
    400 <= code <= 499
  }

  /** RFC 9110 section 15.6: server error status codes. */
  predicate IsServerError(code: int) {
    500 <= code <= 599
  }

  /** The reason phrases RFC 9110 gives the status codes used here. */
  function ReasonPhrase(code: int): string {
    if code == 400 then "Bad Request"               // section 15.5.1
    else if code == 401 then "Unauthorized"         // section 15.5.2
    else if code == 403 then "Forbidden"            // section 15.5.4
    else if code == 404 then "Not Found"            // section 15.5.5
    else if code == 409 then "Conflict"             // section 15.5.10
    else if code == 500 then "Internal Server Error" // section 15.6.1
    else ""
  }

  /** `new ApiError(statusCode, message, isOperational = true)`. */
  function NewApiError(statusCode: int, message: string, isOperational: bool := true): (e: ApiError)
    ensures e.statusCode == statusCode && e.message == message
    ensures e.isOperational == isOperational
  {
    ApiError(statusCode, message, isOperational)
  }

  /** The six subclasses of ApiError. */
  datatype ErrorClass =
    | BadRequestError
    | NotFoundError
    | UnauthorizedError
    | ForbiddenError
    | ConflictError
    | InternalServerError

  /** The status code each subclass passes to the ApiError constructor. */
  function StatusOf(c: ErrorClass): int {
    match c
    case BadRequestError => 400
    case NotFoundError => 404
    case UnauthorizedError => 401
    case ForbiddenError => 403
    case ConflictError => 409
    case InternalServerError => 500
  }

  /** The default message of each subclass's constructor. */
  function DefaultMessage(c: ErrorClass): string {
    match c
    case BadRequestError => "Bad Request"
    case NotFoundError => "Not Found"
    case UnauthorizedError => "Unauthorized"
    case ForbiddenError => "Forbidden"
    case ConflictError => "Conflict"
    case InternalServerError => "Internal Server Error"
  }

  /** `new C(message)` for a subclass C; an omitted message takes the default. */
  function Raise(c: ErrorClass, message: Option<string>): (e: ApiError)
    ensures e.statusCode == StatusOf(c) && e.isOperational
    ensures message.Some? ==> e.message == message.value
    ensures message.None? ==> e.message == DefaultMessage(c)
  {
    NewApiError(StatusOf(c), if message.Some? then message.value else DefaultMessage(c))
  }

  /** Every subclass but InternalServerError is a client error, InternalServerError
      is a server error, the subclasses have distinct status codes, and each
      default message is the RFC 9110 reason phrase of the subclass's code. */
  lemma SubclassesFollowRfc9110(c: ErrorClass, d: ErrorClass, message: Option<string>)
    ensures c != InternalServerError ==> IsClientError(Raise(c, message).statusCode)
    ensures c == InternalServerError ==> IsServerError(Raise(c, message).statusCode)
    ensures c != d ==> StatusOf(c) != StatusOf(d)
    ensures Raise(c, None).message == ReasonPhrase(StatusOf(c))
  {
  }

  /** Shorthands for the errors the services throw. */
  function NotFound(message: string): Failure {
    Api(Raise(NotFoundError, Some(message)))
  }

  function BadRequest(message: string): Failure {
    Api(Raise(BadRequestError, Some(message)))
  }

  // ---------------------------------------------------------------------------
  // errorHandler

  /** The JSON body and status the error handler sends. */
  datatype ErrorResponse = ErrorResponse(status: int, success: bool, message: string)

  /** errorHandler: an ApiError answers with its own status and message; any
      other error answers 500 with the fixed reason phrase, whatever its message. */
  function HandleError(err: Failure): (r: ErrorResponse)
    ensures !r.success
    ensures err.Api? ==> r.status == err.error.statusCode && r.message == err.error.message
    ensures err.Crash? ==> r.status == 500 && r.message == ReasonPhrase(500)
  {
    match err
    case Api(e) => ErrorResponse(e.statusCode, false, e.message)
    case Crash(_) => ErrorResponse(500, false, "Internal Server Error")
  }

  /** The response to a non-ApiError does not depend on its message, so no
      internal detail reaches the client. */
  lemma CrashDetailsHidden(m1: string, m2: string)
    ensures HandleError(Crash(m1)) == HandleError(Crash(m2))
    ensures IsServerError(HandleError(Crash(m1)).status)
  {
  }

  /** Every subclass raised by the services reaches the client with its own
      status and message. */
  lemma SubclassReachesClient(c: ErrorClass, message: Option<string>)
    ensures HandleError(Api(Raise(c, message))).status == StatusOf(c)
    ensures message.Some? ==> HandleError(Api(Raise(c, message))).message == message.value
  {
  }
}

=== FILE: auth.dfy ===
/** The authentication and authorization middlewares
    (middlewares/auth.middleware.ts). Token verification is a parameter:
    it yields the user id a valid token carries, or nothing. */
module Auth {
  import opened Common
  import opened ApiErrors
  import opened Users
  import Query

  const BEARER: string := "Bearer "

  /** Index of the first occurrence of `pat` in `s`. */
  function FindSub(s: string, pat: string): (r: Option<nat>)
    ensures r.Some? ==> r.value + |pat| <= |s| && IsPrefix(pat, s[r.value..])
    ensures r.Some? ==> forall k :: 0 <= k < r.value ==> !IsPrefix(pat, s[k..])
    decreases |s|
  {
    if IsPrefix(pat, s) then Some(0)
    else if s == [] then None
    else match FindSub(s[1..], pat)
      case None => None
      case Some(k) =>
        assert s[1..][k..] == s[k + 1..];
        assert forall j :: 1 <= j <= k ==> s[1..][j - 1..] == s[j..];
        Some(k + 1)
  }

  /** `s.replace(pat, rep)` with a string pattern: only the first occurrence
      is replaced. */
  function ReplaceFirst(s: string, pat: string, rep: string): (r: string)
  {
    match FindSub(s, pat)
    case None => s
    case Some(k) => s[..k] + rep + s[k + |pat|..]
  }

  /** Removing a prefix the string starts with drops exactly its first
      `|pat|` characters. */
  lemma ReplaceLeadingPrefix(s: string, pat: string)
    requires IsPrefix(pat, s)
    ensures ReplaceFirst(s, pat, "") == s[|pat|..]
  {
    assert FindSub(s, pat) == Some(0);
  }

  function AuthError(message: string): Failure {
    Api(Raise(UnauthorizedError, Some(message)))
  }

  /** Step 1 of `auth`: the header must be present, non-empty and start with
      `Bearer `; the token is the rest of the header, trimmed. */
  function BearerToken(header: Option<string>): (r: Result<string>)
    ensures r.Err? <==> !Present(header) || !IsPrefix(BEARER, header.value)
    ensures r.Err? ==> r.failure == AuthError("Authentication required")
    ensures r.Ok? ==> r.value == Trim(header.value[|BEARER|..])
  {
    if !Present(header) || !IsPrefix(BEARER, header.value) then
      Err(AuthError("Authentication required"))
    else
      ReplaceLeadingPrefix(header.value, BEARER);
      Ok(Trim(ReplaceFirst(header.value, BEARER, "")))
  }

  /** `User.findById(id)` over the users collection, matching ids by
      ObjectId value. */
  function FindUser(users: seq<User>, id: string): (r: Option<User>)
    ensures r.Some? ==> r.value in users && Query.CastId(r.value.id) == Query.CastId(id)
    ensures r.None? ==> forall k :: 0 <= k < |users| ==> Query.CastId(users[k].id) != Query.CastId(id)
  {
    match IndexWhere(users, (u: User) => Query.CastId(u.id) == Query.CastId(id))
    case None => None
    case Some(k) => Some(users[k])
  }

  /** Steps 2 and 3 of `auth`: the token must verify, and the id it carries
      must name a stored user (an id that is not an ObjectId makes the lookup
      throw a cast error). */
  function TokenUser(token: string, verify: string -> Option<string>, users: seq<User>): (r: Result<User>)
    ensures verify(token).None? ==> r == Err(AuthError("Invalid or expired token"))
    ensures r.Ok? ==> (&& verify(token).Some? && Query.IsObjectId(verify(token).value)
                       && Query.CastId(verify(token).value) == Query.CastId(r.value.id)
                       && Query.IsObjectId(r.value.id) && r.value in users)
    ensures verify(token).Some? && Query.IsObjectId(verify(token).value) ==>
      (r.Ok? <==> FindUser(users, verify(token).value).Some?)
    ensures verify(token).Some? && Query.IsObjectId(verify(token).value) && r.Err? ==>
      r == Err(AuthError("User not found"))
  {
    match verify(token)
    case None => Err(AuthError("Invalid or expired token"))
    case Some(id) =>
      if !Query.IsObjectId(id) then Err(Crash("Cast to ObjectId failed"))
      else match FindUser(users, id)
        case None => Err(AuthError("User not found"))
        case Some(u) => Ok(u)
  }

  /** The whole check `auth` performs before attaching the user. */
  function Authenticate(header: Option<string>, verify: string -> Option<string>, users: seq<User>): (r: Result<User>)
    ensures BearerToken(header).Err? ==> r == Err(BearerToken(header).failure)
    ensures BearerToken(header).Ok? ==> r == TokenUser(BearerToken(header).value, verify, users)
  {
    match BearerToken(header)
    case Err(e) => Err(e)
    case Ok(token) => TokenUser(token, verify, users)
  }

  /** An incoming request as the middlewares see it. */
  class Request {
    const authorization: Option<string>
    var user: Option<User>

    constructor (authorization: Option<string>)
      ensures this.authorization == authorization && user == None
    {
      this.authorization := authorization;
      user := None;
    }

    /** `auth`: `req.user` is set only when every check passes; on failure
        the request is left as it was and the error goes to `next`. */
    method Auth(verify: string -> Option<string>, users: seq<User>) returns (r: Result<()>)
      modifies this
      ensures r.Ok? <==> Authenticate(authorization, verify, users).Ok?
      ensures r.Ok? ==> user == Some(Authenticate(authorization, verify, users).value)
      ensures r.Err? ==> r.failure == Authenticate(authorization, verify, users).failure && user == old(user)
    {
      var found := Authenticate(authorization, verify, users);
      if found.Err? {
        return Err(found.failure);
      }
      user := Some(found.value);
      r := Ok(());
    }
  }

  /** `authorize(...roles)`: Forbidden unless a user is attached and its role
      is one of `roles`. */
  function Authorize(roles: seq<string>, user: Option<User>): (r: Result<()>)
    ensures r.Ok? <==> user.Some? && user.value.role in roles
    ensures r.Err? ==> r.failure == Api(Raise(ForbiddenError, Some("You are not authorized to access this resource")))
  {
    if user.None? || user.value.role !in roles then
      Err(Api(Raise(ForbiddenError, Some("You are not authorized to access this resource"))))
    else Ok(())
  }
}

=== FILE: authority_dashboard.dfy ===
/** The authority dashboard's update form (pages/AuthorityDashboard.tsx): the
    form state and its handlers, the request body it sends, the form it
    fills in to edit a stored update, the list after a delete, and the
    page's own role check. */
module AuthorityDashboard {
  import opened Common
  import opened CivicUpdateModel
  import opened Db
  import opened RouteGuard
  import Routing

  /** An area row of the form; blank fields are empty strings. */
  datatype FormArea = FormArea(state: string, district: string, pincode: string, areaName: string)

  const BLANK_AREA: FormArea := FormArea("", "", "", "")

  /** The form's contents. `kind` is the `type` select. */
  datatype FormData = FormData(
    kind: string,
    title: string,
    description: string,
    areas: seq<FormArea>,
    startDate: string,
    endDate: string,
    status: string,
    severity: string,
    source: string,
    contactInfo: string,
    links: seq<string>)

  /** The empty form the page starts with and returns to after a save. */
  const INITIAL_FORM: FormData := FormData("event", "", "", [BLANK_AREA], "", "", "upcoming", "medium", "government", "", [""])

  /** The fields an area row edits. */
  datatype AreaField = StateField | DistrictField | PincodeField | AreaNameField

  function SetAreaField(a: FormArea, field: AreaField, value: string): (r: FormArea)
    ensures field == StateField ==> r == a.(state := value)
    ensures field == DistrictField ==> r == a.(district := value)
    ensures field == PincodeField ==> r == a.(pincode := value)
    ensures field == AreaNameField ==> r == a.(areaName := value)
  {
    match field
    case StateField => a.(state := value)
    case DistrictField => a.(district := value)
    case PincodeField => a.(pincode := value)
    case AreaNameField => a.(areaName := value)
  }

  // ---------------------------------------------------------------------------
  // What the form sends

  predicate NonBlank(s: string) {
    Trim(s) != ""
  }

  predicate HasState(a: FormArea) {
    NonBlank(a.state)
  }

  function HasStateBy(): FormArea -> bool {
    (a: FormArea) => HasState(a)
  }

  function NonBlankBy(): string -> bool {
    (s: string) => NonBlank(s)
  }

  /** An area row as the request body carries it: every field is sent, the
      blank ones as empty strings. */
  function AreaInputOf(a: FormArea): (r: AreaInput)
    ensures r.state == Some(a.state) && r.district == Some(a.district)
    ensures r.pincode == Some(a.pincode) && r.areaName == Some(a.areaName)
  {
    AreaInput(Some(a.state), Some(a.district), Some(a.pincode), Some(a.areaName))
  }

  /** The request body handleSubmit builds: the form, without the area rows
      whose state is blank and the blank links, and with no end date when
      that field is empty. */
  function Payload(d: FormData): (p: CivicUpdateInput)
  {
    CivicUpdateInput(
      Some(d.kind), Some(d.title), Some(d.description),
      Some(Map(Filter(d.areas, HasStateBy()), AreaInputOf)),
      Some(d.startDate),
      if d.endDate == "" then None else Some(d.endDate),
      Some(d.status), Some(d.severity), Some(d.source), Some(d.contactInfo),
      Some(Filter(d.links, NonBlankBy())))
  }

  function SentAreas(d: FormData): (r: seq<AreaInput>)
  {
    Payload(d).affectedAreas.value
  }

  function SentLinks(d: FormData): (r: seq<string>)
  {
    Payload(d).relatedLinks.value
  }

  /** Exactly the area rows with a state are sent, in form order, each with
      its non-blank state. */
  lemma PayloadAreas(d: FormData)
    ensures |SentAreas(d)| <= |d.areas|
    ensures forall a :: AreaInputOf(a) in SentAreas(d) <==> a in d.areas && HasState(a)
    ensures forall k :: 0 <= k < |SentAreas(d)| ==> SentAreas(d)[k].state.Some? && NonBlank(SentAreas(d)[k].state.value)
  {
    var kept := Filter(d.areas, HasStateBy());
    var sent := SentAreas(d);
    assert sent == Map(kept, AreaInputOf);
    forall a
      ensures AreaInputOf(a) in sent <==> a in d.areas && HasState(a)
    {
      FilterMembers(d.areas, HasStateBy(), a);
      if AreaInputOf(a) in sent {
        var k :| 0 <= k < |sent| && sent[k] == AreaInputOf(a);
        assert AreaInputOf(kept[k]) == AreaInputOf(a);
      }
      if a in kept {
        var k :| 0 <= k < |kept| && kept[k] == a;
        assert sent[k] == AreaInputOf(a);
      }
    }
    forall k | 0 <= k < |sent|
      ensures sent[k].state.Some? && NonBlank(sent[k].state.value)
    {
      FilterMembers(d.areas, HasStateBy(), kept[k]);
    }
  }

  /** Exactly the non-blank links are sent, in form order. */
  lemma PayloadLinks(d: FormData)
    ensures IsSubsequence(SentLinks(d), d.links)
    ensures forall l :: l in SentLinks(d) <==> l in d.links && NonBlank(l)
  {
    assert SentLinks(d) == Filter(d.links, NonBlankBy());
    FilterIsSubsequence(d.links, NonBlankBy());
    forall l
      ensures l in SentLinks(d) <==> l in d.links && NonBlank(l)
    {
      FilterMembers(d.links, NonBlankBy(), l);
    }
  }

  /** The end date is left out exactly when it is empty; the text fields are
      sent as typed. */
  lemma PayloadFields(d: FormData)
    ensures Payload(d).endDate.None? <==> d.endDate == ""
    ensures Payload(d).endDate.Some? ==> Payload(d).endDate.value == d.endDate
    ensures Payload(d).title == Some(d.title) && Payload(d).description == Some(d.description)
    ensures Payload(d).kind == Some(d.kind) && Payload(d).startDate == Some(d.startDate)
  {
  }

  /** Every area the form sends passes the server's per-area state check. */
  lemma PayloadAreasPassStateCheck(d: FormData)
    ensures Routing.AreaStateErrors(Payload(d).affectedAreas.value) == []
  {
    var sent := SentAreas(d);
    PayloadAreas(d);
    assert forall k :: 0 <= k < |sent| ==> sent[k].state.Some? && Trim(sent[k].state.value) != "";
    assert Routing.AreaStateErrors(sent) == [];
  }

  /** A form whose area rows all have a blank state sends no area, which the
      server's create validators refuse. */
  lemma BlankAreasRefused(d: FormData, isIso: string -> bool)
    requires forall k :: 0 <= k < |d.areas| ==> !HasState(d.areas[k])
    ensures Payload(d).affectedAreas == Some([])
    ensures Routing.UpdateCreateErrors(Payload(d), isIso) != []
  {
    FilterNone(d.areas, HasStateBy());
  }

  /** Where the form is sent: a PATCH of the update being edited, or a
      POST. */
  datatype SaveRequest = PatchUpdate(id: string, body: CivicUpdateInput) | PostUpdate(body: CivicUpdateInput)

  function SaveRequestOf(editing: Option<string>, d: FormData): (r: SaveRequest)
    ensures editing.Some? <==> r.PatchUpdate?
    ensures editing.Some? ==> r.id == editing.value
    ensures r.body == Payload(d)
  {
    match editing
    case Some(id) => PatchUpdate(id, Payload(d))
    case None => PostUpdate(Payload(d))
  }

  // ---------------------------------------------------------------------------
  // Editing a stored update

  /** A civic update as the page receives it: dates are ISO strings. */
  datatype ClientUpdate = ClientUpdate(
    id: string,
    kind: string,
    title: string,
    description: string,
    areas: seq<Area>,
    startDate: string,
    endDate: Option<string>,
    status: string,
    severity: Option<string>,
    source: string,
    contactInfo: Option<string>,
    relatedLinks: Option<seq<string>>)

  function FormAreaOf(a: Area): (r: FormArea)
    ensures r.state == a.state
  {
    FormArea(a.state, OrElse(a.district, ""), OrElse(a.pincode, ""), OrElse(a.areaName, ""))
  }

  /** The date part of an ISO date-time, `s.split('T')[0]`. */
  function DatePart(s: string): (r: string)
    ensures r == Split(s, 'T')[0]
    ensures IsPrefix(r, s) && 'T' !in r
  {
    BeforeFirstIsFirstPart(s, 'T');
    BeforeFirst(s, 'T')
  }

  /** handleEdit's form: missing optional fields become empty (severity
      becomes "medium"), dates keep only their date part, and an update
      without links gets one empty link row. */
  function EditForm(u: ClientUpdate): (d: FormData)
    ensures |d.areas| == |u.areas| && forall k :: 0 <= k < |u.areas| ==> d.areas[k] == FormAreaOf(u.areas[k])
    ensures d.startDate == DatePart(u.startDate)
    ensures d.endDate == if Present(u.endDate) then DatePart(u.endDate.value) else ""
    ensures d.severity == OrElse(u.severity, "medium") && d.contactInfo == OrElse(u.contactInfo, "")
    ensures d.links == if u.relatedLinks.Some? then u.relatedLinks.value else [""]
    ensures d.kind == u.kind && d.title == u.title && d.description == u.description
    ensures d.status == u.status && d.source == u.source
  {
    FormData(u.kind, u.title, u.description, Map(u.areas, FormAreaOf),
      DatePart(u.startDate),
      if Present(u.endDate) then DatePart(u.endDate.value) else "",
      u.status, OrElse(u.severity, "medium"), u.source, OrElse(u.contactInfo, ""),
      if u.relatedLinks.Some? then u.relatedLinks.value else [""])
  }

  /** Saving an edited update unchanged sends back its areas (absent
      optional fields now as empty strings) when every area has a state, its
      non-blank links, and a start date with the time cut off; an update
      without links is sent none. */
  lemma EditThenSave(u: ClientUpdate)
    requires forall k :: 0 <= k < |u.areas| ==> NonBlank(u.areas[k].state)
    ensures var p := Payload(EditForm(u));
      && p.affectedAreas == Some(Map(Map(u.areas, FormAreaOf), AreaInputOf))
      && p.relatedLinks == Some(if u.relatedLinks.Some? then Filter(u.relatedLinks.value, NonBlankBy()) else [])
      && p.startDate == Some(DatePart(u.startDate))
      && p.severity == Some(OrElse(u.severity, "medium"))
  {
    var d := EditForm(u);
    EditedAreasSent(u);
    if u.relatedLinks.None? {
      EmptyLinkRowDropped();
    }
    assert Payload(d).relatedLinks == Some(Filter(d.links, NonBlankBy()));
  }

  lemma EditedAreasSent(u: ClientUpdate)
    requires forall k :: 0 <= k < |u.areas| ==> NonBlank(u.areas[k].state)
    ensures Payload(EditForm(u)).affectedAreas == Some(Map(Map(u.areas, FormAreaOf), AreaInputOf))
  {
    var areas := EditForm(u).areas;
    assert areas == Map(u.areas, FormAreaOf);
    assert forall k :: 0 <= k < |areas| ==> HasStateBy()(areas[k]);
    FilterAll(areas, HasStateBy());
  }

  /** The one empty link row of a form without links is not sent. */
  lemma EmptyLinkRowDropped()
    ensures Filter([""], NonBlankBy()) == []
  {
    assert !NonBlank("") by {
      TrimBlank("");
    }
    assert Filter([""], NonBlankBy()) == Filter([], NonBlankBy()) + [];
  }

  // ---------------------------------------------------------------------------
  // The form as page state

  /** The form state and the update being edited, if any. */
  class UpdateForm {
    var data: FormData
    var editing: Option<string>

    constructor ()
      ensures data == INITIAL_FORM && editing.None?
    {
      data := INITIAL_FORM;
      editing := None;
    }

    /** handleAreaChange: one field of one area row. */
    method HandleAreaChange(index: nat, field: AreaField, value: string)
      requires index < |data.areas|
      modifies this
      ensures data == old(data).(areas := old(data.areas)[index := SetAreaField(old(data.areas)[index], field, value)])
      ensures editing == old(editing)
    {
      var newAreas := data.areas;
      newAreas := newAreas[index := SetAreaField(newAreas[index], field, value)];
      data := data.(areas := newAreas);
    }

    /** addArea: a blank row at the end. */
    method AddArea()
      modifies this
      ensures data == old(data).(areas := old(data.areas) + [BLANK_AREA])
      ensures editing == old(editing)
    {
      data := data.(areas := data.areas + [BLANK_AREA]);
    }

    /** removeArea: `splice(index, 1)` on a copy. */
    method RemoveArea(index: nat)
      modifies this
      ensures data == old(data).(areas := RemoveAt(old(data.areas), index))
      ensures editing == old(editing)
    {
      data := data.(areas := RemoveAt(data.areas, index));
    }

    method HandleLinkChange(index: nat, value: string)
      requires index < |data.links|
      modifies this
      ensures data == old(data).(links := old(data.links)[index := value])
      ensures editing == old(editing)
    {
      data := data.(links := data.links[index := value]);
    }

    method AddLink()
      modifies this
      ensures data == old(data).(links := old(data.links) + [""])
      ensures editing == old(editing)
    {
      data := data.(links := data.links + [""]);
    }

    method RemoveLink(index: nat)
      modifies this
      ensures data == old(data).(links := RemoveAt(old(data.links), index))
      ensures editing == old(editing)
    {
      data := data.(links := RemoveAt(data.links, index));
    }

    /** handleEdit: fill the form from a stored update and remember it. */
    method HandleEdit(u: ClientUpdate)
      modifies this
      ensures data == EditForm(u) && editing == Some(u.id)
    {
      editing := Some(u.id);
      data := EditForm(u);
    }

    /** After a successful save: back to the empty form, editing nothing. */
    method Saved()
      modifies this
      ensures data == INITIAL_FORM && editing.None?
    {
      editing := None;
      data := INITIAL_FORM;
    }
  }

  /** Adding a blank area row (addArea) does not change what is sent. */
  lemma AreaRowsSent(d: FormData)
    ensures Payload(d.(areas := d.areas + [BLANK_AREA])) == Payload(d)
  {
    BlankRowDropped(d.areas);
  }

  lemma BlankRowDropped(areas: seq<FormArea>)
    ensures Filter(areas + [BLANK_AREA], HasStateBy()) == Filter(areas, HasStateBy())
  {
    TrimBlank(BLANK_AREA.state);
    assert !HasStateBy()(BLANK_AREA);
    FilterAppendRejected(areas, BLANK_AREA, HasStateBy());
  }

  /** Nor does adding a blank link row (addLink). */
  lemma LinkRowsSent(d: FormData)
    ensures Payload(d.(links := d.links + [""])) == Payload(d)
  {
    TrimBlank("");
    FilterAppendRejected(d.links, "", NonBlankBy());
  }

  // ---------------------------------------------------------------------------
  // The list after a delete, and the role check

  function UpdateIdOf(u: ClientUpdate): string {
    u.id
  }

  /** handleDelete's `updates.filter(u => u._id !== id)`. */
  function DropDeleted(updates: seq<ClientUpdate>, id: string): (r: seq<ClientUpdate>)
  {
    Filter(updates, OtherThan(id))
  }

  function OtherThan(id: string): ClientUpdate -> bool {
    (u: ClientUpdate) => u.id != id
  }

  /** Updates none of which has the id are all kept. */
  lemma OthersKept(s: seq<ClientUpdate>, id: string)
    requires forall j :: 0 <= j < |s| ==> s[j].id != id
    ensures Filter(s, OtherThan(id)) == s
  {
    assert forall j :: 0 <= j < |s| ==> OtherThan(id)(s[j]);
    FilterAll(s, OtherThan(id));
  }

  /** No update with that id is left and every other one is kept in order;
      with distinct ids this is removing the one position, as the server
      does. */
  lemma DropDeletedCorrect(updates: seq<ClientUpdate>, id: string)
    ensures FreshId(DropDeleted(updates, id), UpdateIdOf, id)
    ensures forall u :: u in DropDeleted(updates, id) <==> u in updates && u.id != id
    ensures IsSubsequence(DropDeleted(updates, id), updates)
    ensures FreshId(updates, UpdateIdOf, id) ==> DropDeleted(updates, id) == updates
  {
    var p := OtherThan(id);
    var r := DropDeleted(updates, id);
    forall u
      ensures u in r <==> u in updates && u.id != id
    {
      FilterMembers(updates, p, u);
    }
    forall k | 0 <= k < |r|
      ensures UpdateIdOf(r[k]) != id
    {
      assert r[k] in r;
    }
    FilterIsSubsequence(updates, p);
    if FreshId(updates, UpdateIdOf, id) {
      forall k | 0 <= k < |updates|
        ensures p(updates[k])
      {
        assert UpdateIdOf(updates[k]) != id;
      }
      FilterAll(updates, p);
    }
  }

  lemma {:induction false} DropDeletedAt(updates: seq<ClientUpdate>, k: nat)
    requires UniqueIds(updates, UpdateIdOf) && k < |updates|
    ensures DropDeleted(updates, updates[k].id) == RemoveAt(updates, k)
  {
    var id := updates[k].id;
    var before := updates[..k];
    var after := updates[k + 1..];
    OthersAround(updates, k, before, after);
    OthersKept(before, id);
    OthersKept(after, id);
    FilterSkipsRejected(before, updates[k], after, OtherThan(id));
    assert updates == before + [updates[k]] + after;
    assert DropDeleted(updates, id) == Filter(before + [updates[k]] + after, OtherThan(id));
    assert RemoveAt(updates, k) == before + after;
  }

  /** With distinct ids, no other update carries the id of the one at `k`. */
  lemma OthersAround(updates: seq<ClientUpdate>, k: nat, before: seq<ClientUpdate>, after: seq<ClientUpdate>)
    requires UniqueIds(updates, UpdateIdOf) && k < |updates|
    requires before == updates[..k] && after == updates[k + 1..]
    ensures forall j :: 0 <= j < |before| ==> before[j].id != updates[k].id
    ensures forall j :: 0 <= j < |after| ==> after[j].id != updates[k].id
  {
    forall j | 0 <= j < |before|
      ensures before[j].id != updates[k].id
    {
      assert UpdateIdOf(updates[j]) != UpdateIdOf(updates[k]);
    }
    forall j | 0 <= j < |after|
      ensures after[j].id != updates[k].id
    {
      assert after[j] == updates[k + 1 + j];
      assert UpdateIdOf(updates[k]) != UpdateIdOf(updates[k + 1 + j]);
    }
  }

  /** The page's own check: signed-out users go to the login page, and a
      signed-in user who is not an authority, or not yet loaded, goes
      home. */
  function PageRedirect(authenticated: bool, user: Option<SessionUser>): (r: Option<string>)
    ensures !authenticated ==> r == Some("/login")
    ensures r.None? <==> authenticated && user.Some? && user.value.role == "authority"
  {
    if !authenticated then Some("/login")
    else if user.None? || user.value.role != "authority" then Some("/")
    else None
  }

  /** The route lets administrators in, but the page then sends them home:
      only authorities can use it. */
  lemma AdministratorsSentHome(u: SessionUser)
    requires u.role == "admin"
    ensures Guard(false, true, Some(u), AUTHORITY_ROUTE_ROLES) == Outlet
    ensures PageRedirect(true, Some(u)) == Some("/")
  {
  }
}

=== FILE: civic_update_model.dfy ===
/** The CivicUpdate schema (models/civicUpdates.model.ts): the stored
    record, its enums, what validation demands on create and on update, the
    text index, and how a query sees an update. Date strings are cast by a
    parameter that yields milliseconds, or nothing for an invalid date. */
module CivicUpdateModel {
  import opened Common
  import opened ApiErrors
  import opened Query

  const TYPES: seq<string> := ["event", "hazard", "project", "alert", "utility"]
  const STATUSES: seq<string> := ["upcoming", "ongoing", "completed"]
  const SEVERITIES: seq<string> := ["low", "medium", "high"]
  const SOURCES: seq<string> := ["government", "community", "automated"]

  /** An affected area: only `state` is required. */
  datatype Area = Area(state: string, district: Option<string>, pincode: Option<string>, areaName: Option<string>)

  /** `kind` is the schema's `type` field. Dates are in milliseconds. */
  datatype CivicUpdate = CivicUpdate(
    id: string,
    kind: string,
    title: string,
    description: string,
    affectedAreas: seq<Area>,
    startDate: int,
    endDate: Option<int>,
    status: string,
    severity: Option<string>,
    source: string,
    contactInfo: Option<string>,
    relatedLinks: seq<string>,
    createdAt: int)

  predicate ValidArea(a: Area) {
    a.state != ""
  }

  /** Field-by-field schema rules; each is checked on its own, which is
      what lets update validation look only at the fields being set. */
  predicate ValidKind(k: string) { k in TYPES }
  predicate ValidText(s: string) { s != "" }
  predicate ValidAreas(areas: seq<Area>) { forall k :: 0 <= k < |areas| ==> ValidArea(areas[k]) }
  predicate ValidStatus(s: string) { s in STATUSES }
  predicate ValidSeverity(s: Option<string>) { s.Some? ==> s.value in SEVERITIES }
  predicate ValidSource(s: string) { s in SOURCES }

  /** What Mongoose validation demands of a whole document. The schema asks
      for neither a non-empty area list nor `startDate <= endDate`. */
  predicate ValidCivicUpdate(u: CivicUpdate) {
    && IsObjectId(u.id)
    && ValidKind(u.kind) && ValidText(u.title) && ValidText(u.description)
    && ValidAreas(u.affectedAreas) && ValidStatus(u.status)
    && ValidSeverity(u.severity) && ValidSource(u.source)
  }

  /** An affected area as a request body carries it. */
  datatype AreaInput = AreaInput(state: Option<string>, district: Option<string>, pincode: Option<string>, areaName: Option<string>)

  /** The request body of a create, passed to `CivicUpdate.create` as is. */
  datatype CivicUpdateInput = CivicUpdateInput(
    kind: Option<string>,
    title: Option<string>,
    description: Option<string>,
    affectedAreas: Option<seq<AreaInput>>,
    startDate: Option<string>,
    endDate: Option<string>,
    status: Option<string>,
    severity: Option<string>,
    source: Option<string>,
    contactInfo: Option<string>,
    relatedLinks: Option<seq<string>>)

  /** Casting one area; a missing `state` becomes `""`, which the required
      validator then rejects. */
  function AreaOf(a: AreaInput): (r: Area)
    ensures ValidArea(r) <==> a.state.Some? && a.state.value != ""
  {
    Area(if a.state.Some? then a.state.value else "", a.district, a.pincode, a.areaName)
  }

  function AreasOf(areas: seq<AreaInput>): (r: seq<Area>)
    ensures |r| == |areas| && forall k :: 0 <= k < |areas| ==> r[k] == AreaOf(areas[k])
  {
    Map(areas, AreaOf)
  }

  /** Casting an optional date: an absent or empty string is null, any other
      string must parse. */
  function OptionalDate(s: Option<string>, toDate: string -> Option<int>): (r: Result<Option<int>>)
    ensures !Present(s) ==> r == Ok(None)
    ensures Present(s) ==> (r.Ok? <==> toDate(s.value).Some?)
    ensures Present(s) && r.Ok? ==> r.value == toDate(s.value)
  {
    if !Present(s) then Ok(None)
    else match toDate(s.value)
      case None => Err(Crash("Cast to date failed for path `endDate`"))
      case Some(t) => Ok(Some(t))
  }

  /** `CivicUpdate.create(body)`: the trim setters apply, the lists default
      to empty, and the document must pass validation. */
  function NewCivicUpdate(id: string, input: CivicUpdateInput, toDate: string -> Option<int>, now: int): (r: Result<CivicUpdate>)
    requires IsObjectId(id)
    ensures r.Ok? ==> ValidCivicUpdate(r.value) && r.value.id == id && r.value.createdAt == now
    ensures r.Ok? ==> input.kind == Some(r.value.kind) && input.status == Some(r.value.status)
    ensures r.Ok? ==> input.source == Some(r.value.source) && r.value.severity == input.severity
    ensures r.Ok? ==> input.title.Some? && r.value.title == Trim(input.title.value)
    ensures r.Ok? ==> input.description.Some? && r.value.description == Trim(input.description.value)
    ensures r.Ok? ==> r.value.affectedAreas == (if input.affectedAreas.Some? then AreasOf(input.affectedAreas.value) else [])
    ensures r.Ok? ==> input.startDate.Some? && toDate(input.startDate.value) == Some(r.value.startDate)
    ensures r.Ok? <==>
      && input.kind.Some? && ValidKind(input.kind.value)
      && input.title.Some? && ValidText(Trim(input.title.value))
      && input.description.Some? && ValidText(Trim(input.description.value))
      && (input.affectedAreas.Some? ==> ValidAreas(AreasOf(input.affectedAreas.value)))
      && input.startDate.Some? && toDate(input.startDate.value).Some?
      && OptionalDate(input.endDate, toDate).Ok?
      && input.status.Some? && ValidStatus(input.status.value)
      && ValidSeverity(input.severity)
      && input.source.Some? && ValidSource(input.source.value)
  {
    var areas := if input.affectedAreas.Some? then AreasOf(input.affectedAreas.value) else [];
    if || input.kind.None? || !ValidKind(input.kind.value)
       || input.title.None? || !ValidText(Trim(input.title.value))
       || input.description.None? || !ValidText(Trim(input.description.value))
       || !ValidAreas(areas)
       || input.status.None? || !ValidStatus(input.status.value)
       || !ValidSeverity(input.severity)
       || input.source.None? || !ValidSource(input.source.value)
    then Err(Crash("CivicUpdate validation failed"))
    else if input.startDate.None? || toDate(input.startDate.value).None? then
      Err(Crash("Cast to date failed for path `startDate`"))
    else match OptionalDate(input.endDate, toDate)
      case Err(e) => Err(e)
      case Ok(endDate) =>
        Ok(CivicUpdate(id, input.kind.value, Trim(input.title.value), Trim(input.description.value), areas,
                       toDate(input.startDate.value).value, endDate, input.status.value, input.severity,
                       input.source.value, input.contactInfo,
                       if input.relatedLinks.Some? then input.relatedLinks.value else [], now))
  }

  // ---------------------------------------------------------------------------
  // Update

  /** The request body of a PATCH, used as the update document as is: every
      field present is set, whichever fields the route validated. */
  datatype CivicUpdatePatch = CivicUpdatePatch(
    kind: Option<string>,
    title: Option<string>,
    description: Option<string>,
    affectedAreas: Option<seq<AreaInput>>,
    startDate: Option<string>,
    endDate: Option<string>,
    status: Option<string>,
    severity: Option<string>,
    source: Option<string>,
    contactInfo: Option<string>,
    relatedLinks: Option<seq<string>>)

  /** Update validators (`runValidators: true`) check each field being set,
      after the cast has applied the trim setters to title and
      description; each date being set must cast. */
  predicate PatchValid(p: CivicUpdatePatch, toDate: string -> Option<int>) {
    && (p.kind.Some? ==> ValidKind(p.kind.value))
    && (p.title.Some? ==> ValidText(Trim(p.title.value)))
    && (p.description.Some? ==> ValidText(Trim(p.description.value)))
    && (p.affectedAreas.Some? ==> ValidAreas(AreasOf(p.affectedAreas.value)))
    && (p.startDate.Some? ==> toDate(p.startDate.value).Some?)
    && OptionalDate(p.endDate, toDate).Ok?
    && (p.status.Some? ==> ValidStatus(p.status.value))
    && (p.severity.Some? ==> p.severity.value in SEVERITIES)
    && (p.source.Some? ==> ValidSource(p.source.value))
  }

  function Pick<T>(o: Option<T>, current: T): T {
    if o.Some? then o.value else current
  }

  /** A text field after `$set`: the trimmed new value, if one is given. */
  function Trimmed(o: Option<string>, current: string): string {
    if o.Some? then Trim(o.value) else current
  }

  /** The document after `$set` of the present fields, title and
      description trimmed by their setters. */
  function ApplyPatch(u: CivicUpdate, p: CivicUpdatePatch, toDate: string -> Option<int>): (r: CivicUpdate)
    requires PatchValid(p, toDate)
    ensures r.id == u.id && r.createdAt == u.createdAt
    ensures r.kind == Pick(p.kind, u.kind)
    ensures r.title == (if p.title.Some? then Trim(p.title.value) else u.title)
    ensures r.description == (if p.description.Some? then Trim(p.description.value) else u.description)
    ensures r.status == Pick(p.status, u.status) && r.source == Pick(p.source, u.source)
    ensures r.contactInfo == (if p.contactInfo.Some? then p.contactInfo else u.contactInfo)
    ensures r.severity == (if p.severity.Some? then p.severity else u.severity)
    ensures r.relatedLinks == Pick(p.relatedLinks, u.relatedLinks)
    ensures r.affectedAreas == (if p.affectedAreas.Some? then AreasOf(p.affectedAreas.value) else u.affectedAreas)
    ensures p.startDate.Some? ==> Some(r.startDate) == toDate(p.startDate.value)
    ensures p.startDate.None? ==> r.startDate == u.startDate
    ensures p.endDate.Some? ==> r.endDate == OptionalDate(p.endDate, toDate).value
    ensures p.endDate.None? ==> r.endDate == u.endDate
  {
    u.(kind := Pick(p.kind, u.kind),
       title := Trimmed(p.title, u.title),
       description := Trimmed(p.description, u.description),
       affectedAreas := if p.affectedAreas.Some? then AreasOf(p.affectedAreas.value) else u.affectedAreas,
       startDate := if p.startDate.Some? then toDate(p.startDate.value).value else u.startDate,
       endDate := if p.endDate.Some? then OptionalDate(p.endDate, toDate).value else u.endDate,
       status := Pick(p.status, u.status),
       severity := if p.severity.Some? then p.severity else u.severity,
       source := Pick(p.source, u.source),
       contactInfo := if p.contactInfo.Some? then p.contactInfo else u.contactInfo,
       relatedLinks := Pick(p.relatedLinks, u.relatedLinks))
  }

  /** Validating only the fields being set is enough: a valid document
      stays valid under a valid patch. */
  lemma PatchKeepsValid(u: CivicUpdate, p: CivicUpdatePatch, toDate: string -> Option<int>)
    requires PatchValid(p, toDate) && ValidCivicUpdate(u)
    ensures ValidCivicUpdate(ApplyPatch(u, p, toDate))
  {
  }

  /** A title or description that is blank once trimmed fails the update
      validators. */
  lemma BlankPatchTextRefused(p: CivicUpdatePatch, toDate: string -> Option<int>)
    requires (p.title.Some? && AllSpace(p.title.value)) || (p.description.Some? && AllSpace(p.description.value))
    ensures !PatchValid(p, toDate)
  {
    if p.title.Some? && AllSpace(p.title.value) {
      TrimBlank(p.title.value);
    } else {
      TrimBlank(p.description.value);
    }
  }

  // ---------------------------------------------------------------------------
  // Query view

  /** The present values of one optional area field, in area order. */
  function AreaValues(areas: seq<Area>, field: Area -> Option<string>): (r: seq<string>)
    ensures forall v :: v in r <==> exists k :: 0 <= k < |areas| && field(areas[k]) == Some(v)
  {
    if areas == [] then []
    else
      var rest := AreaValues(areas[1..], field);
      assert forall k :: 1 <= k < |areas| ==> areas[k] == areas[1..][k - 1];
      (if field(areas[0]).Some? then [field(areas[0]).value] else []) + rest
  }

  function AreaState(a: Area): Option<string> { Some(a.state) }
  function AreaDistrict(a: Area): Option<string> { a.district }
  function AreaPincode(a: Area): Option<string> { a.pincode }
  function AreaName(a: Area): Option<string> { a.areaName }

  /** The text index covers title, description and every area's state,
      district, pincode and name. */
  function TextIndexed(u: CivicUpdate): seq<string> {
    [u.title, u.description]
      + AreaValues(u.affectedAreas, AreaState) + AreaValues(u.affectedAreas, AreaDistrict)
      + AreaValues(u.affectedAreas, AreaPincode) + AreaValues(u.affectedAreas, AreaName)
  }

  /** The paths through the affected areas, one value per area that has
      the field. */
  function AreaPaths(areas: seq<Area>): (m: map<string, seq<string>>)
    ensures forall path :: path in m ==> |path| >= 19
    ensures "affectedAreas.state" in m && m["affectedAreas.state"] == AreaValues(areas, AreaState)
    ensures "affectedAreas.district" in m && m["affectedAreas.district"] == AreaValues(areas, AreaDistrict)
    ensures "affectedAreas.pincode" in m && m["affectedAreas.pincode"] == AreaValues(areas, AreaPincode)
    ensures "affectedAreas.areaName" in m && m["affectedAreas.areaName"] == AreaValues(areas, AreaName)
  {
    map[
      "affectedAreas.state" := AreaValues(areas, AreaState),
      "affectedAreas.district" := AreaValues(areas, AreaDistrict),
      "affectedAreas.pincode" := AreaValues(areas, AreaPincode),
      "affectedAreas.areaName" := AreaValues(areas, AreaName)]
  }

  /** The paths to the update's own scalar fields. */
  function FieldPaths(u: CivicUpdate): (m: map<string, seq<string>>)
    ensures "_id" in m && m["_id"] == [CastId(u.id)]
    ensures "type" in m && m["type"] == [u.kind]
    ensures "status" in m && m["status"] == [u.status]
    ensures "source" in m && m["source"] == [u.source]
    ensures "severity" in m && m["severity"] == (if u.severity.Some? then [u.severity.value] else [])
  {
    map[
      "title" := [u.title],
      "description" := [u.description],
      "_id" := [CastId(u.id)],
      "type" := [u.kind],
      "status" := [u.status],
      "severity" := if u.severity.Some? then [u.severity.value] else [],
      "source" := [u.source]]
  }

  /** The key a sort on `field` sees: every scalar field sorts on its
      value, `_id` as an ObjectId, an unset optional field as null; any
      other field sorts as null. */
  function SortKey(u: CivicUpdate, field: string): SortValue {
    if field == "_id" then ObjectIdKey(u.id)
    else if field == "type" then Text(u.kind)
    else if field == "title" then Text(u.title)
    else if field == "description" then Text(u.description)
    else if field == "status" then Text(u.status)
    else if field == "severity" then OptionKey(u.severity)
    else if field == "source" then Text(u.source)
    else if field == "contactInfo" then OptionKey(u.contactInfo)
    else if field == "startDate" then Num(u.startDate)
    else if field == "endDate" then (if u.endDate.Some? then Num(u.endDate.value) else Absent)
    else if field == "createdAt" then Num(u.createdAt)
    else Absent
  }

  /** What a sort sees of the identity, the text fields and the contact. */
  lemma SortKeyTexts(u: CivicUpdate)
    ensures SortKey(u, "_id") == ObjectIdKey(u.id) && SortKey(u, "type") == Text(u.kind)
    ensures SortKey(u, "title") == Text(u.title) && SortKey(u, "description") == Text(u.description)
    ensures SortKey(u, "contactInfo") == OptionKey(u.contactInfo)
  {
  }

  /** What a sort sees of the enums and the dates. */
  lemma SortKeyStates(u: CivicUpdate)
    ensures SortKey(u, "status") == Text(u.status) && SortKey(u, "source") == Text(u.source)
    ensures SortKey(u, "severity") == OptionKey(u.severity)
    ensures SortKey(u, "startDate") == Num(u.startDate) && SortKey(u, "createdAt") == Num(u.createdAt)
    ensures SortKey(u, "endDate") == (if u.endDate.Some? then Num(u.endDate.value) else Absent)
  {
  }

  /** An update as a query sees it. */
  function UpdateDoc(u: CivicUpdate): (d: Doc)
    ensures Values(d, "_id") == [CastId(u.id)]
    ensures Values(d, "type") == [u.kind] && Values(d, "status") == [u.status] && Values(d, "source") == [u.source]
    ensures Values(d, "severity") == (if u.severity.Some? then [u.severity.value] else [])
    ensures Values(d, "affectedAreas.state") == AreaValues(u.affectedAreas, AreaState)
    ensures Values(d, "affectedAreas.district") == AreaValues(u.affectedAreas, AreaDistrict)
    ensures Values(d, "affectedAreas.pincode") == AreaValues(u.affectedAreas, AreaPincode)
    ensures Values(d, "affectedAreas.areaName") == AreaValues(u.affectedAreas, AreaName)
    ensures d.textFields == TextIndexed(u)
    ensures forall field :: KeyOf(d, field) == SortKey(u, field)
  {
    var fields := FieldPaths(u);
    var areas := AreaPaths(u.affectedAreas);
    assert |"_id"| < 19 && |"type"| < 19 && |"status"| < 19 && |"source"| < 19 && |"severity"| < 19;
    Doc(fields + areas, TextIndexed(u), (field: string) => SortKey(u, field))
  }
}

=== FILE: civic_updates_controller.dfy ===
/** The civic-update handlers (controllers/civicUpdates.controller.ts): the
    listing's option defaults and its `meta`, the search's forwarding of the
    location parameters, and create and update, which hand the (validated
    and sanitized) body to the service unchanged. */
module CivicUpdatesController {
  import opened Common
  import opened ApiErrors
  import opened JsNumbers
  import opened Query
  import opened Users
  import opened CivicUpdateModel
  import opened Db
  import opened CivicUpdatesService
  import Auth
  import Routing

  const UPDATES_DEFAULT_LIMIT: int := 10

  /** The query string of a listing. */
  datatype UpdateListRequest = UpdateListRequest(filter: UpdateFilter, limit: Option<string>, page: Option<string>, sortBy: Option<string>)

  /** `parseInt(limit) || 10`, `parseInt(page) || 1`, and `sortBy` as given,
      possibly undefined. */
  function UpdateListOptions(q: UpdateListRequest): (opts: ListOptions)
    ensures opts.limit == Some(IntOr(q.limit, UPDATES_DEFAULT_LIMIT)) && opts.page == Some(IntOr(q.page, 1))
    ensures opts.sortBy == q.sortBy
  {
    ListOptions(Some(IntOr(q.limit, UPDATES_DEFAULT_LIMIT)), Some(IntOr(q.page, 1)), q.sortBy)
  }

  datatype Meta = Meta(page: int, limit: int, total: nat)

  datatype UpdateList = UpdateList(items: seq<CivicUpdate>, meta: Meta)

  /** getCivicUpdatesHandler: the page of updates, with `meta` echoing the
      page and limit used and giving the unpaged count as `total`. */
  method GetCivicUpdatesHandler(db: Store, q: UpdateListRequest, o: Oracles) returns (r: Result<UpdateList>)
    ensures var page := UpdatesPage(db.updates, q.filter, UpdateListOptions(q), o);
      && (r.Ok? <==> page.Ok?)
      && (page.Err? ==> r == Err(page.failure))
      && (r.Ok? ==> r.value.items == page.value.items)
    ensures r.Ok? ==> r.value.meta == Meta(IntOr(q.page, 1), IntOr(q.limit, UPDATES_DEFAULT_LIMIT), Count(db.updates, UpdateSelector(q.filter, o)))
  {
    var options := ListOptions(Some(IntOr(q.limit, UPDATES_DEFAULT_LIMIT)), Some(IntOr(q.page, 1)), q.sortBy);
    var found := GetCivicUpdates(db, q.filter, options, o);
    if found.Err? {
      return Err(found.failure);
    }
    r := Ok(UpdateList(found.value.items, Meta(options.page.value, options.limit.value, found.value.count)));
  }

  /** A missing, empty, non-numeric or zero `limit` is 10 and such a `page`
      is 1; with no `sortBy` the service's latest-start-first order applies. */
  lemma UpdateListDefaults(updates: seq<CivicUpdate>, q: UpdateListRequest, o: Oracles)
    ensures ParseInt(q.limit).None? || ParseInt(q.limit) == Some(0) ==> UpdateListOptions(q).limit == Some(UPDATES_DEFAULT_LIMIT)
    ensures ParseInt(q.page).None? || ParseInt(q.page) == Some(0) ==> UpdateListOptions(q).page == Some(1)
    ensures q.sortBy.None? && UpdatesPage(updates, q.filter, UpdateListOptions(q), o).Ok? ==>
      var items := UpdatesPage(updates, q.filter, UpdateListOptions(q), o).value.items;
      forall a, b :: 0 <= a < b < |items| ==> items[a].startDate >= items[b].startDate
  {
    if q.sortBy.None? && UpdatesPage(updates, q.filter, UpdateListOptions(q), o).Ok? {
      var opts := UpdateListOptions(q);
      assert opts == ListOptions(opts.limit, opts.page, None);
      UpdatesDefaultLatestStartFirst(updates, q.filter, opts.limit, opts.page, o);
    }
  }

  /** `sortBy=:desc` names the empty field, which the server refuses as a
      sort key: the listing fails with a 500 whatever the page and limit. */
  lemma EmptySortKeyRefused(updates: seq<CivicUpdate>, q: UpdateListRequest, o: Oracles)
    requires q.sortBy == Some(":desc")
    ensures UpdatesPage(updates, q.filter, UpdateListOptions(q), o).Err?
    ensures HandleError(UpdatesPage(updates, q.filter, UpdateListOptions(q), o).failure).status == 500
  {
    SortedOnSuffix("", "desc", UPDATE_DEFAULT_SORT);
    assert ":desc" == "" + ":" + "desc";
    RefusedSortKeys();
  }

  /** A page number below 1 (say `-1`) makes the skip negative, which the
      server refuses; with a positive page and limit the listing succeeds
      exactly when the server accepts the sort key. */
  lemma UpdateListPaging(updates: seq<CivicUpdate>, q: UpdateListRequest, o: Oracles)
    ensures IntOr(q.page, 1) >= 1 && IntOr(q.limit, UPDATES_DEFAULT_LIMIT) >= 1 ==>
      (UpdatesPage(updates, q.filter, UpdateListOptions(q), o).Ok? <==> SortableField(ParseSortBy(q.sortBy, UPDATE_DEFAULT_SORT).field))
    ensures IntOr(q.page, 1) < 0 && IntOr(q.limit, UPDATES_DEFAULT_LIMIT) >= 1 ==>
      UpdatesPage(updates, q.filter, UpdateListOptions(q), o).Err?
  {
    var p := IntOr(q.page, 1);
    var l := IntOr(q.limit, UPDATES_DEFAULT_LIMIT);
    if l >= 1 {
      PagingSign(l, p);
    }
  }

  /** With a positive limit, the skip is negative exactly for a page below
      1 (the page is never 0). */
  lemma PagingSign(l: int, p: int)
    requires l >= 1
    ensures p >= 1 ==> PagingOf(Some(l), Some(p)).skip >= 0
    ensures p < 0 ==> PagingOf(Some(l), Some(p)).skip < 0
  {
    if p >= 1 {
      NonNegativeSkip(p - 1, l);
    }
    if p < 0 {
      NegativeSkip(p - 1, l);
    }
  }

  lemma NonNegativeSkip(a: int, b: int)
    requires a >= 0 && b >= 1
    ensures a * b >= 0
  {
  }

  lemma NegativeSkip(a: int, b: int)
    requires a < 0 && b >= 1
    ensures a * b < 0
  {
  }

  /** searchByLocationHandler: the four location parameters are forwarded
      as they came, a missing state included. */
  method SearchByLocationHandler(db: Store, state: Option<string>, district: Option<string>, pincode: Option<string>,
                                 areaName: Option<string>, o: Oracles) returns (r: seq<CivicUpdate>)
    ensures r == LocationResults(db.updates, LocationQuery(state, district, pincode, areaName))
  {
    r := SearchByLocation(db, LocationQuery(state, district, pincode, areaName), o);
  }

  /** POST /civic-updates end to end: the role gate and the validators, then
      createCivicUpdateHandler, which passes the sanitized body to the
      service unchanged. */
  method PostCivicUpdate(db: Store, header: Option<string>, verify: string -> Option<string>,
                         body: CivicUpdateInput, isIso: string -> bool, toDate: string -> Option<int>, newId: string, now: int)
    returns (r: Result<CivicUpdate>)
    requires db.Valid() && IsObjectId(newId) && FreshId(db.updates, UpdateId, CastId(newId))
    modifies db
    ensures db.Valid()
    ensures var checked := Routing.UpdateCreatePipeline(header, verify, old(db.users), body, isIso);
      && (checked.Err? ==> r == Err(checked.failure) && db.updates == old(db.updates))
      && (checked.Ok? ==> r == NewCivicUpdate(newId, checked.value, toDate, now))
    ensures r.Ok? ==> db.updates == old(db.updates) + [r.value]
    ensures r.Err? ==> db.updates == old(db.updates)
    ensures db.issues == old(db.issues) && db.contacts == old(db.contacts) && db.users == old(db.users)
  {
    var checked := Routing.UpdateCreatePipeline(header, verify, db.users, body, isIso);
    if checked.Err? {
      return Err(checked.failure);
    }
    r := CreateCivicUpdate(db, checked.value, toDate, newId, now);
  }

  /** PATCH /civic-updates/:id end to end: the role gate and the optional
      validators, then updateCivicUpdateHandler passing the body on. */
  method PatchCivicUpdateRequest(db: Store, header: Option<string>, verify: string -> Option<string>, updateId: string,
                                 body: CivicUpdatePatch, isIso: string -> bool, toDate: string -> Option<int>)
    returns (r: Result<CivicUpdate>)
    requires db.Valid()
    modifies db
    ensures db.Valid()
    ensures var checked := Routing.UpdatePatchPipeline(header, verify, old(db.users), body, isIso);
      && (checked.Err? ==> r == Err(checked.failure) && db.updates == old(db.updates))
      && (checked.Ok? ==> r == PatchResult(old(db.updates), updateId, checked.value, toDate))
    ensures r.Err? ==> db.updates == old(db.updates)
    ensures db.issues == old(db.issues) && db.contacts == old(db.contacts) && db.users == old(db.users)
  {
    var checked := Routing.UpdatePatchPipeline(header, verify, db.users, body, isIso);
    if checked.Err? {
      return Err(checked.failure);
    }
    r := PatchCivicUpdate(db, updateId, checked.value, toDate);
  }

  /** A PATCH body that sets `affectedAreas` with a blank state passes the
      route's validators but is refused by the update validators, with a
      500 rather than a 400. */
  lemma UncheckedAreasRefusedLate(updates: seq<CivicUpdate>, updateId: string, body: CivicUpdatePatch,
                                  isIso: string -> bool, toDate: string -> Option<int>)
    requires IsObjectId(updateId)
    requires body.affectedAreas == Some([AreaInput(Some(""), None, None, None)])
    ensures Routing.UpdatePatchErrors(body, isIso) == Routing.UpdatePatchErrors(body.(affectedAreas := None), isIso)
    ensures var r := PatchResult(updates, updateId, Routing.SanitizedPatch(body), toDate);
      r.Err? && HandleError(r.failure).status == 500
  {
    var s := Routing.SanitizedPatch(body);
    assert !ValidArea(AreasOf(s.affectedAreas.value)[0]);
  }
}

=== FILE: civic_updates_page.dfy ===
/** The public civic updates page (pages/CivicUpdates.tsx): the filter effect
    narrows a copy of the fetched updates one filter at a time. */
module CivicUpdatesPage {
  import opened Common
  import opened CivicUpdateModel

  /** The page's filter inputs; the empty string means "any". */
  datatype LocationFilter = LocationFilter(state: string, district: string, pincode: string, areaName: string)
  datatype PageFilters = PageFilters(search: string, location: LocationFilter, kind: string)

  const NO_FILTERS: PageFilters := PageFilters("", LocationFilter("", "", "", ""), "")

  /** `field && field.toLowerCase().includes(q)` for an optional field. */
  predicate OptionIncludes(field: Option<string>, q: string) {
    Present(field) && IncludesIgnoringCase(field.value, q)
  }

  /** Some affected area satisfies `p`. */
  predicate SomeArea(u: CivicUpdate, p: Area -> bool) {
    exists k :: 0 <= k < |u.affectedAreas| && p(u.affectedAreas[k])
  }

  /** The search: title, description, or some area's state, district,
      pincode or name, all case-insensitively. */
  predicate SearchHit(u: CivicUpdate, q: string) {
    || IncludesIgnoringCase(u.title, q)
    || IncludesIgnoringCase(u.description, q)
    || SomeArea(u, (a: Area) =>
         || IncludesIgnoringCase(a.state, q)
         || OptionIncludes(a.district, q)
         || OptionIncludes(a.pincode, q)
         || OptionIncludes(a.areaName, q))
  }

  /** The pincode filter alone compares case-sensitively. */
  predicate PincodeHit(a: Area, pin: string) {
    Present(a.pincode) && Contains(a.pincode.value, pin)
  }

  /** The six filters, in the order the effect applies them. */
  const STAGES: nat := 6

  /** Whether filter `n` is switched on. */
  predicate Active(f: PageFilters, n: nat) {
    match n
    case 0 => f.search != ""
    case 1 => f.location.state != ""
    case 2 => f.location.district != ""
    case 3 => f.location.pincode != ""
    case 4 => f.location.areaName != ""
    case _ => f.kind != ""
  }

  function SearchBy(q: string): CivicUpdate -> bool {
    (u: CivicUpdate) => SearchHit(u, q)
  }

  function StateBy(state: string): CivicUpdate -> bool {
    (u: CivicUpdate) => SomeArea(u, (a: Area) => IncludesIgnoringCase(a.state, state))
  }

  function DistrictBy(district: string): CivicUpdate -> bool {
    (u: CivicUpdate) => SomeArea(u, (a: Area) => OptionIncludes(a.district, district))
  }

  function PincodeBy(pin: string): CivicUpdate -> bool {
    (u: CivicUpdate) => SomeArea(u, (a: Area) => PincodeHit(a, pin))
  }

  function AreaNameBy(name: string): CivicUpdate -> bool {
    (u: CivicUpdate) => SomeArea(u, (a: Area) => OptionIncludes(a.areaName, name))
  }

  function KindBy(kind: string): CivicUpdate -> bool {
    (u: CivicUpdate) => u.kind == kind
  }

  /** What filter `n` keeps when it is switched on. */
  function StageTest(f: PageFilters, n: nat): CivicUpdate -> bool {
    match n
    case 0 => SearchBy(f.search)
    case 1 => StateBy(f.location.state)
    case 2 => DistrictBy(f.location.district)
    case 3 => PincodeBy(f.location.pincode)
    case 4 => AreaNameBy(f.location.areaName)
    case _ => KindBy(f.kind)
  }

  /** An update passes filter `n`. */
  predicate Passes(f: PageFilters, n: nat, u: CivicUpdate) {
    !Active(f, n) || StageTest(f, n)(u)
  }

  /** An update passes the first `n` filters. */
  predicate PassesFirst(f: PageFilters, n: nat, u: CivicUpdate) {
    n == 0 || (PassesFirst(f, n - 1, u) && Passes(f, n - 1, u))
  }

  /** An update is listed when every filter that is switched on keeps it. */
  predicate Shown(f: PageFilters, u: CivicUpdate) {
    forall n :: 0 <= n < STAGES ==> Passes(f, n, u)
  }

  function FirstBy(f: PageFilters, n: nat): CivicUpdate -> bool {
    (u: CivicUpdate) => PassesFirst(f, n, u)
  }

  function ShownBy(f: PageFilters): CivicUpdate -> bool {
    (u: CivicUpdate) => Shown(f, u)
  }

  lemma {:induction false} PassesFirstAll(f: PageFilters, n: nat, u: CivicUpdate)
    ensures PassesFirst(f, n, u) <==> forall m :: 0 <= m < n ==> Passes(f, m, u)
  {
    if n > 0 {
      PassesFirstAll(f, n - 1, u);
    }
  }

  /** Applying filter `n` to the updates that passed the first `n` leaves the
      updates that pass the first `n + 1`; a filter that is off changes
      nothing. */
  lemma Narrow(updates: seq<CivicUpdate>, f: PageFilters, n: nat)
    ensures Active(f, n) ==>
      Filter(Filter(updates, FirstBy(f, n)), StageTest(f, n)) == Filter(updates, FirstBy(f, n + 1))
    ensures !Active(f, n) ==> Filter(updates, FirstBy(f, n)) == Filter(updates, FirstBy(f, n + 1))
  {
    if Active(f, n) {
      FilterFilter(updates, FirstBy(f, n), StageTest(f, n), FirstBy(f, n + 1));
    } else {
      FilterCongruent(updates, FirstBy(f, n), FirstBy(f, n + 1));
    }
  }

  /** The filter effect: `results` starts as a copy of the updates and each
      switched-on filter narrows it; the outcome is the updates that every
      switched-on filter keeps, in their fetched order. */
  method ApplyFilters(updates: seq<CivicUpdate>, f: PageFilters) returns (results: seq<CivicUpdate>)
    ensures results == Filter(updates, ShownBy(f))
  {
    results := updates;
    FilterAll(updates, FirstBy(f, 0));
    results := Stage(updates, f, 0, results, f.search != "", SearchBy(f.search));
    results := Stage(updates, f, 1, results, f.location.state != "", StateBy(f.location.state));
    results := Stage(updates, f, 2, results, f.location.district != "", DistrictBy(f.location.district));
    results := Stage(updates, f, 3, results, f.location.pincode != "", PincodeBy(f.location.pincode));
    results := Stage(updates, f, 4, results, f.location.areaName != "", AreaNameBy(f.location.areaName));
    results := Stage(updates, f, 5, results, f.kind != "", KindBy(f.kind));
    AllStagesShown(updates, f);
  }

  /** Passing the six filters in turn is being shown. */
  lemma AllStagesShown(updates: seq<CivicUpdate>, f: PageFilters)
    ensures Filter(updates, FirstBy(f, STAGES)) == Filter(updates, ShownBy(f))
  {
    forall u
      ensures FirstBy(f, STAGES)(u) == ShownBy(f)(u)
    {
      PassesFirstAll(f, STAGES, u);
    }
    FilterCongruent(updates, FirstBy(f, STAGES), ShownBy(f));
  }

  /** One step of the effect: `if (on) results = results.filter(test)`. */
  method Stage(updates: seq<CivicUpdate>, f: PageFilters, n: nat, results: seq<CivicUpdate>, on: bool, test: CivicUpdate -> bool)
    returns (r: seq<CivicUpdate>)
    requires results == Filter(updates, FirstBy(f, n))
    requires on == Active(f, n) && test == StageTest(f, n)
    ensures r == Filter(updates, FirstBy(f, n + 1))
  {
    Narrow(updates, f, n);
    r := results;
    if on {
      r := Filter(results, test);
    }
  }

  /** The listed updates keep their order and come from the fetched ones; an
      update is listed exactly when every switched-on filter keeps it; with
      no filter on, every update is listed. */
  lemma FilteredUpdatesCorrect(updates: seq<CivicUpdate>, f: PageFilters)
    ensures IsSubsequence(Filter(updates, ShownBy(f)), updates)
    ensures forall u :: u in Filter(updates, ShownBy(f)) <==> u in updates && Shown(f, u)
    ensures f == NO_FILTERS ==> Filter(updates, ShownBy(f)) == updates
  {
    FilterIsSubsequence(updates, ShownBy(f));
    forall u
      ensures u in Filter(updates, ShownBy(f)) <==> u in updates && Shown(f, u)
    {
      FilterMembers(updates, ShownBy(f), u);
    }
    if f == NO_FILTERS {
      forall k | 0 <= k < |updates|
        ensures ShownBy(f)(updates[k])
      {
        forall n | 0 <= n < STAGES
          ensures Passes(f, n, updates[k])
        {
          assert !Active(f, n);
        }
      }
      FilterAll(updates, ShownBy(f));
    }
  }

  /** The location filters look at the areas one by one: an update whose
      first area is in Kerala and whose second is in the district of Pune
      passes a state filter "kerala" together with a district filter
      "pune". */
  lemma AreasMatchSeparately(u: CivicUpdate)
    requires |u.affectedAreas| == 2
    requires u.affectedAreas[0] == Area("Kerala", None, None, None)
    requires u.affectedAreas[1] == Area("Maharashtra", Some("Pune"), None, None)
    ensures Shown(PageFilters("", LocationFilter("kerala", "pune", "", ""), ""), u)
  {
    var f := PageFilters("", LocationFilter("kerala", "pune", "", ""), "");
    assert ToLower("Kerala") == "kerala";
    assert IsPrefix("kerala", ToLower("Kerala")[0..]);
    assert ToLower("Pune") == "pune";
    assert IsPrefix("pune", ToLower("Pune")[0..]);
    assert StageTest(f, 1)(u) by {
      assert IncludesIgnoringCase(u.affectedAreas[0].state, "kerala");
    }
    assert StageTest(f, 2)(u) by {
      assert OptionIncludes(u.affectedAreas[1].district, "pune");
    }
    forall n | 0 <= n < STAGES
      ensures Passes(f, n, u)
    {
    }
  }

  /** Unlike the other text filters, the pincode filter is case-sensitive:
      an area with pincode "AB1" is not found by "ab1", though the search box
      finds it. */
  lemma PincodeCaseSensitive(u: CivicUpdate)
    requires u.affectedAreas == [Area("Kerala", None, Some("AB1"), None)]
    ensures !Shown(PageFilters("", LocationFilter("", "", "ab1", ""), ""), u)
    ensures Shown(PageFilters("ab1", LocationFilter("", "", "", ""), ""), u)
  {
    var a := u.affectedAreas[0];
    assert !Contains("AB1", "ab1") by {
      assert "AB1"[0..][..3][0] != "ab1"[0];
    }
    assert !PincodeHit(a, "ab1");
    assert !StageTest(PageFilters("", LocationFilter("", "", "ab1", ""), ""), 3)(u);
    assert !Passes(PageFilters("", LocationFilter("", "", "ab1", ""), ""), 3, u);
    var g := PageFilters("ab1", LocationFilter("", "", "", ""), "");
    assert ToLower("AB1") == "ab1";
    assert IsPrefix("ab1", ToLower("AB1")[0..]);
    assert OptionIncludes(a.pincode, "ab1");
    assert SearchHit(u, "ab1");
    forall n | 0 <= n < STAGES
      ensures Passes(g, n, u)
    {
    }
  }
}

=== FILE: civic_updates_service.dfy ===
/** The civic-update engine (services/civicUpdates.service.ts): create, read,
    update and delete by id, the filtered and paged listing, and the search
    by location. Date casting is a parameter yielding milliseconds. */
module CivicUpdatesService {
  import opened Common
  import opened ApiErrors
  import opened Query
  import opened CivicUpdateModel
  import opened Db

  const UPDATE_NOT_FOUND: string := "Civic update not found"

  // ---------------------------------------------------------------------------
  // createCivicUpdate, getCivicUpdateById, updateCivicUpdate, deleteCivicUpdate

  /** createCivicUpdate: the validated document is stored at the end. */
  method CreateCivicUpdate(db: Store, input: CivicUpdateInput, toDate: string -> Option<int>, newId: string, now: int)
    returns (r: Result<CivicUpdate>)
    requires db.Valid() && IsObjectId(newId) && FreshId(db.updates, UpdateId, CastId(newId))
    modifies db
    ensures db.Valid()
    ensures r == NewCivicUpdate(newId, input, toDate, now)
    ensures r.Ok? ==> db.updates == old(db.updates) + [r.value]
    ensures r.Err? ==> db.updates == old(db.updates)
    ensures db.issues == old(db.issues) && db.contacts == old(db.contacts) && db.users == old(db.users)
  {
    r := NewCivicUpdate(newId, input, toDate, now);
    if r.Ok? {
      SaveUpdate(db, r.value);
    }
  }

  /** `save()` of a new, valid update with a fresh id. */
  method SaveUpdate(db: Store, u: CivicUpdate)
    requires db.Valid() && ValidCivicUpdate(u) && FreshId(db.updates, UpdateId, UpdateId(u))
    modifies db
    ensures db.Valid()
    ensures db.updates == old(db.updates) + [u]
    ensures db.issues == old(db.issues) && db.contacts == old(db.contacts) && db.users == old(db.users)
  {
    UpdateAppended(db.updates, u);
    db.updates := db.updates + [u];
  }

  /** Where `findById(updateId)` finds its update: the one whose id is the
      same ObjectId. */
  function UpdateSlot(updates: seq<CivicUpdate>, updateId: string): (r: Result<nat>)
    ensures r.Ok? ==> r.value < |updates| && CastId(updates[r.value].id) == CastId(updateId)
  {
    Locate(updates, UpdateId, updateId, UPDATE_NOT_FOUND)
  }

  /** getCivicUpdateById: the stored update with that id, in any letter
      case, NotFound for an unknown id. */
  function FindUpdate(updates: seq<CivicUpdate>, updateId: string): (r: Result<CivicUpdate>)
    ensures r.Ok? ==> r.value in updates && CastId(r.value.id) == CastId(updateId)
    ensures IsObjectId(updateId) ==> (r.Ok? <==> exists k :: 0 <= k < |updates| && CastId(updates[k].id) == CastId(updateId))
    ensures IsObjectId(updateId) && r.Err? ==> r.failure == NotFound(UPDATE_NOT_FOUND)
  {
    match UpdateSlot(updates, updateId)
    case Err(e) => Err(e)
    case Ok(k) => Ok(updates[k])
  }

  /** With distinct ids, any spelling of a stored update's id finds it. */
  lemma FindUpdateAnyCase(updates: seq<CivicUpdate>, k: nat, updateId: string)
    requires UniqueIds(updates, UpdateId) && k < |updates|
    requires IsObjectId(updateId) && CastId(updateId) == CastId(updates[k].id)
    ensures FindUpdate(updates, updateId) == Ok(updates[k])
  {
    var j := UpdateSlot(updates, updateId).value;
    assert UpdateId(updates[j]) == UpdateId(updates[k]);
  }

  /** updateCivicUpdate as a reference: the id is cast first, then the update
      document is cast and validated (`runValidators`), and only then is the
      update looked for; the result is the document after the update. */
  function PatchResult(updates: seq<CivicUpdate>, updateId: string, p: CivicUpdatePatch, toDate: string -> Option<int>)
    : (r: Result<CivicUpdate>)
    ensures !IsObjectId(updateId) ==> r.Err? && r.failure.Crash?
    ensures IsObjectId(updateId) && !PatchValid(p, toDate) ==> r.Err? && r.failure.Crash?
    ensures IsObjectId(updateId) && PatchValid(p, toDate) ==>
      (r.Err? <==> FindUpdate(updates, updateId).Err?) &&
      (r.Err? ==> r.failure == NotFound(UPDATE_NOT_FOUND))
    ensures r.Ok? ==> (PatchValid(p, toDate) && FindUpdate(updates, updateId).Ok? &&
      r.value == ApplyPatch(FindUpdate(updates, updateId).value, p, toDate))
  {
    if !IsObjectId(updateId) then Err(Crash("Cast to ObjectId failed for value \"" + updateId + "\""))
    else if !PatchValid(p, toDate) then Err(Crash("Validation failed"))
    else match FindUpdate(updates, updateId)
      case Err(e) => Err(e)
      case Ok(u) => Ok(ApplyPatch(u, p, toDate))
  }

  /** updateCivicUpdate: replaces the update in place by its patched
      version; validating only the fields being set keeps the stored update
      valid. */
  method PatchCivicUpdate(db: Store, updateId: string, p: CivicUpdatePatch, toDate: string -> Option<int>)
    returns (r: Result<CivicUpdate>)
    requires db.Valid()
    modifies db
    ensures db.Valid()
    ensures r == PatchResult(old(db.updates), updateId, p, toDate)
    ensures r.Ok? ==> db.updates == old(db.updates)[UpdateSlot(old(db.updates), updateId).value := r.value]
    ensures r.Err? ==> db.updates == old(db.updates)
    ensures db.issues == old(db.issues) && db.contacts == old(db.contacts) && db.users == old(db.users)
  {
    if !IsObjectId(updateId) {
      return Err(Crash("Cast to ObjectId failed for value \"" + updateId + "\""));
    }
    if !PatchValid(p, toDate) {
      return Err(Crash("Validation failed"));
    }
    var found := UpdateSlot(db.updates, updateId);
    if found.Err? {
      return Err(found.failure);
    }
    var k := found.value;
    var patched := ApplyPatch(db.updates[k], p, toDate);
    PatchKeepsValid(db.updates[k], p, toDate);
    UpdateReplaced(db.updates, k, patched);
    db.updates := db.updates[k := patched];
    r := Ok(patched);
  }

  /** A patch that sets nothing returns the stored update unchanged. */
  lemma EmptyPatchIsRead(updates: seq<CivicUpdate>, updateId: string, toDate: string -> Option<int>)
    ensures var empty := CivicUpdatePatch(None, None, None, None, None, None, None, None, None, None, None);
      PatchResult(updates, updateId, empty, toDate) == FindUpdate(updates, updateId)
  {
  }

  /** deleteCivicUpdate: removes the update, keeping the others in order;
      NotFound for an unknown id. */
  method DeleteCivicUpdate(db: Store, updateId: string) returns (r: Result<()>)
    requires db.Valid()
    modifies db
    ensures db.Valid()
    ensures r.Ok? <==> FindUpdate(old(db.updates), updateId).Ok?
    ensures r.Err? ==> r.failure == FindUpdate(old(db.updates), updateId).failure && db.updates == old(db.updates)
    ensures r.Ok? ==> FreshId(db.updates, UpdateId, CastId(updateId))
    ensures r.Ok? ==> db.updates == RemoveAt(old(db.updates), UpdateSlot(old(db.updates), updateId).value)
    ensures db.issues == old(db.issues) && db.contacts == old(db.contacts) && db.users == old(db.users)
  {
    var found := UpdateSlot(db.updates, updateId);
    if found.Err? {
      return Err(found.failure);
    }
    UpdateRemoved(db.updates, found.value);
    db.updates := RemoveAt(db.updates, found.value);
    r := Ok(());
  }

  // ---------------------------------------------------------------------------
  // getCivicUpdates

  /** The filter parameters of getCivicUpdates; `kind` is `type`. */
  datatype UpdateFilter = UpdateFilter(
    kind: Option<string>,
    status: Option<string>,
    severity: Option<string>,
    source: Option<string>,
    state: Option<string>,
    district: Option<string>,
    pincode: Option<string>,
    areaName: Option<string>,
    search: Option<string>)

  datatype ListOptions = ListOptions(limit: Option<int>, page: Option<int>, sortBy: Option<string>)

  /** The service's own sort when no `sortBy` is given: latest start first. */
  const UPDATE_DEFAULT_SORT: SortSpec := SortSpec("startDate", true)

  predicate NoUpdateTerms(f: UpdateFilter) {
    && !Present(f.kind) && !Present(f.status) && !Present(f.severity) && !Present(f.source)
    && !Present(f.state) && !Present(f.district) && !Present(f.pincode) && !Present(f.areaName)
    && !Present(f.search)
  }

  function SearchTerm(search: Option<string>): (r: Query)
    ensures Present(search) <==> r != []
  {
    if Present(search) then [Term("$text", TextSearch(search.value))] else []
  }

  /** The query getCivicUpdates builds: one conjunct per truthy key, in that
      order; with none, the empty query. */
  function UpdateQuery(f: UpdateFilter): (q: Query)
    ensures NoUpdateTerms(f) ==> q == []
    ensures |q| <= 9
  {
    ScalarQuery(f) + AreaQuery(f)
  }

  function ScalarQuery(f: UpdateFilter): (q: Query)
    ensures |q| <= 4
  {
    EqualityTerm("type", f.kind) + EqualityTerm("status", f.status) + EqualityTerm("severity", f.severity)
    + EqualityTerm("source", f.source)
  }

  /** The affected-area entries and the search. */
  function AreaQuery(f: UpdateFilter): (q: Query)
    ensures |q| <= 5
  {
    EqualityTerm("affectedAreas.state", f.state) + EqualityTerm("affectedAreas.district", f.district)
    + EqualityTerm("affectedAreas.pincode", f.pincode) + EqualityTerm("affectedAreas.areaName", f.areaName)
    + SearchTerm(f.search)
  }

  /** getCivicUpdates filling its query dictionary key by key. */
  method BuildUpdateQuery(f: UpdateFilter) returns (q: Query)
    ensures q == UpdateQuery(f)
  {
    q := [];
    if Present(f.kind) {
      q := q + [Term("type", Equals(f.kind.value))];
    }
    ghost var upTo := EqualityTerm("type", f.kind);
    assert q == upTo;
    if Present(f.status) {
      q := q + [Term("status", Equals(f.status.value))];
    }
    upTo := upTo + EqualityTerm("status", f.status);
    assert q == upTo;
    if Present(f.severity) {
      q := q + [Term("severity", Equals(f.severity.value))];
    }
    upTo := upTo + EqualityTerm("severity", f.severity);
    assert q == upTo;
    if Present(f.source) {
      q := q + [Term("source", Equals(f.source.value))];
    }
    upTo := upTo + EqualityTerm("source", f.source);
    assert q == ScalarQuery(f);
    var areas: Query := [];
    if Present(f.state) {
      areas := areas + [Term("affectedAreas.state", Equals(f.state.value))];
    }
    ghost var areasUpTo := EqualityTerm("affectedAreas.state", f.state);
    assert areas == areasUpTo;
    if Present(f.district) {
      areas := areas + [Term("affectedAreas.district", Equals(f.district.value))];
    }
    areasUpTo := areasUpTo + EqualityTerm("affectedAreas.district", f.district);
    assert areas == areasUpTo;
    if Present(f.pincode) {
      areas := areas + [Term("affectedAreas.pincode", Equals(f.pincode.value))];
    }
    areasUpTo := areasUpTo + EqualityTerm("affectedAreas.pincode", f.pincode);
    assert areas == areasUpTo;
    if Present(f.areaName) {
      areas := areas + [Term("affectedAreas.areaName", Equals(f.areaName.value))];
    }
    areasUpTo := areasUpTo + EqualityTerm("affectedAreas.areaName", f.areaName);
    assert areas == areasUpTo;
    if Present(f.search) {
      areas := areas + [Term("$text", TextSearch(f.search.value))];
    }
    areasUpTo := areasUpTo + SearchTerm(f.search);
    assert areas == AreaQuery(f);
    q := q + areas;
  }

  /** Some affected area has `value` in the given field. */
  predicate SomeArea(u: CivicUpdate, field: Area -> Option<string>, value: string) {
    exists k :: 0 <= k < |u.affectedAreas| && field(u.affectedAreas[k]) == Some(value)
  }

  /** The reference meaning of an update filter: the scalar keys constrain
      by equality, each area key asks that SOME area has the value (each on
      its own), and the search goes to the text index. */
  predicate UpdateSelected(f: UpdateFilter, o: Oracles, u: CivicUpdate) {
    ScalarsSelected(f, u) && AreasSelected(f, o, u)
  }

  predicate ScalarsSelected(f: UpdateFilter, u: CivicUpdate) {
    && (Present(f.kind) ==> u.kind == f.kind.value)
    && (Present(f.status) ==> u.status == f.status.value)
    && (Present(f.severity) ==> u.severity == Some(f.severity.value))
    && (Present(f.source) ==> u.source == f.source.value)
  }

  predicate AreasSelected(f: UpdateFilter, o: Oracles, u: CivicUpdate) {
    && (Present(f.state) ==> SomeArea(u, AreaState, f.state.value))
    && (Present(f.district) ==> SomeArea(u, AreaDistrict, f.district.value))
    && (Present(f.pincode) ==> SomeArea(u, AreaPincode, f.pincode.value))
    && (Present(f.areaName) ==> SomeArea(u, AreaName, f.areaName.value))
    && (Present(f.search) ==> o.text(TextIndexed(u), f.search.value))
  }

  function UpdateSelector(f: UpdateFilter, o: Oracles): CivicUpdate -> bool {
    (u: CivicUpdate) => UpdateSelected(f, o, u)
  }

  /** An equality entry on a path holds exactly when one of the values
      there is the filter value. */
  lemma ConjunctMeaning(o: Oracles, key: string, v: Option<string>, d: Doc)
    ensures Matches(o, EqualityTerm(key, v), d) <==> (Present(v) ==> v.value in Values(d, key))
  {
    if Present(v) {
      assert EqualityTerm(key, v)[0] == Term(key, Equals(v.value));
    }
  }

  lemma SearchTermMeaning(o: Oracles, search: Option<string>, d: Doc)
    ensures Matches(o, SearchTerm(search), d) <==> (Present(search) ==> o.text(d.textFields, search.value))
  {
    if Present(search) {
      assert SearchTerm(search)[0] == Term("$text", TextSearch(search.value));
    }
  }

  /** The scalar half of the query. */
  lemma ScalarQueryMeaning(f: UpdateFilter, o: Oracles, u: CivicUpdate)
    ensures Matches(o, ScalarQuery(f), UpdateDoc(u)) <==> ScalarsSelected(f, u)
  {
    ScalarQueryOn(f, o, u, UpdateDoc(u));
  }

  /** The scalar half on any document showing the update's scalar fields. */
  lemma ScalarQueryOn(f: UpdateFilter, o: Oracles, u: CivicUpdate, d: Doc)
    requires Values(d, "type") == [u.kind] && Values(d, "status") == [u.status] && Values(d, "source") == [u.source]
    requires Values(d, "severity") == (if u.severity.Some? then [u.severity.value] else [])
    ensures Matches(o, ScalarQuery(f), d) <==> ScalarsSelected(f, u)
  {
    var t1 := EqualityTerm("type", f.kind);
    var t2 := EqualityTerm("status", f.status);
    var t3 := EqualityTerm("severity", f.severity);
    var t4 := EqualityTerm("source", f.source);
    ConjunctMeaning(o, "type", f.kind, d);
    ConjunctMeaning(o, "status", f.status, d);
    ConjunctMeaning(o, "severity", f.severity, d);
    ConjunctMeaning(o, "source", f.source, d);
    QueryConjunction(o, t1, t2, d);
    QueryConjunction(o, t1 + t2, t3, d);
    QueryConjunction(o, t1 + t2 + t3, t4, d);
  }

  /** A value is among an area field's values exactly when some area has it. */
  lemma AreaValuesMeaning(u: CivicUpdate, field: Area -> Option<string>, v: string)
    ensures v in AreaValues(u.affectedAreas, field) <==> SomeArea(u, field, v)
  {
  }

  /** The affected-area half of the query, with the search. */
  lemma AreaQueryMeaning(f: UpdateFilter, o: Oracles, u: CivicUpdate)
    ensures Matches(o, AreaQuery(f), UpdateDoc(u)) <==> AreasSelected(f, o, u)
  {
    AreaQueryOn(f, o, u, UpdateDoc(u));
  }

  /** The area half on any document showing the update's areas and text. */
  lemma AreaQueryOn(f: UpdateFilter, o: Oracles, u: CivicUpdate, d: Doc)
    requires Values(d, "affectedAreas.state") == AreaValues(u.affectedAreas, AreaState)
    requires Values(d, "affectedAreas.district") == AreaValues(u.affectedAreas, AreaDistrict)
    requires Values(d, "affectedAreas.pincode") == AreaValues(u.affectedAreas, AreaPincode)
    requires Values(d, "affectedAreas.areaName") == AreaValues(u.affectedAreas, AreaName)
    requires d.textFields == TextIndexed(u)
    ensures Matches(o, AreaQuery(f), d) <==> AreasSelected(f, o, u)
  {
    var t1 := EqualityTerm("affectedAreas.state", f.state);
    var t2 := EqualityTerm("affectedAreas.district", f.district);
    var t3 := EqualityTerm("affectedAreas.pincode", f.pincode);
    var t4 := EqualityTerm("affectedAreas.areaName", f.areaName);
    var t5 := SearchTerm(f.search);
    ConjunctMeaning(o, "affectedAreas.state", f.state, d);
    ConjunctMeaning(o, "affectedAreas.district", f.district, d);
    ConjunctMeaning(o, "affectedAreas.pincode", f.pincode, d);
    ConjunctMeaning(o, "affectedAreas.areaName", f.areaName, d);
    SearchTermMeaning(o, f.search, d);
    if Present(f.state) { AreaValuesMeaning(u, AreaState, f.state.value); }
    if Present(f.district) { AreaValuesMeaning(u, AreaDistrict, f.district.value); }
    if Present(f.pincode) { AreaValuesMeaning(u, AreaPincode, f.pincode.value); }
    if Present(f.areaName) { AreaValuesMeaning(u, AreaName, f.areaName.value); }
    QueryConjunction(o, t1, t2, d);
    QueryConjunction(o, t1 + t2, t3, d);
    QueryConjunction(o, t1 + t2 + t3, t4, d);
    QueryConjunction(o, t1 + t2 + t3 + t4, t5, d);
  }

  /** The built query matches an update exactly when the reference filter
      selects it; the empty filter matches every update. */
  lemma UpdateQueryMeaning(f: UpdateFilter, o: Oracles, u: CivicUpdate)
    ensures Matches(o, UpdateQuery(f), UpdateDoc(u)) <==> UpdateSelected(f, o, u)
    ensures NoUpdateTerms(f) ==> Matches(o, UpdateQuery(f), UpdateDoc(u))
  {
    ScalarQueryMeaning(f, o, u);
    AreaQueryMeaning(f, o, u);
    QueryConjunction(o, ScalarQuery(f), AreaQuery(f), UpdateDoc(u));
  }

  /** The area conditions are independent: one update whose first area is
      in state "A" and whose second area is in district "Y" is selected by
      state "A" together with district "Y", though no area has both. */
  lemma AreaConditionsIndependent(o: Oracles, u: CivicUpdate)
    requires u.affectedAreas == [Area("A", Some("X"), None, None), Area("B", Some("Y"), None, None)]
    ensures UpdateSelected(UpdateFilter(None, None, None, None, Some("A"), Some("Y"), None, None, None), o, u)
    ensures !exists k :: 0 <= k < |u.affectedAreas| && u.affectedAreas[k].state == "A" && u.affectedAreas[k].district == Some("Y")
  {
    assert AreaState(u.affectedAreas[0]) == Some("A");
    assert AreaDistrict(u.affectedAreas[1]) == Some("Y");
  }

  function UpdateKey(field: string): CivicUpdate -> SortValue {
    (u: CivicUpdate) => KeyOf(UpdateDoc(u), field)
  }

  /** getCivicUpdates as a reference: the server refuses a negative skip
      and a sort key that is no field path; otherwise the selected updates,
      sorted, paged, and counted. */
  function UpdatesPage(updates: seq<CivicUpdate>, f: UpdateFilter, opts: ListOptions, o: Oracles): (r: Result<Page<CivicUpdate>>)
    ensures r.Err? <==> PagingOf(opts.limit, opts.page).skip < 0 || !SortableField(ParseSortBy(opts.sortBy, UPDATE_DEFAULT_SORT).field)
    ensures r.Err? ==> r.failure.Crash?
    ensures r.Ok? ==> r.value.count == Count(updates, UpdateSelector(f, o))
  {
    var sort := ParseSortBy(opts.sortBy, UPDATE_DEFAULT_SORT);
    SortedFind(updates, UpdateSelector(f, o), sort, UpdateKey(sort.field), PagingOf(opts.limit, opts.page))
  }

  /** getCivicUpdates: builds the query, then finds, sorts, pages and
      counts. */
  method GetCivicUpdates(db: Store, f: UpdateFilter, opts: ListOptions, o: Oracles) returns (r: Result<Page<CivicUpdate>>)
    ensures r == UpdatesPage(db.updates, f, opts, o)
  {
    var query := BuildUpdateQuery(f);
    var paging := PagingOf(opts.limit, opts.page);
    var sort := if Present(opts.sortBy) then ParseSortBy(opts.sortBy, UPDATE_DEFAULT_SORT) else UPDATE_DEFAULT_SORT;
    var matches := (u: CivicUpdate) => Matches(o, query, UpdateDoc(u));
    forall k | 0 <= k < |db.updates|
      ensures matches(db.updates[k]) == UpdateSelector(f, o)(db.updates[k])
    {
      UpdateQueryMeaning(f, o, db.updates[k]);
    }
    FindPageCongruent(db.updates, matches, UpdateSelector(f, o), UpdateKey(sort.field), sort.desc, paging);
    r := SortedFind(db.updates, matches, sort, UpdateKey(sort.field), paging);
  }

  /** Every listed update is stored and selected, the page is in sort
      order, and with an empty filter every update counts. */
  lemma UpdatesPageCorrect(updates: seq<CivicUpdate>, f: UpdateFilter, opts: ListOptions, o: Oracles)
    requires UpdatesPage(updates, f, opts, o).Ok?
    ensures var page := UpdatesPage(updates, f, opts, o).value;
      var sort := ParseSortBy(opts.sortBy, UPDATE_DEFAULT_SORT);
      && (forall u :: u in page.items ==> u in updates && UpdateSelected(f, o, u))
      && SortedBy(page.items, UpdateKey(sort.field), sort.desc)
      && |page.items| <= page.count
    ensures NoUpdateTerms(f) ==> UpdatesPage(updates, f, opts, o).value.count == |updates|
  {
    var sort := ParseSortBy(opts.sortBy, UPDATE_DEFAULT_SORT);
    var paging := PagingOf(opts.limit, opts.page);
    assert UpdatesPage(updates, f, opts, o) == FindPage(updates, UpdateSelector(f, o), UpdateKey(sort.field), sort.desc, paging);
    FindPageCorrect(updates, UpdateSelector(f, o), UpdateKey(sort.field), sort.desc, paging);
    if NoUpdateTerms(f) {
      EveryUpdateCounts(updates, f, o);
    }
  }

  lemma EveryUpdateCounts(updates: seq<CivicUpdate>, f: UpdateFilter, o: Oracles)
    requires NoUpdateTerms(f)
    ensures Count(updates, UpdateSelector(f, o)) == |updates|
  {
    FilterAll(updates, UpdateSelector(f, o));
  }

  /** With no `sortBy`, the latest start date comes first. */
  lemma UpdatesDefaultLatestStartFirst(updates: seq<CivicUpdate>, f: UpdateFilter, limit: Option<int>, page: Option<int>, o: Oracles)
    requires UpdatesPage(updates, f, ListOptions(limit, page, None), o).Ok?
    ensures var items := UpdatesPage(updates, f, ListOptions(limit, page, None), o).value.items;
      forall a, b :: 0 <= a < b < |items| ==> items[a].startDate >= items[b].startDate
  {
    var items := UpdatesPage(updates, f, ListOptions(limit, page, None), o).value.items;
    UpdatesPageCorrect(updates, f, ListOptions(limit, page, None), o);
    LatestStartFirst(items);
  }

  /** Sorted descending on the `startDate` key is latest start first. */
  lemma LatestStartFirst(r: seq<CivicUpdate>)
    requires SortedBy(r, UpdateKey("startDate"), true)
    ensures forall a, b :: 0 <= a < b < |r| ==> r[a].startDate >= r[b].startDate
  {
    forall a, b | 0 <= a < b < |r|
      ensures r[a].startDate >= r[b].startDate
    {
      SortKeyStates(r[a]);
      SortKeyStates(r[b]);
      assert Precedes(UpdateKey("startDate")(r[a]), UpdateKey("startDate")(r[b]), true);
    }
  }

  // ---------------------------------------------------------------------------
  // searchCivicUpdatesByLocation

  /** The location parameters; `state` is always put in the query, even
      when it is undefined. */
  datatype LocationQuery = LocationQuery(state: Option<string>, district: Option<string>, pincode: Option<string>, areaName: Option<string>)

  /** The state entry: an undefined state is sent as a null match. */
  function StateTerm(state: Option<string>): (t: Term)
    ensures t.path == "affectedAreas.state"
  {
    Term("affectedAreas.state", if state.Some? then Equals(state.value) else Missing)
  }

  function LocationQueryOf(l: LocationQuery): (q: Query)
    ensures q != [] && q[0] == StateTerm(l.state)
    ensures |q| <= 4
  {
    [StateTerm(l.state)] + EqualityTerm("affectedAreas.district", l.district)
    + EqualityTerm("affectedAreas.pincode", l.pincode) + EqualityTerm("affectedAreas.areaName", l.areaName)
  }

  /** The search's query built entry by entry. */
  method BuildLocationQuery(l: LocationQuery) returns (q: Query)
    ensures q == LocationQueryOf(l)
  {
    q := [StateTerm(l.state)];
    if Present(l.district) {
      q := q + [Term("affectedAreas.district", Equals(l.district.value))];
    }
    ghost var upTo := [StateTerm(l.state)] + EqualityTerm("affectedAreas.district", l.district);
    assert q == upTo;
    if Present(l.pincode) {
      q := q + [Term("affectedAreas.pincode", Equals(l.pincode.value))];
    }
    upTo := upTo + EqualityTerm("affectedAreas.pincode", l.pincode);
    assert q == upTo;
    if Present(l.areaName) {
      q := q + [Term("affectedAreas.areaName", Equals(l.areaName.value))];
    }
  }

  /** The reference meaning of a location search: some area has the state
      (with no state given, the update has no areas at all), and each
      truthy optional key is met by some area. */
  predicate LocationSelected(l: LocationQuery, u: CivicUpdate) {
    && (l.state.Some? ==> SomeArea(u, AreaState, l.state.value))
    && (l.state.None? ==> u.affectedAreas == [])
    && (Present(l.district) ==> SomeArea(u, AreaDistrict, l.district.value))
    && (Present(l.pincode) ==> SomeArea(u, AreaPincode, l.pincode.value))
    && (Present(l.areaName) ==> SomeArea(u, AreaName, l.areaName.value))
  }

  function LocationSelector(l: LocationQuery): CivicUpdate -> bool {
    (u: CivicUpdate) => LocationSelected(l, u)
  }

  /** Every area has a state, so the state path has a value exactly when
      there is an area. */
  lemma AreaStatesEmpty(areas: seq<Area>)
    ensures AreaValues(areas, AreaState) == [] <==> areas == []
  {
    if areas != [] {
      assert AreaState(areas[0]).Some?;
    }
  }

  lemma StateTermMeaning(o: Oracles, l: LocationQuery, u: CivicUpdate, d: Doc)
    requires Values(d, "affectedAreas.state") == AreaValues(u.affectedAreas, AreaState)
    ensures Matches(o, [StateTerm(l.state)], d) <==>
      (l.state.Some? ==> SomeArea(u, AreaState, l.state.value)) && (l.state.None? ==> u.affectedAreas == [])
  {
    var t := StateTerm(l.state);
    assert Matches(o, [t], d) <==> CondHolds(o, d, t.path, t.cond) by {
      assert [t][0] == t;
    }
    if l.state.Some? {
      AreaValuesMeaning(u, AreaState, l.state.value);
    } else {
      AreaStatesEmpty(u.affectedAreas);
    }
  }

  lemma LocationQueryMeaning(o: Oracles, l: LocationQuery, u: CivicUpdate)
    ensures Matches(o, LocationQueryOf(l), UpdateDoc(u)) <==> LocationSelected(l, u)
  {
    LocationQueryOn(o, l, u, UpdateDoc(u));
  }

  /** The location search on any document showing the update's areas. */
  lemma LocationQueryOn(o: Oracles, l: LocationQuery, u: CivicUpdate, d: Doc)
    requires Values(d, "affectedAreas.state") == AreaValues(u.affectedAreas, AreaState)
    requires Values(d, "affectedAreas.district") == AreaValues(u.affectedAreas, AreaDistrict)
    requires Values(d, "affectedAreas.pincode") == AreaValues(u.affectedAreas, AreaPincode)
    requires Values(d, "affectedAreas.areaName") == AreaValues(u.affectedAreas, AreaName)
    ensures Matches(o, LocationQueryOf(l), d) <==> LocationSelected(l, u)
  {
    var t0 := [StateTerm(l.state)];
    var t1 := EqualityTerm("affectedAreas.district", l.district);
    var t2 := EqualityTerm("affectedAreas.pincode", l.pincode);
    var t3 := EqualityTerm("affectedAreas.areaName", l.areaName);
    StateTermMeaning(o, l, u, d);
    ConjunctMeaning(o, "affectedAreas.district", l.district, d);
    ConjunctMeaning(o, "affectedAreas.pincode", l.pincode, d);
    ConjunctMeaning(o, "affectedAreas.areaName", l.areaName, d);
    if Present(l.district) { AreaValuesMeaning(u, AreaDistrict, l.district.value); }
    if Present(l.pincode) { AreaValuesMeaning(u, AreaPincode, l.pincode.value); }
    if Present(l.areaName) { AreaValuesMeaning(u, AreaName, l.areaName.value); }
    QueryConjunction(o, t0, t1, d);
    QueryConjunction(o, t0 + t1, t2, d);
    QueryConjunction(o, t0 + t1 + t2, t3, d);
  }

  /** searchCivicUpdatesByLocation as a reference: every selected update,
      latest start first, unpaged. */
  function LocationResults(updates: seq<CivicUpdate>, l: LocationQuery): (r: seq<CivicUpdate>)
    ensures |r| == Count(updates, LocationSelector(l))
  {
    SortDocs(Filter(updates, LocationSelector(l)), UpdateKey("startDate"), true)
  }

  /** searchCivicUpdatesByLocation. */
  method SearchByLocation(db: Store, l: LocationQuery, o: Oracles) returns (r: seq<CivicUpdate>)
    ensures r == LocationResults(db.updates, l)
  {
    var query := BuildLocationQuery(l);
    var matches := (u: CivicUpdate) => Matches(o, query, UpdateDoc(u));
    forall k | 0 <= k < |db.updates|
      ensures matches(db.updates[k]) == LocationSelector(l)(db.updates[k])
    {
      LocationQueryMeaning(o, l, db.updates[k]);
    }
    FilterCongruent(db.updates, matches, LocationSelector(l));
    r := SortDocs(Filter(db.updates, matches), UpdateKey("startDate"), true);
  }

  /** The search returns exactly the selected updates (each as often as it
      is stored), latest start date first. */
  lemma LocationResultsCorrect(updates: seq<CivicUpdate>, l: LocationQuery)
    ensures var r := LocationResults(updates, l);
      && multiset(r) == multiset(Filter(updates, LocationSelector(l)))
      && (forall u :: u in r <==> u in updates && LocationSelected(l, u))
      && (forall a, b :: 0 <= a < b < |r| ==> r[a].startDate >= r[b].startDate)
  {
    var matched := Filter(updates, LocationSelector(l));
    var r := LocationResults(updates, l);
    SortDocsCorrect(matched, UpdateKey("startDate"), true);
    forall u
      ensures u in r <==> u in updates && LocationSelected(l, u)
    {
      assert u in r <==> u in multiset(r);
      assert u in matched <==> u in multiset(matched);
      FilterMembers(updates, LocationSelector(l), u);
    }
    LatestStartFirst(r);
  }

  /** A search without a state finds only updates that have no affected
      area at all. */
  lemma SearchWithoutState(updates: seq<CivicUpdate>, l: LocationQuery)
    requires l.state.None?
    ensures forall u :: u in LocationResults(updates, l) ==> u.affectedAreas == []
  {
    LocationResultsCorrect(updates, l);
  }
}

=== FILE: common.dfy ===
/** Shared vocabulary: optional values, the JavaScript string operations the code
    relies on (truthiness, includes, toLowerCase, trim, split), and the array
    operations behind Array.prototype.filter and splice. */
module Common {

  datatype Option<T> = None | Some(value: T)

  /** `if (s)` on a string: only the empty string is falsy. */
  predicate Truthy(s: string) {
    s != ""
  }

  /** `if (x)` on a value that is a string or undefined. */
  predicate Present(o: Option<string>) {
    o.Some? && Truthy(o.value)
  }

  /** `a || b` where `a` is a string or undefined and `b` a string. */
  function OrElse(o: Option<string>, fallback: string): (r: string)
    ensures Present(o) ==> r == o.value
    ensures !Present(o) ==> r == fallback
  {
    if Present(o) then o.value else fallback
  }

  // ---------------------------------------------------------------------------
  // Characters and case

  function LowerChar(c: char): char {
    if 'A' <= c <= 'Z' then (c as int + 32) as char else c
  }

  /** String.prototype.toLowerCase, on the ASCII letters. */
  function ToLower(s: string): (r: string)
    ensures |r| == |s|
    ensures forall k :: 0 <= k < |s| ==> r[k] == LowerChar(s[k])
  {
    seq(|s|, k requires 0 <= k < |s| => LowerChar(s[k]))
  }

  /** The characters String.prototype.trim removes: ECMAScript WhiteSpace and
      LineTerminator. */
  predicate IsJsSpace(c: char) {
    var n := c as int;
    (0x09 <= n <= 0x0D) || n == 0x20 || n == 0xA0 || n == 0x1680
    || (0x2000 <= n <= 0x200A) || n == 0x2028 || n == 0x2029 || n == 0x202F
    || n == 0x205F || n == 0x3000 || n == 0xFEFF
  }

  predicate AllSpace(s: string) {
    forall k :: 0 <= k < |s| ==> IsJsSpace(s[k])
  }

  function TrimStart(s: string): (r: string)
    ensures |r| <= |s| && r == s[|s| - |r|..]
    ensures r == [] || !IsJsSpace(r[0])
    ensures forall k :: 0 <= k < |s| - |r| ==> IsJsSpace(s[k])
  {
    if s != [] && IsJsSpace(s[0]) then
      var r := TrimStart(s[1..]);
      assert s[1..][|s| - 1 - |r|..] == s[|s| - |r|..];
      assert forall k :: 1 <= k < |s| ==> s[k] == s[1..][k - 1];
      r
    else s
  }

  function TrimEnd(s: string): (r: string)
    ensures |r| <= |s| && r == s[..|r|]
    ensures r == [] || !IsJsSpace(r[|r| - 1])
    ensures forall k :: |r| <= k < |s| ==> IsJsSpace(s[k])
  {
    if s != [] && IsJsSpace(s[|s| - 1]) then
      var r := TrimEnd(s[..|s| - 1]);
      assert s[..|s| - 1][..|r|] == s[..|r|];
      r
    else s
  }

  /** String.prototype.trim. */
  function Trim(s: string): (r: string)
    ensures r == [] || (!IsJsSpace(r[0]) && !IsJsSpace(r[|r| - 1]))
  {
    TrimEnd(TrimStart(s))
  }

  /** Trimming leaves nothing exactly when every character is white space. */
  lemma TrimBlank(s: string)
    ensures Trim(s) == [] <==> AllSpace(s)
  {
    var t := TrimStart(s);
    var r := TrimEnd(t);
    var n := |s| - |t|;
    if t != [] {
      assert s[n] == t[0];
    }
  }

  /** Trimming twice is trimming once. */
  lemma TrimTwice(s: string)
    ensures Trim(Trim(s)) == Trim(s)
  {
    var t := Trim(s);
    if t != [] {
      assert TrimStart(t) == t;
      assert TrimEnd(t) == t;
    }
  }

  /** A string holding a non-space character is non-blank after trimming. */
  lemma TrimKeepsNonBlank(s: string, k: nat)
    requires k < |s| && !IsJsSpace(s[k])
    ensures Truthy(Trim(s))
  {
    TrimBlank(s);
  }

  // ---------------------------------------------------------------------------
  // Substrings

  predicate IsPrefix(p: string, s: string) {
    |p| <= |s| && s[..|p|] == p
  }

  /** String.prototype.includes. */
  predicate Contains(s: string, sub: string) {
    exists k :: 0 <= k <= |s| - |sub| && IsPrefix(sub, s[k..])
  }

  lemma ContainsEmpty(s: string)
    ensures Contains(s, "")
  {
    assert IsPrefix("", s[0..]);
  }

  lemma ContainsSelf(s: string)
    ensures Contains(s, s)
  {
    assert IsPrefix(s, s[0..]);
  }

  /** `field.toLowerCase().includes(search.toLowerCase())`. */
  predicate IncludesIgnoringCase(field: string, search: string) {
    Contains(ToLower(field), ToLower(search))
  }

  // ---------------------------------------------------------------------------
  // split and join on a one-character separator

  /** String.prototype.split with a one-character separator. */
  function Split(s: string, sep: char): (parts: seq<string>)
    ensures |parts| >= 1
    ensures forall k, j :: 0 <= k < |parts| && 0 <= j < |parts[k]| ==> parts[k][j] != sep
  {
    if s == [] then [[]]
    else if s[0] == sep then [[]] + Split(s[1..], sep)
    else
      var rest := Split(s[1..], sep);
      [[s[0]] + rest[0]] + rest[1..]
  }

  /** Array.prototype.join with a one-character separator. */
  function Join(parts: seq<string>, sep: char): string
    requires |parts| >= 1
  {
    if |parts| == 1 then parts[0] else parts[0] + [sep] + Join(parts[1..], sep)
  }

  /** Array.prototype.join with an arbitrary separator; `[]` joins to `""`. */
  function JoinWith(parts: seq<string>, sep: string): (r: string)
    ensures parts == [] ==> r == []
    ensures parts != [] ==> IsPrefix(parts[0], r)
  {
    if parts == [] then []
    else if |parts| == 1 then parts[0]
    else parts[0] + sep + JoinWith(parts[1..], sep)
  }

  /** Joining the parts of a split gives back the original string. */
  lemma {:induction false} JoinSplit(s: string, sep: char)
    ensures Join(Split(s, sep), sep) == s
  {
    if s == [] {
    } else if s[0] == sep {
      JoinSplit(s[1..], sep);
      assert Split(s, sep)[1..] == Split(s[1..], sep);
    } else {
      var rest := Split(s[1..], sep);
      JoinSplit(s[1..], sep);
      var parts := Split(s, sep);
      assert parts[1..] == rest[1..];
      if |rest| == 1 {
        assert Join(parts, sep) == [s[0]] + rest[0];
      } else {
        assert Join(rest, sep) == rest[0] + [sep] + Join(rest[1..], sep);
        assert Join(parts, sep) == [s[0]] + rest[0] + [sep] + Join(rest[1..], sep);
      }
    }
  }

  /** Splitting a string that has no separator gives that one string. */
  lemma {:induction false} SplitNoSeparator(s: string, sep: char)
    requires forall k :: 0 <= k < |s| ==> s[k] != sep
    ensures Split(s, sep) == [s]
  {
    if s != [] {
      SplitNoSeparator(s[1..], sep);
      assert [s[0]] + s[1..] == s;
    }
  }

  /** Splitting `a + sep + b` where `a` has no separator: the first part is `a`
      and the rest is the split of `b`. */
  lemma {:induction false} SplitAtFirst(a: string, sep: char, b: string)
    requires forall k :: 0 <= k < |a| ==> a[k] != sep
    ensures Split(a + [sep] + b, sep) == [a] + Split(b, sep)
  {
    if a == [] {
      assert a + [sep] + b == [sep] + b;
      assert ([sep] + b)[1..] == b;
    } else {
      SplitAtFirst(a[1..], sep, b);
      assert (a + [sep] + b)[1..] == a[1..] + [sep] + b;
      assert [a[0]] + a[1..] == a;
    }
  }

  /** The text before the first occurrence of `sep` (`s.split(sep)[0]`). */
  function BeforeFirst(s: string, sep: char): (r: string)
    ensures IsPrefix(r, s)
    ensures forall k :: 0 <= k < |r| ==> r[k] != sep
    ensures |r| < |s| ==> s[|r|] == sep
  {
    if s == [] || s[0] == sep then [] else [s[0]] + BeforeFirst(s[1..], sep)
  }

  lemma {:induction false} BeforeFirstIsFirstPart(s: string, sep: char)
    ensures Split(s, sep)[0] == BeforeFirst(s, sep)
  {
    if s != [] && s[0] != sep {
      BeforeFirstIsFirstPart(s[1..], sep);
    }
  }

  // ---------------------------------------------------------------------------
  // Sequences

  /** Array.prototype.filter. */
  function Filter<T>(s: seq<T>, p: T -> bool): (r: seq<T>)
    ensures |r| <= |s|
  {
    if s == [] then [] else (if p(s[0]) then [s[0]] else []) + Filter(s[1..], p)
  }

  /** `a` is an order-preserving subsequence of `b`. */
  predicate IsSubsequence<T(==)>(a: seq<T>, b: seq<T>)
    decreases |b|
  {
    if a == [] then true
    else if b == [] then false
    else if a[0] == b[0] then IsSubsequence(a[1..], b[1..])
    else IsSubsequence(a, b[1..])
  }

  /** Filtering keeps exactly the elements satisfying the predicate. */
  lemma {:induction false} FilterMembers<T>(s: seq<T>, p: T -> bool, x: T)
    ensures x in Filter(s, p) <==> x in s && p(x)
  {
    if s != [] {
      FilterMembers(s[1..], p, x);
      assert s == [s[0]] + s[1..];
    }
  }

  /** Filtering preserves the order of the elements it keeps. */
  lemma {:induction false} FilterIsSubsequence<T>(s: seq<T>, p: T -> bool)
    ensures IsSubsequence(Filter(s, p), s)
  {
    if s != [] {
      FilterIsSubsequence(s[1..], p);
      var r := Filter(s[1..], p);
      if p(s[0]) {
        assert Filter(s, p) == [s[0]] + r;
        assert ([s[0]] + r)[1..] == r;
      } else {
        assert Filter(s, p) == [] + r == r;
        if r != [] {
          FilterMembers(s[1..], p, r[0]);
          assert r[0] != s[0];
        }
      }
    }
  }

  /** A predicate that holds everywhere filters nothing out. */
  lemma {:induction false} FilterAll<T>(s: seq<T>, p: T -> bool)
    requires forall k :: 0 <= k < |s| ==> p(s[k])
    ensures Filter(s, p) == s
  {
    if s != [] {
      FilterAll(s[1..], p);
      assert [s[0]] + s[1..] == s;
    }
  }

  /** A predicate that holds nowhere filters everything out. */
  lemma {:induction false} FilterNone<T>(s: seq<T>, p: T -> bool)
    requires forall k :: 0 <= k < |s| ==> !p(s[k])
    ensures Filter(s, p) == []
  {
    if s != [] {
      FilterNone(s[1..], p);
    }
  }

  /** Successive filters compose to one filter on the conjunction. */
  lemma {:induction false} FilterFilter<T>(s: seq<T>, p: T -> bool, q: T -> bool, pq: T -> bool)
    requires forall x :: pq(x) == (p(x) && q(x))
    ensures Filter(Filter(s, p), q) == Filter(s, pq)
  {
    if s != [] {
      FilterFilter(s[1..], p, q, pq);
      FilterAppend([s[0]], s[1..], p);
      FilterAppend(if p(s[0]) then [s[0]] else [], Filter(s[1..], p), q);
    }
  }

  lemma {:induction false} FilterAppend<T>(a: seq<T>, b: seq<T>, p: T -> bool)
    ensures Filter(a + b, p) == Filter(a, p) + Filter(b, p)
  {
    if a == [] {
      assert a + b == b;
    } else {
      var head: seq<T> := if p(a[0]) then [a[0]] else [];
      FilterAppend(a[1..], b, p);
      assert (a + b)[0] == a[0];
      assert (a + b)[1..] == a[1..] + b;
      calc {
        Filter(a + b, p);
        head + Filter(a[1..] + b, p);
        head + (Filter(a[1..], p) + Filter(b, p));
        (head + Filter(a[1..], p)) + Filter(b, p);
        Filter(a, p) + Filter(b, p);
      }
    }
  }

  /** A rejected element between two runs leaves no trace. */
  lemma FilterSkipsRejected<T>(a: seq<T>, x: T, b: seq<T>, p: T -> bool)
    requires !p(x)
    ensures Filter(a + [x] + b, p) == Filter(a, p) + Filter(b, p)
  {
    assert a + [x] + b == a + ([x] + b);
    FilterAppend(a, [x] + b, p);
    FilterAppend([x], b, p);
    assert Filter([x], p) == Filter([], p);
  }

  lemma FilterAppendRejected<T>(s: seq<T>, x: T, p: T -> bool)
    requires !p(x)
    ensures Filter(s + [x], p) == Filter(s, p)
  {
    FilterAppend(s, [x], p);
    assert [x][1..] == [];
  }

  /** Filters with predicates that agree on every element give the same result. */
  lemma {:induction false} FilterCongruent<T>(s: seq<T>, p: T -> bool, q: T -> bool)
    requires forall k :: 0 <= k < |s| ==> p(s[k]) == q(s[k])
    ensures Filter(s, p) == Filter(s, q)
  {
    if s != [] {
      FilterCongruent(s[1..], p, q);
    }
  }

  /** Position of the first element satisfying `p` (`findIndex`), if any. */
  function IndexWhere<T>(s: seq<T>, p: T -> bool): (r: Option<nat>)
    ensures r.Some? ==> r.value < |s| && p(s[r.value])
    ensures r.Some? ==> forall k :: 0 <= k < r.value ==> !p(s[k])
    ensures r.None? ==> forall k :: 0 <= k < |s| ==> !p(s[k])
  {
    if s == [] then None
    else if p(s[0]) then Some(0)
    else match IndexWhere(s[1..], p)
      case None => None
      case Some(k) => Some(k + 1)
  }

  /** Number of elements satisfying `p`. */
  function Count<T>(s: seq<T>, p: T -> bool): (n: nat)
    ensures n <= |s|
  {
    |Filter(s, p)|
  }

  /** Array.prototype.splice(i, 1) on a copy: removes index `i` when it exists. */
  function RemoveAt<T>(s: seq<T>, i: nat): (r: seq<T>)
    ensures i < |s| ==> |r| == |s| - 1
    ensures i < |s| ==> forall k :: 0 <= k < i ==> r[k] == s[k]
    ensures i < |s| ==> forall k :: i <= k < |r| ==> r[k] == s[k + 1]
    ensures i >= |s| ==> r == s
  {
    if i < |s| then s[..i] + s[i + 1..] else s
  }

  /** The elements at positions `skip` up to `skip + limit`, clipped to the sequence. */
  function Window<T>(s: seq<T>, skip: nat, limit: nat): (r: seq<T>)
    ensures |r| == (if skip >= |s| then 0 else if skip + limit <= |s| then limit else |s| - skip)
    ensures forall k :: 0 <= k < |r| ==> r[k] == s[skip + k]
  {
    if skip >= |s| then [] else if skip + limit <= |s| then s[skip..skip + limit] else s[skip..]
  }

  /** `.limit(n)` on a sequence: its first `n` elements. */
  function Take<T>(s: seq<T>, n: nat): (r: seq<T>)
    ensures |r| == if n <= |s| then n else |s|
    ensures r == s[..|r|]
  {
    if n <= |s| then s[..n] else s
  }

  /** Mapping over a sequence (Array.prototype.map). */
  function Map<T, U>(s: seq<T>, f: T -> U): (r: seq<U>)
    ensures |r| == |s|
    ensures forall k :: 0 <= k < |s| ==> r[k] == f(s[k])
  {
    seq(|s|, k requires 0 <= k < |s| => f(s[k]))
  }
}

=== FILE: contact_model.dfy ===
/** The Contact schema (models/contact.model.ts) as far as the contact
    service reads it. */
module ContactModel {
  import opened Common
  import opened Query

  datatype Contact = Contact(
    id: string,
    name: string,
    email: string,
    subject: string,
    message: string,
    status: string,
    createdAt: int)

  /** The key a sort on `field` sees: every field of the contact sorts on
      its value, `_id` as an ObjectId; any other field sorts as null. */
  function SortKey(c: Contact, field: string): SortValue {
    if field == "_id" then ObjectIdKey(c.id)
    else if field == "name" then Text(c.name)
    else if field == "email" then Text(c.email)
    else if field == "subject" then Text(c.subject)
    else if field == "message" then Text(c.message)
    else if field == "status" then Text(c.status)
    else if field == "createdAt" then Num(c.createdAt)
    else Absent
  }

  /** What a sort sees of each field of the contact. */
  lemma SortKeyFields(c: Contact)
    ensures SortKey(c, "_id") == ObjectIdKey(c.id) && SortKey(c, "createdAt") == Num(c.createdAt)
    ensures SortKey(c, "name") == Text(c.name) && SortKey(c, "email") == Text(c.email)
    ensures SortKey(c, "subject") == Text(c.subject) && SortKey(c, "message") == Text(c.message)
    ensures SortKey(c, "status") == Text(c.status)
  {
  }

  /** A contact as a query sees it: `status` and `subject` for equality,
      `name`, `email` and `message` for the regular-expression search. */
  function ContactDoc(c: Contact): (d: Doc)
    ensures Values(d, "_id") == [CastId(c.id)] && Values(d, "status") == [c.status] && Values(d, "subject") == [c.subject]
    ensures Values(d, "name") == [c.name] && Values(d, "email") == [c.email] && Values(d, "message") == [c.message]
    ensures forall field :: KeyOf(d, field) == SortKey(c, field)
  {
    Doc(
      map["_id" := [CastId(c.id)], "name" := [c.name], "email" := [c.email], "subject" := [c.subject],
          "message" := [c.message], "status" := [c.status]],
      [],
      (field: string) => SortKey(c, field))
  }

  /** The fields an update body may set. `updateContact` runs no
      validators, but the cast of the update applies the schema's trim
      setters to name, email and message. */
  datatype ContactPatch = ContactPatch(
    name: Option<string>,
    email: Option<string>,
    subject: Option<string>,
    message: Option<string>,
    status: Option<string>)

  function ApplyContactPatch(c: Contact, p: ContactPatch): (r: Contact)
    ensures r.id == c.id && r.createdAt == c.createdAt
    ensures r.name == (if p.name.Some? then Trim(p.name.value) else c.name)
    ensures r.email == (if p.email.Some? then Trim(p.email.value) else c.email)
    ensures r.subject == (if p.subject.Some? then p.subject.value else c.subject)
    ensures r.message == (if p.message.Some? then Trim(p.message.value) else c.message)
    ensures r.status == (if p.status.Some? then p.status.value else c.status)
  {
    c.(name := if p.name.Some? then Trim(p.name.value) else c.name,
       email := if p.email.Some? then Trim(p.email.value) else c.email,
       subject := if p.subject.Some? then p.subject.value else c.subject,
       message := if p.message.Some? then Trim(p.message.value) else c.message,
       status := if p.status.Some? then p.status.value else c.status)
  }

  /** The patched texts are stored trimmed, and with no validator to
      refuse it, a blank one is stored as the empty string. */
  lemma PatchedTextsTrimmed(c: Contact, p: ContactPatch)
    ensures var r := ApplyContactPatch(c, p);
      && (p.name.Some? ==> Trim(r.name) == r.name && (AllSpace(p.name.value) ==> r.name == ""))
      && (p.email.Some? ==> Trim(r.email) == r.email && (AllSpace(p.email.value) ==> r.email == ""))
      && (p.message.Some? ==> Trim(r.message) == r.message && (AllSpace(p.message.value) ==> r.message == ""))
  {
    if p.name.Some? {
      TrimTwice(p.name.value);
      TrimBlank(p.name.value);
    }
    if p.email.Some? {
      TrimTwice(p.email.value);
      TrimBlank(p.email.value);
    }
    if p.message.Some? {
      TrimTwice(p.message.value);
      TrimBlank(p.message.value);
    }
  }
}

=== FILE: contact_service.dfy ===
/** The contact-message service (services/contact.service.ts): the filtered,
    sorted and paged listing with a case-insensitive search over name, email
    and message, and read, update and delete by id. */
module ContactService {
  import opened Common
  import opened ApiErrors
  import opened Query
  import opened ContactModel
  import opened Db
  import IssuesService

  const CONTACT_NOT_FOUND: string := "Contact not found"

  /** The service's own sort when no `sortBy` is given: newest first. */
  const CONTACT_DEFAULT_SORT: SortSpec := SortSpec("createdAt", true)

  /** The fields the search looks in, in the order of the `$or`. */
  const SEARCH_FIELDS: seq<string> := ["name", "email", "message"]

  datatype ContactFilter = ContactFilter(status: Option<string>, subject: Option<string>, search: Option<string>)

  datatype ListOptions = ListOptions(limit: Option<int>, page: Option<int>, sortBy: Option<string>)

  // ---------------------------------------------------------------------------
  // getContacts

  /** The `$or` of case-insensitive regular-expression matches, when the
      search is truthy; the search text is used as the pattern. */
  function SearchTerm(search: Option<string>): (r: Query)
    ensures Present(search) <==> r != []
  {
    if Present(search) then [Term("$or", AnyRegex(SEARCH_FIELDS, search.value))] else []
  }

  /** The query getContacts builds: `status`, `subject`, then the search,
      each only when truthy. No key at all is the empty filter. */
  function ContactQuery(f: ContactFilter): (q: Query)
  {
    EqualityTerm("status", f.status) + EqualityTerm("subject", f.subject) + SearchTerm(f.search)
  }

  /** getContacts filling its query dictionary key by key. */
  method BuildContactQuery(f: ContactFilter) returns (q: Query)
    ensures q == ContactQuery(f)
  {
    q := [];
    if Present(f.status) {
      q := q + [Term("status", Equals(f.status.value))];
    }
    assert q == EqualityTerm("status", f.status);
    if Present(f.subject) {
      q := q + [Term("subject", Equals(f.subject.value))];
    }
    ghost var upTo := EqualityTerm("status", f.status) + EqualityTerm("subject", f.subject);
    assert q == upTo;
    if Present(f.search) {
      q := q + [Term("$or", AnyRegex(SEARCH_FIELDS, f.search.value))];
    }
  }

  /** The search in its own terms: the pattern matches the name, the email
      or the message. */
  predicate SearchHits(o: Oracles, c: Contact, pattern: string) {
    o.regex(c.name, pattern) || o.regex(c.email, pattern) || o.regex(c.message, pattern)
  }

  /** The reference meaning of a contact filter. */
  predicate ContactSelected(f: ContactFilter, o: Oracles, c: Contact) {
    && (Present(f.status) ==> c.status == f.status.value)
    && (Present(f.subject) ==> c.subject == f.subject.value)
    && (Present(f.search) ==> SearchHits(o, c, f.search.value))
  }

  function ContactSelector(f: ContactFilter, o: Oracles): Contact -> bool {
    (c: Contact) => ContactSelected(f, o, c)
  }

  predicate NoContactTerms(f: ContactFilter) {
    !Present(f.status) && !Present(f.subject) && !Present(f.search)
  }

  /** The `$or` holds exactly when one of the three fields matches. */
  lemma SearchTermMeaning(o: Oracles, search: Option<string>, c: Contact)
    ensures Matches(o, SearchTerm(search), ContactDoc(c)) <==> (Present(search) ==> SearchHits(o, c, search.value))
  {
    var d := ContactDoc(c);
    if Present(search) {
      var p := search.value;
      assert SearchTerm(search)[0] == Term("$or", AnyRegex(SEARCH_FIELDS, p));
      if SearchHits(o, c, p) {
        if o.regex(c.name, p) {
          assert "name" in SEARCH_FIELDS && c.name in Values(d, "name");
        } else if o.regex(c.email, p) {
          assert "email" in SEARCH_FIELDS && c.email in Values(d, "email");
        } else {
          assert "message" in SEARCH_FIELDS && c.message in Values(d, "message");
        }
      }
      if CondHolds(o, d, "$or", AnyRegex(SEARCH_FIELDS, p)) {
        var f, v :| f in SEARCH_FIELDS && v in Values(d, f) && o.regex(v, p);
        assert f == "name" || f == "email" || f == "message";
      }
    }
  }

  /** The built query matches a contact exactly when it satisfies every
      truthy filter key; with no key it matches every contact. */
  lemma ContactQueryMeaning(f: ContactFilter, o: Oracles, c: Contact)
    ensures Matches(o, ContactQuery(f), ContactDoc(c)) <==> ContactSelected(f, o, c)
    ensures NoContactTerms(f) ==> ContactQuery(f) == []
  {
    var d := ContactDoc(c);
    var t1 := EqualityTerm("status", f.status);
    var t2 := EqualityTerm("subject", f.subject);
    IssuesService.EqualityTermMeaning(o, "status", f.status, d, c.status);
    IssuesService.EqualityTermMeaning(o, "subject", f.subject, d, c.subject);
    SearchTermMeaning(o, f.search, c);
    QueryConjunction(o, t1, t2, d);
    QueryConjunction(o, t1 + t2, SearchTerm(f.search), d);
  }

  function ContactKey(field: string): Contact -> SortValue {
    (c: Contact) => KeyOf(ContactDoc(c), field)
  }

  /** getContacts as a reference: the server refuses a negative skip and a
      sort key that is no field path; otherwise the selected contacts,
      sorted, paged with `limit || 10` and `page || 1`, and counted with the
      same query. */
  function ContactsPage(contacts: seq<Contact>, f: ContactFilter, opts: ListOptions, o: Oracles): (r: Result<Page<Contact>>)
    ensures r.Err? <==> PagingOf(opts.limit, opts.page).skip < 0 || !SortableField(ParseSortBy(opts.sortBy, CONTACT_DEFAULT_SORT).field)
    ensures r.Err? ==> r.failure.Crash?
    ensures r.Ok? ==> r.value.count == Count(contacts, ContactSelector(f, o))
  {
    var sort := ParseSortBy(opts.sortBy, CONTACT_DEFAULT_SORT);
    SortedFind(contacts, ContactSelector(f, o), sort, ContactKey(sort.field), PagingOf(opts.limit, opts.page))
  }

  /** getContacts: builds the query, then finds, sorts, pages and counts. */
  method GetContacts(db: Store, f: ContactFilter, opts: ListOptions, o: Oracles) returns (r: Result<Page<Contact>>)
    ensures r == ContactsPage(db.contacts, f, opts, o)
  {
    var query := BuildContactQuery(f);
    var sort := ParseSortBy(opts.sortBy, CONTACT_DEFAULT_SORT);
    var paging := PagingOf(opts.limit, opts.page);
    var matches := (c: Contact) => Matches(o, query, ContactDoc(c));
    forall k | 0 <= k < |db.contacts|
      ensures matches(db.contacts[k]) == ContactSelector(f, o)(db.contacts[k])
    {
      ContactQueryMeaning(f, o, db.contacts[k]);
    }
    FindPageCongruent(db.contacts, matches, ContactSelector(f, o), ContactKey(sort.field), sort.desc, paging);
    r := SortedFind(db.contacts, matches, sort, ContactKey(sort.field), paging);
  }

  /** Every listed contact is stored and selected, the page is in sort
      order, no longer than the limit nor the count, and with no filter key
      every contact counts. */
  lemma ContactsPageCorrect(contacts: seq<Contact>, f: ContactFilter, opts: ListOptions, o: Oracles)
    requires ContactsPage(contacts, f, opts, o).Ok?
    ensures var page := ContactsPage(contacts, f, opts, o).value;
      var sort := ParseSortBy(opts.sortBy, CONTACT_DEFAULT_SORT);
      var paging := PagingOf(opts.limit, opts.page);
      && (forall c :: c in page.items ==> c in contacts && ContactSelected(f, o, c))
      && SortedBy(page.items, ContactKey(sort.field), sort.desc)
      && |page.items| <= (if paging.limit < 0 then -paging.limit else paging.limit)
      && |page.items| <= page.count
    ensures NoContactTerms(f) ==> ContactsPage(contacts, f, opts, o).value.count == |contacts|
  {
    var sort := ParseSortBy(opts.sortBy, CONTACT_DEFAULT_SORT);
    FindPageCorrect(contacts, ContactSelector(f, o), ContactKey(sort.field), sort.desc, PagingOf(opts.limit, opts.page));
    if NoContactTerms(f) {
      FilterAll(contacts, ContactSelector(f, o));
    }
  }

  /** With no `sortBy`, the newest contact comes first; with no limit and
      page, the first ten are listed. */
  lemma ContactsDefaults(contacts: seq<Contact>, f: ContactFilter, o: Oracles)
    ensures ContactsPage(contacts, f, ListOptions(None, None, None), o).Ok?
    ensures var items := ContactsPage(contacts, f, ListOptions(None, None, None), o).value.items;
      && |items| <= 10
      && forall a, b :: 0 <= a < b < |items| ==> items[a].createdAt >= items[b].createdAt
  {
    var opts := ListOptions(None, None, None);
    AcceptedSortKeys();
    assert ParseSortBy(opts.sortBy, CONTACT_DEFAULT_SORT).field == "createdAt";
    assert PagingOf(None, None).skip == 0;
    var items := ContactsPage(contacts, f, opts, o).value.items;
    ContactsPageCorrect(contacts, f, opts, o);
    forall a, b | 0 <= a < b < |items|
      ensures items[a].createdAt >= items[b].createdAt
    {
      SortKeyFields(items[a]);
      SortKeyFields(items[b]);
      assert Precedes(ContactKey("createdAt")(items[a]), ContactKey("createdAt")(items[b]), true);
    }
  }

  // ---------------------------------------------------------------------------
  // getContactById, updateContact, deleteContact

  /** Where `findById(contactId)` finds its contact: the one whose id is the
      same ObjectId. */
  function ContactSlot(contacts: seq<Contact>, contactId: string): (r: Result<nat>)
    ensures r.Ok? ==> r.value < |contacts| && CastId(contacts[r.value].id) == CastId(contactId)
  {
    Locate(contacts, ContactId, contactId, CONTACT_NOT_FOUND)
  }

  /** getContactById: the stored contact with that id, in any letter case,
      NotFound for an unknown id and a cast failure for a malformed one. */
  function FindContact(contacts: seq<Contact>, contactId: string): (r: Result<Contact>)
    ensures r.Ok? ==> r.value in contacts && CastId(r.value.id) == CastId(contactId)
    ensures IsObjectId(contactId) ==> (r.Ok? <==> exists k :: 0 <= k < |contacts| && CastId(contacts[k].id) == CastId(contactId))
    ensures IsObjectId(contactId) && r.Err? ==> r.failure == NotFound(CONTACT_NOT_FOUND)
    ensures !IsObjectId(contactId) ==> r.Err? && r.failure.Crash?
  {
    match ContactSlot(contacts, contactId)
    case Err(e) => Err(e)
    case Ok(k) => Ok(contacts[k])
  }

  /** With distinct ids, the contact found by any spelling of a stored id
      is the one stored under it. */
  lemma FindContactUnique(contacts: seq<Contact>, k: nat, contactId: string)
    requires UniqueIds(contacts, ContactId) && k < |contacts|
    requires IsObjectId(contactId) && CastId(contactId) == CastId(contacts[k].id)
    ensures FindContact(contacts, contactId) == Ok(contacts[k])
  {
    var r := FindContact(contacts, contactId);
    var j := ContactSlot(contacts, contactId).value;
    assert ContactId(contacts[j]) == ContactId(contacts[k]);
  }

  /** updateContact as a reference: no validators run, so any patch of a
      stored contact succeeds; NotFound for an unknown id. */
  function ContactPatchResult(contacts: seq<Contact>, contactId: string, p: ContactPatch): (r: Result<Contact>)
    ensures r.Ok? <==> FindContact(contacts, contactId).Ok?
    ensures r.Err? ==> r.failure == FindContact(contacts, contactId).failure
    ensures r.Ok? ==> r.value == ApplyContactPatch(FindContact(contacts, contactId).value, p)
  {
    match FindContact(contacts, contactId)
    case Err(e) => Err(e)
    case Ok(c) => Ok(ApplyContactPatch(c, p))
  }

  /** updateContact: the patched contact replaces the stored one, and a
      later getContactById returns it. */
  method UpdateContact(db: Store, contactId: string, p: ContactPatch) returns (r: Result<Contact>)
    requires db.Valid()
    modifies db
    ensures db.Valid()
    ensures r == ContactPatchResult(old(db.contacts), contactId, p)
    ensures r.Ok? ==> db.contacts == old(db.contacts)[ContactSlot(old(db.contacts), contactId).value := r.value]
    ensures r.Ok? ==> FindContact(db.contacts, contactId) == r
    ensures r.Err? ==> db.contacts == old(db.contacts)
    ensures db.issues == old(db.issues) && db.updates == old(db.updates) && db.users == old(db.users)
  {
    var found := ContactSlot(db.contacts, contactId);
    if found.Err? {
      return Err(found.failure);
    }
    var k := found.value;
    var patched := ApplyContactPatch(db.contacts[k], p);
    ReplaceKeepsUnique(db.contacts, ContactId, k, patched);
    db.contacts := db.contacts[k := patched];
    FindContactUnique(db.contacts, k, contactId);
    r := Ok(patched);
  }

  /** deleteContact: a malformed id fails the cast; otherwise the contact is
      removed if stored (whatever the letter case of the id), and an
      unknown id succeeds silently. Either way no contact with that id
      remains. */
  method DeleteContact(db: Store, contactId: string) returns (r: Result<()>)
    requires db.Valid()
    modifies db
    ensures db.Valid()
    ensures r.Err? <==> !IsObjectId(contactId)
    ensures r.Err? ==> r.failure.Crash? && db.contacts == old(db.contacts)
    ensures r.Ok? ==> FreshId(db.contacts, ContactId, CastId(contactId))
    ensures r.Ok? && FindContact(old(db.contacts), contactId).Ok? ==>
      db.contacts == RemoveAt(old(db.contacts), ContactSlot(old(db.contacts), contactId).value)
    ensures r.Ok? && FindContact(old(db.contacts), contactId).Err? ==> db.contacts == old(db.contacts)
    ensures db.issues == old(db.issues) && db.updates == old(db.updates) && db.users == old(db.users)
  {
    var found := ContactSlot(db.contacts, contactId);
    if found.Err? {
      if !IsObjectId(contactId) {
        return Err(found.failure);
      }
      return Ok(());
    }
    RemoveKeepsUnique(db.contacts, ContactId, found.value);
    db.contacts := RemoveAt(db.contacts, found.value);
    r := Ok(());
  }
}

=== FILE: dashboard_controller.dfy ===
/** The map handler's reading of the `bounds` query parameter
    (controllers/dashboard.controller.ts): a JSON string is parsed and kept
    only when its `ne` and `sw` are arrays of two; anything else becomes
    undefined, which lists every issue. JSON parsing is a parameter. */
module DashboardController {
  import opened Common
  import opened ApiErrors
  import Json
  import opened IssueModel
  import opened DashboardService

  /** A query-string value: text, or the array or object the query parser
      makes of bracketed keys. */
  datatype QueryParam = Text(s: string) | Structured

  /** The shape check: `ne` and `sw` are both arrays of length two. */
  predicate HasCorners(v: Json.Value) {
    Json.IsArrayOfLength(Json.Get(v, "ne"), 2) && Json.IsArrayOfLength(Json.Get(v, "sw"), 2)
  }

  /** The `bounds` handed to getMapData: undefined (None) unless the
      parameter is a non-empty string that parses; a truthy parse result
      must have the corner shape, while a falsy one (`null`, `0`, `false`,
      `""`) is passed on as it is. */
  function ParseBounds(bounds: Option<QueryParam>, parse: string -> Option<Json.Value>): (r: Option<Json.Value>)
    ensures r.Some? ==> bounds.Some? && bounds.value.Text? && bounds.value.s != "" && parse(bounds.value.s) == r
    ensures r.Some? && Json.Truthy(r.value) ==> HasCorners(r.value)
    ensures (bounds.Some? && bounds.value.Text? && bounds.value.s != "" && parse(bounds.value.s).Some?
             && (!Json.Truthy(parse(bounds.value.s).value) || HasCorners(parse(bounds.value.s).value))) ==> r.Some?
  {
    if bounds.None? then None
    else match bounds.value
      case Structured => None
      case Text(s) =>
        if s == "" then None
        else match parse(s)
          case None => None
          case Some(v) => if Json.Truthy(v) && !HasCorners(v) then None else Some(v)
  }

  /** getMapDataHandler. */
  function MapDataHandler(issues: seq<Issue>, bounds: Option<QueryParam>, parse: string -> Option<Json.Value>, conv: Conversions)
    : (r: Result<seq<MapPoint>>)
  {
    MapData(issues, ParseBounds(bounds, parse), conv)
  }

  /** No `bounds`, a non-string one, an empty one, one that does not parse,
      one that parses to `null` or another falsy value, and one without the
      corner shape all list every issue, in stored order. */
  lemma UnusableBoundsListAll(issues: seq<Issue>, bounds: Option<QueryParam>, parse: string -> Option<Json.Value>, conv: Conversions)
    requires bounds.None? || bounds.value.Structured? || bounds.value.s == "" || parse(bounds.value.s).None?
             || !Json.Truthy(parse(bounds.value.s).value) || !HasCorners(parse(bounds.value.s).value)
    ensures MapDataHandler(issues, bounds, parse, conv).Ok?
    ensures var r := MapDataHandler(issues, bounds, parse, conv).value;
      |r| == |issues| && forall k :: 0 <= k < |r| ==> r[k] == PointOf(issues[k])
  {
    MapDataUnbounded(issues, ParseBounds(bounds, parse), conv);
  }

  /** A string that parses to an object whose corners cast to pairs of
      numbers limits the map to the issues in that box. */
  lemma NumericBoundsFilter(issues: seq<Issue>, s: string, parse: string -> Option<Json.Value>, conv: Conversions,
                            sw: (real, real), ne: (real, real))
    requires s != "" && parse(s).Some? && parse(s).value.Obj?
    requires Corner(Json.Get(parse(s).value, "sw"), conv) == Some(sw) && Corner(Json.Get(parse(s).value, "ne"), conv) == Some(ne)
    ensures MapDataHandler(issues, Some(Text(s)), parse, conv).Ok?
    ensures var r := MapDataHandler(issues, Some(Text(s)), parse, conv).value;
      && (forall i :: i in issues && InBox(i.location.coordinates, sw, ne) ==> PointOf(i) in r)
      && (forall p :: p in r ==> exists i :: i in issues && InBox(i.location.coordinates, sw, ne) && p == PointOf(i))
  {
    var v := parse(s).value;
    assert HasCorners(v);
    assert ParseBounds(Some(Text(s)), parse) == Some(v);
    MapDataBounded(issues, v, conv, sw, ne);
  }

  /** The shape check does not look at the corners' elements: letters pass
      it, `Number` makes NaN of them, and the Number cast then refuses the
      box, a 500 response. */
  lemma TextCornersPassShapeCheck(issues: seq<Issue>, s: string, parse: string -> Option<Json.Value>, conv: Conversions)
    requires s != ""
    requires parse(s) == Some(Json.Obj(map["ne" := Json.Arr([Json.Str("a"), Json.Str("b")]), "sw" := Json.Arr([Json.Str("c"), Json.Str("d")])]))
    requires conv.stringNumber("a").None? && conv.stringNumber("c").None?
    ensures ParseBounds(Some(Text(s)), parse) == parse(s)
    ensures MapDataHandler(issues, Some(Text(s)), parse, conv).Err?
    ensures HandleError(MapDataHandler(issues, Some(Text(s)), parse, conv).failure).status == 500
  {
    var v := parse(s).value;
    assert Json.Get(v, "ne") == Some(Json.Arr([Json.Str("a"), Json.Str("b")]));
    assert Json.Get(v, "sw") == Some(Json.Arr([Json.Str("c"), Json.Str("d")]));
    assert HasCorners(v);
    MapDataBadCorners(issues, v, conv);
  }

  /** Corners sent the other way round, `ne` south-west of `sw`, span the
      same box: an issue between them is listed. */
  lemma SwappedCornersListed(issues: seq<Issue>, s: string, parse: string -> Option<Json.Value>, conv: Conversions, i: Issue)
    requires s != ""
    requires parse(s) == Some(Json.Obj(map["ne" := Json.Arr([Json.Num(0.0), Json.Num(0.0)]),
                                           "sw" := Json.Arr([Json.Num(10.0), Json.Num(10.0)])]))
    requires i in issues && i.location.coordinates == [5.0, 5.0]
    ensures MapDataHandler(issues, Some(Text(s)), parse, conv).Ok?
    ensures PointOf(i) in MapDataHandler(issues, Some(Text(s)), parse, conv).value
  {
    var v := parse(s).value;
    assert Json.Get(v, "ne") == Some(Json.Arr([Json.Num(0.0), Json.Num(0.0)]));
    assert Json.Get(v, "sw") == Some(Json.Arr([Json.Num(10.0), Json.Num(10.0)]));
    assert Corner(Json.Get(v, "ne"), conv) == Some((0.0, 0.0));
    assert Corner(Json.Get(v, "sw"), conv) == Some((10.0, 10.0));
    assert InBox(i.location.coordinates, (10.0, 10.0), (0.0, 0.0));
    NumericBoundsFilter(issues, s, parse, conv, (10.0, 10.0), (0.0, 0.0));
  }

  /** Corners sent as numeric strings pass the shape check, are cast to
      numbers, and limit the map to the issues in that box. */
  lemma StringCornersFilter(issues: seq<Issue>, s: string, parse: string -> Option<Json.Value>, conv: Conversions,
                            west: string, south: string, east: string, north: string, sw: (real, real), ne: (real, real))
    requires s != ""
    requires parse(s) == Some(Json.Obj(map["ne" := Json.Arr([Json.Str(east), Json.Str(north)]),
                                           "sw" := Json.Arr([Json.Str(west), Json.Str(south)])]))
    requires west != "" && south != "" && east != "" && north != ""
    requires conv.stringNumber(west) == Some(sw.0) && conv.stringNumber(south) == Some(sw.1)
    requires conv.stringNumber(east) == Some(ne.0) && conv.stringNumber(north) == Some(ne.1)
    ensures MapDataHandler(issues, Some(Text(s)), parse, conv).Ok?
    ensures var r := MapDataHandler(issues, Some(Text(s)), parse, conv).value;
      && (forall i :: i in issues && InBox(i.location.coordinates, sw, ne) ==> PointOf(i) in r)
      && (forall p :: p in r ==> exists i :: i in issues && InBox(i.location.coordinates, sw, ne) && p == PointOf(i))
  {
    var v := parse(s).value;
    assert Json.Get(v, "ne") == Some(Json.Arr([Json.Str(east), Json.Str(north)]));
    assert Json.Get(v, "sw") == Some(Json.Arr([Json.Str(west), Json.Str(south)]));
    StringCornerCast(west, south, conv, sw.0, sw.1);
    StringCornerCast(east, north, conv, ne.0, ne.1);
    NumericBoundsFilter(issues, s, parse, conv, sw, ne);
  }
}

=== FILE: dashboard_service.dfy ===
/** The dashboard's read-only aggregates (services/dashboard.service.ts):
    issue counts and the resolution rate, the five users with most points,
    the five newest civic updates, issue counts grouped by category and by
    status, and the map's projection of issues, optionally limited to a
    coordinate box. Each is a function of the stored collections. */
module DashboardService {
  import opened Common
  import opened ApiErrors
  import Json
  import opened Query
  import opened Users
  import opened IssueModel
  import opened CivicUpdateModel

  const RESOLVED: string := "resolved"
  const TOP_COUNT: nat := 5

  // ---------------------------------------------------------------------------
  // Counts and the resolution rate

  predicate IsResolved(i: Issue) {
    i.status == RESOLVED
  }

  predicate IsUnresolved(i: Issue) {
    i.status != RESOLVED
  }

  /** Every element is counted by exactly one of a predicate and its
      negation. */
  lemma {:induction false} CountComplement<T>(s: seq<T>, p: T -> bool, q: T -> bool)
    requires forall x :: q(x) == !p(x)
    ensures Count(s, p) + Count(s, q) == |s|
  {
    if s != [] {
      CountComplement(s[1..], p, q);
    }
  }

  /** `totalIssues > 0 ? resolvedIssues / totalIssues * 100 : 0`, exactly. */
  function ResolutionRate(resolved: nat, total: nat): (rate: real)
    ensures total == 0 ==> rate == 0.0
    ensures total > 0 ==> rate * total as real == resolved as real * 100.0
  {
    if total > 0 then resolved as real / total as real * 100.0 else 0.0
  }

  /** A share of the issues is a percentage between 0 and 100, which is 100
      exactly when every issue is resolved and 0 exactly when none is. */
  lemma RateIsPercentage(resolved: nat, total: nat)
    requires resolved <= total
    ensures 0.0 <= ResolutionRate(resolved, total) <= 100.0
    ensures total > 0 ==> (ResolutionRate(resolved, total) == 100.0 <==> resolved == total)
    ensures ResolutionRate(resolved, total) == 0.0 <==> resolved == 0
  {
    if total > 0 {
      var rate := ResolutionRate(resolved, total);
      var t := total as real;
      assert rate * t == resolved as real * 100.0;
      assert rate * t <= t * 100.0;
    }
  }

  // ---------------------------------------------------------------------------
  // Top entries by a key

  /** `.sort({ key: -1 }).limit(n)`. */
  function TopN<T>(s: seq<T>, key: T -> SortValue, n: nat): (r: seq<T>)
    ensures |r| == if n <= |s| then n else |s|
  {
    Take(SortDocs(s, key, true), n)
  }

  /** The first `n` by the key, largest first: taken from the collection,
      ordered, and no element left out ranks above one taken. */
  lemma TopNCorrect<T>(s: seq<T>, key: T -> SortValue, n: nat)
    ensures var r := TopN(s, key, n);
      && multiset(r) <= multiset(s)
      && SortedBy(r, key, true)
      && (forall x, y :: x in s && x !in r && y in r ==> LessEq(key(x), key(y)))
  {
    var sorted := SortDocs(s, key, true);
    SortDocsCorrect(s, key, true);
    var r := TopN(s, key, n);
    assert sorted == r + sorted[|r|..];
    assert multiset(r) <= multiset(s) by {
      assert multiset(sorted) == multiset(r) + multiset(sorted[|r|..]);
    }
    forall x, y | x in s && x !in r && y in r
      ensures LessEq(key(x), key(y))
    {
      assert x in multiset(sorted);
      PrefixRanksAbove(sorted, |r|, key, x, y);
    }
  }

  /** In a list sorted largest first, an element outside the first `m`
      ranks no higher than one inside them. */
  lemma PrefixRanksAbove<T>(sorted: seq<T>, m: nat, key: T -> SortValue, x: T, y: T)
    requires m <= |sorted| && SortedBy(sorted, key, true)
    requires x in sorted && x !in sorted[..m] && y in sorted[..m]
    ensures LessEq(key(x), key(y))
  {
    var j :| 0 <= j < |sorted| && sorted[j] == x;
    var i :| 0 <= i < m && sorted[..m][i] == y;
    assert j >= m;
    assert Precedes(key(sorted[i]), key(sorted[j]), true);
  }

  // ---------------------------------------------------------------------------
  // Grouping

  /** One row of a `$group` with `count: { $sum: 1 }`. */
  datatype Group = Group(key: string, count: nat)

  /** How often `k` occurs in `s`. */
  function Occurrences(s: seq<string>, k: string): (n: nat)
    ensures n <= |s|
  {
    if s == [] then 0 else Occurrences(s[..|s| - 1], k) + (if s[|s| - 1] == k then 1 else 0)
  }

  lemma {:induction false} OccurrencesPositive(s: seq<string>, k: string)
    ensures k in s <==> Occurrences(s, k) > 0
  {
    if s != [] {
      OccurrencesPositive(s[..|s| - 1], k);
      assert s == s[..|s| - 1] + [s[|s| - 1]];
    }
  }

  predicate Distinct(d: seq<string>) {
    forall a, b :: 0 <= a < b < |d| ==> d[a] != d[b]
  }

  /** The distinct values of `s` in order of first appearance. */
  function FirstAppearances(s: seq<string>): (d: seq<string>)
    ensures Distinct(d)
    ensures forall x :: x in d <==> x in s
  {
    if s == [] then []
    else
      var init := FirstAppearances(s[..|s| - 1]);
      assert forall x :: x in s <==> x in s[..|s| - 1] || x == s[|s| - 1] by {
        assert s == s[..|s| - 1] + [s[|s| - 1]];
      }
      if s[|s| - 1] in init then init else init + [s[|s| - 1]]
  }

  /** A row per value of `d`, counting its occurrences in `s`. */
  function GroupsOf(d: seq<string>, s: seq<string>): (r: seq<Group>)
    ensures |r| == |d|
    ensures forall k :: 0 <= k < |d| ==> r[k] == Group(d[k], Occurrences(s, d[k]))
  {
    if d == [] then [] else GroupsOf(d[..|d| - 1], s) + [Group(d[|d| - 1], Occurrences(s, d[|d| - 1]))]
  }

  function SumCounts(gs: seq<Group>): (n: nat) {
    if gs == [] then 0 else SumCounts(gs[..|gs| - 1]) + gs[|gs| - 1].count
  }

  /** `$group: { _id: '$field', count: { $sum: 1 } }` over the field's
      values; rows come in order of first appearance (the server gives no
      order). */
  function GroupBy(keys: seq<string>): (r: seq<Group>)
  {
    GroupsOf(FirstAppearances(keys), keys)
  }

  lemma {:induction false} SumNoOccurrences(d: seq<string>)
    ensures SumCounts(GroupsOf(d, [])) == 0
  {
    if d != [] {
      SumNoOccurrences(d[..|d| - 1]);
      assert GroupsOf(d, [])[..|d| - 1] == GroupsOf(d[..|d| - 1], []);
    }
  }

  lemma OccurrencesAppend(s: seq<string>, x: string, k: string)
    ensures Occurrences(s + [x], k) == Occurrences(s, k) + (if x == k then 1 else 0)
  {
    assert (s + [x])[..|s|] == s;
  }

  /** One more value adds one to the sum when its row is among `d`. */
  lemma {:induction false} SumOneMore(d: seq<string>, s: seq<string>, x: string)
    requires Distinct(d)
    ensures SumCounts(GroupsOf(d, s + [x])) == SumCounts(GroupsOf(d, s)) + (if x in d then 1 else 0)
  {
    if d != [] {
      var init := d[..|d| - 1];
      var y := d[|d| - 1];
      SumOneMore(init, s, x);
      OccurrencesAppend(s, x, y);
      assert GroupsOf(d, s + [x])[..|d| - 1] == GroupsOf(init, s + [x]);
      assert GroupsOf(d, s)[..|d| - 1] == GroupsOf(init, s);
      assert d == init + [y];
      assert y !in init;
    }
  }

  lemma {:induction false} SumCountsCover(d: seq<string>, s: seq<string>)
    requires Distinct(d)
    requires forall x :: x in s ==> x in d
    ensures SumCounts(GroupsOf(d, s)) == |s|
  {
    if s == [] {
      SumNoOccurrences(d);
    } else {
      var init := s[..|s| - 1];
      assert s == init + [s[|s| - 1]];
      SumCountsCover(d, init);
      SumOneMore(d, init, s[|s| - 1]);
    }
  }

  /** One row per distinct value, holding how often it occurs; every value
      has its row, and the counts add up to the number of documents. */
  lemma GroupByCorrect(keys: seq<string>)
    ensures var r := GroupBy(keys);
      && (forall a, b :: 0 <= a < b < |r| ==> r[a].key != r[b].key)
      && (forall g :: g in r ==> g.key in keys && g.count == Occurrences(keys, g.key) && g.count > 0)
      && (forall k :: k in keys ==> Group(k, Occurrences(keys, k)) in r)
      && SumCounts(r) == |keys|
  {
    var d := FirstAppearances(keys);
    assert GroupBy(keys) == GroupsOf(d, keys);
    SumCountsCover(d, keys);
    GroupRowsCounted(d, keys);
    GroupRowsCover(d, keys);
  }

  lemma GroupRowsCounted(d: seq<string>, keys: seq<string>)
    requires forall x :: x in d <==> x in keys
    ensures forall g :: g in GroupsOf(d, keys) ==> g.key in keys && g.count == Occurrences(keys, g.key) && g.count > 0
  {
    var r := GroupsOf(d, keys);
    forall g | g in r
      ensures g.key in keys && g.count == Occurrences(keys, g.key) && g.count > 0
    {
      var k :| 0 <= k < |r| && r[k] == g;
      OccurrencesPositive(keys, d[k]);
    }
  }

  lemma GroupRowsCover(d: seq<string>, keys: seq<string>)
    requires forall x :: x in d <==> x in keys
    ensures forall k :: k in keys ==> Group(k, Occurrences(keys, k)) in GroupsOf(d, keys)
  {
    var r := GroupsOf(d, keys);
    forall k | k in keys
      ensures Group(k, Occurrences(keys, k)) in r
    {
      var j :| 0 <= j < |d| && d[j] == k;
      assert r[j] == Group(k, Occurrences(keys, k));
    }
  }

  // ---------------------------------------------------------------------------
  // The statistics

  /** A top contributor as `.select('name profilePicture points badges')`
      returns it, with its `_id`. */
  datatype Contributor = Contributor(id: string, name: string, points: int)

  function ContributorOf(u: User): Contributor {
    Contributor(u.id, u.name, u.points)
  }

  function PointsKey(u: User): SortValue {
    SortValue.Num(u.points)
  }

  function CreatedKey(u: CivicUpdate): SortValue {
    SortValue.Num(u.createdAt)
  }

  function Category(i: Issue): string { i.category }

  function Status(i: Issue): string { i.status }

  datatype Stats = Stats(
    totalIssues: nat,
    resolvedIssues: nat,
    unresolvedIssues: int,
    resolutionRate: real,
    topContributors: seq<Contributor>,
    recentUpdates: seq<CivicUpdate>,
    issuesByCategory: seq<Group>,
    issuesByStatus: seq<Group>)

  /** getDashboardStats over the three collections. */
  function DashboardStats(issues: seq<Issue>, users: seq<User>, updates: seq<CivicUpdate>): (s: Stats)
    ensures |s.topContributors| <= TOP_COUNT && |s.recentUpdates| <= TOP_COUNT
  {
    var total := |issues|;
    var resolved := Count(issues, IsResolved);
    Stats(
      total,
      resolved,
      total - resolved,
      ResolutionRate(resolved, total),
      Map(TopN(users, PointsKey, TOP_COUNT), ContributorOf),
      TopN(updates, CreatedKey, TOP_COUNT),
      GroupBy(Map(issues, Category)),
      GroupBy(Map(issues, Status)))
  }

  /** The issue counts: resolved and unresolved partition the issues. */
  lemma StatsCounts(issues: seq<Issue>, users: seq<User>, updates: seq<CivicUpdate>)
    ensures var s := DashboardStats(issues, users, updates);
      && s.totalIssues == |issues|
      && s.totalIssues == s.resolvedIssues + s.unresolvedIssues
      && s.resolvedIssues == Count(issues, IsResolved)
      && s.unresolvedIssues == Count(issues, IsUnresolved)
  {
    ResolvedSplit(issues);
  }

  /** The rate is the resolved share of the issues as a percentage (see
      ResolutionRate and RateIsPercentage for what that share is). */
  lemma StatsRate(issues: seq<Issue>, users: seq<User>, updates: seq<CivicUpdate>)
    ensures var s := DashboardStats(issues, users, updates);
      && s.resolutionRate == ResolutionRate(s.resolvedIssues, s.totalIssues)
      && 0.0 <= s.resolutionRate <= 100.0
  {
    var s := DashboardStats(issues, users, updates);
    RateIsPercentage(s.resolvedIssues, s.totalIssues);
  }

  lemma ResolvedSplit(issues: seq<Issue>)
    ensures Count(issues, IsResolved) + Count(issues, IsUnresolved) == |issues|
  {
    CountComplement(issues, IsResolved, IsUnresolved);
  }

  /** At most five contributors, most points first, each a stored user, and
      no user left out has more points than one shown. */
  lemma StatsTopContributors(issues: seq<Issue>, users: seq<User>, updates: seq<CivicUpdate>)
    ensures var top := DashboardStats(issues, users, updates).topContributors;
      && |top| == (if |users| < TOP_COUNT then |users| else TOP_COUNT)
      && (forall a, b :: 0 <= a < b < |top| ==> top[a].points >= top[b].points)
      && (forall c :: c in top ==> exists u :: u in users && c == ContributorOf(u))
      && (forall u, c :: u in users && ContributorOf(u) !in top && c in top ==> u.points <= c.points)
  {
    var chosen := TopN(users, PointsKey, TOP_COUNT);
    TopNCorrect(users, PointsKey, TOP_COUNT);
    var top := DashboardStats(issues, users, updates).topContributors;
    assert |top| == |chosen| && forall k :: 0 <= k < |chosen| ==> top[k] == ContributorOf(chosen[k]);
    ContributorsOrdered(chosen, top);
    ContributorsStored(users, chosen, top);
    ContributorsAhead(users, chosen, top);
  }

  lemma ContributorsOrdered(chosen: seq<User>, top: seq<Contributor>)
    requires |top| == |chosen| && forall k :: 0 <= k < |chosen| ==> top[k] == ContributorOf(chosen[k])
    requires SortedBy(chosen, PointsKey, true)
    ensures forall a, b :: 0 <= a < b < |top| ==> top[a].points >= top[b].points
  {
    forall a, b | 0 <= a < b < |top|
      ensures top[a].points >= top[b].points
    {
      assert Precedes(PointsKey(chosen[a]), PointsKey(chosen[b]), true);
    }
  }

  lemma ContributorsStored(users: seq<User>, chosen: seq<User>, top: seq<Contributor>)
    requires |top| == |chosen| && forall k :: 0 <= k < |chosen| ==> top[k] == ContributorOf(chosen[k])
    requires multiset(chosen) <= multiset(users)
    ensures forall c :: c in top ==> exists u :: u in users && c == ContributorOf(u)
  {
    forall c | c in top
      ensures exists u :: u in users && c == ContributorOf(u)
    {
      var k :| 0 <= k < |top| && top[k] == c;
      assert chosen[k] in multiset(users);
    }
  }

  lemma ContributorsAhead(users: seq<User>, chosen: seq<User>, top: seq<Contributor>)
    requires |top| == |chosen| && forall k :: 0 <= k < |chosen| ==> top[k] == ContributorOf(chosen[k])
    requires forall x, y :: x in users && x !in chosen && y in chosen ==> LessEq(PointsKey(x), PointsKey(y))
    ensures forall u, c :: u in users && ContributorOf(u) !in top && c in top ==> u.points <= c.points
  {
    forall u, c | u in users && ContributorOf(u) !in top && c in top
      ensures u.points <= c.points
    {
      var k :| 0 <= k < |top| && top[k] == c;
      assert u !in chosen;
      assert LessEq(PointsKey(u), PointsKey(chosen[k]));
    }
  }

  /** At most five civic updates, newest first, each stored, and none left
      out is newer than one shown. */
  lemma StatsRecentUpdates(issues: seq<Issue>, users: seq<User>, updates: seq<CivicUpdate>)
    ensures var recent := DashboardStats(issues, users, updates).recentUpdates;
      && |recent| == (if |updates| < TOP_COUNT then |updates| else TOP_COUNT)
      && multiset(recent) <= multiset(updates)
      && (forall a, b :: 0 <= a < b < |recent| ==> recent[a].createdAt >= recent[b].createdAt)
      && (forall u, v :: u in updates && u !in recent && v in recent ==> u.createdAt <= v.createdAt)
  {
    var recent := DashboardStats(issues, users, updates).recentUpdates;
    TopNCorrect(updates, CreatedKey, TOP_COUNT);
    forall a, b | 0 <= a < b < |recent|
      ensures recent[a].createdAt >= recent[b].createdAt
    {
      assert Precedes(CreatedKey(recent[a]), CreatedKey(recent[b]), true);
    }
    forall u, v | u in updates && u !in recent && v in recent
      ensures u.createdAt <= v.createdAt
    {
      assert LessEq(CreatedKey(u), CreatedKey(v));
    }
  }

  /** Both groupings have one row per distinct value with its count, and
      their counts each add up to the number of issues. */
  lemma StatsGroups(issues: seq<Issue>, users: seq<User>, updates: seq<CivicUpdate>)
    ensures var s := DashboardStats(issues, users, updates);
      && SumCounts(s.issuesByCategory) == |issues|
      && SumCounts(s.issuesByStatus) == |issues|
      && (forall i :: i in issues ==> Group(i.category, Occurrences(Map(issues, Category), i.category)) in s.issuesByCategory)
      && (forall i :: i in issues ==> Group(i.status, Occurrences(Map(issues, Status), i.status)) in s.issuesByStatus)
      && (forall g :: g in s.issuesByCategory ==> g.count == Occurrences(Map(issues, Category), g.key) > 0)
      && (forall g :: g in s.issuesByStatus ==> g.count == Occurrences(Map(issues, Status), g.key) > 0)
  {
    var cats := Map(issues, Category);
    var sts := Map(issues, Status);
    GroupByCorrect(cats);
    GroupByCorrect(sts);
    forall i | i in issues
      ensures i.category in cats && i.status in sts
    {
      var k :| 0 <= k < |issues| && issues[k] == i;
      assert cats[k] == i.category && sts[k] == i.status;
    }
  }

  // ---------------------------------------------------------------------------
  // Map data

  /** An issue as the map receives it: `_id`, title, category, status,
      severity and coordinates, nothing else. */
  datatype MapPoint = MapPoint(id: string, title: string, category: string, status: string, severity: string, coordinates: seq<real>)

  function PointOf(i: Issue): (p: MapPoint)
  {
    MapPoint(i.id, i.title, i.category, i.status, i.severity, i.location.coordinates)
  }

  /** A corner of the box as Mongoose casts `$box` on a `[Number]` path: an
      array of two entries, each through the Number cast, so that numeric
      strings and booleans become numbers. None when it is not a pair or an
      entry does not cast. */
  function Corner(v: Option<Json.Value>, conv: Conversions): (r: Option<(real, real)>)
    ensures r.Some? <==> (&& Json.IsArrayOfLength(v, 2)
                          && CastNumber(v.value.items[0], conv).Some?
                          && CastNumber(v.value.items[1], conv).Some?)
    ensures r.Some? ==> r.value == (CastNumber(v.value.items[0], conv).value, CastNumber(v.value.items[1], conv).value)
  {
    if v.Some? && v.value.Arr? && |v.value.items| == 2 then
      match (CastNumber(v.value.items[0], conv), CastNumber(v.value.items[1], conv))
      case (Some(x), Some(y)) => Some((x, y))
      case _ => None
    else None
  }

  /** A corner sent as two numeric strings is the pair of numbers they
      denote. */
  lemma StringCornerCast(a: string, b: string, conv: Conversions, x: real, y: real)
    requires a != "" && b != "" && conv.stringNumber(a) == Some(x) && conv.stringNumber(b) == Some(y)
    ensures Corner(Some(Json.Arr([Json.Str(a), Json.Str(b)])), conv) == Some((x, y))
  {
    var items := [Json.Str(a), Json.Str(b)];
    assert CastNumber(items[0], conv) == Some(x);
    assert CastNumber(items[1], conv) == Some(y);
  }

  /** `$geoWithin: { $box: [sw, ne] }` on a `[x, y]` pair: the server spans
      the box from the lesser to the greater of the corners' coordinates,
      whichever corner holds which, and both coordinates must lie within it,
      edges included. */
  predicate InBox(c: seq<real>, sw: (real, real), ne: (real, real)) {
    && |c| >= 2
    && Lesser(sw.0, ne.0) <= c[0] <= Greater(sw.0, ne.0)
    && Lesser(sw.1, ne.1) <= c[1] <= Greater(sw.1, ne.1)
  }

  function Lesser(a: real, b: real): (r: real)
    ensures r <= a && r <= b && (r == a || r == b)
  {
    if a <= b then a else b
  }

  function Greater(a: real, b: real): (r: real)
    ensures r >= a && r >= b && (r == a || r == b)
  {
    if a <= b then b else a
  }

  /** The box does not depend on which corner is sent as `sw` and which as
      `ne`: a point lies in it exactly when each coordinate lies between the
      corners' values. */
  lemma InBoxCornerOrder(c: seq<real>, sw: (real, real), ne: (real, real))
    requires |c| >= 2
    ensures InBox(c, sw, ne) <==> InBox(c, ne, sw)
    ensures InBox(c, sw, ne) <==>
      && ((sw.0 <= c[0] <= ne.0) || (ne.0 <= c[0] <= sw.0))
      && ((sw.1 <= c[1] <= ne.1) || (ne.1 <= c[1] <= sw.1))
  {
  }

  /** getMapData: every issue when `bounds` is absent or falsy, otherwise the
      issues in the box whose corners Mongoose cast; a corner entry the
      Number cast refuses fails the query (a CastError, or Mongo's own refusal
      of the null that `""` and `null` cast to). */
  function MapData(issues: seq<Issue>, bounds: Option<Json.Value>, conv: Conversions): (r: Result<seq<MapPoint>>)
  {
    if bounds.None? || !Json.Truthy(bounds.value) then Ok(Map(issues, PointOf))
    else
      match (Corner(Json.Get(bounds.value, "sw"), conv), Corner(Json.Get(bounds.value, "ne"), conv))
      case (Some(sw), Some(ne)) =>
        Ok(Map(Filter(issues, (i: Issue) => InBox(i.location.coordinates, sw, ne)), PointOf))
      case _ => Err(Crash("Cast to Number failed for $box"))
  }

  /** Unbounded, the map shows every issue, in stored order. */
  lemma MapDataUnbounded(issues: seq<Issue>, bounds: Option<Json.Value>, conv: Conversions)
    requires bounds.None? || !Json.Truthy(bounds.value)
    ensures MapData(issues, bounds, conv).Ok?
    ensures var r := MapData(issues, bounds, conv).value;
      |r| == |issues| && forall k :: 0 <= k < |r| ==> r[k] == PointOf(issues[k])
  {
  }

  /** Bounded by two corners that cast to numbers, the map shows exactly the
      issues in the box, in stored order. */
  lemma MapDataBounded(issues: seq<Issue>, bounds: Json.Value, conv: Conversions, sw: (real, real), ne: (real, real))
    requires Json.Truthy(bounds)
    requires Corner(Json.Get(bounds, "sw"), conv) == Some(sw) && Corner(Json.Get(bounds, "ne"), conv) == Some(ne)
    ensures MapData(issues, Some(bounds), conv).Ok?
    ensures var r := MapData(issues, Some(bounds), conv).value;
      && (forall i :: i in issues && InBox(i.location.coordinates, sw, ne) ==> PointOf(i) in r)
      && (forall p :: p in r ==> exists i :: i in issues && InBox(i.location.coordinates, sw, ne) && p == PointOf(i))
      && |r| <= |issues|
  {
    var inside := (i: Issue) => InBox(i.location.coordinates, sw, ne);
    var kept := Filter(issues, inside);
    var r := MapData(issues, Some(bounds), conv).value;
    assert r == Map(kept, PointOf);
    forall i | i in issues && InBox(i.location.coordinates, sw, ne)
      ensures PointOf(i) in r
    {
      FilterMembers(issues, inside, i);
      var k :| 0 <= k < |kept| && kept[k] == i;
      assert r[k] == PointOf(i);
    }
    forall p | p in r
      ensures exists i :: i in issues && InBox(i.location.coordinates, sw, ne) && p == PointOf(i)
    {
      var k :| 0 <= k < |r| && r[k] == p;
      FilterMembers(issues, inside, kept[k]);
    }
    assert |kept| <= |issues| by {
      assert Count(issues, inside) == |kept|;
    }
  }

  /** A truthy `bounds` with a corner that is not a pair, or with an entry
      the Number cast refuses, makes the request fail with a server error. */
  lemma MapDataBadCorners(issues: seq<Issue>, bounds: Json.Value, conv: Conversions)
    requires Json.Truthy(bounds)
    requires Corner(Json.Get(bounds, "sw"), conv).None? || Corner(Json.Get(bounds, "ne"), conv).None?
    ensures MapData(issues, Some(bounds), conv).Err?
    ensures HandleError(MapData(issues, Some(bounds), conv).failure).status == 500
  {
  }
}

=== FILE: issue_model.dfy ===
/** The Issue schema (models/issues.model.ts): the stored record, its enums
    and defaults, what `save`/`create` validation demands, the text index,
    and how a query sees an issue. */
module IssueModel {
  import opened Common
  import opened ApiErrors
  import Json
  import opened Query

  const CATEGORIES: seq<string> := ["pothole", "light", "garbage", "water", "traffic", "other"]
  const STATUSES: seq<string> := ["reported", "open", "in-progress", "resolved", "rejected"]
  const SEVERITIES: seq<string> := ["low", "medium", "high", "urgent"]
  const DEFAULT_STATUS: string := "reported"
  const DEFAULT_SEVERITY: string := "medium"

  /** `location`: coordinates are `[longitude, latitude]` as stored. */
  datatype Location = Location(coordinates: seq<real>, state: string, district: string, pincode: string, address: Option<string>)

  /** A comment sub-document; `id` is the `_id` Mongoose gives it, and
      `createdAt` is in milliseconds. */
  datatype Comment = Comment(id: string, userId: string, text: string, createdAt: int)

  datatype Issue = Issue(
    id: string,
    title: string,
    description: string,
    category: string,
    status: string,
    severity: string,
    location: Location,
    images: seq<string>,
    reportedBy: string,
    assignedTo: Option<string>,
    comments: seq<Comment>,
    upvotes: seq<string>,
    createdAt: int)

  /** A comment needs an author (an ObjectId) and non-empty text. */
  predicate ValidComment(c: Comment) {
    IsObjectId(c.userId) && c.text != ""
  }

  /** What the 2dsphere index on `location.coordinates` accepts as a
      legacy coordinate pair: at least two numbers, the first a longitude in
      [-180, 180] and the second a latitude in [-90, 90]; further entries
      are not looked at. */
  predicate IndexablePoint(cs: seq<real>) {
    |cs| >= 2 && -180.0 <= cs[0] <= 180.0 && -90.0 <= cs[1] <= 90.0
  }

  /** Coordinates an insert can store: an indexable point, or the empty
      array, which `required` lets through (it refuses only null and
      undefined) and which the sparse 2dsphere index skips. Any other array
      makes the insert fail. */
  predicate StorableCoordinates(cs: seq<real>) {
    cs == [] || IndexablePoint(cs)
  }

  /** The location's required strings are non-empty and its coordinates
      are ones the index lets an insert store. */
  predicate ValidLocation(l: Location) {
    l.state != "" && l.district != "" && l.pincode != "" && StorableCoordinates(l.coordinates)
  }

  /** What Mongoose validation demands of a whole issue document: required
      strings non-empty, enum fields within their lists, references cast to
      ObjectIds, and every comment valid. `upvotes` has no uniqueness rule. */
  predicate ValidIssue(i: Issue) {
    && IsObjectId(i.id)
    && i.title != "" && i.description != ""
    && i.category in CATEGORIES && i.status in STATUSES && i.severity in SEVERITIES
    && ValidLocation(i.location)
    && IsObjectId(i.reportedBy)
    && (i.assignedTo.Some? ==> IsObjectId(i.assignedTo.value))
    && (forall k :: 0 <= k < |i.comments| ==> ValidComment(i.comments[k]))
    && (forall k :: 0 <= k < |i.upvotes| ==> IsObjectId(i.upvotes[k]))
  }

  // ---------------------------------------------------------------------------
  // Creation from request data

  /** The JavaScript conversions Mongoose's casts call: `String(n)` of a
      number, and `Number(s)` of a string (None when it is NaN). */
  datatype Conversions = Conversions(numberText: real -> string, stringNumber: string -> Option<real>)

  /** An object whose `_id` is a non-empty string, which the String cast
      replaces by that id. */
  predicate HasStringId(v: Json.Value) {
    v.Obj? && "_id" in v.fields && v.fields["_id"].Str? && v.fields["_id"].s != ""
  }

  /** Mongoose's String cast of a property that may be undefined:
      undefined and null leave the path unset, a string is kept, a number or
      a boolean becomes its text, an object with a string `_id` becomes that
      id, and any other array or object is a CastError. */
  function CastString(v: Option<Json.Value>, conv: Conversions): (r: Result<Option<string>>)
    ensures r.Err? <==> v.Some? && (v.value.Arr? || (v.value.Obj? && !HasStringId(v.value)))
    ensures r.Err? ==> r.failure.Crash?
    ensures r.Ok? && r.value.None? <==> v.None? || v == Some(Json.Null)
    ensures v.Some? && v.value.Str? ==> r == Ok(Some(v.value.s))
    ensures v.Some? && v.value.Num? ==> r == Ok(Some(conv.numberText(v.value.n)))
    ensures v.Some? && v.value.Bool? ==> r == Ok(Some(if v.value.b then "true" else "false"))
  {
    match v
    case None => Ok(None)
    case Some(Null) => Ok(None)
    case Some(Str(s)) => Ok(Some(s))
    case Some(Num(n)) => Ok(Some(conv.numberText(n)))
    case Some(Bool(b)) => Ok(Some(if b then "true" else "false"))
    case Some(Arr(_)) => Err(Crash("Cast to string failed"))
    case Some(Obj(fields)) =>
      if HasStringId(v.value) then Ok(Some(fields["_id"].s)) else Err(Crash("Cast to string failed"))
  }

  /** A required string path: the cast value, which the `required`
      validator refuses when it is unset or empty. */
  function RequiredString(v: Json.Value, key: string, conv: Conversions): (r: Result<string>)
    ensures r.Ok? <==> var c := CastString(Json.Get(v, key), conv); c.Ok? && c.value.Some? && c.value.value != ""
    ensures r.Ok? ==> CastString(Json.Get(v, key), conv) == Ok(Some(r.value))
    ensures r.Err? ==> r.failure.Crash?
  {
    match CastString(Json.Get(v, key), conv)
    case Ok(Some(s)) => if s != "" then Ok(s) else Err(Crash("Path `" + key + "` is required."))
    case Ok(None) => Err(Crash("Path `" + key + "` is required."))
    case Err(e) => Err(e)
  }

  /** Mongoose's Number cast of one entry of `[Number]`: a number is kept, a
      boolean becomes 1 or 0, a non-empty string goes through `Number`. Null
      and the empty string cast to null, which is not a coordinate, and an
      array or object is a CastError; both are None here. */
  function CastNumber(v: Json.Value, conv: Conversions): (r: Option<real>)
    ensures v.Num? ==> r == Some(v.n)
    ensures v.Bool? ==> r == Some(if v.b then 1.0 else 0.0)
    ensures v.Str? && v.s != "" ==> r == conv.stringNumber(v.s)
    ensures v.Null? || v.Arr? || v.Obj? || v == Json.Str("") ==> r.None?
  {
    match v
    case Num(n) => Some(n)
    case Bool(b) => Some(if b then 1.0 else 0.0)
    case Str(s) => if s == "" then None else conv.stringNumber(s)
    case _ => None
  }

  /** The numbers of a JSON array, when every entry casts to one. */
  function Numbers(items: seq<Json.Value>, conv: Conversions): (r: Option<seq<real>>)
    ensures r.Some? ==> |r.value| == |items|
    ensures r.Some? ==> forall k :: 0 <= k < |items| ==> CastNumber(items[k], conv) == Some(r.value[k])
    ensures r.None? ==> exists k :: 0 <= k < |items| && CastNumber(items[k], conv).None?
  {
    if items == [] then Some([])
    else if CastNumber(items[0], conv).None? then None
    else match Numbers(items[1..], conv)
      case None =>
        var k :| 0 <= k < |items[1..]| && CastNumber(items[1..][k], conv).None?;
        assert CastNumber(items[k + 1], conv).None?;
        None
      case Some(rest) => Some([CastNumber(items[0], conv).value] + rest)
  }

  lemma NumbersCons(a: Json.Value, rest: seq<Json.Value>, conv: Conversions)
    requires CastNumber(a, conv).Some? && Numbers(rest, conv).Some?
    ensures Numbers([a] + rest, conv) == Some([CastNumber(a, conv).value] + Numbers(rest, conv).value)
  {
    assert ([a] + rest)[1..] == rest;
  }

  /** The cast coordinates: an array whose entries all cast to numbers, or
      the empty array the schema defaults a missing one to. A null value
      fails `required`, and any other value is wrapped into a one-entry
      array that is no point the index accepts; both are refused here. */
  function CoordinatesOf(v: Json.Value, conv: Conversions): (r: Option<seq<real>>)
    ensures Json.Get(v, "coordinates").None? ==> r == Some([])
    ensures Json.Get(v, "coordinates").Some? ==>
      (r.Some? <==> Json.Get(v, "coordinates").value.Arr? && Numbers(Json.Get(v, "coordinates").value.items, conv).Some?)
    ensures Json.Get(v, "coordinates").Some? && r.Some? ==> r == Numbers(Json.Get(v, "coordinates").value.items, conv)
  {
    var coordinates := Json.Get(v, "coordinates");
    if coordinates.None? then Some([])
    else if !coordinates.value.Arr? then None
    else Numbers(coordinates.value.items, conv)
  }

  /** Casting the `location` object of a create request to the schema's
      nested path and inserting it: the coordinates must cast and be empty
      or a point the 2dsphere index accepts; state, district and pincode are required
      strings; the optional address must cast. */
  function LocationOf(v: Json.Value, conv: Conversions): (r: Result<Location>)
    ensures r.Ok? <==>
      && CoordinatesOf(v, conv).Some? && StorableCoordinates(CoordinatesOf(v, conv).value)
      && RequiredString(v, "state", conv).Ok? && RequiredString(v, "district", conv).Ok?
      && RequiredString(v, "pincode", conv).Ok? && CastString(Json.Get(v, "address"), conv).Ok?
    ensures r.Ok? ==> ValidLocation(r.value)
    ensures r.Ok? ==> (&& r.value.coordinates == CoordinatesOf(v, conv).value
      && r.value.state == RequiredString(v, "state", conv).value
      && r.value.district == RequiredString(v, "district", conv).value
      && r.value.pincode == RequiredString(v, "pincode", conv).value
      && r.value.address == CastString(Json.Get(v, "address"), conv).value)
    ensures r.Err? ==> r.failure.Crash?
  {
    match CoordinatesOf(v, conv)
    case None => Err(Crash("Cast to [Number] failed for path `location.coordinates`"))
    case Some(cs) =>
      match (RequiredString(v, "state", conv), RequiredString(v, "district", conv), RequiredString(v, "pincode", conv))
      case (Ok(st), Ok(di), Ok(pc)) =>
        (match CastString(Json.Get(v, "address"), conv)
         case Err(e) => Err(e)
         case Ok(address) =>
           if StorableCoordinates(cs) then Ok(Location(cs, st, di, pc, address))
           else Err(Crash("Can't extract geo keys")))
      case _ => Err(Crash("Issue validation failed"))
  }

  /** A pincode sent as a JSON number is stored as its text. */
  lemma NumericPincodeStored(v: Json.Value, conv: Conversions, n: real)
    requires CoordinatesOf(v, conv).Some? && StorableCoordinates(CoordinatesOf(v, conv).value)
    requires RequiredString(v, "state", conv).Ok? && RequiredString(v, "district", conv).Ok?
    requires Json.Get(v, "address").None?
    requires Json.Get(v, "pincode") == Some(Json.Num(n)) && conv.numberText(n) != ""
    ensures LocationOf(v, conv).Ok? && LocationOf(v, conv).value.pincode == conv.numberText(n)
  {
  }

  /** Coordinates sent as numeric strings are converted and stored when
      they make an indexable point. */
  lemma NumericStringCoordinates(v: Json.Value, conv: Conversions, lng: string, lat: string)
    requires Json.Get(v, "coordinates") == Some(Json.Arr([Json.Str(lng), Json.Str(lat)]))
    requires lng != "" && lat != ""
    requires conv.stringNumber(lng).Some? && conv.stringNumber(lat).Some?
    ensures CoordinatesOf(v, conv) == Some([conv.stringNumber(lng).value, conv.stringNumber(lat).value])
  {
    assert Numbers([], conv) == Some([]);
    NumbersCons(Json.Str(lat), [], conv);
    assert [Json.Str(lat)] + [] == [Json.Str(lat)];
    NumbersCons(Json.Str(lng), [Json.Str(lat)], conv);
    assert [Json.Str(lng)] + [Json.Str(lat)] == [Json.Str(lng), Json.Str(lat)];
    var x, y := conv.stringNumber(lng).value, conv.stringNumber(lat).value;
    assert [x] + ([y] + []) == [x, y];
  }

  /** A one-entry coordinate array is not a point, so the insert fails. */
  lemma ShortPointRefused(v: Json.Value, conv: Conversions, x: real)
    requires Json.Get(v, "coordinates") == Some(Json.Arr([Json.Num(x)]))
    ensures LocationOf(v, conv).Err? && LocationOf(v, conv).failure.Crash?
  {
    assert Numbers([], conv) == Some([]);
    NumbersCons(Json.Num(x), [], conv);
    assert [Json.Num(x)] + [] == [Json.Num(x)];
    assert !StorableCoordinates([x]);
  }

  /** An empty coordinate array passes `required` and is skipped by the
      sparse 2dsphere index: the location is stored with no point. */
  lemma EmptyCoordinatesStored(v: Json.Value, conv: Conversions)
    requires Json.Get(v, "coordinates") == Some(Json.Arr([]))
    requires RequiredString(v, "state", conv).Ok? && RequiredString(v, "district", conv).Ok?
    requires RequiredString(v, "pincode", conv).Ok? && Json.Get(v, "address").None?
    ensures LocationOf(v, conv).Ok? && LocationOf(v, conv).value.coordinates == []
  {
    assert Numbers([], conv) == Some([]);
  }

  /** The fields `createIssue` takes from the request body. */
  datatype IssueInput = IssueInput(
    title: Option<string>,
    description: Option<string>,
    category: Option<string>,
    severity: Option<string>,
    location: Json.Value)

  /** `Issue.create({...})`: the trim setters apply, `status` takes its
      default, `severity` its default when omitted, the comment and upvote
      lists start empty, and the record must pass validation. */
  function NewIssue(id: string, reportedBy: string, input: IssueInput, images: seq<string>, now: int, conv: Conversions): (r: Result<Issue>)
    requires IsObjectId(id)
    ensures r.Ok? ==> ValidIssue(r.value)
    ensures r.Ok? ==> r.value.id == id && r.value.reportedBy == reportedBy && r.value.images == images
    ensures r.Ok? ==> r.value.status == DEFAULT_STATUS && r.value.assignedTo == None
    ensures r.Ok? ==> r.value.comments == [] && r.value.upvotes == [] && r.value.createdAt == now
    ensures r.Ok? ==> input.title.Some? && r.value.title == Trim(input.title.value)
    ensures r.Ok? ==> input.description.Some? && r.value.description == Trim(input.description.value)
    ensures r.Ok? ==> input.category == Some(r.value.category)
    ensures r.Ok? ==> r.value.severity == (if input.severity.Some? then input.severity.value else DEFAULT_SEVERITY)
    ensures r.Ok? <==>
      && input.title.Some? && Trim(input.title.value) != ""
      && input.description.Some? && Trim(input.description.value) != ""
      && input.category.Some? && input.category.value in CATEGORIES
      && (input.severity.None? || input.severity.value in SEVERITIES)
      && LocationOf(input.location, conv).Ok?
      && IsObjectId(reportedBy)
  {
    if || input.title.None? || Trim(input.title.value) == ""
       || input.description.None? || Trim(input.description.value) == ""
       || input.category.None? || input.category.value !in CATEGORIES
       || (input.severity.Some? && input.severity.value !in SEVERITIES)
       || !IsObjectId(reportedBy)
    then Err(Crash("Issue validation failed"))
    else match LocationOf(input.location, conv)
      case Err(e) => Err(e)
      case Ok(location) =>
        var severity := if input.severity.Some? then input.severity.value else DEFAULT_SEVERITY;
        Ok(Issue(id, Trim(input.title.value), Trim(input.description.value), input.category.value,
                 DEFAULT_STATUS, severity, location, images, reportedBy, None, [], [], now))
  }

  // ---------------------------------------------------------------------------
  // Query view

  // ObjectId paths hold the ids as Mongo prints them, so that a cast filter
  // value matches them by ObjectId value.

  function CommentIds(cs: seq<Comment>): (r: seq<string>)
    ensures |r| == |cs| && forall k :: 0 <= k < |cs| ==> r[k] == CastId(cs[k].id)
  {
    Map(cs, (c: Comment) => CastId(c.id))
  }

  function CommentAuthors(cs: seq<Comment>): (r: seq<string>)
    ensures |r| == |cs| && forall k :: 0 <= k < |cs| ==> r[k] == CastId(cs[k].userId)
  {
    Map(cs, (c: Comment) => CastId(c.userId))
  }

  /** The values covered by the text index: title, description, and the
      location's state, district and pincode; the address is not indexed. */
  function TextIndexed(i: Issue): seq<string> {
    [i.title, i.description, i.location.state, i.location.district, i.location.pincode]
  }

  /** The paths to the issue's own fields. */
  function FieldPaths(i: Issue): (m: map<string, seq<string>>)
    ensures "_id" in m && m["_id"] == [CastId(i.id)]
    ensures "status" in m && m["status"] == [i.status]
    ensures "category" in m && m["category"] == [i.category]
    ensures "severity" in m && m["severity"] == [i.severity]
    ensures "reportedBy" in m && m["reportedBy"] == [CastId(i.reportedBy)]
  {
    var id, reporter := CastId(i.id), CastId(i.reportedBy);
    map[
      "title" := [i.title],
      "description" := [i.description],
      "upvotes" := Map(i.upvotes, CastId),
      "_id" := [id],
      "category" := [i.category],
      "status" := [i.status],
      "severity" := [i.severity],
      "reportedBy" := [reporter]]
  }

  /** The issue's own fields have short names, none of them a nested path. */
  lemma FieldPathsShort(i: Issue)
    ensures forall path :: path in FieldPaths(i) ==> |path| < 12
  {
  }

  /** The paths into the location object and through the comments array. */
  function NestedPaths(i: Issue): (m: map<string, seq<string>>)
    ensures "location.state" in m && m["location.state"] == [i.location.state]
    ensures "location.district" in m && m["location.district"] == [i.location.district]
    ensures "location.pincode" in m && m["location.pincode"] == [i.location.pincode]
    ensures "comments._id" in m && m["comments._id"] == CommentIds(i.comments)
    ensures "comments.userId" in m && m["comments.userId"] == CommentAuthors(i.comments)
  {
    map[
      "location.state" := [i.location.state],
      "location.district" := [i.location.district],
      "location.pincode" := [i.location.pincode],
      "comments._id" := CommentIds(i.comments),
      "comments.userId" := CommentAuthors(i.comments)]
  }

  /** The key a sort on `field` sees: every scalar field sorts on its
      value, the ObjectId fields as ObjectIds, and an unassigned issue or a
      missing address as null; any other field sorts as null. */
  function SortKey(i: Issue, field: string): SortValue {
    if field == "_id" then ObjectIdKey(i.id)
    else if field == "title" then Text(i.title)
    else if field == "description" then Text(i.description)
    else if field == "category" then Text(i.category)
    else if field == "status" then Text(i.status)
    else if field == "severity" then Text(i.severity)
    else if field == "reportedBy" then ObjectIdKey(i.reportedBy)
    else if field == "assignedTo" then (if i.assignedTo.Some? then ObjectIdKey(i.assignedTo.value) else Absent)
    else if field == "location.state" then Text(i.location.state)
    else if field == "location.district" then Text(i.location.district)
    else if field == "location.pincode" then Text(i.location.pincode)
    else if field == "location.address" then OptionKey(i.location.address)
    else if field == "createdAt" then Num(i.createdAt)
    else Absent
  }

  /** What a sort sees of the ObjectId fields; "-createdAt" is no field. */
  lemma SortKeyIds(i: Issue)
    ensures SortKey(i, "_id") == ObjectIdKey(i.id) && SortKey(i, "reportedBy") == ObjectIdKey(i.reportedBy)
    ensures SortKey(i, "assignedTo") == (if i.assignedTo.Some? then ObjectIdKey(i.assignedTo.value) else Absent)
    ensures SortKey(i, "-createdAt") == Absent
  {
  }

  /** What a sort sees of the text fields and the creation time. */
  lemma SortKeyTexts(i: Issue)
    ensures SortKey(i, "title") == Text(i.title) && SortKey(i, "description") == Text(i.description)
    ensures SortKey(i, "category") == Text(i.category) && SortKey(i, "status") == Text(i.status)
    ensures SortKey(i, "severity") == Text(i.severity) && SortKey(i, "createdAt") == Num(i.createdAt)
  {
  }

  /** What a sort sees of the location. */
  lemma SortKeyLocation(i: Issue)
    ensures SortKey(i, "location.state") == Text(i.location.state)
    ensures SortKey(i, "location.district") == Text(i.location.district)
    ensures SortKey(i, "location.pincode") == Text(i.location.pincode)
    ensures SortKey(i, "location.address") == OptionKey(i.location.address)
  {
  }

  /** An issue as a query sees it. */
  function IssueDoc(i: Issue): (d: Doc)
    ensures Values(d, "_id") == [CastId(i.id)] && Values(d, "status") == [i.status]
    ensures Values(d, "category") == [i.category] && Values(d, "severity") == [i.severity]
    ensures Values(d, "location.state") == [i.location.state]
    ensures Values(d, "location.district") == [i.location.district]
    ensures Values(d, "location.pincode") == [i.location.pincode]
    ensures Values(d, "reportedBy") == [CastId(i.reportedBy)]
    ensures Values(d, "comments._id") == CommentIds(i.comments)
    ensures Values(d, "comments.userId") == CommentAuthors(i.comments)
    ensures d.textFields == TextIndexed(i)
    ensures forall field :: KeyOf(d, field) == SortKey(i, field)
  {
    var fields := FieldPaths(i);
    var nested := NestedPaths(i);
    FieldPathsShort(i);
    assert |"location.state"| >= 12 && |"location.district"| >= 12 && |"location.pincode"| >= 12;
    assert |"comments._id"| >= 12 && |"comments.userId"| >= 12;
    Doc(
      nested + fields,
      TextIndexed(i),
      (field: string) => SortKey(i, field))
  }
}

=== FILE: issues_controller.dfy ===
/** The issue handlers (controllers/issues.controller.ts) and the upload
    middleware they start with (utils/upload.ts): what each handler takes
    from the request, the defaults it fills in, and the checks it makes
    before calling the issue engine. `JSON.parse` is a parameter that yields
    a value or nothing for text that does not parse. */
module IssuesController {
  import opened Common
  import opened ApiErrors
  import Json
  import opened JsNumbers
  import opened Query
  import opened Users
  import opened IssueModel
  import opened Db
  import opened IssuesService

  // ---------------------------------------------------------------------------
  // upload.array('images', 5)

  const UPLOAD_FIELD: string := "images"
  const MAX_FILES: nat := 5
  const MAX_FILE_SIZE: nat := 5 * 1024 * 1024

  /** The error a file is rejected with, if any, given how many files came
      before it: a file under another field, or beyond the fifth, is an
      unexpected file; a type other than an image is refused with 400; a file
      over 5 MB is too large. Multer's own errors are not ApiErrors. */
  function FileError(f: File, index: nat): (r: Option<Failure>)
    ensures r.None? <==> f.fieldName == UPLOAD_FIELD && index < MAX_FILES && IsPrefix("image", f.mimetype) && |f.content| <= MAX_FILE_SIZE
  {
    if f.fieldName != UPLOAD_FIELD || index >= MAX_FILES then Some(Crash("Unexpected field"))
    else if !IsPrefix("image", f.mimetype) then Some(Api(NewApiError(400, "Please upload only images")))
    else if |f.content| > MAX_FILE_SIZE then Some(Crash("File too large"))
    else None
  }

  /** The files as they arrive: the first rejected one ends the request. */
  function AcceptFrom(files: seq<File>, index: nat): (r: Result<seq<File>>)
    ensures r.Ok? <==> forall k :: 0 <= k < |files| ==> FileError(files[k], index + k).None?
    ensures r.Ok? ==> r.value == files
    ensures r.Err? ==> exists k :: (0 <= k < |files| && FileError(files[k], index + k) == Some(r.failure) &&
      forall j :: 0 <= j < k ==> FileError(files[j], index + j).None?)
  {
    if files == [] then Ok([])
    else match FileError(files[0], index)
      case Some(e) => Err(e)
      case None =>
        var rest := AcceptFrom(files[1..], index + 1);
        AcceptStep(files, index, rest);
        if rest.Err? then Err(rest.failure) else Ok(files)
  }

  /** The first file passing, what holds of the rest holds of the whole. */
  lemma AcceptStep(files: seq<File>, index: nat, rest: Result<seq<File>>)
    requires files != [] && FileError(files[0], index).None?
    requires rest.Ok? <==> forall k :: 0 <= k < |files[1..]| ==> FileError(files[1..][k], index + 1 + k).None?
    requires rest.Err? ==> exists k :: (0 <= k < |files[1..]| && FileError(files[1..][k], index + 1 + k) == Some(rest.failure) &&
      forall j :: 0 <= j < k ==> FileError(files[1..][j], index + 1 + j).None?)
    ensures rest.Ok? <==> forall k :: 0 <= k < |files| ==> FileError(files[k], index + k).None?
    ensures rest.Err? ==> exists k :: (0 <= k < |files| && FileError(files[k], index + k) == Some(rest.failure) &&
      forall j :: 0 <= j < k ==> FileError(files[j], index + j).None?)
  {
    assert forall k :: 1 <= k < |files| ==> files[k] == files[1..][k - 1];
    if rest.Err? {
      var k :| 0 <= k < |files[1..]| && FileError(files[1..][k], index + 1 + k) == Some(rest.failure) &&
        forall j :: 0 <= j < k ==> FileError(files[1..][j], index + 1 + j).None?;
      assert FileError(files[k + 1], index + (k + 1)) == Some(rest.failure);
    }
  }

  function AcceptFiles(files: seq<File>): (r: Result<seq<File>>)
  {
    AcceptFrom(files, 0)
  }

  /** At most five files, all under `images`, all images of at most 5 MB,
      get through, unchanged and in order. */
  lemma AcceptedFiles(files: seq<File>)
    requires AcceptFiles(files).Ok?
    ensures AcceptFiles(files).value == files
    ensures |files| <= MAX_FILES
    ensures forall k :: 0 <= k < |files| ==> files[k].fieldName == UPLOAD_FIELD && IsPrefix("image", files[k].mimetype)
  {
    assert |files| > MAX_FILES ==> FileError(files[MAX_FILES], MAX_FILES).Some?;
  }

  /** A sixth file is always refused, whatever it is. */
  lemma SixthFileRefused(files: seq<File>)
    requires |files| > MAX_FILES
    ensures AcceptFiles(files).Err?
  {
    assert FileError(files[MAX_FILES], MAX_FILES).Some?;
  }

  // ---------------------------------------------------------------------------
  // createIssueHandler

  /** The location the handler hands on: a string is parsed (text that does
      not parse is a 400), an object whose coordinates are missing or falsy
      gets `[0, 0]`; setting that property on a missing location, on null or
      on a primitive throws a TypeError. */
  function NormalizeLocation(location: Option<Json.Value>, parse: string -> Option<Json.Value>): (r: Result<Json.Value>)
    ensures location.Some? && location.value.Str? && parse(location.value.s).None? ==>
      r == Err(Api(NewApiError(400, "Invalid location format")))
    ensures location.None? ==> r.Err? && r.failure.Crash?
    ensures r.Ok? ==> r.value.Obj? && Json.Get(r.value, "coordinates").Some? && Json.Truthy(Json.Get(r.value, "coordinates").value)
    ensures r.Ok? ==> forall key :: key != "coordinates" ==> Json.Get(r.value, key) == Json.Get(ParsedLocation(location, parse), key)
    ensures r.Ok? && !(Json.Get(ParsedLocation(location, parse), "coordinates").Some? && Json.Truthy(Json.Get(ParsedLocation(location, parse), "coordinates").value)) ==>
      Json.Get(r.value, "coordinates") == Some(Json.Arr([Json.Num(0.0), Json.Num(0.0)]))
    ensures r.Ok? && Json.Get(ParsedLocation(location, parse), "coordinates").Some? && Json.Truthy(Json.Get(ParsedLocation(location, parse), "coordinates").value) ==>
      r.value == ParsedLocation(location, parse)
    ensures (location.Some? && !(location.value.Str? && parse(location.value.s).None?)) ==>
      (r.Ok? <==> ParsedLocation(location, parse).Obj?)
  {
    if location.None? then Err(Crash("Cannot set properties of undefined (setting 'coordinates')"))
    else if location.value.Str? && parse(location.value.s).None? then Err(Api(NewApiError(400, "Invalid location format")))
    else
      var v := ParsedLocation(location, parse);
      var coordinates := Json.Get(v, "coordinates");
      if coordinates.Some? && Json.Truthy(coordinates.value) then
        if v.Obj? then Ok(v) else Err(Crash("Cast to Embedded failed for value of path `location`"))
      else if v.Obj? then Ok(Json.Obj(v.fields["coordinates" := Json.Arr([Json.Num(0.0), Json.Num(0.0)])]))
      else Err(Crash("Cannot set properties of a non-object location (setting 'coordinates')"))
  }

  /** `issueData.location` after the string case has been parsed. */
  function ParsedLocation(location: Option<Json.Value>, parse: string -> Option<Json.Value>): Json.Value {
    if location.None? then Json.Null
    else if location.value.Str? && parse(location.value.s).Some? then parse(location.value.s).value
    else location.value
  }

  /** The fields of a create request the handler and the service read. */
  datatype CreateRequest = CreateRequest(
    title: Option<string>,
    description: Option<string>,
    category: Option<string>,
    severity: Option<string>,
    location: Option<Json.Value>,
    files: seq<File>)

  function InputOf(req: CreateRequest, location: Json.Value): IssueInput {
    IssueInput(req.title, req.description, req.category, req.severity, location)
  }

  /** createIssueHandler behind the upload middleware: files are screened
      first, then the location is normalised, then the issue is created for
      the authenticated caller. */
  method CreateIssueHandler(db: Store, caller: User, req: CreateRequest, parse: string -> Option<Json.Value>,
                            upload: File -> Option<string>, newId: string, now: int, conv: Conversions) returns (r: Result<Issue>)
    requires db.Valid() && IsObjectId(newId) && FreshId(db.issues, IssueId, CastId(newId))
    modifies db
    ensures db.Valid()
    ensures AcceptFiles(req.files).Err? ==> r == Err(AcceptFiles(req.files).failure)
    ensures AcceptFiles(req.files).Ok? && NormalizeLocation(req.location, parse).Err? ==>
      r == Err(NormalizeLocation(req.location, parse).failure)
    ensures AcceptFiles(req.files).Ok? && NormalizeLocation(req.location, parse).Ok? ==>
      var input := InputOf(req, NormalizeLocation(req.location, parse).value);
      (r.Ok? <==> UploadAll(req.files, upload).Ok? && NewIssue(newId, caller.id, input, UploadAll(req.files, upload).value, now, conv).Ok?)
    ensures r.Ok? ==> r.value.reportedBy == caller.id && db.issues == old(db.issues) + [r.value] && db.users == AwardPoints(old(db.users), caller.id)
    ensures r.Err? ==> db.issues == old(db.issues) && db.users == old(db.users)
    ensures db.updates == old(db.updates) && db.contacts == old(db.contacts)
  {
    var accepted := AcceptFiles(req.files);
    if accepted.Err? {
      return Err(accepted.failure);
    }
    var location := NormalizeLocation(req.location, parse);
    if location.Err? {
      return Err(location.failure);
    }
    r := CreateIssue(db, caller.id, InputOf(req, location.value), req.files, upload, newId, now, conv);
  }

  // ---------------------------------------------------------------------------
  // getIssuesHandler

  /** The query string of a listing: the filter keys, and paging and sort
      parameters as text. */
  datatype ListRequest = ListRequest(filter: IssueFilter, limit: Option<string>, page: Option<string>, sortBy: Option<string>)

  const HTTP_DEFAULT_LIMIT: int := 100
  const HTTP_DEFAULT_SORT: string := "-createdAt"

  /** The options the handler passes: `parseInt(limit) || 100`,
      `parseInt(page) || 1`, `sortBy || '-createdAt'`. */
  function HttpListOptions(q: ListRequest): (opts: ListOptions)
    ensures opts.limit == Some(IntOr(q.limit, HTTP_DEFAULT_LIMIT)) && opts.page == Some(IntOr(q.page, 1))
    ensures opts.sortBy == Some(OrElse(q.sortBy, HTTP_DEFAULT_SORT))
  {
    ListOptions(Some(IntOr(q.limit, HTTP_DEFAULT_LIMIT)), Some(IntOr(q.page, 1)), Some(OrElse(q.sortBy, HTTP_DEFAULT_SORT)))
  }

  /** A missing, empty, non-numeric or zero `limit` is 100 and such a `page`
      is 1; neither option is ever 0. */
  lemma HttpListFallbacks(q: ListRequest)
    ensures (q.limit.None? || q.limit == Some("") || ParseInt(q.limit) == Some(0) || ParseInt(q.limit).None?) ==>
      HttpListOptions(q).limit == Some(HTTP_DEFAULT_LIMIT)
    ensures (q.page.None? || q.page == Some("") || ParseInt(q.page) == Some(0) || ParseInt(q.page).None?) ==>
      HttpListOptions(q).page == Some(1)
    ensures HttpListOptions(q).limit.value != 0 && HttpListOptions(q).page.value != 0
  {
  }

  /** A positive decimal `limit` or `page` is taken as written. */
  lemma HttpListDecimal(q: ListRequest, n: nat)
    requires n > 0
    ensures q.limit == Some(Decimal(n)) ==> HttpListOptions(q).limit == Some(n)
    ensures q.page == Some(Decimal(n)) ==> HttpListOptions(q).page == Some(n)
  {
    ParseIntDecimal(n, "");
    assert Decimal(n) + "" == Decimal(n);
  }

  /** The handler always sends a `sortBy`, so the service's own newest-first
      default is never used; without one in the request the listing is in
      stored order, oldest first. */
  lemma HttpDefaultSortIsStoredOrder(issues: seq<Issue>, q: ListRequest, o: Oracles)
    requires !Present(q.sortBy)
    requires IssuesPage(issues, q.filter, HttpListOptions(q), o).Ok?
    ensures HttpListOptions(q).sortBy == Some("-createdAt")
    ensures var paging := PagingOf(HttpListOptions(q).limit, HttpListOptions(q).page);
      IssuesPage(issues, q.filter, HttpListOptions(q), o).value.items ==
        Window(Filter(issues, Selector(q.filter, o)), paging.skip, if paging.limit < 0 then -paging.limit else paging.limit)
  {
    DashOptionsKeepStoredOrder(issues, q.filter, HttpListOptions(q), o);
  }

  /** getIssuesHandler: the filter is the query string itself. */
  method GetIssuesHandler(db: Store, q: ListRequest, o: Oracles) returns (r: Result<Page<Issue>>)
    ensures r == IssuesPage(db.issues, q.filter, HttpListOptions(q), o)
  {
    var options := ListOptions(Some(IntOr(q.limit, HTTP_DEFAULT_LIMIT)), Some(IntOr(q.page, 1)), Some(OrElse(q.sortBy, HTTP_DEFAULT_SORT)));
    r := GetIssues(db, q.filter, options, o);
  }

  // ---------------------------------------------------------------------------
  // updateIssueHandler, addCommentHandler

  /** updateIssueHandler always passes the caller's id, so a comment in the
      body is attributed to the caller. */
  method UpdateIssueHandler(db: Store, caller: User, issueId: string, body: IssueUpdate, commentId: string, now: int)
    returns (r: Result<Issue>)
    requires db.Valid() && IsObjectId(caller.id)
    modifies db
    ensures db.Valid()
    ensures FindIssue(old(db.issues), issueId).Err? ==> r == Err(FindIssue(old(db.issues), issueId).failure)
    ensures r.Ok? ==> (FindIssue(old(db.issues), issueId).Ok? &&
      r.value == ApplyIssueUpdate(FindIssue(old(db.issues), issueId).value, body, Some(caller.id), commentId, now))
    ensures r.Ok? && Present(body.comment) ==>
      r.value.comments[|r.value.comments| - 1] == Comment(commentId, caller.id, body.comment.value, now)
    ensures r.Err? ==> db.issues == old(db.issues)
    ensures db.updates == old(db.updates) && db.contacts == old(db.contacts) && db.users == old(db.users)
  {
    r := UpdateIssue(db, issueId, body, Some(caller.id), commentId, now);
  }

  const COMMENT_REQUIRED: string := "Comment text is required"

  /** addCommentHandler: a missing or empty text is a 400 before the store is
      touched (white space alone is accepted); the comment's author is the
      caller and its time is set here. */
  method AddCommentHandler(db: Store, caller: User, issueId: string, text: Option<string>, commentId: string, now: int)
    returns (r: Result<Issue>)
    requires db.Valid() && IsObjectId(caller.id)
    modifies db
    ensures db.Valid()
    ensures !Present(text) ==> r == Err(Api(NewApiError(400, COMMENT_REQUIRED)))
    ensures !Present(text) || r.Err? ==> db.issues == old(db.issues)
    ensures Present(text) ==> (r.Ok? <==> FindIssue(old(db.issues), issueId).Ok?)
    ensures Present(text) && r.Ok? ==>
      r.value == WithComment(FindIssue(old(db.issues), issueId).value, Comment(commentId, caller.id, text.value, now))
    ensures db.updates == old(db.updates) && db.contacts == old(db.contacts) && db.users == old(db.users)
  {
    if !Present(text) {
      return Err(Api(NewApiError(400, COMMENT_REQUIRED)));
    }
    r := AddComment(db, issueId, Comment(commentId, caller.id, text.value, now));
  }
}

=== FILE: issues_service.dfy ===
/** The issue engine (services/issues.service.ts): creation with image
    uploads and the reporter's reward, lookup, partial update, deletion, the
    listing query, the upvote toggle, and comment append and removal.
    Image hosting is a parameter that yields a URL or fails; new ObjectIds
    and the current time are parameters too. */
module IssuesService {
  import opened Common
  import opened ApiErrors
  import opened Query
  import opened Users
  import opened IssueModel
  import opened Db

  const ISSUE_NOT_FOUND: string := "Issue not found"
  const COMMENT_NOT_FOUND: string := "Comment not found or not authorized"

  /** The error the image host's failure is reported as. */
  function UploadFailed(): ApiError {
    NewApiError(500, "Image upload failed")
  }

  /** An uploaded file as the upload middleware hands it over. */
  datatype File = File(fieldName: string, mimetype: string, content: seq<bv8>)

  // ---------------------------------------------------------------------------
  // createIssue

  /** Uploading the files one after another, stopping at the first failure:
      the URLs come back in file order. */
  function UploadAll(files: seq<File>, upload: File -> Option<string>): (r: Result<seq<string>>)
    ensures r.Ok? <==> forall k :: 0 <= k < |files| ==> upload(files[k]).Some?
    ensures r.Ok? ==> |r.value| == |files| && forall k :: 0 <= k < |files| ==> r.value[k] == upload(files[k]).value
    ensures r.Err? ==> r.failure == Api(UploadFailed())
  {
    if files == [] then Ok([])
    else
      var n := |files| - 1;
      match UploadAll(files[..n], upload)
      case Err(e) => Err(e)
      case Ok(urls) =>
        match upload(files[n])
        case None => Err(Api(UploadFailed()))
        case Some(url) => Ok(urls + [url])
  }

  /** `User.findByIdAndUpdate(userId, { $inc: { points: 10 } })`: the
      reporter (matched by ObjectId value) gains exactly ten points, nobody
      else changes, and an unknown reporter is no error. */
  function AwardPoints(users: seq<User>, userId: string): (r: seq<User>)
    ensures |r| == |users|
    ensures forall k :: 0 <= k < |users| ==> r[k].id == users[k].id
    ensures forall k :: 0 <= k < |users| && CastId(users[k].id) != CastId(userId) ==> r[k] == users[k]
    ensures UniqueIds(users, UserId) ==> forall k :: 0 <= k < |users| && CastId(users[k].id) == CastId(userId) ==>
      r[k] == users[k].(points := users[k].points + REPORT_POINTS)
    ensures FreshId(users, UserId, CastId(userId)) ==> r == users
    ensures UniqueIds(users, UserId) ==> UniqueIds(r, UserId)
  {
    match IndexOfId(users, UserId, CastId(userId))
    case None => users
    case Some(k) => users[k := users[k].(points := users[k].points + REPORT_POINTS)]
  }

  /** The upload loop of createIssue: the files go to the image host one at
      a time, and the first failure ends the loop. */
  method UploadImages(files: seq<File>, upload: File -> Option<string>) returns (r: Result<seq<string>>)
    ensures r == UploadAll(files, upload)
  {
    var images: seq<string> := [];
    var k := 0;
    while k < |files|
      invariant 0 <= k <= |files|
      invariant UploadAll(files[..k], upload) == Ok(images)
    {
      var url := upload(files[k]);
      assert files[..k + 1][..k] == files[..k];
      if url.None? {
        assert UploadAll(files[..k + 1], upload).Err?;
        return Err(Api(UploadFailed()));
      }
      images := images + [url.value];
      k := k + 1;
    }
    assert files[..k] == files;
    r := Ok(images);
  }

  /** createIssue: every file is uploaded, in order, before the issue is
      created; the issue is appended to the collection; then the reporter is
      rewarded. A failed upload or a failed validation changes nothing. */
  method CreateIssue(db: Store, userId: string, input: IssueInput, files: seq<File>,
                     upload: File -> Option<string>, newId: string, now: int, conv: Conversions) returns (r: Result<Issue>)
    requires db.Valid() && IsObjectId(newId) && FreshId(db.issues, IssueId, CastId(newId))
    modifies db
    ensures db.Valid()
    ensures r.Ok? <==> UploadAll(files, upload).Ok? && NewIssue(newId, userId, input, UploadAll(files, upload).value, now, conv).Ok?
    ensures r.Ok? ==> r.value == NewIssue(newId, userId, input, UploadAll(files, upload).value, now, conv).value
    ensures r.Ok? ==> db.issues == old(db.issues) + [r.value] && db.users == AwardPoints(old(db.users), userId)
    ensures UploadAll(files, upload).Err? ==> r == Err(Api(UploadFailed()))
    ensures r.Err? ==> db.issues == old(db.issues) && db.users == old(db.users)
    ensures db.updates == old(db.updates) && db.contacts == old(db.contacts)
  {
    var uploaded := UploadImages(files, upload);
    if uploaded.Err? {
      return Err(uploaded.failure);
    }
    var images := uploaded.value;
    var created := NewIssue(newId, userId, input, images, now, conv);
    if created.Err? {
      return Err(created.failure);
    }
    var issue := created.value;
    SaveAndReward(db, issue, userId);
    r := Ok(issue);
  }

  /** The two writes of a successful createIssue: the issue is stored, then
      the reporter is rewarded. */
  method SaveAndReward(db: Store, issue: Issue, userId: string)
    requires db.Valid() && ValidIssue(issue) && FreshId(db.issues, IssueId, IssueId(issue))
    modifies db
    ensures db.Valid()
    ensures db.issues == old(db.issues) + [issue] && db.users == AwardPoints(old(db.users), userId)
    ensures db.updates == old(db.updates) && db.contacts == old(db.contacts)
  {
    IssueAppended(db.issues, issue);
    var rewarded := AwardPoints(db.users, userId);
    db.issues := db.issues + [issue];
    db.users := rewarded;
  }

  /** `save` of a loaded issue: the stored issue at `k` is replaced. */
  method SaveIssue(db: Store, k: nat, issue: Issue)
    requires db.Valid() && k < |db.issues| && issue.id == db.issues[k].id && ValidIssue(issue)
    modifies db
    ensures db.Valid()
    ensures db.issues == old(db.issues)[k := issue]
    ensures db.updates == old(db.updates) && db.contacts == old(db.contacts) && db.users == old(db.users)
  {
    IssueReplaced(db.issues, k, issue);
    db.issues := db.issues[k := issue];
  }

  // ---------------------------------------------------------------------------
  // getIssueById, deleteIssue

  /** Where `findById(issueId)` finds its issue: the one whose id is the
      same ObjectId. */
  function Slot(issues: seq<Issue>, issueId: string): (r: Result<nat>)
    ensures r.Ok? ==> r.value < |issues| && CastId(issues[r.value].id) == CastId(issueId)
  {
    Locate(issues, IssueId, issueId, ISSUE_NOT_FOUND)
  }

  /** getIssueById: the stored issue with that id, in any letter case,
      NotFound for an unknown id. */
  function FindIssue(issues: seq<Issue>, issueId: string): (r: Result<Issue>)
    ensures r.Ok? ==> r.value in issues && CastId(r.value.id) == CastId(issueId)
    ensures IsObjectId(issueId) ==> (r.Ok? <==> exists k :: 0 <= k < |issues| && CastId(issues[k].id) == CastId(issueId))
    ensures IsObjectId(issueId) && r.Err? ==> r.failure == NotFound(ISSUE_NOT_FOUND)
  {
    match Slot(issues, issueId)
    case Err(e) => Err(e)
    case Ok(k) => Ok(issues[k])
  }

  /** With distinct ids, any spelling of a stored issue's id finds it. */
  lemma FindIssueAnyCase(issues: seq<Issue>, k: nat, issueId: string)
    requires UniqueIds(issues, IssueId) && k < |issues|
    requires IsObjectId(issueId) && CastId(issueId) == CastId(issues[k].id)
    ensures FindIssue(issues, issueId) == Ok(issues[k])
  {
    var j := Slot(issues, issueId).value;
    assert IssueId(issues[j]) == IssueId(issues[k]);
  }

  /** deleteIssue: removes the issue, keeping the others in order; NotFound
      for an unknown id. */
  method DeleteIssue(db: Store, issueId: string) returns (r: Result<()>)
    requires db.Valid()
    modifies db
    ensures db.Valid()
    ensures r.Ok? <==> FindIssue(old(db.issues), issueId).Ok?
    ensures r.Err? ==> r.failure == FindIssue(old(db.issues), issueId).failure && db.issues == old(db.issues)
    ensures r.Ok? ==> FreshId(db.issues, IssueId, CastId(issueId))
    ensures r.Ok? ==> db.issues == RemoveAt(old(db.issues), Slot(old(db.issues), issueId).value)
    ensures db.updates == old(db.updates) && db.contacts == old(db.contacts) && db.users == old(db.users)
  {
    var found := Slot(db.issues, issueId);
    if found.Err? {
      return Err(found.failure);
    }
    IssueRemoved(db.issues, found.value);
    db.issues := RemoveAt(db.issues, found.value);
    r := Ok(());
  }

  // ---------------------------------------------------------------------------
  // updateIssue

  /** The fields of an update body the service reads. */
  datatype IssueUpdate = IssueUpdate(status: Option<string>, assignedTo: Option<string>, comment: Option<string>)

  /** The issue after `updateIssue` assigned its fields: status and assignee
      only when given non-empty, a comment by `userId` only when both are
      given; nothing else changes. */
  function ApplyIssueUpdate(i: Issue, u: IssueUpdate, userId: Option<string>, commentId: string, now: int): (r: Issue)
    ensures r.status == (if Present(u.status) then u.status.value else i.status)
    ensures r.assignedTo == (if Present(u.assignedTo) then u.assignedTo else i.assignedTo)
    ensures Present(u.comment) && Present(userId) ==>
      r.comments == i.comments + [Comment(commentId, userId.value, u.comment.value, now)]
    ensures !(Present(u.comment) && Present(userId)) ==> r.comments == i.comments
    ensures r == i.(status := r.status, assignedTo := r.assignedTo, comments := r.comments)
  {
    var withStatus := if Present(u.status) then i.(status := u.status.value) else i;
    var withAssignee := if Present(u.assignedTo) then withStatus.(assignedTo := u.assignedTo) else withStatus;
    if Present(u.comment) && Present(userId) then
      withAssignee.(comments := withAssignee.comments + [Comment(commentId, userId.value, u.comment.value, now)])
    else withAssignee
  }

  /** `save` validates the updated issue; for an issue that was valid this
      comes down to the fields the update set. */
  lemma UpdateValidation(i: Issue, u: IssueUpdate, userId: Option<string>, commentId: string, now: int)
    requires ValidIssue(i)
    ensures ValidIssue(ApplyIssueUpdate(i, u, userId, commentId, now)) <==>
      && (Present(u.status) ==> u.status.value in STATUSES)
      && (Present(u.assignedTo) ==> IsObjectId(u.assignedTo.value))
      && (Present(u.comment) && Present(userId) ==> IsObjectId(userId.value))
  {
    var r := ApplyIssueUpdate(i, u, userId, commentId, now);
    if Present(u.comment) && Present(userId) {
      assert r.comments[|i.comments|] == Comment(commentId, userId.value, u.comment.value, now);
    }
  }

  /** updateIssue: loads the issue, assigns the given fields, pushes the
      comment, and saves; the save fails on an invalid value. */
  method UpdateIssue(db: Store, issueId: string, u: IssueUpdate, userId: Option<string>, commentId: string, now: int)
    returns (r: Result<Issue>)
    requires db.Valid()
    modifies db
    ensures db.Valid()
    ensures FindIssue(old(db.issues), issueId).Err? ==> r == Err(FindIssue(old(db.issues), issueId).failure)
    ensures r.Ok? ==> (FindIssue(old(db.issues), issueId).Ok? &&
      r.value == ApplyIssueUpdate(FindIssue(old(db.issues), issueId).value, u, userId, commentId, now))
    ensures FindIssue(old(db.issues), issueId).Ok? ==>
      (r.Ok? <== ValidIssue(ApplyIssueUpdate(FindIssue(old(db.issues), issueId).value, u, userId, commentId, now)))
    ensures r.Ok? ==> db.issues == old(db.issues)[Slot(old(db.issues), issueId).value := r.value]
    ensures r.Err? ==> db.issues == old(db.issues)
    ensures db.updates == old(db.updates) && db.contacts == old(db.contacts) && db.users == old(db.users)
  {
    var found := Slot(db.issues, issueId);
    if found.Err? {
      return Err(found.failure);
    }
    var k := found.value;
    var issue := db.issues[k];
    if Present(u.status) {
      issue := issue.(status := u.status.value);
    }
    if Present(u.assignedTo) {
      issue := issue.(assignedTo := u.assignedTo);
    }
    if Present(u.comment) && Present(userId) {
      issue := issue.(comments := issue.comments + [Comment(commentId, userId.value, u.comment.value, now)]);
    }
    assert issue == ApplyIssueUpdate(db.issues[k], u, userId, commentId, now);
    if !ValidIssue(issue) {
      return Err(Crash("Issue validation failed"));
    }
    SaveIssue(db, k, issue);
    r := Ok(issue);
  }

  // ---------------------------------------------------------------------------
  // upvoteIssue

  /** `upvotes.indexOf(userId)`: the first position holding the id, or -1. */
  function IndexOf(s: seq<string>, x: string): (r: int)
    ensures -1 <= r < |s|
    ensures r == -1 <==> x !in s
    ensures r >= 0 ==> s[r] == x && forall k :: 0 <= k < r ==> s[k] != x
  {
    if s == [] then -1
    else if s[0] == x then 0
    else var k := IndexOf(s[1..], x); if k == -1 then -1 else k + 1
  }

  /** The upvote list after one toggle by `u`: its first occurrence is
      spliced out if present, otherwise `u` is appended. */
  function Toggle(s: seq<string>, u: string): (r: seq<string>)
  {
    var i := IndexOf(s, u);
    if i >= 0 then RemoveAt(s, i) else s + [u]
  }

  /** An upvote list in which every user appears at most once. */
  predicate NoDuplicates(s: seq<string>) {
    forall i, j :: 0 <= i < j < |s| ==> s[i] != s[j]
  }

  function Other(u: string): string -> bool {
    (v: string) => v != u
  }

  /** A toggle removes one vote by `u` when there is one, adds one
      otherwise, and never touches any other user's vote. */
  lemma ToggleCounts(s: seq<string>, u: string)
    ensures u in s ==> multiset(Toggle(s, u)) == multiset(s) - multiset{u} && |Toggle(s, u)| == |s| - 1
    ensures u !in s ==> multiset(Toggle(s, u)) == multiset(s) + multiset{u} && Toggle(s, u)[|s|] == u
    ensures forall v :: v != u ==> multiset(Toggle(s, u))[v] == multiset(s)[v]
  {
    var i := IndexOf(s, u);
    if i >= 0 {
      assert s == s[..i] + [u] + s[i + 1..];
      assert Toggle(s, u) == s[..i] + s[i + 1..];
    }
  }

  /** The other users' votes keep their relative order. */
  lemma ToggleKeepsOthers(s: seq<string>, u: string)
    ensures Filter(Toggle(s, u), Other(u)) == Filter(s, Other(u))
  {
    var i := IndexOf(s, u);
    if i >= 0 {
      assert s == s[..i] + ([u] + s[i + 1..]);
      FilterAppend(s[..i], [u] + s[i + 1..], Other(u));
      FilterAppend([u], s[i + 1..], Other(u));
      FilterAppend(s[..i], s[i + 1..], Other(u));
    } else {
      FilterAppend(s, [u], Other(u));
    }
  }

  /** A list without duplicates keeps that property. */
  lemma ToggleKeepsNoDuplicates(s: seq<string>, u: string)
    requires NoDuplicates(s)
    ensures NoDuplicates(Toggle(s, u))
  {
    var i := IndexOf(s, u);
    var r := Toggle(s, u);
    if i >= 0 {
      forall a, b | 0 <= a < b < |r|
        ensures r[a] != r[b]
      {
        var a' := if a < i then a else a + 1;
        var b' := if b < i then b else b + 1;
        assert r[a] == s[a'] && r[b] == s[b'];
      }
    }
  }

  /** Toggling twice when `u` had not voted: the vote is added, then
      removed again. */
  lemma ToggleTwiceAbsent(s: seq<string>, u: string)
    requires u !in s
    ensures Toggle(Toggle(s, u), u) == s
  {
    var t := s + [u];
    assert Toggle(s, u) == t;
    assert IndexOf(t, u) == |s| by {
      assert t[|s|] == u;
      assert forall k :: 0 <= k < |s| ==> t[k] == s[k];
    }
    assert t[..|s|] == s;
  }

  /** Toggling twice when `u` had voted once: the vote is removed, then
      appended, so it moves to the end. */
  lemma ToggleTwicePresent(s: seq<string>, u: string)
    requires NoDuplicates(s) && u in s
    ensures Toggle(Toggle(s, u), u) == Filter(s, Other(u)) + [u]
  {
    var t := Toggle(s, u);
    ToggleCounts(s, u);
    ToggleKeepsOthers(s, u);
    var i := IndexOf(s, u);
    NoDuplicatesCount(s, u, i);
    assert multiset(t)[u] == 0;
    assert u !in t;
    OnlyOthers(t, u);
  }

  /** Two toggles by the same user restore whether that user has voted and
      leave the other votes as they were; a vote that was there comes back
      at the end of the list. */
  lemma ToggleTwice(s: seq<string>, u: string)
    requires NoDuplicates(s)
    ensures (u in Toggle(Toggle(s, u), u)) <==> (u in s)
    ensures multiset(Toggle(Toggle(s, u), u)) == multiset(s)
    ensures Filter(Toggle(Toggle(s, u), u), Other(u)) == Filter(s, Other(u))
  {
    var t := Toggle(s, u);
    ToggleCounts(s, u);
    ToggleCounts(t, u);
    ToggleKeepsOthers(s, u);
    ToggleKeepsOthers(t, u);
    if u in s {
      ToggleTwicePresent(s, u);
      var i := IndexOf(s, u);
      NoDuplicatesCount(s, u, i);
      assert u !in t by {
        assert multiset(t)[u] == 0;
      }
    } else {
      ToggleTwiceAbsent(s, u);
    }
  }

  lemma NoDuplicatesCount(s: seq<string>, u: string, i: nat)
    requires NoDuplicates(s) && i < |s| && s[i] == u
    ensures multiset(s)[u] == 1
  {
    assert s == s[..i] + [u] + s[i + 1..];
    assert u !in s[..i];
    assert u !in s[i + 1..];
  }

  /** A list without `u` is its own filter on the other users. */
  lemma OnlyOthers(t: seq<string>, u: string)
    requires u !in t
    ensures Filter(t, Other(u)) == t
  {
    FilterAll(t, Other(u));
  }

  /** upvoteIssue: loads the issue, splices out or pushes the voter, and
      saves; NotFound for an unknown id. */
  method UpvoteIssue(db: Store, issueId: string, userId: string) returns (r: Result<Issue>)
    requires db.Valid()
    modifies db
    ensures db.Valid()
    ensures FindIssue(old(db.issues), issueId).Err? ==> r == Err(FindIssue(old(db.issues), issueId).failure)
    ensures r.Ok? ==> (FindIssue(old(db.issues), issueId).Ok? &&
      r.value == FindIssue(old(db.issues), issueId).value.(upvotes := Toggle(FindIssue(old(db.issues), issueId).value.upvotes, userId)))
    ensures FindIssue(old(db.issues), issueId).Ok? && IsObjectId(userId) ==> r.Ok?
    ensures r.Ok? ==> db.issues == old(db.issues)[Slot(old(db.issues), issueId).value := r.value]
    ensures r.Err? ==> db.issues == old(db.issues)
    ensures db.updates == old(db.updates) && db.contacts == old(db.contacts) && db.users == old(db.users)
  {
    var found := Slot(db.issues, issueId);
    if found.Err? {
      return Err(found.failure);
    }
    var k := found.value;
    var issue := db.issues[k];
    var upvotes := issue.upvotes;
    var upvoteIndex := IndexOf(upvotes, userId);
    if upvoteIndex >= 0 {
      upvotes := RemoveAt(upvotes, upvoteIndex);
    } else {
      upvotes := upvotes + [userId];
    }
    assert upvotes == Toggle(issue.upvotes, userId);
    if IsObjectId(userId) {
      ToggledValid(issue, userId);
    }
    issue := issue.(upvotes := upvotes);
    if !ValidIssue(issue) {
      return Err(Crash("Issue validation failed"));
    }
    SaveIssue(db, k, issue);
    r := Ok(issue);
  }

  /** A valid issue stays valid when a well-formed user id toggles its
      vote. */
  lemma ToggledValid(i: Issue, u: string)
    requires ValidIssue(i) && IsObjectId(u)
    ensures ValidIssue(i.(upvotes := Toggle(i.upvotes, u)))
  {
    var t := Toggle(i.upvotes, u);
    ToggleCounts(i.upvotes, u);
    forall k | 0 <= k < |t|
      ensures IsObjectId(t[k])
    {
      assert t[k] in multiset(t);
      if t[k] != u {
        assert t[k] in multiset(i.upvotes);
        var j :| 0 <= j < |i.upvotes| && i.upvotes[j] == t[k];
      }
    }
  }

  // ---------------------------------------------------------------------------
  // addComment, deleteComment

  /** `$push: { comments: comment }`. */
  function WithComment(i: Issue, c: Comment): (r: Issue)
    ensures |r.comments| == |i.comments| + 1 && r.comments[|i.comments|] == c
    ensures r.comments[..|i.comments|] == i.comments
    ensures r == i.(comments := r.comments)
  {
    i.(comments := i.comments + [c])
  }

  /** addComment: `findByIdAndUpdate` with `$push`, which runs no
      validators; NotFound for an unknown id. */
  method AddComment(db: Store, issueId: string, comment: Comment) returns (r: Result<Issue>)
    requires db.Valid() && ValidComment(comment)
    modifies db
    ensures db.Valid()
    ensures r.Ok? <==> FindIssue(old(db.issues), issueId).Ok?
    ensures r.Err? ==> r.failure == FindIssue(old(db.issues), issueId).failure && db.issues == old(db.issues)
    ensures r.Ok? ==> r.value == WithComment(FindIssue(old(db.issues), issueId).value, comment)
    ensures r.Ok? ==> db.issues == old(db.issues)[Slot(old(db.issues), issueId).value := r.value]
    ensures db.updates == old(db.updates) && db.contacts == old(db.contacts) && db.users == old(db.users)
  {
    var found := Slot(db.issues, issueId);
    if found.Err? {
      return Err(found.failure);
    }
    var k := found.value;
    var issue := WithComment(db.issues[k], comment);
    SaveIssue(db, k, issue);
    r := Ok(issue);
  }

  /** The filter's ids are cast, so they match stored ids by ObjectId value. */
  predicate HasCommentId(i: Issue, commentId: string) {
    exists k :: 0 <= k < |i.comments| && CastId(i.comments[k].id) == CastId(commentId)
  }

  predicate HasCommentBy(i: Issue, userId: string) {
    exists k :: 0 <= k < |i.comments| && CastId(i.comments[k].userId) == CastId(userId)
  }

  /** The filter of deleteComment: the issue id, SOME comment with the
      comment id, and SOME comment by the user, not necessarily the same one. */
  predicate CommentFilterMatches(i: Issue, issueId: string, commentId: string, userId: string) {
    CastId(i.id) == CastId(issueId) && HasCommentId(i, commentId) && HasCommentBy(i, userId)
  }

  /** The comments a pull keeps: those that are not both that comment and
      by that user. */
  predicate Kept(c: Comment, commentId: string, userId: string) {
    !(CastId(c.id) == CastId(commentId) && CastId(c.userId) == CastId(userId))
  }

  function KeepComment(commentId: string, userId: string): Comment -> bool {
    (c: Comment) => Kept(c, commentId, userId)
  }

  /** `$pull: { comments: { _id: commentId, userId } }`: every comment with
      both that id and that author (as ObjectIds) goes; the others stay in
      order. */
  function PullComment(cs: seq<Comment>, commentId: string, userId: string): (r: seq<Comment>)
    ensures |r| <= |cs|
  {
    Filter(cs, KeepComment(commentId, userId))
  }

  lemma PullCommentMembers(cs: seq<Comment>, commentId: string, userId: string, c: Comment)
    ensures c in PullComment(cs, commentId, userId) <==> c in cs && Kept(c, commentId, userId)
    ensures IsSubsequence(PullComment(cs, commentId, userId), cs)
  {
    FilterMembers(cs, KeepComment(commentId, userId), c);
    FilterIsSubsequence(cs, KeepComment(commentId, userId));
  }

  /** deleteComment's `findOneAndUpdate`: the ids are cast first, then the
      issue the filter matches is updated; NotFound when it matches none. Ids
      being unique, the filter can only match the issue with that id. */
  function DeleteCommentResult(issues: seq<Issue>, issueId: string, commentId: string, userId: string): (r: Result<Issue>)
    ensures IsObjectId(issueId) && IsObjectId(commentId) && IsObjectId(userId) && UniqueIds(issues, IssueId) ==>
      (r.Ok? <==> exists k :: 0 <= k < |issues| && CommentFilterMatches(issues[k], issueId, commentId, userId))
    ensures IsObjectId(issueId) && IsObjectId(commentId) && IsObjectId(userId) && r.Err? ==>
      r.failure == NotFound(COMMENT_NOT_FOUND)
    ensures r.Ok? ==> (Slot(issues, issueId).Ok? &&
      CommentFilterMatches(issues[Slot(issues, issueId).value], issueId, commentId, userId) &&
      r.value == issues[Slot(issues, issueId).value].(comments := PullComment(issues[Slot(issues, issueId).value].comments, commentId, userId)))
  {
    if !IsObjectId(issueId) || !IsObjectId(commentId) || !IsObjectId(userId) then
      Err(Crash("Cast to ObjectId failed"))
    else match Slot(issues, issueId)
      case Err(_) => Err(NotFound(COMMENT_NOT_FOUND))
      case Ok(k) =>
        if CommentFilterMatches(issues[k], issueId, commentId, userId)
        then Ok(issues[k].(comments := PullComment(issues[k].comments, commentId, userId)))
        else Err(NotFound(COMMENT_NOT_FOUND))
  }

  /** The filter does not tie the comment id to the author: a user who wrote
      some other comment on the issue gets the issue back, unchanged, with no
      error, when asking to delete a comment they did not write. */
  lemma DeleteOthersComment(issues: seq<Issue>, k: nat, commentId: string, userId: string)
    requires k < |issues| && UniqueIds(issues, IssueId)
    requires IsObjectId(issues[k].id) && IsObjectId(commentId) && IsObjectId(userId)
    requires HasCommentId(issues[k], commentId) && HasCommentBy(issues[k], userId)
    requires forall j :: 0 <= j < |issues[k].comments| ==> Kept(issues[k].comments[j], commentId, userId)
    ensures DeleteCommentResult(issues, issues[k].id, commentId, userId) == Ok(issues[k])
  {
    var i := issues[k];
    assert CommentFilterMatches(i, i.id, commentId, userId);
    FilterAll(i.comments, KeepComment(commentId, userId));
    assert i.(comments := i.comments) == i;
  }

  /** Deleting, as its author, the comment just added (whose fresh id no
      other comment carries) restores the comment list. */
  lemma DeleteUndoesAdd(i: Issue, c: Comment)
    requires forall j :: 0 <= j < |i.comments| ==> CastId(i.comments[j].id) != CastId(c.id)
    ensures PullComment(WithComment(i, c).comments, c.id, c.userId) == i.comments
  {
    FilterAppend(i.comments, [c], KeepComment(c.id, c.userId));
    FilterAll(i.comments, KeepComment(c.id, c.userId));
  }

  /** deleteComment applies the pull to the stored issue. */
  method DeleteComment(db: Store, issueId: string, commentId: string, userId: string) returns (r: Result<Issue>)
    requires db.Valid()
    modifies db
    ensures db.Valid()
    ensures r == DeleteCommentResult(old(db.issues), issueId, commentId, userId)
    ensures r.Ok? ==> db.issues == old(db.issues)[Slot(old(db.issues), issueId).value := r.value]
    ensures r.Err? ==> db.issues == old(db.issues)
    ensures db.updates == old(db.updates) && db.contacts == old(db.contacts) && db.users == old(db.users)
  {
    r := DeleteCommentResult(db.issues, issueId, commentId, userId);
    if r.Ok? {
      var k := Slot(db.issues, issueId).value;
      PulledStillValid(db.issues[k], commentId, userId);
      SaveIssue(db, k, r.value);
    }
  }

  lemma PulledStillValid(i: Issue, commentId: string, userId: string)
    requires ValidIssue(i)
    ensures ValidIssue(i.(comments := PullComment(i.comments, commentId, userId)))
  {
    var r := PullComment(i.comments, commentId, userId);
    forall j | 0 <= j < |r|
      ensures ValidComment(r[j])
    {
      PullCommentMembers(i.comments, commentId, userId, r[j]);
    }
  }

  // ---------------------------------------------------------------------------
  // getIssues

  /** The filter parameters of getIssues (each may be absent or empty). */
  datatype IssueFilter = IssueFilter(
    category: Option<string>,
    status: Option<string>,
    severity: Option<string>,
    state: Option<string>,
    district: Option<string>,
    pincode: Option<string>,
    userId: Option<string>,
    search: Option<string>)

  /** The paging and sort options of a listing. */
  datatype ListOptions = ListOptions(limit: Option<int>, page: Option<int>, sortBy: Option<string>)

  /** The service's own sort when no `sortBy` is given: newest first. */
  const DEFAULT_SORT: SortSpec := SortSpec("createdAt", true)

  /** The match-everything filter used when no key is set. */
  const MATCH_ALL: Cond := AnyExists(["status", "_id"])

  /** No filter key is truthy. */
  predicate NoTerms(f: IssueFilter) {
    && !Present(f.category) && !Present(f.status) && !Present(f.severity)
    && !Present(f.state) && !Present(f.district) && !Present(f.pincode)
    && !Present(f.userId) && !Present(f.search)
  }

  /** The query getIssues builds from `f`: one conjunct per truthy filter
      key, in that order, and the match-all disjunction when there is none. */
  function IssueQuery(f: IssueFilter): (q: Query)
    ensures q != []
    ensures NoTerms(f) ==> q == [Term("$or", MATCH_ALL)]
  {
    var terms :=
      EqualityTerm("category", f.category) + EqualityTerm("status", f.status)
      + EqualityTerm("severity", f.severity) + EqualityTerm("location.state", f.state)
      + EqualityTerm("location.district", f.district) + EqualityTerm("location.pincode", f.pincode)
      + EqualityTerm("reportedBy", CastOptionalId(f.userId))
      + (if Present(f.search) then [Term("$text", TextSearch(f.search.value))] else []);
    if terms == [] then [Term("$or", MATCH_ALL)] else terms
  }

  /** getIssues filling its query dictionary key by key. */
  method BuildIssueQuery(f: IssueFilter) returns (q: Query)
    ensures q == IssueQuery(f)
  {
    q := PutEquality([], "category", f.category);
    ghost var terms := EqualityTerm("category", f.category);
    assert q == terms;
    q := PutEquality(q, "status", f.status);
    terms := terms + EqualityTerm("status", f.status);
    q := PutEquality(q, "severity", f.severity);
    terms := terms + EqualityTerm("severity", f.severity);
    q := PutEquality(q, "location.state", f.state);
    terms := terms + EqualityTerm("location.state", f.state);
    q := PutEquality(q, "location.district", f.district);
    terms := terms + EqualityTerm("location.district", f.district);
    q := PutEquality(q, "location.pincode", f.pincode);
    terms := terms + EqualityTerm("location.pincode", f.pincode);
    // Mongoose casts the value it finds on the ObjectId path.
    q := PutEquality(q, "reportedBy", CastOptionalId(f.userId));
    terms := terms + EqualityTerm("reportedBy", CastOptionalId(f.userId));
    if Present(f.search) {
      q := q + [Term("$text", TextSearch(f.search.value))];
    }
    terms := terms + (if Present(f.search) then [Term("$text", TextSearch(f.search.value))] else []);
    assert q == terms;
    if |q| == 0 {
      q := q + [Term("$or", MATCH_ALL)];
    }
  }

  /** `if (v) query[key] = v`. */
  method PutEquality(q: Query, key: string, v: Option<string>) returns (r: Query)
    ensures r == q + EqualityTerm(key, v)
  {
    r := q;
    if Present(v) {
      r := r + [Term(key, Equals(v.value))];
    }
  }

  /** The reference meaning of an issue filter: every truthy key constrains
      its field by equality, and the search by the text index. */
  predicate IssueSelected(f: IssueFilter, o: Oracles, i: Issue) {
    && (Present(f.category) ==> i.category == f.category.value)
    && (Present(f.status) ==> i.status == f.status.value)
    && (Present(f.severity) ==> i.severity == f.severity.value)
    && (Present(f.state) ==> i.location.state == f.state.value)
    && (Present(f.district) ==> i.location.district == f.district.value)
    && (Present(f.pincode) ==> i.location.pincode == f.pincode.value)
    && (Present(f.userId) ==> CastId(i.reportedBy) == CastId(f.userId.value))
    && (Present(f.search) ==> o.text(TextIndexed(i), f.search.value))
  }

  function Selector(f: IssueFilter, o: Oracles): Issue -> bool {
    (i: Issue) => IssueSelected(f, o, i)
  }

  /** An equality entry holds exactly when the field has the value. */
  lemma EqualityTermMeaning(o: Oracles, key: string, v: Option<string>, d: Doc, field: string)
    requires Values(d, key) == [field]
    ensures Matches(o, EqualityTerm(key, v), d) <==> (Present(v) ==> field == v.value)
  {
    if Present(v) {
      assert EqualityTerm(key, v)[0] == Term(key, Equals(v.value));
    }
  }

  /** The built query matches an issue exactly when the issue satisfies
      every truthy filter key; with no key it matches every issue. */
  lemma IssueQueryMeaning(f: IssueFilter, o: Oracles, i: Issue)
    ensures Matches(o, IssueQuery(f), IssueDoc(i)) <==> IssueSelected(f, o, i)
    ensures NoTerms(f) ==> Matches(o, IssueQuery(f), IssueDoc(i))
  {
    IssueQueryOn(f, o, i, IssueDoc(i));
  }

  /** The query's meaning on any document showing the issue's filterable
      fields and text. */
  lemma IssueQueryOn(f: IssueFilter, o: Oracles, i: Issue, d: Doc)
    requires Values(d, "status") == [i.status]
    requires Values(d, "category") == [i.category] && Values(d, "severity") == [i.severity]
    requires Values(d, "location.state") == [i.location.state]
    requires Values(d, "location.district") == [i.location.district]
    requires Values(d, "location.pincode") == [i.location.pincode]
    requires Values(d, "reportedBy") == [CastId(i.reportedBy)]
    requires d.textFields == TextIndexed(i)
    ensures Matches(o, IssueQuery(f), d) <==> IssueSelected(f, o, i)
    ensures NoTerms(f) ==> Matches(o, IssueQuery(f), d)
  {
    var t1 := EqualityTerm("category", f.category);
    var t2 := EqualityTerm("status", f.status);
    var t3 := EqualityTerm("severity", f.severity);
    var t4 := EqualityTerm("location.state", f.state);
    var t5 := EqualityTerm("location.district", f.district);
    var t6 := EqualityTerm("location.pincode", f.pincode);
    var t7 := EqualityTerm("reportedBy", CastOptionalId(f.userId));
    var t8 := if Present(f.search) then [Term("$text", TextSearch(f.search.value))] else [];
    EqualityTermMeaning(o, "category", f.category, d, i.category);
    EqualityTermMeaning(o, "status", f.status, d, i.status);
    EqualityTermMeaning(o, "severity", f.severity, d, i.severity);
    EqualityTermMeaning(o, "location.state", f.state, d, i.location.state);
    EqualityTermMeaning(o, "location.district", f.district, d, i.location.district);
    EqualityTermMeaning(o, "location.pincode", f.pincode, d, i.location.pincode);
    EqualityTermMeaning(o, "reportedBy", CastOptionalId(f.userId), d, CastId(i.reportedBy));
    if Present(f.search) {
      assert t8[0] == Term("$text", TextSearch(f.search.value));
    }
    QueryConjunction(o, t1, t2, d);
    QueryConjunction(o, t1 + t2, t3, d);
    QueryConjunction(o, t1 + t2 + t3, t4, d);
    QueryConjunction(o, t1 + t2 + t3 + t4, t5, d);
    QueryConjunction(o, t1 + t2 + t3 + t4 + t5, t6, d);
    QueryConjunction(o, t1 + t2 + t3 + t4 + t5 + t6, t7, d);
    QueryConjunction(o, t1 + t2 + t3 + t4 + t5 + t6 + t7, t8, d);
    if NoTerms(f) {
      assert IssueQuery(f)[0] == Term("$or", MATCH_ALL);
      assert "status" in MATCH_ALL.fields && Values(d, "status") != [];
    }
  }

  /** The sort key of an issue for a field name. */
  function IssueKey(field: string): Issue -> SortValue {
    (i: Issue) => KeyOf(IssueDoc(i), field)
  }

  /** getIssues as a reference: a reporter id that is not an ObjectId fails
      the cast; the server refuses a negative skip and a sort key that is no
      field path; otherwise the selected issues, sorted, paged, and
      counted. */
  function IssuesPage(issues: seq<Issue>, f: IssueFilter, opts: ListOptions, o: Oracles): (r: Result<Page<Issue>>)
    ensures Present(f.userId) && !IsObjectId(f.userId.value) ==> r.Err? && r.failure.Crash?
    ensures r.Ok? ==> r.value.count == Count(issues, Selector(f, o))
    ensures r.Ok? ==> |r.value.items| <= r.value.count
    ensures r.Err? <==>
      || (Present(f.userId) && !IsObjectId(f.userId.value))
      || PagingOf(opts.limit, opts.page).skip < 0
      || !SortableField(ParseSortBy(opts.sortBy, DEFAULT_SORT).field)
    ensures r.Err? ==> r.failure.Crash?
    ensures opts.limit.None? && opts.page.None? ==>
      (r.Ok? <==> !(Present(f.userId) && !IsObjectId(f.userId.value)) && SortableField(ParseSortBy(opts.sortBy, DEFAULT_SORT).field))
  {
    if Present(f.userId) && !IsObjectId(f.userId.value) then Err(Crash("Cast to ObjectId failed for value \"" + f.userId.value + "\""))
    else
      var sort := ParseSortBy(opts.sortBy, DEFAULT_SORT);
      var paging := PagingOf(opts.limit, opts.page);
      SortedFind(issues, Selector(f, o), sort, IssueKey(sort.field), paging)
  }

  /** getIssues: builds the query, then finds, sorts, pages and counts. */
  method GetIssues(db: Store, f: IssueFilter, opts: ListOptions, o: Oracles) returns (r: Result<Page<Issue>>)
    ensures r == IssuesPage(db.issues, f, opts, o)
  {
    var query := BuildIssueQuery(f);
    if Present(f.userId) && !IsObjectId(f.userId.value) {
      return Err(Crash("Cast to ObjectId failed for value \"" + f.userId.value + "\""));
    }
    var sort := if Present(opts.sortBy) then ParseSortBy(opts.sortBy, DEFAULT_SORT) else DEFAULT_SORT;
    var paging := PagingOf(opts.limit, opts.page);
    var matches := (i: Issue) => Matches(o, query, IssueDoc(i));
    forall k | 0 <= k < |db.issues|
      ensures matches(db.issues[k]) == Selector(f, o)(db.issues[k])
    {
      IssueQueryMeaning(f, o, db.issues[k]);
    }
    FindPageCongruent(db.issues, matches, Selector(f, o), IssueKey(sort.field), sort.desc, paging);
    r := SortedFind(db.issues, matches, sort, IssueKey(sort.field), paging);
  }

  /** Every listed issue is stored and selected, the page is in sort order
      and no longer than the limit, and with no filter key every issue
      counts. */
  lemma IssuesPageCorrect(issues: seq<Issue>, f: IssueFilter, opts: ListOptions, o: Oracles)
    requires IssuesPage(issues, f, opts, o).Ok?
    ensures var page := IssuesPage(issues, f, opts, o).value;
      var sort := ParseSortBy(opts.sortBy, DEFAULT_SORT);
      && (forall i :: i in page.items ==> i in issues && IssueSelected(f, o, i))
      && SortedBy(page.items, IssueKey(sort.field), sort.desc)
    ensures NoTerms(f) ==> IssuesPage(issues, f, opts, o).value.count == |issues|
  {
    var sort := ParseSortBy(opts.sortBy, DEFAULT_SORT);
    FindPageCorrect(issues, Selector(f, o), IssueKey(sort.field), sort.desc, PagingOf(opts.limit, opts.page));
    if NoTerms(f) {
      FilterAll(issues, Selector(f, o));
    }
  }

  /** With no `sortBy` the service lists newest first. */
  lemma ServiceDefaultNewestFirst(issues: seq<Issue>, f: IssueFilter, limit: Option<int>, page: Option<int>, o: Oracles)
    requires IssuesPage(issues, f, ListOptions(limit, page, None), o).Ok?
    ensures var items := IssuesPage(issues, f, ListOptions(limit, page, None), o).value.items;
      forall a, b :: 0 <= a < b < |items| ==> items[a].createdAt >= items[b].createdAt
  {
    var items := IssuesPage(issues, f, ListOptions(limit, page, None), o).value.items;
    IssuesPageCorrect(issues, f, ListOptions(limit, page, None), o);
    forall a, b | 0 <= a < b < |items|
      ensures items[a].createdAt >= items[b].createdAt
    {
      SortKeyTexts(items[a]);
      SortKeyTexts(items[b]);
      assert Precedes(IssueKey("createdAt")(items[a]), IssueKey("createdAt")(items[b]), true);
    }
  }

  /** No issue has a field named `-createdAt`. */
  lemma NoDashKey(i: Issue)
    ensures KeyOf(IssueDoc(i), "-createdAt") == Absent
  {
    SortKeyIds(i);
  }

  /** Unfolds a listing that succeeds. */
  lemma IssuesPageIsFindPage(issues: seq<Issue>, f: IssueFilter, opts: ListOptions, o: Oracles)
    requires IssuesPage(issues, f, opts, o).Ok?
    ensures var sort := ParseSortBy(opts.sortBy, DEFAULT_SORT);
      IssuesPage(issues, f, opts, o) == FindPage(issues, Selector(f, o), IssueKey(sort.field), sort.desc, PagingOf(opts.limit, opts.page))
  {
  }

  lemma DashSortSpec()
    ensures ParseSortBy(Some("-createdAt"), DEFAULT_SORT) == SortSpec("-createdAt", false)
  {
    ParseSortByForms("-createdAt", "", DEFAULT_SORT);
  }

  /** Sorting ascending on a field no issue has keeps the stored order. */
  lemma AbsentKeyUnsorted(matched: seq<Issue>, field: string)
    requires forall i: Issue :: KeyOf(IssueDoc(i), field) == Absent
    ensures SortDocs(matched, IssueKey(field), false) == matched
  {
    assert forall k :: 0 <= k < |matched| ==> IssueKey(field)(matched[k]) == Absent;
    SortConstantKey(matched, IssueKey(field), false, Absent);
  }

  lemma ListingSortedOn(issues: seq<Issue>, f: IssueFilter, opts: ListOptions, o: Oracles, field: string)
    requires IssuesPage(issues, f, opts, o).Ok?
    requires ParseSortBy(opts.sortBy, DEFAULT_SORT) == SortSpec(field, false)
    ensures IssuesPage(issues, f, opts, o) == FindPage(issues, Selector(f, o), IssueKey(field), false, PagingOf(opts.limit, opts.page))
  {
    IssuesPageIsFindPage(issues, f, opts, o);
  }

  /** A listing whose sort leaves the selected issues in place is a window
      of them in stored order. */
  lemma UnsortedListing(issues: seq<Issue>, f: IssueFilter, limit: Option<int>, page: Option<int>, sortBy: Option<string>, o: Oracles, field: string)
    requires IssuesPage(issues, f, ListOptions(limit, page, sortBy), o).Ok?
    requires ParseSortBy(sortBy, DEFAULT_SORT) == SortSpec(field, false)
    requires SortDocs(Filter(issues, Selector(f, o)), IssueKey(field), false) == Filter(issues, Selector(f, o))
    ensures var paging := PagingOf(limit, page);
      IssuesPage(issues, f, ListOptions(limit, page, sortBy), o).value.items ==
        Window(Filter(issues, Selector(f, o)), paging.skip, if paging.limit < 0 then -paging.limit else paging.limit)
  {
    ListingSortedOn(issues, f, ListOptions(limit, page, sortBy), o, field);
    FindPageKeptOrder(issues, Selector(f, o), IssueKey(field), PagingOf(limit, page));
  }

  /** `sortBy = "-createdAt"` (no `:` part) sorts ascending on a field no
      issue has, so every key is missing and the page keeps stored order:
      the oldest issues come first. */
  lemma DashCreatedAtKeepsStoredOrder(issues: seq<Issue>, f: IssueFilter, limit: Option<int>, page: Option<int>, o: Oracles)
    requires IssuesPage(issues, f, ListOptions(limit, page, Some("-createdAt")), o).Ok?
    ensures var paging := PagingOf(limit, page);
      IssuesPage(issues, f, ListOptions(limit, page, Some("-createdAt")), o).value.items ==
        Window(Filter(issues, Selector(f, o)), paging.skip, if paging.limit < 0 then -paging.limit else paging.limit)
  {
    DashSortSpec();
    forall i: Issue
      ensures KeyOf(IssueDoc(i), "-createdAt") == Absent
    {
      NoDashKey(i);
    }
    AbsentKeyUnsorted(Filter(issues, Selector(f, o)), "-createdAt");
    UnsortedListing(issues, f, limit, page, Some("-createdAt"), o, "-createdAt");
  }

  /** The same for options given whole. */
  lemma DashOptionsKeepStoredOrder(issues: seq<Issue>, f: IssueFilter, opts: ListOptions, o: Oracles)
    requires opts.sortBy == Some("-createdAt")
    requires IssuesPage(issues, f, opts, o).Ok?
    ensures var paging := PagingOf(opts.limit, opts.page);
      IssuesPage(issues, f, opts, o).value.items ==
        Window(Filter(issues, Selector(f, o)), paging.skip, if paging.limit < 0 then -paging.limit else paging.limit)
  {
    assert opts == ListOptions(opts.limit, opts.page, Some("-createdAt"));
    DashCreatedAtKeepsStoredOrder(issues, f, opts.limit, opts.page, o);
  }
}

=== FILE: js_numbers.dfy ===
/** The global `parseInt` with no radix, as the list handlers apply it to
    query-string parameters: leading white space is skipped, one sign is
    read, a `0x`/`0X` prefix selects hexadecimal, and the longest run of
    digits that follows is the value; no digit at all gives NaN (None). */
module JsNumbers {
  import opened Common

  /** The value of a hexadecimal digit of either case, or -1. */
  function DigitValue(c: char): (d: int)
    ensures -1 <= d < 16
    ensures '0' <= c <= '9' ==> d == c as int - '0' as int
  {
    if '0' <= c <= '9' then c as int - '0' as int
    else if 'a' <= c <= 'f' then c as int - 'a' as int + 10
    else if 'A' <= c <= 'F' then c as int - 'A' as int + 10
    else -1
  }

  predicate IsDigit(c: char, radix: nat) {
    0 <= DigitValue(c) < radix
  }

  /** Length of the longest prefix made of digits of the radix. */
  function DigitRun(s: string, radix: nat): (n: nat)
    ensures n <= |s|
    ensures forall k :: 0 <= k < n ==> IsDigit(s[k], radix)
    ensures n < |s| ==> !IsDigit(s[n], radix)
  {
    if s != [] && IsDigit(s[0], radix) then 1 + DigitRun(s[1..], radix) else 0
  }

  /** The number a string of digits denotes, most significant digit first. */
  function DigitsValue(s: string, radix: nat): (v: nat)
    requires forall k :: 0 <= k < |s| ==> IsDigit(s[k], radix)
  {
    if s == [] then 0
    else
      var init := s[..|s| - 1];
      assert forall k :: 0 <= k < |init| ==> init[k] == s[k];
      assert IsDigit(s[|s| - 1], radix);
      AppendDigit(DigitsValue(init, radix), radix, DigitValue(s[|s| - 1]))
  }

  /** The value of the digits `high` followed by one more digit `d`. */
  function AppendDigit(high: nat, radix: nat, d: nat): nat {
    high * radix + d
  }

  /** The digits after the sign: a `0x`/`0X` prefix selects hexadecimal;
      no digit at all is NaN. */
  function ParseUnsigned(u: string): (r: Option<nat>)
  {
    var hex := |u| >= 2 && u[0] == '0' && (u[1] == 'x' || u[1] == 'X');
    var radix := if hex then 16 else 10;
    var body := if hex then u[2..] else u;
    var n := DigitRun(body, radix);
    if n == 0 then None else Some(DigitsValue(body[..n], radix))
  }

  /** `parseInt(x)` for a parameter that is a string or undefined. */
  function ParseInt(x: Option<string>): (r: Option<int>)
    ensures x.None? ==> r.None?
    ensures x == Some("") ==> r.None?
  {
    if x.None? then None
    else
      var s := TrimStart(x.value);
      var negative := s != [] && s[0] == '-';
      var unsigned := if s != [] && (s[0] == '-' || s[0] == '+') then s[1..] else s;
      match ParseUnsigned(unsigned)
      case None => None
      case Some(v) => Some(if negative then -(v as int) else v as int)
  }

  /** The decimal text of a natural number, as `String(n)` writes it. */
  function Decimal(n: nat): (s: string)
    ensures |s| >= 1
    ensures forall k :: 0 <= k < |s| ==> '0' <= s[k] <= '9'
    ensures n > 0 ==> s[0] != '0'
  {
    if n < 10 then [(n + '0' as int) as char]
    else Decimal(n / 10) + [(n % 10 + '0' as int) as char]
  }

  lemma {:induction false} DecimalValue(n: nat)
    ensures forall k :: 0 <= k < |Decimal(n)| ==> IsDigit(Decimal(n)[k], 10)
    ensures DigitsValue(Decimal(n), 10) == n
  {
    var s := Decimal(n);
    if n >= 10 {
      DecimalValue(n / 10);
      assert s[..|s| - 1] == Decimal(n / 10);
    }
  }

  /** The digits of a decimal text followed by a non-digit read back as
      its number. */
  lemma UnsignedDecimal(n: nat, tail: string)
    requires tail == [] || (!IsDigit(tail[0], 10) && tail[0] != 'x' && tail[0] != 'X')
    ensures ParseUnsigned(Decimal(n) + tail) == Some(n)
  {
    var d := Decimal(n);
    var u := d + tail;
    DecimalValue(n);
    DigitRunPrefix(d, tail, 10);
    assert u[..|d|] == d;
    assert !(|u| >= 2 && u[0] == '0' && (u[1] == 'x' || u[1] == 'X')) by {
      if |u| >= 2 && u[0] == '0' {
        assert n == 0 && |d| == 1;
        assert u[1] == tail[0];
      }
    }
  }

  /** `parseInt` reads back the decimal text of any natural number, with or
      without a minus sign, whatever text follows that cannot continue the
      number (after `0`, an `x` would make it a hexadecimal prefix). */
  lemma ParseIntDecimal(n: nat, tail: string)
    requires tail == [] || (!IsDigit(tail[0], 10) && tail[0] != 'x' && tail[0] != 'X')
    ensures ParseInt(Some(Decimal(n) + tail)) == Some(n)
  {
    var u := Decimal(n) + tail;
    UnsignedDecimal(n, tail);
    assert u[0] == Decimal(n)[0];
    UnsignedText(u);
  }

  lemma ParseIntNegativeDecimal(n: nat, tail: string)
    requires tail == [] || (!IsDigit(tail[0], 10) && tail[0] != 'x' && tail[0] != 'X')
    ensures ParseInt(Some("-" + Decimal(n) + tail)) == Some(-(n as int))
  {
    UnsignedDecimal(n, tail);
    SignedReadsBack(Decimal(n), tail, n);
  }

  /** A minus sign before text whose digits read as `n` reads as `-n`. */
  lemma SignedReadsBack(d: string, tail: string, n: nat)
    requires ParseUnsigned(d + tail) == Some(n)
    ensures ParseInt(Some("-" + d + tail)) == Some(-(n as int))
  {
    var u := d + tail;
    var m := "-" + d + tail;
    assert forall k :: 0 <= k < |u| ==> m[k + 1] == u[k];
    assert m[0] == '-' && m[1..] == u;
    NegatedRead(m, n);
  }

  /** Text starting with a minus sign whose rest reads as `n` reads as `-n`. */
  lemma NegatedRead(m: string, n: nat)
    requires m != [] && m[0] == '-' && ParseUnsigned(m[1..]) == Some(n)
    ensures ParseInt(Some(m)) == Some(-(n as int))
  {
    NoLeadingSpace(m);
  }

  /** Text starting with a digit is read without sign handling. */
  lemma UnsignedText(u: string)
    requires u != [] && '0' <= u[0] <= '9'
    ensures ParseInt(Some(u)) == (if ParseUnsigned(u).Some? then Some(ParseUnsigned(u).value as int) else None)
  {
    NoLeadingSpace(u);
  }

  lemma NoLeadingSpace(s: string)
    requires s != [] && !IsJsSpace(s[0])
    ensures TrimStart(s) == s
  {
  }

  lemma {:induction false} DigitRunPrefix(d: string, tail: string, radix: nat)
    requires forall k :: 0 <= k < |d| ==> IsDigit(d[k], radix)
    requires tail == [] || !IsDigit(tail[0], radix)
    ensures DigitRun(d + tail, radix) == |d|
  {
    if d != [] {
      assert (d + tail)[1..] == d[1..] + tail;
      DigitRunPrefix(d[1..], tail, radix);
    }
  }

  /** `parseInt(x) || fallback`: the fallback replaces NaN and 0. */
  function IntOr(x: Option<string>, fallback: int): (r: int)
    ensures ParseInt(x).None? ==> r == fallback
    ensures ParseInt(x).Some? ==> r == (if ParseInt(x).value == 0 then fallback else ParseInt(x).value)
  {
    match ParseInt(x)
    case None => fallback
    case Some(v) => if v == 0 then fallback else v
  }
}

=== FILE: json.dfy ===
/** Parsed JSON values, as `JSON.parse` produces them, with the JavaScript
    operations the code applies to them (truthiness, property reads,
    Array.isArray and length). Parsing itself is a parameter of the
    operations that use it. */
module Json {
  import opened Common

  datatype Value =
    | Null
    | Bool(b: bool)
    | Num(n: real)
    | Str(s: string)
    | Arr(items: seq<Value>)
    | Obj(fields: map<string, Value>)

  /** JavaScript truthiness of a parsed value: `null`, `false`, `0` and `""`
      are falsy; arrays and objects are truthy even when empty. */
  predicate Truthy(v: Value) {
    match v
    case Null => false
    case Bool(b) => b
    case Num(n) => n != 0.0
    case Str(s) => s != ""
    case Arr(_) => true
    case Obj(_) => true
  }

  /** The property read `v.key`: `undefined` (None) unless `v` is an object
      holding that key. */
  function Get(v: Value, key: string): (r: Option<Value>)
    ensures r.Some? <==> v.Obj? && key in v.fields
    ensures r.Some? ==> r.value == v.fields[key]
  {
    if v.Obj? && key in v.fields then Some(v.fields[key]) else None
  }

  /** `Array.isArray(x) && x.length === n` for a property that may be undefined. */
  predicate IsArrayOfLength(x: Option<Value>, n: nat) {
    x.Some? && x.value.Arr? && |x.value.items| == n
  }
}

=== FILE: map_view.dfy ===
/** The map page (pages/MapView.tsx): the client-side issue filter, where a
    marker goes, how the issue lists take in the issue the server returns
    after an upvote or a comment, when a comment is sent, and who sees the
    delete button on a comment. */
module MapView {
  import opened Common
  import opened IssueModel
  import opened Db
  import opened RouteGuard
  import IssuesService
  import Query

  // ---------------------------------------------------------------------------
  // The filter effect

  /** The four filter inputs; the empty string means "any". */
  datatype MapFilters = MapFilters(category: string, status: string, severity: string, search: string)

  const NO_FILTERS: MapFilters := MapFilters("", "", "", "")

  /** The search looks at the title, the description, the address when
      there is one, the district and the state. */
  predicate SearchMatches(i: Issue, search: string) {
    || IncludesIgnoringCase(i.title, search)
    || IncludesIgnoringCase(i.description, search)
    || (Present(i.location.address) && IncludesIgnoringCase(i.location.address.value, search))
    || IncludesIgnoringCase(i.location.district, search)
    || IncludesIgnoringCase(i.location.state, search)
  }

  /** An issue passes when every non-empty filter accepts it. */
  predicate Shown(f: MapFilters, i: Issue) {
    && (f.category == "" || i.category == f.category)
    && (f.status == "" || i.status == f.status)
    && (f.severity == "" || i.severity == f.severity)
    && (f.search == "" || SearchMatches(i, f.search))
  }

  function ShownBy(f: MapFilters): Issue -> bool {
    (i: Issue) => Shown(f, i)
  }

  /** `issues.filter(...)`. */
  function FilterIssues(issues: seq<Issue>, f: MapFilters): (r: seq<Issue>)
  {
    Filter(issues, ShownBy(f))
  }

  /** The filtered list keeps the issues in order and adds none; an issue is
      in it exactly when every non-empty filter accepts it; with every filter
      empty it is the whole list. */
  lemma FilterIssuesCorrect(issues: seq<Issue>, f: MapFilters)
    ensures IsSubsequence(FilterIssues(issues, f), issues)
    ensures forall i :: i in FilterIssues(issues, f) <==> i in issues && Shown(f, i)
    ensures f == NO_FILTERS ==> FilterIssues(issues, f) == issues
  {
    FilterIsSubsequence(issues, ShownBy(f));
    forall i
      ensures i in FilterIssues(issues, f) <==> i in issues && Shown(f, i)
    {
      FilterMembers(issues, ShownBy(f), i);
    }
    if f == NO_FILTERS {
      FilterAll(issues, ShownBy(f));
    }
  }

  /** The filters are a conjunction: applying them one at a time, each with
      the others empty, gives the same list. */
  lemma FiltersCompose(issues: seq<Issue>, f: MapFilters)
    ensures FilterIssues(issues, f) ==
      FilterIssues(FilterIssues(FilterIssues(FilterIssues(issues,
        NO_FILTERS.(category := f.category)),
        NO_FILTERS.(status := f.status)),
        NO_FILTERS.(severity := f.severity)),
        NO_FILTERS.(search := f.search))
  {
    var c := ShownBy(NO_FILTERS.(category := f.category));
    var s := ShownBy(NO_FILTERS.(status := f.status));
    var v := ShownBy(NO_FILTERS.(severity := f.severity));
    var q := ShownBy(NO_FILTERS.(search := f.search));
    var cs := (i: Issue) => c(i) && s(i);
    var csv := (i: Issue) => cs(i) && v(i);
    FilterFilter(issues, c, s, cs);
    FilterFilter(issues, cs, v, csv);
    FilterFilter(issues, csv, q, ShownBy(f));
  }

  // ---------------------------------------------------------------------------
  // Markers

  /** Where a marker goes: an address to geocode, a latitude and
      longitude, or nowhere, when the coordinates have fewer than two
      entries and the latitude read is undefined, which the map refuses; a
      stored location is unplaced exactly when its coordinates are empty. */
  datatype MarkerPlace = Geocode(address: string) | At(lat: real, lng: real) | Unplaced

  /** A location at `[0, 0]` was entered by hand and is geocoded from its
      address, or from district, state and pincode; otherwise the first two
      entries, `[longitude, latitude]`, place it at latitude, longitude. */
  function MarkerPlaceOf(l: Location): (m: MarkerPlace)
    ensures m.Geocode? <==> |l.coordinates| >= 2 && l.coordinates[0] == 0.0 && l.coordinates[1] == 0.0
    ensures m.At? ==> |l.coordinates| >= 2 && [m.lng, m.lat] == l.coordinates[..2]
    ensures m.Unplaced? <==> |l.coordinates| < 2
    ensures ValidLocation(l) ==> (m.Unplaced? <==> l.coordinates == [])
  {
    if |l.coordinates| < 2 then Unplaced
    else if l.coordinates[0] == 0.0 && l.coordinates[1] == 0.0 then
      Geocode(OrElse(l.address, l.district + ", " + l.state + ", " + l.pincode))
    else
      At(l.coordinates[1], l.coordinates[0])
  }

  /** A hand-entered location with no address is looked up by district,
      state and pincode; with one, by that address. */
  lemma GeocodedAddress(l: Location)
    requires l.coordinates == [0.0, 0.0]
    ensures Present(l.address) ==> MarkerPlaceOf(l) == Geocode(l.address.value)
    ensures !Present(l.address) ==> MarkerPlaceOf(l) == Geocode(l.district + ", " + l.state + ", " + l.pincode)
  {
  }

  // ---------------------------------------------------------------------------
  // Replacing an issue in the lists

  /** The page compares ids with `===`, on the text the server sends. */
  function PageId(i: Issue): string { i.id }

  /** The page holds issues as the server sends them, with their ids printed
      in lower-case hexadecimal. */
  predicate PrintedIds(list: seq<Issue>) {
    forall k :: 0 <= k < |list| ==> Query.CastId(list[k].id) == list[k].id
  }

  /** `prev.map(i => i._id === id ? updated : i)`. */
  function ReplaceById(list: seq<Issue>, id: string, updated: Issue): (r: seq<Issue>)
    ensures |r| == |list|
    ensures forall k :: 0 <= k < |list| && list[k].id != id ==> r[k] == list[k]
    ensures forall k :: 0 <= k < |list| && list[k].id == id ==> r[k] == updated
  {
    Map(list, (i: Issue) => if i.id == id then updated else i)
  }

  /** With distinct ids, replacing by id is replacing at the issue's
      position, as the server does; nothing changes for an id not listed. */
  lemma ReplaceByIdIsSlotUpdate(list: seq<Issue>, k: nat, updated: Issue)
    requires UniqueIds(list, IssueId) && k < |list|
    ensures ReplaceById(list, list[k].id, updated) == list[k := updated]
  {
    var r := ReplaceById(list, list[k].id, updated);
    forall j | 0 <= j < |list|
      ensures r[j] == list[k := updated][j]
    {
      if j != k {
        assert IssueId(list[j]) != IssueId(list[k]);
      }
    }
  }

  lemma ReplaceAbsentId(list: seq<Issue>, id: string, updated: Issue)
    requires FreshId(list, PageId, id)
    ensures ReplaceById(list, id, updated) == list
  {
    var r := ReplaceById(list, id, updated);
    forall j | 0 <= j < |list|
      ensures r[j] == list[j]
    {
      assert PageId(list[j]) != id;
    }
  }

  /** The page's state: all issues, the filtered issues, the selected issue
      and the comment being typed. */
  datatype MapState = MapState(issues: seq<Issue>, filtered: seq<Issue>, selected: Option<Issue>, newComment: string)

  /** What a handler did: the new state, where it navigated, if anywhere. */
  datatype Step = Step(state: MapState, navigate: Option<string>)

  /** handleUpvote: signed out goes to the login page; otherwise the issue
      the server returns replaces the one with that id in both lists and in
      the selection. A failed request (None) changes nothing. */
  function UpvoteStep(st: MapState, authenticated: bool, issueId: string, response: Option<Issue>): (r: Step)
    ensures !authenticated ==> r == Step(st, Some("/login"))
    ensures authenticated && response.None? ==> r == Step(st, None)
    ensures authenticated && response.Some? ==>
      (&& r.navigate.None?
       && r.state.issues == ReplaceById(st.issues, issueId, response.value)
       && r.state.filtered == ReplaceById(st.filtered, issueId, response.value)
       && r.state.newComment == st.newComment)
    ensures authenticated && response.Some? && st.selected.Some? && st.selected.value.id == issueId ==>
      r.state.selected == response
    ensures authenticated && response.Some? && !(st.selected.Some? && st.selected.value.id == issueId) ==>
      r.state.selected == st.selected
  {
    if !authenticated then Step(st, Some("/login"))
    else match response
      case None => Step(st, None)
      case Some(u) =>
        Step(MapState(
          ReplaceById(st.issues, issueId, u),
          ReplaceById(st.filtered, issueId, u),
          if st.selected.Some? && st.selected.value.id == issueId then Some(u) else st.selected,
          st.newComment), None)
  }

  /** The comment request handleAddComment sends: none unless signed in, an
      issue is selected and the text is not blank once trimmed; the text is
      sent as typed. */
  function CommentRequest(authenticated: bool, selected: Option<Issue>, newComment: string): (r: Option<(string, string)>)
    ensures r.Some? <==> authenticated && selected.Some? && Trim(newComment) != ""
    ensures r.Some? ==> r.value == (selected.value.id, newComment)
  {
    if !authenticated || selected.None? || Trim(newComment) == "" then None
    else Some((selected.value.id, newComment))
  }

  /** A blank comment is never sent. */
  lemma BlankCommentNotSent(authenticated: bool, selected: Option<Issue>, newComment: string)
    requires AllSpace(newComment)
    ensures CommentRequest(authenticated, selected, newComment).None?
  {
    TrimBlank(newComment);
  }

  /** handleAddComment after the server answers: the issue it returns
      replaces the selected one in both lists and becomes the selection, and
      the comment box is cleared. */
  function AfterComment(st: MapState, updated: Issue): (r: MapState)
    requires st.selected.Some?
    ensures r.selected == Some(updated) && r.newComment == ""
    ensures r.issues == ReplaceById(st.issues, st.selected.value.id, updated)
    ensures r.filtered == ReplaceById(st.filtered, st.selected.value.id, updated)
  {
    MapState(
      ReplaceById(st.issues, st.selected.value.id, updated),
      ReplaceById(st.filtered, st.selected.value.id, updated),
      Some(updated),
      "")
  }

  /** handleDeleteComment: nothing happens unless signed in with an issue
      selected, and a failed request changes nothing; otherwise the issue the
      server returns replaces the selected one in both lists and becomes the
      selection. The comment box keeps what is being typed. */
  function DeleteCommentStep(st: MapState, authenticated: bool, response: Option<Issue>): (r: MapState)
    ensures r.newComment == st.newComment
    ensures !authenticated || st.selected.None? || response.None? ==> r == st
    ensures authenticated && st.selected.Some? && response.Some? ==>
      (&& r.selected == response
       && r.issues == ReplaceById(st.issues, st.selected.value.id, response.value)
       && r.filtered == ReplaceById(st.filtered, st.selected.value.id, response.value))
  {
    if !authenticated || st.selected.None? || response.None? then st
    else MapState(
      ReplaceById(st.issues, st.selected.value.id, response.value),
      ReplaceById(st.filtered, st.selected.value.id, response.value),
      response,
      st.newComment)
  }

  /** Adding and deleting a comment take in the server's issue alike; only
      adding clears the comment box. */
  lemma DeleteKeepsCommentBox(st: MapState, u: Issue)
    requires st.selected.Some?
    ensures DeleteCommentStep(st, true, Some(u)) == AfterComment(st, u).(newComment := st.newComment)
  {
  }

  /** The slot the store finds for a printed id holds exactly that id. */
  lemma PrintedSlot(list: seq<Issue>, issueId: string)
    requires PrintedIds(list) && Query.CastId(issueId) == issueId && IssuesService.Slot(list, issueId).Ok?
    ensures list[IssuesService.Slot(list, issueId).value].id == issueId
  {
  }

  /** When the page holds the server's issue list, taking in the issue an
      upvote returns leaves the page holding what the server now stores. */
  lemma UpvoteMirrorsStore(st: MapState, issueId: string, u: Issue)
    requires UniqueIds(st.issues, IssueId) && PrintedIds(st.issues) && Query.CastId(issueId) == issueId
    requires IssuesService.Slot(st.issues, issueId).Ok?
    ensures UpvoteStep(st, true, issueId, Some(u)).state.issues ==
      st.issues[IssuesService.Slot(st.issues, issueId).value := u]
  {
    PrintedSlot(st.issues, issueId);
    ReplaceByIdIsSlotUpdate(st.issues, IssuesService.Slot(st.issues, issueId).value, u);
  }

  /** The same for the issue a comment request or a comment deletion on the
      selected issue returns. */
  lemma CommentMirrorsStore(st: MapState, u: Issue)
    requires st.selected.Some? && Query.CastId(st.selected.value.id) == st.selected.value.id
    requires UniqueIds(st.issues, IssueId) && PrintedIds(st.issues)
    requires IssuesService.Slot(st.issues, st.selected.value.id).Ok?
    ensures AfterComment(st, u).issues ==
      st.issues[IssuesService.Slot(st.issues, st.selected.value.id).value := u]
    ensures DeleteCommentStep(st, true, Some(u)).issues ==
      st.issues[IssuesService.Slot(st.issues, st.selected.value.id).value := u]
  {
    PrintedSlot(st.issues, st.selected.value.id);
    ReplaceByIdIsSlotUpdate(st.issues, IssuesService.Slot(st.issues, st.selected.value.id).value, u);
  }

  // ---------------------------------------------------------------------------
  // The comment delete button

  /** A comment's author as the client receives it: populated with the
      user's name, or the raw id. */
  datatype Author = Raw(id: string) | Populated(id: string, name: string)

  /** The button shows for a signed-in, loaded user whose id is the
      author's, whichever form the author takes. */
  predicate ShowsDelete(authenticated: bool, user: Option<SessionUser>, author: Author) {
    authenticated && user.Some? &&
    match author
    case Populated(id, _) => id == user.value.id
    case Raw(id) => id == user.value.id
  }

  /** The two forms of the author are treated alike, and only the author
      sees the button. */
  lemma DeleteButtonOwnerOnly(authenticated: bool, user: Option<SessionUser>, id: string, name: string)
    ensures ShowsDelete(authenticated, user, Raw(id)) == ShowsDelete(authenticated, user, Populated(id, name))
    ensures ShowsDelete(authenticated, user, Raw(id)) <==> authenticated && user.Some? && user.value.id == id
  {
  }
}

=== FILE: query.dfy ===
/** The part of MongoDB's query language the services use, written out:
    a filter document is a dictionary from a path (or `$text`, `$or`) to a
    condition; a document is seen through the values found at each path;
    `.sort({f: dir})` is a stable sort on BSON-ordered keys; and
    `.skip(n).limit(m)` is a window over the sorted result. */
module Query {
  import opened Common
  import opened ApiErrors

  // ---------------------------------------------------------------------------
  // Documents and filters

  /** A stored document as a query sees it. `paths` gives, for each dotted
      path, every value found there: one for a scalar field, one per element
      for a path through an array (`comments.userId`, `affectedAreas.state`),
      none when the field is absent. `textFields` are the values covered by
      the collection's text index. `keys` gives the key a sort on a field
      sees: the field's value when it is a scalar field, null otherwise. */
  datatype Doc = Doc(paths: map<string, seq<string>>, textFields: seq<string>, keys: string -> SortValue)

  /** One entry of a filter document. */
  datatype Cond =
    | Equals(value: string)                      // { path: value }
    | Missing                                    // { path: undefined }, sent to the server as null
    | TextSearch(search: string)                 // { $text: { $search: search } }
    | AnyExists(fields: seq<string>)             // { $or: [ { f: { $exists: true } }, ... ] }
    | AnyRegex(fields: seq<string>, pattern: string) // { $or: [ { f: { $regex: pattern, $options: 'i' } }, ... ] }

  /** One key of a filter document and its condition. */
  datatype Term = Term(path: string, cond: Cond)

  /** A filter document: its keys in insertion order, as a JavaScript object
      keeps them (each key is set at most once by the services). */
  type Query = seq<Term>

  /** The entry `{ key: v }` when `v` is truthy, none otherwise. */
  function EqualityTerm(key: string, v: Option<string>): (r: Query)
    ensures |r| <= 1
    ensures Present(v) <==> r != []
  {
    if Present(v) then [Term(key, Equals(v.value))] else []
  }

  /** The server-side matchers the model does not interpret: `$text` over a
      document's indexed values, and a case-insensitive regular expression
      test of one value. */
  datatype Oracles = Oracles(text: (seq<string>, string) -> bool, regex: (string, string) -> bool)

  /** Values at a path; an absent path has none. */
  function Values(d: Doc, path: string): (r: seq<string>)
    ensures path !in d.paths ==> r == []
  {
    if path in d.paths then d.paths[path] else []
  }

  /** One condition against a document. An equality on a path through an
      array holds when SOME element has the value; a null match holds when
      the path has no value. */
  predicate CondHolds(o: Oracles, d: Doc, path: string, c: Cond) {
    match c
    case Equals(v) => v in Values(d, path)
    case Missing => Values(d, path) == []
    case TextSearch(s) => o.text(d.textFields, s)
    case AnyExists(fields) => exists f :: f in fields && Values(d, f) != []
    case AnyRegex(fields, p) => exists f, v :: f in fields && v in Values(d, f) && o.regex(v, p)
  }

  /** A filter document is a conjunction of its entries. */
  predicate Matches(o: Oracles, q: Query, d: Doc) {
    forall k :: 0 <= k < |q| ==> CondHolds(o, d, q[k].path, q[k].cond)
  }

  /** The empty filter matches every document, and a filter built in two
      parts matches exactly the documents both parts match. */
  lemma QueryConjunction(o: Oracles, q1: Query, q2: Query, d: Doc)
    ensures Matches(o, [], d)
    ensures Matches(o, q1 + q2, d) <==> Matches(o, q1, d) && Matches(o, q2, d)
  {
    var q := q1 + q2;
    if Matches(o, q, d) {
      forall k | 0 <= k < |q1|
        ensures CondHolds(o, d, q1[k].path, q1[k].cond)
      {
        assert q[k] == q1[k];
      }
      forall k | 0 <= k < |q2|
        ensures CondHolds(o, d, q2[k].path, q2[k].cond)
      {
        assert q[|q1| + k] == q2[k];
      }
    }
    if Matches(o, q1, d) && Matches(o, q2, d) {
      forall k | 0 <= k < |q|
        ensures CondHolds(o, d, q[k].path, q[k].cond)
      {
        if k < |q1| {
          assert q[k] == q1[k];
        } else {
          assert q[k] == q2[k - |q1|];
        }
      }
    }
  }

  /** A string Mongoose casts to an ObjectId and express-validator's
      `isMongoId` accepts: 24 hexadecimal digits. */
  predicate IsObjectId(s: string) {
    |s| == 24 && forall k :: 0 <= k < |s| ==> s[k] in "0123456789abcdefABCDEF"
  }

  /** The ObjectId a string casts to, written as Mongo prints it: in
      lower-case hexadecimal. Two spellings of one id that differ only in
      letter case cast to the same ObjectId, so Mongo matches ids by this. */
  function CastId(s: string): (r: string)
    ensures |r| == |s|
    ensures IsObjectId(r) <==> IsObjectId(s)
    ensures IsObjectId(s) ==> forall k :: 0 <= k < |r| ==> r[k] in HEX_DIGITS
  {
    LowerHex(s);
    ToLower(s)
  }

  /** Lowering the case keeps a string an ObjectId, and only an ObjectId
      lowers to one; the result is in lower-case hexadecimal. */
  lemma LowerHex(s: string)
    ensures IsObjectId(ToLower(s)) <==> IsObjectId(s)
    ensures IsObjectId(s) ==> forall k :: 0 <= k < |s| ==> ToLower(s)[k] in HEX_DIGITS
  {
    var r := ToLower(s);
    forall k | 0 <= k < |s|
      ensures r[k] in "0123456789abcdefABCDEF" <==> s[k] in "0123456789abcdefABCDEF"
      ensures s[k] in "0123456789abcdefABCDEF" ==> r[k] in HEX_DIGITS
    {
      LowerHexChar(s[k]);
    }
  }

  /** A character is a hexadecimal digit exactly when its lower case is, and
      then its lower case is a lower-case digit. */
  lemma LowerHexChar(c: char)
    ensures LowerChar(c) in "0123456789abcdefABCDEF" <==> c in "0123456789abcdefABCDEF"
    ensures c in "0123456789abcdefABCDEF" ==> LowerChar(c) in HEX_DIGITS
  {
  }

  /** A filter value on an ObjectId path, as Mongoose casts it. */
  function CastOptionalId(o: Option<string>): (r: Option<string>)
    ensures Present(r) <==> Present(o)
    ensures r.Some? <==> o.Some?
    ensures o.Some? ==> r.value == CastId(o.value)
  {
    if o.Some? then Some(CastId(o.value)) else None
  }

  /** Casting is idempotent: the printed form of an id casts to itself. */
  lemma CastIdPrinted(s: string)
    ensures CastId(CastId(s)) == CastId(s)
  {
  }

  // ---------------------------------------------------------------------------
  // Sort values in BSON comparison order

  /** A scalar sort key: BSON orders a missing field (null) before numbers
      (and dates, which are stored here as milliseconds) before strings. */
  datatype SortValue = Absent | Num(n: int) | Text(s: string)

  function Rank(v: SortValue): int {
    match v
    case Absent => 0
    case Num(_) => 1
    case Text(_) => 2
  }

  /** Lexicographic order on strings by code point. */
  predicate StrLessEq(a: string, b: string) {
    if a == [] then true
    else if b == [] then false
    else if a[0] != b[0] then a[0] < b[0]
    else StrLessEq(a[1..], b[1..])
  }

  lemma {:induction false} StrLessEqTotal(a: string, b: string)
    ensures StrLessEq(a, b) || StrLessEq(b, a)
  {
    if a != [] && b != [] && a[0] == b[0] {
      StrLessEqTotal(a[1..], b[1..]);
    }
  }

  lemma {:induction false} StrLessEqTransitive(a: string, b: string, c: string)
    requires StrLessEq(a, b) && StrLessEq(b, c)
    ensures StrLessEq(a, c)
  {
    if a != [] && b != [] && c != [] && a[0] == b[0] && b[0] == c[0] {
      StrLessEqTransitive(a[1..], b[1..], c[1..]);
    }
  }

  predicate LessEq(a: SortValue, b: SortValue) {
    if Rank(a) != Rank(b) then Rank(a) < Rank(b)
    else match a
      case Absent => true
      case Num(x) => x <= b.n
      case Text(s) => StrLessEq(s, b.s)
  }

  /** The key order is a total preorder. */
  lemma LessEqTotalPreorder(a: SortValue, b: SortValue, c: SortValue)
    ensures LessEq(a, a)
    ensures LessEq(a, b) || LessEq(b, a)
    ensures LessEq(a, b) && LessEq(b, c) ==> LessEq(a, c)
  {
    if a.Text? {
      StrLessEqTotal(a.s, a.s);
    }
    if a.Text? && b.Text? {
      StrLessEqTotal(a.s, b.s);
      if c.Text? && LessEq(a, b) && LessEq(b, c) {
        StrLessEqTransitive(a.s, b.s, c.s);
      }
    }
  }

  /** Position of `a` relative to `b` in a sort on one field, ascending or
      descending. */
  predicate Precedes(a: SortValue, b: SortValue, desc: bool) {
    if desc then LessEq(b, a) else LessEq(a, b)
  }

  /** `a` comes strictly before `b`. */
  predicate StrictlyPrecedes(a: SortValue, b: SortValue, desc: bool) {
    Precedes(a, b, desc) && !Precedes(b, a, desc)
  }

  lemma PrecedesTotalPreorder(a: SortValue, b: SortValue, c: SortValue, desc: bool)
    ensures Precedes(a, b, desc) || Precedes(b, a, desc)
    ensures Precedes(a, b, desc) && Precedes(b, c, desc) ==> Precedes(a, c, desc)
  {
    LessEqTotalPreorder(a, b, c);
    LessEqTotalPreorder(c, b, a);
  }

  // ---------------------------------------------------------------------------
  // Sorting

  /** `.sort({ field: desc ? -1 : 1 })`. */
  datatype SortSpec = SortSpec(field: string, desc: bool)

  /** The sort key of a document for a field. */
  function KeyOf(d: Doc, field: string): SortValue {
    d.keys(field)
  }

  /** The key of an optional string field: null when it is absent. */
  function OptionKey(o: Option<string>): SortValue {
    if o.Some? then Text(o.value) else Absent
  }

  const HEX_DIGITS: string := "0123456789abcdef"

  /** The hexadecimal digits in order of value are in code-point order, so
      the lower-case text of ObjectIds orders them as their bytes do. */
  lemma HexDigitsAscending()
    ensures forall a, b :: 0 <= a < b < |HEX_DIGITS| ==> HEX_DIGITS[a] < HEX_DIGITS[b]
  {
  }

  /** The key of an ObjectId: BSON orders ObjectIds by their twelve bytes,
      which is the order of their lower-case hexadecimal text. */
  function ObjectIdKey(id: string): SortValue {
    Text(CastId(id))
  }

  /** Sorted by the key, in the spec's direction. */
  predicate SortedBy<T>(s: seq<T>, key: T -> SortValue, desc: bool) {
    forall i, j :: 0 <= i < j < |s| ==> Precedes(key(s[i]), key(s[j]), desc)
  }

  /** Inserts `x` after every element that does not come strictly after it,
      so equal keys keep their arrival order. */
  function Insert<T>(x: T, s: seq<T>, key: T -> SortValue, desc: bool): (r: seq<T>)
    ensures |r| == |s| + 1
  {
    if s == [] then [x]
    else if StrictlyPrecedes(key(x), key(s[0]), desc) then [x] + s
    else [s[0]] + Insert(x, s[1..], key, desc)
  }

  /** The server's sort. Ties keep the stored order, which is what a
      collection scan yields; the server does not promise it. */
  function SortDocs<T>(s: seq<T>, key: T -> SortValue, desc: bool): (r: seq<T>)
    ensures |r| == |s|
  {
    if s == [] then [] else Insert(s[|s| - 1], SortDocs(s[..|s| - 1], key, desc), key, desc)
  }

  lemma {:induction false} InsertMultiset<T>(x: T, s: seq<T>, key: T -> SortValue, desc: bool)
    ensures multiset(Insert(x, s, key, desc)) == multiset(s) + multiset{x}
  {
    if s == [] {
    } else if StrictlyPrecedes(key(x), key(s[0]), desc) {
      MultisetCons(x, s);
    } else {
      var t := Insert(x, s[1..], key, desc);
      InsertMultiset(x, s[1..], key, desc);
      MultisetCons(s[0], t);
      MultisetCons(s[0], s[1..]);
      assert s == [s[0]] + s[1..];
    }
  }

  lemma MultisetCons<T>(a: T, t: seq<T>)
    ensures multiset([a] + t) == multiset{a} + multiset(t)
  {
  }

  lemma {:induction false} InsertSorted<T>(x: T, s: seq<T>, key: T -> SortValue, desc: bool)
    requires SortedBy(s, key, desc)
    ensures SortedBy(Insert(x, s, key, desc), key, desc)
    ensures forall k :: 0 <= k < |Insert(x, s, key, desc)| ==>
      Insert(x, s, key, desc)[k] == x || exists m :: 0 <= m < |s| && Insert(x, s, key, desc)[k] == s[m]
  {
    var r := Insert(x, s, key, desc);
    if s == [] {
    } else if StrictlyPrecedes(key(x), key(s[0]), desc) {
      forall i, j | 0 <= i < j < |r|
        ensures Precedes(key(r[i]), key(r[j]), desc)
      {
        if i == 0 {
          PrecedesTotalPreorder(key(x), key(s[0]), key(s[j - 1]), desc);
        }
      }
      forall k | 0 <= k < |r|
        ensures r[k] == x || exists m :: 0 <= m < |s| && r[k] == s[m]
      {
        if k > 0 {
          assert r[k] == s[k - 1];
        }
      }
    } else {
      var t := s[1..];
      InsertSorted(x, t, key, desc);
      var rt := Insert(x, t, key, desc);
      assert r == [s[0]] + rt;
      PrecedesTotalPreorder(key(x), key(s[0]), key(x), desc);
      forall k | 0 <= k < |r|
        ensures r[k] == x || exists m :: 0 <= m < |s| && r[k] == s[m]
      {
        if k == 0 {
          assert r[k] == s[0];
        } else {
          assert r[k] == rt[k - 1];
          if r[k] != x {
            var m :| 0 <= m < |t| && rt[k - 1] == t[m];
            assert r[k] == s[m + 1];
          }
        }
      }
      forall j | 0 < j < |r|
        ensures Precedes(key(s[0]), key(r[j]), desc)
      {
        if r[j] == x {
        } else {
          var m :| 0 <= m < |s| && r[j] == s[m];
          if m > 0 {
            assert Precedes(key(s[0]), key(s[m]), desc);
          } else {
            PrecedesTotalPreorder(key(s[0]), key(s[0]), key(s[0]), desc);
          }
        }
      }
    }
  }

  /** The sort returns a permutation of its input, ordered by the key. */
  lemma {:induction false} SortDocsCorrect<T>(s: seq<T>, key: T -> SortValue, desc: bool)
    ensures SortedBy(SortDocs(s, key, desc), key, desc)
    ensures multiset(SortDocs(s, key, desc)) == multiset(s)
  {
    if s != [] {
      var init := s[..|s| - 1];
      SortDocsCorrect(init, key, desc);
      InsertSorted(s[|s| - 1], SortDocs(init, key, desc), key, desc);
      InsertMultiset(s[|s| - 1], SortDocs(init, key, desc), key, desc);
      assert s == init + [s[|s| - 1]];
    }
  }

  /** When every document has the same key (for instance, the field exists in
      none of them), the sort leaves the stored order unchanged. */
  lemma {:induction false} SortConstantKey<T>(s: seq<T>, key: T -> SortValue, desc: bool, v: SortValue)
    requires forall k :: 0 <= k < |s| ==> key(s[k]) == v
    ensures SortDocs(s, key, desc) == s
  {
    if s != [] {
      var init := s[..|s| - 1];
      SortConstantKey(init, key, desc, v);
      InsertAtEnd(s[|s| - 1], init, key, desc, v);
      assert s == init + [s[|s| - 1]];
    }
  }

  lemma {:induction false} InsertAtEnd<T>(x: T, s: seq<T>, key: T -> SortValue, desc: bool, v: SortValue)
    requires key(x) == v
    requires forall k :: 0 <= k < |s| ==> key(s[k]) == v
    ensures Insert(x, s, key, desc) == s + [x]
  {
    if s != [] {
      assert !StrictlyPrecedes(key(x), key(s[0]), desc);
      InsertAtEnd(x, s[1..], key, desc, v);
      assert s == [s[0]] + s[1..];
    }
  }

  // ---------------------------------------------------------------------------
  // Sort specification parsing

  /** `sortBy ? { [parts[0]]: parts[1] === 'desc' ? -1 : 1 } : default`
      with `parts = sortBy.split(':')`. */
  function ParseSortBy(sortBy: Option<string>, default: SortSpec): (r: SortSpec)
    ensures !Present(sortBy) ==> r == default
  {
    if Present(sortBy) then
      var parts := Split(sortBy.value, ':');
      SortSpec(parts[0], |parts| > 1 && parts[1] == "desc")
    else default
  }

  /** `"f:desc"` sorts `f` descending; `"f:x"` with any other `x` sorts `f`
      ascending; a value with no colon is taken whole as an ascending field
      name. */
  lemma ParseSortByForms(f: string, x: string, default: SortSpec)
    requires ':' !in f && f != []
    ensures ParseSortBy(Some(f + ":desc"), default) == SortSpec(f, true)
    ensures ':' !in x && x != "desc" ==> ParseSortBy(Some(f + ":" + x), default) == SortSpec(f, false)
    ensures ParseSortBy(Some(f), default) == SortSpec(f, false)
  {
    SortedOnSuffix(f, "desc", default);
    assert f + ":desc" == f + ":" + "desc";
    if ':' !in x {
      SortedOnSuffix(f, x, default);
    }
    SplitNoSeparator(f, ':');
  }

  /** `"f:x"` with no colon in `x` sorts `f`, descending exactly when `x` is
      "desc". */
  lemma SortedOnSuffix(f: string, x: string, default: SortSpec)
    requires ':' !in f && ':' !in x
    ensures ParseSortBy(Some(f + ":" + x), default) == SortSpec(f, x == "desc")
  {
    SplitAtFirst(f, ':', x);
    assert f + ":" + x == f + [':'] + x;
    SplitNoSeparator(x, ':');
  }

  // ---------------------------------------------------------------------------
  // Paging

  /** `n || fallback` for a number that may be undefined (None), NaN (None)
      or zero. */
  function NumberOr(n: Option<int>, fallback: int): (r: int)
    ensures n.Some? && n.value != 0 ==> r == n.value
    ensures n.None? || n.value == 0 ==> r == fallback
  {
    if n.Some? && n.value != 0 then n.value else fallback
  }

  /** `.skip(skip).limit(limit)`: the server rejects a negative skip, and
      takes a negative limit by its absolute value. */
  function Paginate<T>(s: seq<T>, skip: int, limit: int): (r: Result<seq<T>>)
    ensures r.Err? <==> skip < 0
    ensures r.Ok? ==> |r.value| <= (if limit < 0 then -limit else limit) && |r.value| <= |s|
    ensures r.Ok? ==> forall k :: 0 <= k < |r.value| ==> skip + k < |s| && r.value[k] == s[skip + k]
  {
    if skip < 0 then Err(Crash("skip value must be non-negative"))
    else Ok(Window(s, skip, if limit < 0 then -limit else limit))
  }

  /** The `limit || 10`, `page || 1`, `skip = (page - 1) * limit` block the
      three list services share. */
  datatype Paging = Paging(limit: int, page: int, skip: int)

  function PagingOf(limit: Option<int>, page: Option<int>): (p: Paging)
    ensures p.limit != 0 && p.page != 0
    ensures p.skip == (p.page - 1) * p.limit
    ensures limit.None? ==> p.limit == 10
    ensures page.None? ==> p.page == 1
  {
    var l := NumberOr(limit, 10);
    var pg := NumberOr(page, 1);
    Paging(l, pg, (pg - 1) * l)
  }

  /** One page of a listing and the number of matches overall. */
  datatype Page<T> = Page(items: seq<T>, count: nat)

  /** `find(query).sort(sort).skip(skip).limit(limit)` together with
      `countDocuments(query)` over one collection. */
  function FindPage<T>(all: seq<T>, selected: T -> bool, key: T -> SortValue, desc: bool, paging: Paging): (r: Result<Page<T>>)
    ensures r.Err? <==> paging.skip < 0
    ensures r.Ok? ==> r.value.count == Count(all, selected)
    ensures r.Ok? ==> |r.value.items| <= r.value.count
  {
    var sorted := SortDocs(Filter(all, selected), key, desc);
    match Paginate(sorted, paging.skip, paging.limit)
    case Ok(items) => Ok(Page(items, Count(all, selected)))
    case Err(e) => Err(e)
  }

  /** A sort key the server accepts: `$natural`, or a field path whose
      dot-separated names are all non-empty and none starts with `$`: the
      key is not empty, neither starts nor ends with a dot, and no dot is
      followed by another dot or by `$`. */
  predicate SortableField(field: string) {
    field == "$natural" || FieldPath(field)
  }

  /** A dotted path whose names are all non-empty and none starts with `$`,
      read character by character. */
  predicate FieldPath(field: string) {
    && field != "" && field[0] != '.' && field[0] != '$' && field[|field| - 1] != '.'
    && forall k :: 0 <= k < |field| - 1 && field[k] == '.' ==> field[k + 1] != '.' && field[k + 1] != '$'
  }

  /** Every name is non-empty and none starts with `$`. */
  predicate NamesValid(names: seq<string>) {
    forall k :: 0 <= k < |names| ==> names[k] != "" && names[k][0] != '$'
  }

  /** The character rule is the rule on names: a key is a field path
      exactly when every name `split('.')` gives is non-empty and none
      starts with `$`. */
  lemma {:induction false} FieldPathNames(field: string)
    ensures FieldPath(field) <==> NamesValid(Split(field, '.'))
    decreases |field|
  {
    if '.' !in field {
      SplitNoSeparator(field, '.');
      FieldPathNoDot(field);
      var names := [field];
      assert names[0] == field;
      assert NamesValid(names) <==> field != "" && field[0] != '$';
    } else {
      var a := BeforeFirst(field, '.');
      assert a != field;
      assert |a| < |field|;
      var b := field[|a| + 1..];
      assert field == a + ['.'] + b;
      SplitAtFirst(a, '.', b);
      FieldPathNames(b);
      FieldPathAfterName(a, b);
      NamesValidCons(a, Split(b, '.'));
    }
  }

  /** A list of names is valid exactly when its head and its tail are. */
  lemma NamesValidCons(a: string, rest: seq<string>)
    ensures NamesValid([a] + rest) <==> a != "" && a[0] != '$' && NamesValid(rest)
  {
    var names := [a] + rest;
    if NamesValid(names) {
      forall k | 0 <= k < |rest|
        ensures rest[k] != "" && rest[k][0] != '$'
      {
        assert names[k + 1] == rest[k];
      }
      assert names[0] == a;
    }
  }

  /** A path split at its first dot: it is a field path exactly when the
      first name is non-empty and does not start with `$`, and the rest is
      a field path. */
  lemma FieldPathAfterName(a: string, b: string)
    requires '.' !in a
    ensures FieldPath(a + ['.'] + b) <==> a != "" && a[0] != '$' && FieldPath(b)
  {
    if FieldPath(a + ['.'] + b) {
      FieldPathSplitLeft(a, b);
    }
    if a != "" && a[0] != '$' && FieldPath(b) {
      FieldPathSplitRight(a, b);
    }
  }

  /** A single name is a field path exactly when it is non-empty and does
      not start with `$`. */
  lemma FieldPathNoDot(name: string)
    requires '.' !in name
    ensures FieldPath(name) <==> name != "" && name[0] != '$'
  {
    if name != "" {
      assert name[0] != '.' && name[|name| - 1] != '.';
    }
  }

  lemma FieldPathSplitLeft(a: string, b: string)
    requires '.' !in a && FieldPath(a + ['.'] + b)
    ensures a != "" && a[0] != '$' && FieldPath(b)
  {
    var f := a + ['.'] + b;
    var n := |a|;
    assert a != "";
    assert a[0] == f[0];
    assert b != [];
    assert f[n] == '.' && b[0] == f[n + 1];
    assert b[|b| - 1] == f[|f| - 1];
    forall j | 0 <= j < |b| - 1 && b[j] == '.'
      ensures b[j + 1] != '.' && b[j + 1] != '$'
    {
      assert f[n + 1 + j] == b[j] && f[n + 2 + j] == b[j + 1];
    }
  }

  lemma FieldPathSplitRight(a: string, b: string)
    requires '.' !in a && a != "" && a[0] != '$' && FieldPath(b)
    ensures FieldPath(a + ['.'] + b)
  {
    var f := a + ['.'] + b;
    var n := |a|;
    assert f[0] == a[0];
    assert f[|f| - 1] == b[|b| - 1];
    forall k | 0 <= k < |f| - 1 && f[k] == '.'
      ensures f[k + 1] != '.' && f[k + 1] != '$'
    {
      if k == n {
        assert f[k + 1] == b[0];
      } else if k > n {
        assert f[k] == b[k - n - 1] && f[k + 1] == b[k - n];
      }
    }
  }

  /** The sort keys a `sortBy` can produce that the server refuses: the
      empty key (`":desc"`), a `$`-prefixed one, and paths with an empty
      name. */
  lemma RefusedSortKeys()
    ensures !SortableField("") && !SortableField("$x")
    ensures !SortableField("a.") && !SortableField("a..b")
  {
    assert "a..b"[1] == '.' && "a..b"[2] == '.';
  }

  /** Plain and dotted field names, `-createdAt` among them, are accepted. */
  lemma AcceptedSortKeys()
    ensures SortableField("createdAt") && SortableField("-createdAt") && SortableField("location.state")
  {
  }

  /** `find(query).sort(sort).skip(skip).limit(limit)` as the server runs
      it: a negative skip is refused, and so is a sort key that is no field
      path; otherwise the page FindPage describes. */
  function SortedFind<T>(all: seq<T>, selected: T -> bool, sort: SortSpec, key: T -> SortValue, paging: Paging): (r: Result<Page<T>>)
    ensures r.Err? <==> paging.skip < 0 || !SortableField(sort.field)
    ensures r.Err? ==> r.failure.Crash?
    ensures r.Ok? ==> r == FindPage(all, selected, key, sort.desc, paging)
  {
    if paging.skip >= 0 && !SortableField(sort.field) then Err(Crash("Invalid sort key: \"" + sort.field + "\""))
    else FindPage(all, selected, key, sort.desc, paging)
  }

  /** Every item on a page matches the query and is stored, the page is
      ordered by the sort key, holds at most `|limit|` items, and the count
      is the number of matches regardless of paging. */
  lemma FindPageCorrect<T>(all: seq<T>, selected: T -> bool, key: T -> SortValue, desc: bool, paging: Paging)
    requires FindPage(all, selected, key, desc, paging).Ok?
    ensures var items := FindPage(all, selected, key, desc, paging).value.items;
      && (forall x :: x in items ==> x in all && selected(x))
      && SortedBy(items, key, desc)
      && |items| <= (if paging.limit < 0 then -paging.limit else paging.limit)
      && |items| <= Count(all, selected)
  {
    var matched := Filter(all, selected);
    var sorted := SortDocs(matched, key, desc);
    SortDocsCorrect(matched, key, desc);
    var items := FindPage(all, selected, key, desc, paging).value.items;
    assert items == Window(sorted, paging.skip, if paging.limit < 0 then -paging.limit else paging.limit);
    forall x | x in items
      ensures x in all && selected(x)
    {
      var k :| 0 <= k < |items| && items[k] == x;
      assert x == sorted[paging.skip + k];
      assert x in multiset(sorted);
      FilterMembers(all, selected, x);
    }
  }

  /** Two selections that agree on every stored document give the same page. */
  lemma FindPageCongruent<T>(all: seq<T>, p: T -> bool, q: T -> bool, key: T -> SortValue, desc: bool, paging: Paging)
    requires forall k :: 0 <= k < |all| ==> p(all[k]) == q(all[k])
    ensures FindPage(all, p, key, desc, paging) == FindPage(all, q, key, desc, paging)
  {
    FilterCongruent(all, p, q);
  }

  /** A page found without error, whose sort leaves the matches in place,
      is a window of the matches. */
  lemma FindPageKeptOrder<T>(all: seq<T>, selected: T -> bool, key: T -> SortValue, paging: Paging)
    requires FindPage(all, selected, key, false, paging).Ok?
    requires SortDocs(Filter(all, selected), key, false) == Filter(all, selected)
    ensures FindPage(all, selected, key, false, paging) ==
      Ok(Page(Window(Filter(all, selected), paging.skip, if paging.limit < 0 then -paging.limit else paging.limit), Count(all, selected)))
  {
    FindPageStoredOrder(all, selected, key, false, paging);
  }

  lemma FindPageStoredOrder<T>(all: seq<T>, selected: T -> bool, key: T -> SortValue, desc: bool, paging: Paging)
    requires SortDocs(Filter(all, selected), key, desc) == Filter(all, selected)
    requires paging.skip >= 0
    ensures FindPage(all, selected, key, desc, paging)
      == Ok(Page(Window(Filter(all, selected), paging.skip, if paging.limit < 0 then -paging.limit else paging.limit), Count(all, selected)))
  {
  }
}

=== FILE: report_issue.dfy ===
/** The issue report page (pages/ReportIssue.tsx): the location it sets, by
    hand or from the device's position and a reverse-geocoding answer, the
    image list, and the request handleSubmit sends (through
    services/issues.ts, which sends the location object as JSON). The device
    position, the geocoding service and number formatting are parameters. */
module ReportIssue {
  import opened Common
  import Json
  import IssueModel
  import MapView

  /** The location the page holds; coordinates are `[longitude, latitude]`. */
  datatype ClientLocation = ClientLocation(lng: real, lat: real, state: string, district: string, pincode: string, address: string)

  /** The manual location fields; blank ones are empty strings. */
  datatype ManualInput = ManualInput(state: string, district: string, pincode: string, address: string)

  datatype Saved = SavedLocation(location: ClientLocation) | Rejected(message: string)

  const MISSING_FIELDS: string := "Please fill in all required location fields"

  /** saveManualLocation: state, district and pincode are required; the
      location is placed at `[0, 0]` and its address defaults to
      "district, state". */
  function SaveManualLocation(m: ManualInput): (r: Saved)
    ensures r.Rejected? <==> m.state == "" || m.district == "" || m.pincode == ""
    ensures r.Rejected? ==> r.message == MISSING_FIELDS
    ensures r.SavedLocation? ==> (&& r.location.lng == 0.0 && r.location.lat == 0.0
      && r.location.state == m.state && r.location.district == m.district && r.location.pincode == m.pincode
      && r.location.address == (if m.address != "" then m.address else m.district + ", " + m.state))
  {
    if m.state == "" || m.district == "" || m.pincode == "" then Rejected(MISSING_FIELDS)
    else SavedLocation(ClientLocation(0.0, 0.0, m.state, m.district, m.pincode,
      if m.address != "" then m.address else m.district + ", " + m.state))
  }

  /** The `address` part of a reverse-geocoding answer. */
  datatype GeoAddress = GeoAddress(state: Option<string>, county: Option<string>, city: Option<string>, postcode: Option<string>)

  /** The location from a precise position and its reverse-geocoding
      answer; None when the answer has no address, which sends the page to
      its approximate fallback. Missing names become "Unknown" and a missing
      postcode "000000". */
  function GpsLocation(lat: real, lng: real, address: Option<GeoAddress>, displayName: string): (r: Option<ClientLocation>)
    ensures r.Some? <==> address.Some?
    ensures r.Some? ==> (&& r.value.lng == lng && r.value.lat == lat
      && r.value.state == OrElse(address.value.state, "Unknown")
      && r.value.district == OrElse(address.value.county, OrElse(address.value.city, "Unknown"))
      && r.value.pincode == OrElse(address.value.postcode, "000000")
      && r.value.address == displayName)
  {
    match address
    case None => None
    case Some(a) =>
      Some(ClientLocation(lng, lat,
        OrElse(a.state, "Unknown"),
        OrElse(a.county, OrElse(a.city, "Unknown")),
        OrElse(a.postcode, "000000"),
        displayName))
  }

  /** The approximate fallback: no names, the coordinates written out with
      four decimals (`fixed` is `toFixed(4)`). */
  function ApproximateLocation(lat: real, lng: real, fixed: real -> string): (r: ClientLocation)
    ensures r.lng == lng && r.lat == lat && r.state == "Unknown" && r.district == "Unknown" && r.pincode == "000000"
    ensures r.address == "Coordinates: " + fixed(lat) + ", " + fixed(lng)
  {
    ClientLocation(lng, lat, "Unknown", "Unknown", "000000", "Coordinates: " + fixed(lat) + ", " + fixed(lng))
  }

  /** Every way of setting a location leaves state, district and pincode
      non-empty. */
  predicate Complete(l: ClientLocation) {
    l.state != "" && l.district != "" && l.pincode != ""
  }

  lemma OrElseNonEmpty(o: Option<string>, fallback: string)
    requires fallback != ""
    ensures OrElse(o, fallback) != ""
  {
  }

  lemma LocationsComplete(m: ManualInput, lat: real, lng: real, address: Option<GeoAddress>, displayName: string, fixed: real -> string)
    ensures SaveManualLocation(m).SavedLocation? ==> Complete(SaveManualLocation(m).location)
    ensures GpsLocation(lat, lng, address, displayName).Some? ==> Complete(GpsLocation(lat, lng, address, displayName).value)
    ensures Complete(ApproximateLocation(lat, lng, fixed))
  {
    if address.Some? {
      OrElseNonEmpty(address.value.state, "Unknown");
      OrElseNonEmpty(address.value.county, OrElse(address.value.city, "Unknown"));
      OrElseNonEmpty(address.value.postcode, "000000");
    }
  }

  // ---------------------------------------------------------------------------
  // Images

  /** handleImageUpload: the chosen files are appended. */
  function AddImages<T>(images: seq<T>, chosen: seq<T>): (r: seq<T>)
    ensures |r| == |images| + |chosen| && r[..|images|] == images && r[|images|..] == chosen
  {
    images + chosen
  }

  /** removeImage: `images.filter((_, i) => i !== index)`. */
  function RemoveImage<T>(images: seq<T>, index: nat): (r: seq<T>)
    ensures |r| <= |images|
  {
    if images == [] then []
    else RemoveImage(images[..|images| - 1], index) + (if |images| - 1 != index then [images[|images| - 1]] else [])
  }

  /** Filtering out one position is removing that position, as `splice`
      would; an index past the end removes nothing. */
  lemma {:induction false} RemoveImageIsRemoveAt<T>(images: seq<T>, index: nat)
    ensures RemoveImage(images, index) == RemoveAt(images, index)
  {
    if images != [] {
      var init := images[..|images| - 1];
      RemoveImageIsRemoveAt(init, index);
      if |images| - 1 == index {
        assert RemoveAt(images, index) == init;
      } else if index < |images| - 1 {
        assert RemoveAt(images, index) == RemoveAt(init, index) + [images[|images| - 1]];
      } else {
        assert RemoveAt(init, index) == init;
      }
    }
  }

  // ---------------------------------------------------------------------------
  // Submitting

  /** The location object of the request, before services/issues.ts turns
      it into JSON. */
  datatype LocationBody = LocationBody(coordinates: seq<real>, state: string, district: string, pincode: string, address: string)

  datatype IssueRequest = IssueRequest(title: string, description: string, category: string, severity: string, location: LocationBody)

  datatype Submitted = ToLogin | NeedLocation(message: string) | Send(request: IssueRequest)

  const NO_LOCATION: string := "Please set the location first"

  /** handleSubmit: signed-out users go to the login page, a missing
      location is refused, and otherwise the form and the location are sent;
      an empty address is replaced by "district, state". */
  function Submit(authenticated: bool, location: Option<ClientLocation>, title: string, description: string, category: string, severity: string): (r: Submitted)
    ensures !authenticated <==> r == ToLogin
    ensures authenticated && location.None? <==> r == NeedLocation(NO_LOCATION)
    ensures r.Send? ==> (&& location.Some?
      && r.request.title == title && r.request.description == description
      && r.request.category == category && r.request.severity == severity
      && r.request.location.coordinates == [location.value.lng, location.value.lat]
      && r.request.location.state == location.value.state
      && r.request.location.district == location.value.district
      && r.request.location.pincode == location.value.pincode
      && r.request.location.address ==
           (if location.value.address != "" then location.value.address
            else location.value.district + ", " + location.value.state))
  {
    if !authenticated then ToLogin
    else match location
      case None => NeedLocation(NO_LOCATION)
      case Some(l) =>
        Send(IssueRequest(title, description, category, severity,
          LocationBody([l.lng, l.lat], l.state, l.district, l.pincode,
            if l.address != "" then l.address else l.district + ", " + l.state)))
  }

  /** The location as the server parses it from the request's JSON. */
  function LocationJson(b: LocationBody): (v: Json.Value)
    ensures v.Obj?
  {
    Json.Obj(map[
      "coordinates" := Json.Arr(Map(b.coordinates, (c: real) => Json.Num(c))),
      "state" := Json.Str(b.state),
      "district" := Json.Str(b.district),
      "pincode" := Json.Str(b.pincode),
      "address" := Json.Str(b.address)])
  }

  /** The server's cast of a sent location succeeds exactly when state,
      district and pincode are non-empty and the coordinates are ones the
      geospatial index lets an insert store, and then keeps every field. */
  lemma SentLocationCast(b: LocationBody, conv: IssueModel.Conversions)
    ensures IssueModel.LocationOf(LocationJson(b), conv).Ok? <==>
      b.state != "" && b.district != "" && b.pincode != "" && IssueModel.StorableCoordinates(b.coordinates)
    ensures IssueModel.LocationOf(LocationJson(b), conv).Ok? ==>
      IssueModel.LocationOf(LocationJson(b), conv).value == IssueModel.Location(b.coordinates, b.state, b.district, b.pincode, Some(b.address))
  {
    var v := LocationJson(b);
    var items := Map(b.coordinates, (c: real) => Json.Num(c));
    assert Json.Get(v, "coordinates") == Some(Json.Arr(items));
    var ns := IssueModel.Numbers(items, conv);
    assert ns.Some?;
    assert ns.value == b.coordinates;
    assert Json.Get(v, "state") == Some(Json.Str(b.state));
    assert Json.Get(v, "district") == Some(Json.Str(b.district));
    assert Json.Get(v, "pincode") == Some(Json.Str(b.pincode));
    assert Json.Get(v, "address") == Some(Json.Str(b.address));
  }

  /** A position on the globe: longitude in [-180, 180], latitude in
      [-90, 90], as a device reports it. */
  predicate OnGlobe(l: ClientLocation) {
    -180.0 <= l.lng <= 180.0 && -90.0 <= l.lat <= 90.0
  }

  /** Whatever location the page holds, the request it sends passes the
      server's location cast, and the stored location then shows on the map
      page: a hand-entered one by geocoding its address, a located one at its
      latitude and longitude unless it lies at `[0, 0]`. */
  lemma SentLocationShown(l: ClientLocation, conv: IssueModel.Conversions, title: string, description: string, category: string, severity: string)
    requires Complete(l) && OnGlobe(l)
    ensures var r := Submit(true, Some(l), title, description, category, severity);
      && r.Send?
      && IssueModel.LocationOf(LocationJson(r.request.location), conv).Ok?
      && var stored := IssueModel.LocationOf(LocationJson(r.request.location), conv).value;
      && IssueModel.ValidLocation(stored)
      && (l.lng == 0.0 && l.lat == 0.0 ==> MapView.MarkerPlaceOf(stored) == MapView.Geocode(r.request.location.address))
      && (!(l.lng == 0.0 && l.lat == 0.0) ==> MapView.MarkerPlaceOf(stored) == MapView.At(l.lat, l.lng))
  {
    var r := Submit(true, Some(l), title, description, category, severity);
    var sent := r.request.location;
    assert sent.coordinates == [l.lng, l.lat];
    SentLocationCast(sent, conv);
    var stored := IssueModel.LocationOf(LocationJson(sent), conv).value;
    assert stored.coordinates == [l.lng, l.lat];
    assert sent.address != "";
  }
}

=== FILE: route_guard.dfy ===
/** The client's signed-in user as the pages read it, and the route guard
    in front of the authority pages (components/AuthorizedRoute.tsx). */
module RouteGuard {
  import opened Common

  /** The part of the signed-in user the pages look at. */
  datatype SessionUser = SessionUser(id: string, name: string, role: string)

  /** What the guard renders. */
  datatype View = Placeholder | Redirect(path: string) | Outlet

  /** AuthorizedRoute: a placeholder while the session loads, the login page
      when signed out, the home page for a loaded user whose role is not
      allowed, and the guarded page otherwise, a user not yet loaded
      included. */
  function Guard(loading: bool, authenticated: bool, user: Option<SessionUser>, allowedRoles: seq<string>): (v: View)
    ensures loading ==> v == Placeholder
    ensures !loading && !authenticated ==> v == Redirect("/login")
    ensures !loading && authenticated && user.Some? && user.value.role !in allowedRoles ==> v == Redirect("/")
    ensures v == Outlet <==> !loading && authenticated && (user.None? || user.value.role in allowedRoles)
  {
    if loading then Placeholder
    else if !authenticated then Redirect("/login")
    else if user.Some? && user.value.role !in allowedRoles then Redirect("/")
    else Outlet
  }

  /** The roles the application allows on the authority route. */
  const AUTHORITY_ROUTE_ROLES: seq<string> := ["authority", "admin"]

  /** On the authority route, an administrator gets through the guard; a
      citizen account is sent home. */
  lemma AuthorityRouteAdmits(u: SessionUser)
    ensures u.role == "admin" ==> Guard(false, true, Some(u), AUTHORITY_ROUTE_ROLES) == Outlet
    ensures u.role == "user" ==> Guard(false, true, Some(u), AUTHORITY_ROUTE_ROLES) == Redirect("/")
  {
  }
}

=== FILE: routing.dfy ===
/** The issue and civic-update routers (routes/issues.routes.ts,
    routes/civicUpdates.routes.ts): which handler a request reaches, the
    authentication and role gates in front of it, and the express-validator
    chains with the `validate` middleware (middlewares/validate.middleware.ts)
    that turns their messages into one 400. Request paths are given as their
    segments after the router's mount point. */
module Routing {
  import opened Common
  import opened ApiErrors
  import opened Users
  import opened Auth
  import Query
  import IssueModel
  import IssuesService
  import CivicUpdateModel

  datatype Verb = GET | POST | PATCH | DELETE

  /** A path segment of a route: literal text, or a `:name` parameter that
      matches any non-empty segment. */
  datatype Segment = Lit(text: string) | Param(name: string)

  /** What stands before a handler: nothing, `auth`, or `auth` followed by
      `authorize(...roles)`. */
  datatype Guard = Open | Authenticated | Roles(roles: seq<string>)

  datatype Handler =
    | IssueCreate | IssueList | IssueGet | IssuePatch | IssueDelete
    | IssueUpvote | IssueComment | IssueCommentDelete
    | UpdateCreate | UpdateList | UpdateSearch | UpdateGet | UpdatePatch | UpdateDelete

  datatype Route = Route(verb: Verb, pattern: seq<Segment>, guard: Guard, handler: Handler)

  predicate SegmentMatches(s: Segment, part: string) {
    part != "" && (s.Lit? ==> part == s.text)
  }

  predicate RouteMatches(r: Route, verb: Verb, parts: seq<string>) {
    r.verb == verb && |r.pattern| == |parts| &&
    forall k :: 0 <= k < |parts| ==> SegmentMatches(r.pattern[k], parts[k])
  }

  /** Express tries the routes in registration order; the first match handles
      the request. */
  function Dispatch(routes: seq<Route>, verb: Verb, parts: seq<string>): (r: Option<Route>)
    ensures r.Some? ==> exists k :: (0 <= k < |routes| && routes[k] == r.value && RouteMatches(r.value, verb, parts) &&
      forall j :: 0 <= j < k ==> !RouteMatches(routes[j], verb, parts))
    ensures r.None? <==> forall k :: 0 <= k < |routes| ==> !RouteMatches(routes[k], verb, parts)
  {
    match IndexWhere(routes, (rt: Route) => RouteMatches(rt, verb, parts))
    case None => None
    case Some(k) => Some(routes[k])
  }

  /** The route a request reaches is the first one that matches it. */
  lemma DispatchFirst(routes: seq<Route>, verb: Verb, parts: seq<string>, k: nat)
    requires k < |routes| && RouteMatches(routes[k], verb, parts)
    requires forall j :: 0 <= j < k ==> !RouteMatches(routes[j], verb, parts)
    ensures Dispatch(routes, verb, parts) == Some(routes[k])
  {
    var found := IndexWhere(routes, (rt: Route) => RouteMatches(rt, verb, parts));
    assert found.Some?;
    assert found.value == k;
  }

  const ID: Segment := Param("id")

  const ISSUE_ROUTES: seq<Route> := [
    Route(POST, [], Authenticated, IssueCreate),
    Route(GET, [], Open, IssueList),
    Route(GET, [ID], Open, IssueGet),
    Route(PATCH, [ID], Authenticated, IssuePatch),
    Route(DELETE, [ID], Authenticated, IssueDelete),
    Route(POST, [ID, Lit("upvote")], Authenticated, IssueUpvote),
    Route(POST, [ID, Lit("comments")], Authenticated, IssueComment),
    Route(DELETE, [ID, Lit("comments"), Param("commentId")], Authenticated, IssueCommentDelete)]

  const STAFF: seq<string> := ["admin", "authority"]

  const UPDATE_ROUTES: seq<Route> := [
    Route(POST, [], Roles(STAFF), UpdateCreate),
    Route(GET, [], Open, UpdateList),
    Route(GET, [Lit("search")], Open, UpdateSearch),
    Route(GET, [ID], Open, UpdateGet),
    Route(PATCH, [ID], Roles(STAFF), UpdatePatch),
    Route(DELETE, [ID], Roles(STAFF), UpdateDelete)]

  /** The user a guard lets through (None for an open route), or the error
      `auth` or `authorize` raises. */
  function Gate(g: Guard, header: Option<string>, verify: string -> Option<string>, users: seq<User>): (r: Result<Option<User>>)
    ensures g.Open? ==> r == Ok(None)
    ensures !g.Open? && Authenticate(header, verify, users).Err? ==> r == Err(Authenticate(header, verify, users).failure)
    ensures g.Authenticated? ==> (r.Ok? <==> Authenticate(header, verify, users).Ok?)
    ensures g.Roles? ==> (r.Ok? <==> Authenticate(header, verify, users).Ok? && Authenticate(header, verify, users).value.role in g.roles)
    ensures g.Roles? && Authenticate(header, verify, users).Ok? && r.Err? ==>
      r.failure == Api(Raise(ForbiddenError, Some("You are not authorized to access this resource")))
    ensures r.Ok? && !g.Open? ==> r.value == Some(Authenticate(header, verify, users).value)
  {
    match g
    case Open => Ok(None)
    case Authenticated =>
      (match Authenticate(header, verify, users)
       case Err(e) => Err(e)
       case Ok(u) => Ok(Some(u)))
    case Roles(roles) =>
      (match Authenticate(header, verify, users)
       case Err(e) => Err(e)
       case Ok(u) =>
         match Authorize(roles, Some(u))
         case Err(e) => Err(e)
         case Ok(_) => Ok(Some(u)))
  }

  // ---------------------------------------------------------------------------
  // Issue routes

  /** Listing issues and reading one are open; every other issue route needs
      a signed-in user but no particular role, so any authenticated user may
      change the status of, assign or delete any issue. */
  lemma IssueRouteGates(verb: Verb, parts: seq<string>, header: Option<string>, verify: string -> Option<string>, users: seq<User>)
    requires Dispatch(ISSUE_ROUTES, verb, parts).Some?
    ensures var r := Dispatch(ISSUE_ROUTES, verb, parts).value;
      (r.handler == IssueList || r.handler == IssueGet) <==> verb == GET
    ensures var r := Dispatch(ISSUE_ROUTES, verb, parts).value;
      verb == GET ==> Gate(r.guard, header, verify, users) == Ok(None)
    ensures var r := Dispatch(ISSUE_ROUTES, verb, parts).value;
      verb != GET ==> (Gate(r.guard, header, verify, users).Ok? <==> Authenticate(header, verify, users).Ok?)
  {
    var k :| 0 <= k < |ISSUE_ROUTES| && ISSUE_ROUTES[k] == Dispatch(ISSUE_ROUTES, verb, parts).value;
    assert ISSUE_ROUTES[k].guard == (if ISSUE_ROUTES[k].verb == GET then Open else Authenticated);
  }

  /** Which issue handler a request on the collection reaches. */
  lemma IssueCollectionDispatch()
    ensures var r := Dispatch(ISSUE_ROUTES, GET, []); r.Some? && r.value.handler == IssueList
    ensures var r := Dispatch(ISSUE_ROUTES, POST, []); r.Some? && r.value.handler == IssueCreate
  {
    DispatchFirst(ISSUE_ROUTES, POST, [], 0);
    DispatchFirst(ISSUE_ROUTES, GET, [], 1);
  }

  /** Which issue handler a request on one issue reaches. */
  lemma IssueByIdDispatch(id: string)
    requires id != ""
    ensures var r := Dispatch(ISSUE_ROUTES, GET, [id]); r.Some? && r.value.handler == IssueGet
    ensures var r := Dispatch(ISSUE_ROUTES, PATCH, [id]); r.Some? && r.value.handler == IssuePatch
    ensures var r := Dispatch(ISSUE_ROUTES, DELETE, [id]); r.Some? && r.value.handler == IssueDelete
  {
    OneIssueDispatch(id, GET, 2);
    OneIssueDispatch(id, PATCH, 3);
    OneIssueDispatch(id, DELETE, 4);
  }

  /** Routes 2 to 4 are the only ones on a single segment, one per verb. */
  lemma OneIssueDispatch(id: string, verb: Verb, k: nat)
    requires id != "" && 2 <= k <= 4 && ISSUE_ROUTES[k].verb == verb
    ensures Dispatch(ISSUE_ROUTES, verb, [id]) == Some(ISSUE_ROUTES[k])
  {
    assert forall j :: 0 <= j < 2 ==> |ISSUE_ROUTES[j].pattern| != 1;
    assert forall j :: 2 <= j < k ==> ISSUE_ROUTES[j].verb != verb;
    DispatchFirst(ISSUE_ROUTES, verb, [id], k);
  }

  /** Which issue handler the upvote and comment requests reach. */
  lemma IssueActionDispatch(id: string, commentId: string)
    requires id != "" && commentId != ""
    ensures var r := Dispatch(ISSUE_ROUTES, POST, [id, "upvote"]); r.Some? && r.value.handler == IssueUpvote
    ensures var r := Dispatch(ISSUE_ROUTES, POST, [id, "comments"]); r.Some? && r.value.handler == IssueComment
    ensures var r := Dispatch(ISSUE_ROUTES, DELETE, [id, "comments", commentId]); r.Some? && r.value.handler == IssueCommentDelete
  {
    UpvoteDispatch(id);
    CommentDispatch(id);
    CommentDeleteDispatch(id, commentId);
  }

  lemma CommentDeleteDispatch(id: string, commentId: string)
    requires id != "" && commentId != ""
    ensures var r := Dispatch(ISSUE_ROUTES, DELETE, [id, "comments", commentId]); r.Some? && r.value.handler == IssueCommentDelete
  {
    var parts := [id, "comments", commentId];
    assert forall j :: 0 <= j < 7 ==> |ISSUE_ROUTES[j].pattern| < |parts|;
    DispatchFirst(ISSUE_ROUTES, DELETE, parts, 7);
  }

  lemma UpvoteDispatch(id: string)
    requires id != ""
    ensures var r := Dispatch(ISSUE_ROUTES, POST, [id, "upvote"]); r.Some? && r.value.handler == IssueUpvote
  {
    DispatchFirst(ISSUE_ROUTES, POST, [id, "upvote"], 5);
  }

  lemma CommentDispatch(id: string)
    requires id != ""
    ensures var r := Dispatch(ISSUE_ROUTES, POST, [id, "comments"]); r.Some? && r.value.handler == IssueComment
  {
    assert !RouteMatches(ISSUE_ROUTES[5], POST, [id, "comments"]) by {
      assert !SegmentMatches(ISSUE_ROUTES[5].pattern[1], [id, "comments"][1]);
    }
    DispatchFirst(ISSUE_ROUTES, POST, [id, "comments"], 6);
  }

  /** The body fields the PATCH validators look at. */
  datatype IssuePatchBody = IssuePatchBody(status: Option<string>, assignedTo: Option<string>, comment: Option<string>)

  /** `isIn(values)` on a string. */
  predicate IsIn(s: string, values: seq<string>) {
    s in values
  }

  /** The PATCH validator chain, field by field in declaration order; each
      field is optional (skipped only when absent) and yields at most one
      message. */
  function IssuePatchErrors(b: IssuePatchBody): (errors: seq<string>)
    ensures errors == [] <==>
      && (b.status.Some? ==> b.status.value in IssueModel.STATUSES)
      && (b.assignedTo.Some? ==> Query.IsObjectId(b.assignedTo.value))
      && (b.comment.Some? ==> Trim(b.comment.value) != "")
    ensures b.status.Some? && b.status.value !in IssueModel.STATUSES ==> errors[0] == "Invalid status"
    ensures |errors| <= 3
  {
    (if b.status.Some? && !IsIn(b.status.value, IssueModel.STATUSES) then ["Invalid status"] else [])
    + (if b.assignedTo.Some? && !Query.IsObjectId(b.assignedTo.value) then ["Invalid user ID"] else [])
    + (if b.comment.Some? && Trim(b.comment.value) == "" then ["Comment cannot be empty"] else [])
  }

  /** `validate`: the messages joined by ", " in a BadRequestError. */
  function Validate<T>(errors: seq<string>, sanitized: T): (r: Result<T>)
    ensures r.Ok? <==> errors == []
    ensures r.Ok? ==> r.value == sanitized
    ensures r.Err? ==> r.failure == BadRequest(JoinWith(errors, ", ")) && HandleError(r.failure).status == 400
  {
    if errors == [] then Ok(sanitized) else Err(BadRequest(JoinWith(errors, ", ")))
  }

  /** The update the handler receives: the `trim()` sanitizer has replaced
      the comment by its trimmed text. */
  function SanitizedIssuePatch(b: IssuePatchBody): (u: IssuesService.IssueUpdate)
    ensures u.status == b.status && u.assignedTo == b.assignedTo
    ensures u.comment.Some? <==> b.comment.Some?
    ensures b.comment.Some? ==> u.comment.value == Trim(b.comment.value)
  {
    IssuesService.IssueUpdate(b.status, b.assignedTo, if b.comment.Some? then Some(Trim(b.comment.value)) else None)
  }

  /** PATCH /:id up to the handler: `auth` runs before the validators, so a
      request without a valid token is refused whatever its body. */
  function IssuePatchPipeline(header: Option<string>, verify: string -> Option<string>, users: seq<User>, body: IssuePatchBody)
    : (r: Result<(User, IssuesService.IssueUpdate)>)
    ensures Authenticate(header, verify, users).Err? ==> r == Err(Authenticate(header, verify, users).failure)
    ensures Authenticate(header, verify, users).Ok? ==> (r.Ok? <==> IssuePatchErrors(body) == [])
    ensures Authenticate(header, verify, users).Ok? && r.Err? ==> r.failure == BadRequest(JoinWith(IssuePatchErrors(body), ", "))
    ensures r.Ok? ==> r.value == (Authenticate(header, verify, users).value, SanitizedIssuePatch(body))
  {
    match Gate(Authenticated, header, verify, users)
    case Err(e) => Err(e)
    case Ok(u) =>
      match Validate(IssuePatchErrors(body), SanitizedIssuePatch(body))
      case Err(e) => Err(e)
      case Ok(update) => Ok((u.value, update))
  }

  /** A PATCH that passes the validators can no longer fail the save's
      validation: the status is one of the five, the assignee an ObjectId,
      and the comment is attributed to the authenticated caller. */
  lemma ValidatedIssuePatchSaves(i: IssueModel.Issue, header: Option<string>, verify: string -> Option<string>, users: seq<User>,
                                 body: IssuePatchBody, commentId: string, now: int)
    requires IssueModel.ValidIssue(i)
    requires IssuePatchPipeline(header, verify, users, body).Ok?
    ensures var (caller, update) := IssuePatchPipeline(header, verify, users, body).value;
      IssueModel.ValidIssue(IssuesService.ApplyIssueUpdate(i, update, Some(caller.id), commentId, now))
  {
    var (caller, update) := IssuePatchPipeline(header, verify, users, body).value;
    IssuesService.UpdateValidation(i, update, Some(caller.id), commentId, now);
  }

  // ---------------------------------------------------------------------------
  // Civic-update routes

  /** `/search` is registered before `/:id`, so a GET of `search` never
      reaches the by-id handler; any other single segment does. */
  lemma SearchBeforeId(id: string)
    requires id != "" && id != "search"
    ensures var r := Dispatch(UPDATE_ROUTES, GET, ["search"]); r.Some? && r.value.handler == UpdateSearch
    ensures var r := Dispatch(UPDATE_ROUTES, GET, [id]); r.Some? && r.value.handler == UpdateGet
    ensures var r := Dispatch(UPDATE_ROUTES, GET, []); r.Some? && r.value.handler == UpdateList
  {
    DispatchFirst(UPDATE_ROUTES, GET, ["search"], 2);
    assert !SegmentMatches(UPDATE_ROUTES[2].pattern[0], [id][0]);
    DispatchFirst(UPDATE_ROUTES, GET, [id], 3);
    DispatchFirst(UPDATE_ROUTES, GET, [], 1);
  }

  /** Reading civic updates is open; creating, changing and deleting them
      needs a signed-in admin or authority. */
  lemma UpdateRouteGates(verb: Verb, parts: seq<string>, header: Option<string>, verify: string -> Option<string>, users: seq<User>)
    requires Dispatch(UPDATE_ROUTES, verb, parts).Some?
    ensures var r := Dispatch(UPDATE_ROUTES, verb, parts).value;
      verb == GET ==> Gate(r.guard, header, verify, users) == Ok(None)
    ensures var r := Dispatch(UPDATE_ROUTES, verb, parts).value;
      verb != GET ==> (Gate(r.guard, header, verify, users).Ok? <==>
        Authenticate(header, verify, users).Ok? && Authenticate(header, verify, users).value.role in STAFF)
  {
    var k :| 0 <= k < |UPDATE_ROUTES| && UPDATE_ROUTES[k] == Dispatch(UPDATE_ROUTES, verb, parts).value;
    assert UPDATE_ROUTES[k].guard == (if UPDATE_ROUTES[k].verb == GET then Open else Roles(STAFF));
  }

  /** The messages of the per-area `affectedAreas.*.state` chain, one per
      area whose state is missing or blank. */
  function AreaStateErrors(areas: seq<CivicUpdateModel.AreaInput>): (errors: seq<string>)
    ensures errors == [] <==> forall k :: 0 <= k < |areas| ==> areas[k].state.Some? && Trim(areas[k].state.value) != ""
    ensures |errors| <= |areas|
  {
    if areas == [] then []
    else
      var rest := AreaStateErrors(areas[1..]);
      assert forall k :: 1 <= k < |areas| ==> areas[k] == areas[1..][k - 1];
      (if areas[0].state.None? || Trim(areas[0].state.value) == "" then ["State is required"] else [])
      + rest
  }

  /** The POST validator chain over the request body, in declaration order.
      None of the fields is optional: a missing one fails its check.
      `isISO8601` is a parameter. */
  function UpdateCreateErrors(b: CivicUpdateModel.CivicUpdateInput, isIso: string -> bool): (errors: seq<string>)
    ensures errors == [] <==>
      && b.kind.Some? && b.kind.value in CivicUpdateModel.TYPES
      && b.title.Some? && Trim(b.title.value) != ""
      && b.description.Some? && Trim(b.description.value) != ""
      && b.affectedAreas.Some? && |b.affectedAreas.value| >= 1
      && (forall k :: 0 <= k < |b.affectedAreas.value| ==>
            b.affectedAreas.value[k].state.Some? && Trim(b.affectedAreas.value[k].state.value) != "")
      && b.startDate.Some? && isIso(b.startDate.value)
      && b.status.Some? && b.status.value in CivicUpdateModel.STATUSES
      && b.source.Some? && b.source.value in CivicUpdateModel.SOURCES
  {
    (if b.kind.None? || !IsIn(b.kind.value, CivicUpdateModel.TYPES) then ["Invalid update type"] else [])
    + (if b.title.None? || Trim(b.title.value) == "" then ["Title is required"] else [])
    + (if b.description.None? || Trim(b.description.value) == "" then ["Description is required"] else [])
    + (if b.affectedAreas.None? || |b.affectedAreas.value| < 1 then ["At least one affected area is required"] else [])
    + (if b.affectedAreas.Some? then AreaStateErrors(b.affectedAreas.value) else [])
    + (if b.startDate.None? || !isIso(b.startDate.value) then ["Valid start date is required"] else [])
    + (if b.status.None? || !IsIn(b.status.value, CivicUpdateModel.STATUSES) then ["Invalid status"] else [])
    + (if b.source.None? || !IsIn(b.source.value, CivicUpdateModel.SOURCES) then ["Invalid source"] else [])
  }

  function TrimmedArea(a: CivicUpdateModel.AreaInput): CivicUpdateModel.AreaInput {
    a.(state := if a.state.Some? then Some(Trim(a.state.value)) else None)
  }

  /** The body after the `trim()` sanitizers: title, description and every
      area's state. */
  function SanitizedCreate(b: CivicUpdateModel.CivicUpdateInput): (s: CivicUpdateModel.CivicUpdateInput)
    ensures s.title == (if b.title.Some? then Some(Trim(b.title.value)) else None)
    ensures s.description == (if b.description.Some? then Some(Trim(b.description.value)) else None)
    ensures s.affectedAreas.Some? <==> b.affectedAreas.Some?
    ensures b.affectedAreas.Some? ==> (|s.affectedAreas.value| == |b.affectedAreas.value| &&
      forall k :: 0 <= k < |b.affectedAreas.value| ==> s.affectedAreas.value[k] == TrimmedArea(b.affectedAreas.value[k]))
    ensures s == b.(title := s.title, description := s.description, affectedAreas := s.affectedAreas)
  {
    b.(title := if b.title.Some? then Some(Trim(b.title.value)) else None,
       description := if b.description.Some? then Some(Trim(b.description.value)) else None,
       affectedAreas := if b.affectedAreas.Some? then Some(Map(b.affectedAreas.value, TrimmedArea)) else None)
  }

  /** POST / up to the handler: `auth`, then `authorize('admin', 'authority')`,
      then the validators. */
  function UpdateCreatePipeline(header: Option<string>, verify: string -> Option<string>, users: seq<User>,
                                body: CivicUpdateModel.CivicUpdateInput, isIso: string -> bool)
    : (r: Result<CivicUpdateModel.CivicUpdateInput>)
    ensures Gate(Roles(STAFF), header, verify, users).Err? ==> r == Err(Gate(Roles(STAFF), header, verify, users).failure)
    ensures Gate(Roles(STAFF), header, verify, users).Ok? ==> (r.Ok? <==> UpdateCreateErrors(body, isIso) == [])
    ensures Gate(Roles(STAFF), header, verify, users).Ok? && r.Err? ==>
      r.failure == BadRequest(JoinWith(UpdateCreateErrors(body, isIso), ", "))
    ensures r.Ok? ==> r.value == SanitizedCreate(body)
  {
    match Gate(Roles(STAFF), header, verify, users)
    case Err(e) => Err(e)
    case Ok(_) => Validate(UpdateCreateErrors(body, isIso), SanitizedCreate(body))
  }

  /** A create that passes the route reaches the schema with the enums,
      title, description and area states already acceptable; what the
      validators leave to the schema is the severity, the end date, and
      whether the start date casts. */
  lemma ValidatedCreateSaves(header: Option<string>, verify: string -> Option<string>, users: seq<User>,
                             body: CivicUpdateModel.CivicUpdateInput, isIso: string -> bool,
                             id: string, toDate: string -> Option<int>, now: int)
    requires Query.IsObjectId(id)
    requires UpdateCreatePipeline(header, verify, users, body, isIso).Ok?
    ensures var s := UpdateCreatePipeline(header, verify, users, body, isIso).value;
      CivicUpdateModel.NewCivicUpdate(id, s, toDate, now).Ok? <==>
        && toDate(s.startDate.value).Some?
        && CivicUpdateModel.OptionalDate(s.endDate, toDate).Ok?
        && CivicUpdateModel.ValidSeverity(s.severity)
  {
    SanitizedSchemaFields(body, isIso);
  }

  /** A body the validators accept, once sanitized, meets every schema rule
      the validators cover. */
  lemma SanitizedSchemaFields(body: CivicUpdateModel.CivicUpdateInput, isIso: string -> bool)
    requires UpdateCreateErrors(body, isIso) == []
    ensures var s := SanitizedCreate(body);
      && s.kind.Some? && CivicUpdateModel.ValidKind(s.kind.value)
      && s.title.Some? && CivicUpdateModel.ValidText(Trim(s.title.value))
      && s.description.Some? && CivicUpdateModel.ValidText(Trim(s.description.value))
      && s.affectedAreas.Some? && CivicUpdateModel.ValidAreas(CivicUpdateModel.AreasOf(s.affectedAreas.value))
      && s.startDate.Some? && s.status.Some? && CivicUpdateModel.ValidStatus(s.status.value)
      && s.source.Some? && CivicUpdateModel.ValidSource(s.source.value)
  {
    var s := SanitizedCreate(body);
    TrimTwice(body.title.value);
    TrimTwice(body.description.value);
    var areas := CivicUpdateModel.AreasOf(s.affectedAreas.value);
    forall k | 0 <= k < |areas|
      ensures CivicUpdateModel.ValidArea(areas[k])
    {
      assert s.affectedAreas.value[k] == TrimmedArea(body.affectedAreas.value[k]);
    }
  }

  /** The PATCH validator chain: only title, description, status, end date
      and severity are looked at, each only when present. */
  function UpdatePatchErrors(p: CivicUpdateModel.CivicUpdatePatch, isIso: string -> bool): (errors: seq<string>)
    ensures errors == [] <==>
      && (p.title.Some? ==> Trim(p.title.value) != "")
      && (p.description.Some? ==> Trim(p.description.value) != "")
      && (p.status.Some? ==> p.status.value in CivicUpdateModel.STATUSES)
      && (p.endDate.Some? ==> isIso(p.endDate.value))
      && (p.severity.Some? ==> p.severity.value in CivicUpdateModel.SEVERITIES)
  {
    (if p.title.Some? && Trim(p.title.value) == "" then ["Title cannot be empty"] else [])
    + (if p.description.Some? && Trim(p.description.value) == "" then ["Description cannot be empty"] else [])
    + (if p.status.Some? && !IsIn(p.status.value, CivicUpdateModel.STATUSES) then ["Invalid status"] else [])
    + (if p.endDate.Some? && !isIso(p.endDate.value) then ["Valid end date is required"] else [])
    + (if p.severity.Some? && !IsIn(p.severity.value, CivicUpdateModel.SEVERITIES) then ["Invalid severity"] else [])
  }

  /** The PATCH chain does not look at the type, the areas, the start date,
      the source, the contact or the links: changing them never changes the
      verdict. */
  lemma UpdatePatchUnchecked(p: CivicUpdateModel.CivicUpdatePatch, q: CivicUpdateModel.CivicUpdatePatch, isIso: string -> bool)
    requires p.title == q.title && p.description == q.description && p.status == q.status
    requires p.endDate == q.endDate && p.severity == q.severity
    ensures UpdatePatchErrors(p, isIso) == UpdatePatchErrors(q, isIso)
  {
  }

  function SanitizedPatch(p: CivicUpdateModel.CivicUpdatePatch): (s: CivicUpdateModel.CivicUpdatePatch)
    ensures s.title == (if p.title.Some? then Some(Trim(p.title.value)) else None)
    ensures s.description == (if p.description.Some? then Some(Trim(p.description.value)) else None)
    ensures s == p.(title := s.title, description := s.description)
  {
    p.(title := if p.title.Some? then Some(Trim(p.title.value)) else None,
       description := if p.description.Some? then Some(Trim(p.description.value)) else None)
  }

  /** PATCH /:id up to the handler: role gate, then the optional validators. */
  function UpdatePatchPipeline(header: Option<string>, verify: string -> Option<string>, users: seq<User>,
                               body: CivicUpdateModel.CivicUpdatePatch, isIso: string -> bool)
    : (r: Result<CivicUpdateModel.CivicUpdatePatch>)
    ensures Gate(Roles(STAFF), header, verify, users).Err? ==> r == Err(Gate(Roles(STAFF), header, verify, users).failure)
    ensures Gate(Roles(STAFF), header, verify, users).Ok? ==> (r.Ok? <==> UpdatePatchErrors(body, isIso) == [])
    ensures Gate(Roles(STAFF), header, verify, users).Ok? && r.Err? ==>
      r.failure == BadRequest(JoinWith(UpdatePatchErrors(body, isIso), ", "))
    ensures r.Ok? ==> r.value == SanitizedPatch(body)
  {
    match Gate(Roles(STAFF), header, verify, users)
    case Err(e) => Err(e)
    case Ok(_) => Validate(UpdatePatchErrors(body, isIso), SanitizedPatch(body))
  }
}

=== FILE: store.dfy ===
/** The MongoDB collections the core reads and writes, held in memory in
    stored (natural) order. */
module Db {
  import opened Common
  import opened ApiErrors
  import opened Query
  import opened Users
  import opened IssueModel
  import opened CivicUpdateModel
  import opened ContactModel

  /** The ObjectId value of a record's `_id`: Mongo matches and indexes ids
      by value, so ids that differ only in letter case are one id. */
  function IssueId(i: Issue): string { CastId(i.id) }
  function UpdateId(u: CivicUpdate): string { CastId(u.id) }
  function ContactId(c: Contact): string { CastId(c.id) }
  function UserId(u: User): string { CastId(u.id) }

  /** No two records share an `_id` (by value, when `idOf` casts). */
  predicate UniqueIds<T>(s: seq<T>, idOf: T -> string) {
    forall i, j :: 0 <= i < j < |s| ==> idOf(s[i]) != idOf(s[j])
  }

  /** `_id` of no stored record. */
  predicate FreshId<T>(s: seq<T>, idOf: T -> string, id: string) {
    forall k :: 0 <= k < |s| ==> idOf(s[k]) != id
  }

  /** Position of the record with the given `_id`. */
  function IndexOfId<T>(s: seq<T>, idOf: T -> string, id: string): (r: Option<nat>)
    ensures r.Some? ==> r.value < |s| && idOf(s[r.value]) == id
    ensures r.None? <==> FreshId(s, idOf, id)
  {
    if s == [] then None
    else if idOf(s[0]) == id then Some(0)
    else match IndexOfId(s[1..], idOf, id)
      case None => None
      case Some(k) => Some(k + 1)
  }

  /** `findById(id)` / `findByIdAndUpdate(id, ...)` / `findByIdAndDelete(id)`
      locating their target: an id that is not an ObjectId makes Mongoose
      throw a cast error; otherwise the id is cast and looked up by value,
      and an unknown id finds nothing. */
  function Locate<T>(s: seq<T>, idOf: T -> string, id: string, notFound: string): (r: Result<nat>)
    ensures r.Ok? ==> r.value < |s| && idOf(s[r.value]) == CastId(id)
    ensures r.Ok? <==> IsObjectId(id) && !FreshId(s, idOf, CastId(id))
    ensures IsObjectId(id) && FreshId(s, idOf, CastId(id)) ==> r == Err(NotFound(notFound))
    ensures !IsObjectId(id) ==> r.Err? && r.failure.Crash?
  {
    if !IsObjectId(id) then Err(Crash("Cast to ObjectId failed for value \"" + id + "\""))
    else match IndexOfId(s, idOf, CastId(id))
      case None => Err(NotFound(notFound))
      case Some(k) => Ok(k)
  }

  /** Removing one record keeps the others in order and their ids distinct. */
  lemma RemoveKeepsUnique<T>(s: seq<T>, idOf: T -> string, k: nat)
    requires UniqueIds(s, idOf) && k < |s|
    ensures UniqueIds(RemoveAt(s, k), idOf)
    ensures FreshId(RemoveAt(s, k), idOf, idOf(s[k]))
  {
    var r := RemoveAt(s, k);
    forall i, j | 0 <= i < j < |r|
      ensures idOf(r[i]) != idOf(r[j])
    {
      var i' := if i < k then i else i + 1;
      var j' := if j < k then j else j + 1;
      assert r[i] == s[i'] && r[j] == s[j'];
    }
  }

  /** Replacing one record by one with the same id keeps ids distinct. */
  lemma ReplaceKeepsUnique<T>(s: seq<T>, idOf: T -> string, k: nat, x: T)
    requires UniqueIds(s, idOf) && k < |s| && idOf(x) == idOf(s[k])
    ensures UniqueIds(s[k := x], idOf)
  {
  }

  /** The issue collection as the store keeps it: distinct ids, every issue
      valid. */
  predicate IssuesOk(s: seq<Issue>) {
    UniqueIds(s, IssueId) && forall k :: 0 <= k < |s| ==> ValidIssue(s[k])
  }

  /** The civic update collection as the store keeps it. */
  predicate UpdatesOk(s: seq<CivicUpdate>) {
    UniqueIds(s, UpdateId) && forall k :: 0 <= k < |s| ==> ValidCivicUpdate(s[k])
  }

  lemma IssueAppended(s: seq<Issue>, x: Issue)
    requires IssuesOk(s) && FreshId(s, IssueId, IssueId(x)) && ValidIssue(x)
    ensures IssuesOk(s + [x])
  {
  }

  lemma IssueReplaced(s: seq<Issue>, k: nat, x: Issue)
    requires IssuesOk(s) && k < |s| && x.id == s[k].id && ValidIssue(x)
    ensures IssuesOk(s[k := x])
  {
    ReplaceKeepsUnique(s, IssueId, k, x);
  }

  lemma IssueRemoved(s: seq<Issue>, k: nat)
    requires IssuesOk(s) && k < |s|
    ensures IssuesOk(RemoveAt(s, k)) && FreshId(RemoveAt(s, k), IssueId, IssueId(s[k]))
  {
    RemoveKeepsUnique(s, IssueId, k);
  }

  lemma UpdateAppended(s: seq<CivicUpdate>, x: CivicUpdate)
    requires UpdatesOk(s) && FreshId(s, UpdateId, UpdateId(x)) && ValidCivicUpdate(x)
    ensures UpdatesOk(s + [x])
  {
  }

  lemma UpdateReplaced(s: seq<CivicUpdate>, k: nat, x: CivicUpdate)
    requires UpdatesOk(s) && k < |s| && x.id == s[k].id && ValidCivicUpdate(x)
    ensures UpdatesOk(s[k := x])
  {
    ReplaceKeepsUnique(s, UpdateId, k, x);
  }

  lemma UpdateRemoved(s: seq<CivicUpdate>, k: nat)
    requires UpdatesOk(s) && k < |s|
    ensures UpdatesOk(RemoveAt(s, k)) && FreshId(RemoveAt(s, k), UpdateId, UpdateId(s[k]))
  {
    RemoveKeepsUnique(s, UpdateId, k);
  }

  class Store {
    var issues: seq<Issue>
    var updates: seq<CivicUpdate>
    var contacts: seq<Contact>
    var users: seq<User>

    /** Ids are unique in every collection, and every issue and civic update
        stored satisfies its schema (every write to them is validated). */
    predicate Valid()
      reads this
    {
      IssuesOk(issues) && UpdatesOk(updates) && UniqueIds(contacts, ContactId) && UniqueIds(users, UserId)
    }

    constructor (users: seq<User>)
      requires UniqueIds(users, UserId)
      ensures Valid()
      ensures issues == [] && updates == [] && contacts == [] && this.users == users
    {
      issues := [];
      updates := [];
      contacts := [];
      this.users := users;
    }
  }
}

=== FILE: users.dfy ===
/** The part of a user record the core reads: its id, display name, role and
    reputation points (models/users.model.ts). */
module Users {
  /** The roles a user may have; new users are `user`. */
  const ROLES: seq<string> := ["user", "admin", "authority"]
  const DEFAULT_ROLE: string := "user"

  /** Points awarded to the reporter of a new issue. */
  const REPORT_POINTS: int := 10

  datatype User = User(id: string, name: string, role: string, points: int)
}
